=== FILE: README.md ===
# rampage, modelled in Dafny

rampage builds the waveforms ("ramps") of a cold-atom experiment. A ramp is a
document with three parts:

- a **keyframe list**, a dictionary of named time points, each relative to an
  optional parent keyframe;
- a set of **channels**, each an analog or digital hardware line whose value is
  given by segments attached to some of the keyframes;
- a dictionary of **properties**.

A Qt editor changes these documents. A queuer builds scans of them and sends
them to a server. The server checks each document, rasterises every channel
onto a time grid, packs the digital lines into 32-bit words, and runs the
result on National Instruments DAQ cards. Small request/reply servers drive
the other instruments: a DDS comb, a SynthHD microwave source, a Newport
ESP300 stage and GPIB instruments.

This project models that core in Dafny and proves what each piece promises.
There is one module per source file, plus three helper modules:

| module | file | models |
|---|---|---|
| `KeyFrames` | keyframes.dfy | the keyframe graph as a value: the parent forest, absolute time, ancestry, and the graph edits as functions, with their effect on every absolute time |
| `KeyFrameLists` | keyframe_list.dfy | `KeyFrameList` as a class: its fields are the dictionary and the baked flag, the `__abs_time__` cache sits in each record, and every edit is a method |
| `Ramps` | ramps.dfy | `Channel`, `generate_ramp` and the analog/digital ramp functions and type tables |
| `Server` | server.dfy | the channel ids, channel selection, digital word packing, the trigger line and `check_ramp_for_errors` |
| `ServerLoop` | server_loop.dfy | the `DaqThread` run loop as a step function plus a class, and the `BECServer` queue requests |
| `Queuer` | queuer.dfy | `flatten_dict`, `set_dict_item`, the 2D scan table and the `RampQueuer` queue |
| `KeyFrameWidgets` | keyframe_widgets.dfy | the parent-arrow layout, the arrow list and the keyframe edit handlers |
| `ChannelWidgets` | channel_widgets.dfy | the segment rules of the channel editor |
| `RampEditors` | ramp_editor.dfy | channel ordering, the channel rename and the properties edit |
| `Daq` | daq.dfy | data padding, line bits, the pulse train, trigger merging and the callback counter |
| `Dds`, `SynthHd`, `Esp300`, `Gpib` | dds.dfy, synth_hd.dfy, esp300.dfy, gpib.dfy | the instrument request handlers and command builders |
| `Requests` | requests.dfy | the request dispatch table and the generated client calls |
| `Json`, `Text`, `Sorting` | json.dfy, text.dfy, sorting.dfy | JSON values with Python's comparisons, strings (order, split/join, decimal numbers) and insertion by key |

Some Python behaviour is written out explicitly:

- **Python values.** A JSON value is the `Json.Value` datatype. `PyEq` is
  Python's `==`, under which `True == 1 == 1.0`. `type(v) == int` excludes
  `bool`. `int()` truncates toward zero (`Json.Trunc`), and truthiness is
  `Json.Truthy`.
- **Numbers.** Time is real-valued. A sample index is the floor of time over
  `time_div`. Digital words are unbounded naturals; where the source adds into
  a `uint32` array the wrap-around is written out (`Daq.Wrap`).
- **What is left injected.** How Python prints a float (`show`), `exp`,
  `sin` and `pi` (`Numerics`) are parameters. Their definitions are not part
  of this model.
- **Side effects.** Commands written to an instrument, and actions the server
  thread takes (making ramps, uploading, logging), are lists returned next to
  the reply or state.

## Model

| member | source | states |
|---|---|---|
| KeyFrames.WellFormedParentsKnown | ramps.py:19-28 | a well-formed graph (every key reaches a root) has no parent name that is not a key, so the constructor's KeyError check passes |
| KeyFrames.AncestorIsReached | rampage/ramps.py:147-162 | if `is_ancestor(c, a)` holds, a finite number of parent steps from c reaches a |
| KeyFrames.ReachedIsAncestor | rampage/ramps.py:147-162 | conversely, any key reached from c by parent steps (c itself included) makes `is_ancestor(c, a)` true |
| KeyFrames.IsAncestorIffReached | ramps.py:117-132 | `is_ancestor(c, a)` holds exactly when a is reached from c by following parent links |
| KeyFrames.AncestorHeight | rampage/ramps.py:147-162 | an ancestor of a rooted key is rooted and no farther from its root than the key |
| KeyFrames.ParentBeforeChild | rampage/ramps.py:90-97 | in a sorted key list, a keyframe with a positive relative time comes after its parent |
| KeyFrames.Uncached | rampage/ramps.py:64-68 | unbaking keeps every key and drops exactly the `__abs_time__` entry of each record |
| KeyFrames.ExtendsKeepsAbsTime | rampage/ramps.py:70-88 | adding cache entries or keys without changing any time or parent link leaves every absolute time as it was |
| KeyFrames.SameUncachedAbsTime | rampage/ramps.py:70-88 | two dictionaries that differ only in their caches are both well-formed and give every key the same absolute time |
| KeyFrames.CacheStore | rampage/ramps.py:83-87 | storing a key's correct absolute time in its cache keeps the graph well-formed, the cache sound and every absolute time unchanged |
| KeyFrames.UncachedSound | rampage/ramps.py:54-62 | a dictionary with no cached times has a sound cache, so baking can start from it |
| KeyFrames.CachedTimeSound | rampage/ramps.py:70-88 | where every cached time is right, the answer that trusts the caches is the true absolute time |
| KeyFrames.FillsKeepCachedTime | rampage/ramps.py:70-88 | filling caches with the answers of `get_absolute_time` leaves its later answers as they were |
| KeyFrames.FillsTransitive | rampage/ramps.py:54-62 | two rounds of cache filling are one: the caches of the second round still hold the answers on the original dictionary |
| KeyFrames.FillsSound | rampage/ramps.py:54-62 | filling right caches with their own answers keeps the graph well-formed and every cache right |
| KeyFrames.StaleCacheTrusted | rampage/ramps.py:77-79 | a root keyframe at time 2 whose cache says 1 is answered with 1, though its absolute time is 2 |
| KeyFrames.CacheSortedIsSorted | rampage/ramps.py:90-97 | where every cached time is right, a list ordered by the cached times is exactly a list ordered by absolute time, and conversely |
| KeyFrames.FillsKeepCacheSorted | rampage/ramps.py:90-97 | filling caches with `get_absolute_time` answers keeps a list in order of the answers, and conversely |
| KeyFrames.Renamed | rampage/ramps.py:118-126 | the renamed dictionary's keys are the old keys with the old name replaced by the new one |
| KeyFrames.RenameKeepsTimes | ramps.py:88-96 | after a rename, every keyframe (the renamed one under its new name) has the absolute time it had before |
| KeyFrames.RenameKeepsWellFormed | rampage/ramps.py:118-126 | renaming to a fresh name keeps every key rooted: no parent reference dangles |
| KeyFrames.Deleted | rampage/ramps.py:133-145 | deleting a keyframe removes exactly that key |
| KeyFrames.DeleteShifts | ramps.py:103-115 | after a delete, the deleted key's descendants move earlier by its relative time, and every other keyframe keeps its absolute time |
| KeyFrames.DeleteKeepsWellFormed | rampage/ramps.py:133-145 | re-parenting the children to the deleted key's parent leaves every remaining key rooted |
| KeyFrames.ReparentOutside | rampage/ramps.py:111-116 | changing k's parent leaves rooted, with their absolute times, all keys that do not descend from k |
| KeyFrames.ReparentInside | rampage/ramps.py:111-116 | keys that descend from k stay rooted when the new parent is not a descendant of k |
| KeyFrames.ReparentKeepsWellFormed | rampage/ramps.py:111-116 | `set_parent` to None, or to a key that does not descend from k, keeps the graph well-formed |
| KeyFrames.RetimeShifts | rampage/ramps.py:99-104 | `set_time(k, t)` shifts exactly k and its descendants by t minus k's old time; the rest keep their absolute times |
| KeyFrames.RetimeKeepsWellFormed | rampage/ramps.py:99-104 | changing a time never breaks the graph |
| KeyFrames.AddKeepsTimes | rampage/ramps.py:128-131 | adding a keyframe under a known parent (or none) keeps the graph well-formed and every old absolute time; the new one is its time plus its parent's |
| KeyFrameLists.WithHook | rampage/ramps.py:164-169 | `add_hook` adds the hook name to the keyframe's hooks, stores the hook under it, and changes nothing else in the record |
| KeyFrameLists.WithoutHook | rampage/ramps.py:171-176 | `remove_hook` drops exactly that hook name and returns the hook when it was present, None otherwise; the rest of the record is kept |
| KeyFrameLists.RemoveAddedHook | rampage/ramps.py:164-176 | removing a hook just added returns that hook and leaves the other hook names |
| KeyFrameLists.KeyFrameList.Init | rampage/ramps.py:50-52 | the constructor as written bakes the given dictionary without unbaking it: the list is baked, every key is cached with the answer `get_absolute_time` gives on the given dictionary (trusting its caches), nothing but caches changes, and the list is valid when the given caches were right |
| KeyFrameLists.KeyFrameList.Clean | rampage/ramps.py:34-52 | the corrected constructor drops stale caches before baking: the list is valid and baked, every key caches its true absolute time, and nothing but caches changes |
| KeyFrameLists.KeyFrameList.Create | rampage/ramps.py:35-52 | construction fails with KeyError exactly when some keyframe names a parent that is not a key, and it reports that keyframe and parent; otherwise the list is built as `Init` builds it: baked, each key cached with the answer on the given dictionary, valid when the given caches were right |
| KeyFrameLists.KeyFrameList.GetAbsoluteTime | rampage/ramps.py:70-88 | the result is the cached time when there is one, otherwise the key's time plus its parent's answer; it is now cached; only caches are filled, with those answers; on a valid list the answer is the true absolute time and the list stays valid |
| KeyFrameLists.KeyFrameList.Bake | rampage/ramps.py:54-62 | after baking every key is cached with the answer `get_absolute_time` gave on the dictionary before baking, nothing but caches changed, and from right caches the list ends valid |
| KeyFrameLists.KeyFrameList.Unbake | rampage/ramps.py:64-68 | after unbaking, no record has a cached time, nothing else changed, and the list is not baked |
| KeyFrameLists.KeyFrameList.SortedKeyList | rampage/ramps.py:90-97 | on any well-formed list, stale caches included, the result lists every key exactly once in non-decreasing cached time; the list is left baked and only caches are filled; when every cache was right the order is by absolute time and the list stays valid |
| KeyFrameLists.SortByCache | rampage/ramps.py:94-96 | sorting by `__abs_time__` lists every key once, in non-decreasing cached time |
| KeyFrameLists.KeyFrameList.SetTime | rampage/ramps.py:99-104 | only k's relative time changes, and the list is re-baked with correct times |
| KeyFrameLists.KeyFrameList.SetComment | rampage/ramps.py:106-109 | only k's comment changes; the cache and the baked flag stay valid |
| KeyFrameLists.KeyFrameList.SetParent | rampage/ramps.py:111-116 | only k's parent changes, and the list is re-baked with correct times |
| KeyFrameLists.KeyFrameList.SetName | rampage/ramps.py:118-126 | with equal names nothing changes; otherwise the record moves to the new name, every parent reference to the old name now names the new one, and the list is re-baked |
| KeyFrameLists.KeyFrameList.AddKeyframe | rampage/ramps.py:128-131 | the new record is stored under its name, and the list is re-baked with correct times |
| KeyFrameLists.KeyFrameList.DelKeyframe | rampage/ramps.py:133-145 | the key is removed, each former child takes the deleted key's parent, all else stays, and the list is re-baked |
| KeyFrameLists.KeyFrameList.AddHook | rampage/ramps.py:164-169 | only k's hooks change, as `WithHook` says |
| KeyFrameLists.KeyFrameList.RemoveHook | rampage/ramps.py:171-176 | only k's hooks change, and the hook returned is the one removed, as `WithoutHook` says |
| KeyFrameLists.SameLinksValid | rampage/ramps.py:106-109 | an edit that keeps every time, parent and cache keeps the list valid (and baked if it was) |
| KeyFrameLists.DeletedByLoop | rampage/ramps.py:139-144 | re-parenting the listed children and then popping the key is the deletion `KeyFrames.Deleted` |
| KeyFrameLists.RenamedByLoop | rampage/ramps.py:121-125 | moving the record, then rewriting parent references key by key, gives the renaming `KeyFrames.Renamed` |
| KeyFrameLists.Relinked | rampage/ramps.py:121-125 | rewriting parent references keeps the set of keys |
| KeyFrameLists.RelinkedStep | rampage/ramps.py:123-125 | one turn of the rewriting loop changes only the current key, and only when its parent is the old name |
| KeyFrameLists.UncachedIsClean | rampage/ramps.py:64-68 | a dictionary with no cached times is already unbaked and has a sound cache |
| Ramps.RampFunctionsReadListedParameters | rampage/ramps.py:388-408 | every ramp function reads only parameters that its type's table lists |
| Ramps.Frac | rampage/ramps.py:384 | Python's `% 1.0` gives a value in [0, 1) |
| Ramps.PulseTrainAt | rampage/ramps.py:379-385 | a pulse train sample is 0, or the segment's state as 0/1 |
| Ramps.PulseTrainDuty | rampage/ramps.py:379-385 | a duty cycle of at least 1 gives the state everywhere, and a duty cycle of at most 0 gives 0 everywhere |
| Ramps.DigitalAt | rampage/ramps.py:374-385 | every digital ramp function gives only 0 or 1 |
| Ramps.LinearEndpoints | rampage/ramps.py:309-313 | the linear ramp is `value` at its start time and the next keyframe's value at its end time |
| Ramps.LinearBetween | rampage/ramps.py:309-313 | between its keyframes, the linear ramp stays between its two end values |
| Ramps.QuadraticEndpoints | rampage/ramps.py:316-324 | the quadratic ramp meets both end values, whatever its slope |
| Ramps.Quadratic2Endpoints | rampage/ramps.py:327-335 | the quadratic2 ramp meets both end values, whatever its curvature |
| Ramps.ExpEndpoints | rampage/ramps.py:338-350 | the exponential ramp meets both end values, given any `exp` with exp(0) = 1 |
| Ramps.PosMonotone | rampage/ramps.py:262 | a later time never has a smaller sample index |
| Ramps.SampleCountCovers | rampage/ramps.py:253-255 | the time grid runs past the last keyframe, so every keyframe time from 0 on has a sample index inside it |
| Ramps.FillSegmentStep | rampage/ramps.py:276-301 | filling one region keeps the samples of earlier regions, which lie before it |
| Ramps.FillRamp | rampage/ramps.py:256-301 | the samples are the first value before the first used keyframe, the last value from the last one on, and each region's ramp function in between |
| Ramps.SampleInSomeSegment | rampage/ramps.py:276-301 | every sample between the first and last used keyframe falls in exactly the region of some consecutive pair of keyframes |
| Ramps.DigitalRampIsBinary | rampage/ramps.py:271-301 | every sample of a digital channel's ramp is 0 or 1 |
| Ramps.SegmentStartsAtValue | rampage/ramps.py:309-369 | each analog ramp function starts at its segment's `value`: the exponential one given exp(0) = 1, and a sine segment only when the sine of its phase is 0 |
| Ramps.AnalogRampHitsKeyframes | rampage/ramps.py:264-301 | at each used keyframe's sample, the analog ramp equals that segment's `value` |
| Ramps.SampleOfSegment | rampage/ramps.py:276-301 | a sample inside region j is segment j's ramp function at that sample's time |
| Ramps.TimeGrid | rampage/ramps.py:255 | the time array has one entry per sample |
| Ramps.UsedKeys | rampage/ramps.py:249-252 | the used keyframes are exactly the sorted keys the channel has a segment for |
| Ramps.NonNegativeTimesKept | rampage/ramps.py:247 | filling caches keeps every `get_absolute_time` answer, so non-negative times stay non-negative |
| Ramps.TimesKept | rampage/ramps.py:260-261 | filling caches keeps the times of the used keyframes |
| Ramps.TimesSound | rampage/ramps.py:260-261 | where every cache is right, the used keyframes' times are their absolute times |
| Ramps.TimesFilled | rampage/ramps.py:247-261 | after sorting and asking for the times, which only fill caches, the list is still sorted by the answers, times stay non-negative, every answer is unchanged and the used times are non-decreasing |
| Ramps.RampOfChannelIntro | rampage/ramps.py:236-303 | the steps of `generate_ramp` together give a result that is None exactly where the source raises, and otherwise the grid and ramp of the used keyframes |
| Ramps.Channel.constructor | rampage/ramps.py:225-230 | a channel holds its name, data and keyframe list as given |
| Ramps.Channel.SetName | rampage/ramps.py:232-234 | only the name changes |
| Ramps.Channel.GenerateRamp | rampage/ramps.py:236-303 | on any well-formed list, stale caches included: the result is None when there are no keyframes, no used keyframe, or an unknown type or missing parameter; otherwise it is the time grid up to the last keyframe plus one step, and the channel's ramp over it, at the times `get_absolute_time` answers; the keyframe list changes only in its caches; when every cache was right the sorted list is in absolute-time order and the list stays valid |
| Ramps.SampleKeyFrames | rampage/ramps.py:253-301 | given the used segments and their times: None when a segment cannot be evaluated, otherwise a grid and a ramp as in `FillRamp` |
| Ramps.UsedKeyFrames | rampage/ramps.py:249-252 | the loop collects the used keyframes in sorted order |
| Ramps.KeyFrameTimes | rampage/ramps.py:260-261 | the times are the `get_absolute_time` answers for the used keyframes, in order, the same before and after; only caches change; when every cache was right they are the absolute times |
| Ramps.SegsAppend | rampage/ramps.py:249-252 | appending a used key appends its segment |
| Ramps.TimesAppend | rampage/ramps.py:260-261 | appending a used key appends its `get_absolute_time` answer |
| Ramps.UsedTimesSorted | rampage/ramps.py:247-252 | the used keyframes' times, by the answers the sort used, are non-decreasing, as the region loop needs |
| Ramps.UsedKeysOrdered | rampage/ramps.py:249-252 | filtering a list sorted by the answers keeps it sorted |
| KeyFrameWidgets.OverlapIffShared | rampage/widgets/KeyFrameWidgets.py:287-291 | two arrows clash exactly when their half-open spans [min, max) share a column |
| KeyFrameWidgets.MaxEndBounds | rampage/widgets/KeyFrameWidgets.py:277-280 | the column count is 1 with no arrows; otherwise it is one more than the largest endpoint, which some arrow has |
| KeyFrameWidgets.PackedStep | rampage/widgets/KeyFrameWidgets.py:286-298 | placing the next arrow in the lowest row free over its span keeps the layout packed: arrows in the same row are disjoint, and each arrow's lower rows are all blocked |
| KeyFrameWidgets.FreeSpanIffUnblocked | rampage/widgets/KeyFrameWidgets.py:291 | a row's availability is all true over the arrow's span exactly when no earlier arrow in that row overlaps it |
| KeyFrameWidgets.GridAfterPlace | rampage/widgets/KeyFrameWidgets.py:297 | after the slice assignment, the availability grid again marks exactly the columns the placed arrows use |
| KeyFrameWidgets.LargestEndpoint | rampage/widgets/KeyFrameWidgets.py:277-280 | the loop finds the largest arrow endpoint (0 with no arrows) |
| KeyFrameWidgets.FirstFreeRow | rampage/widgets/KeyFrameWidgets.py:290-296 | the search returns the first row free over the arrow's span, or reports that none is |
| KeyFrameWidgets.PlaceArrows | rampage/widgets/KeyFrameWidgets.py:284-299 | there is one height per arrow, each below the number of rows created, and the layout is first-fit packed |
| KeyFrameWidgets.ArrowWidget.constructor | rampage/widgets/KeyFrameWidgets.py:264-269 | a new widget holds the arrows, the column count and a first-fit packed layout |
| KeyFrameWidgets.ArrowWidget.FigureOutHowToDrawArrows | rampage/widgets/KeyFrameWidgets.py:276-299 | the column count is 1 plus the largest endpoint, and the heights are a first-fit packed layout of the arrows |
| KeyFrameWidgets.IndexOf | rampage/widgets/KeyFrameWidgets.py:374 | `list.index` gives the first position holding the key |
| KeyFrameWidgets.SortedKeyListClosed | rampage/widgets/KeyFrameWidgets.py:368-374 | a list of every key of a well-formed dictionary holds every parent it names, so `skl.index(parent)` never fails, stale caches or not |
| KeyFrameWidgets.ArrowsUpToLast | rampage/widgets/KeyFrameWidgets.py:369-376 | one turn of the loop adds an arrow exactly when the key has a parent, from the parent's index to the key's |
| KeyFrameWidgets.ArrowsJoinParents | rampage/widgets/KeyFrameWidgets.py:366-377 | every arrow joins a key's parent index to that key's index |
| KeyFrameWidgets.ArrowsIncrease | rampage/widgets/KeyFrameWidgets.py:366-377 | arrows come in increasing order of their child index |
| KeyFrameWidgets.ArrowsCover | rampage/widgets/KeyFrameWidgets.py:366-377 | every key with a parent has its arrow |
| KeyFrameWidgets.ArrowsPointForward | rampage/widgets/KeyFrameWidgets.py:366-377 | when child times are positive, each arrow starts before it ends |
| KeyFrameWidgets.ArrowList | rampage/widgets/KeyFrameWidgets.py:367-377 | the loop returns one arrow (parent index, child index) per keyframe with a parent, in sorted order |
| KeyFrameWidgets.GetArrowList | rampage/widgets/KeyFrameWidgets.py:366-377 | on any well-formed list, stale caches included, the arrows are those of the keys sorted by cached time; the keyframe list changes only in its caches; when every cache was right the order is by absolute time |
| KeyFrameWidgets.DisabledList | rampage/widgets/KeyFrameWidgets.py:421-422 | one flag per sorted key |
| KeyFrameWidgets.DisabledIffDescendant | rampage/widgets/KeyFrameWidgets.py:421-422 | a parent choice is disabled exactly when it has the edited key in its ancestry, the edited key included |
| KeyFrameWidgets.ParentChoice | rampage/widgets/KeyFrameWidgets.py:431-432 | the text "None" means no parent; any other text names the parent |
| KeyFrameWidgets.EnabledChoiceKeepsWellFormed | rampage/widgets/KeyFrameWidgets.py:419-439 | choosing any enabled parent, or none, and any fresh name gives a well-formed graph |
| KeyFrameWidgets.HandleEditAccepted | rampage/widgets/KeyFrameWidgets.py:428-436 | an accepted edit sets the comment and parent, renames when the name changed, and leaves the list re-baked; after a rename the call to the missing `handleKeyNameChanged` raises (`raised` exactly when the name changed) |
| KeyFrameWidgets.NewKeyFrame | rampage/widgets/KeyFrameWidgets.py:447 | a new keyframe has time 1.0, the given parent, comment "comment", and no hooks or cache |
| KeyFrameWidgets.InsertKeepsOutside | rampage/widgets/KeyFrameWidgets.py:446-449 | inserting before k keeps the absolute time of every key outside k's subtree |
| KeyFrameWidgets.InsertedRooted | rampage/widgets/KeyFrameWidgets.py:446-449 | the inserted key sits at k's parent's time plus 1.0 |
| KeyFrameWidgets.InsertShiftsSubtree | rampage/widgets/KeyFrameWidgets.py:446-449 | k and its descendants move 1.0 later |
| KeyFrameWidgets.InsertBeforeShifts | rampage/widgets/KeyFrameWidgets.py:441-449 | inserting before k keeps the graph well-formed; the new key takes k's parent and time 1.0 and becomes k's parent, so only k's subtree moves (by 1.0) |
| KeyFrameWidgets.HandleInsertBefore | rampage/widgets/KeyFrameWidgets.py:441-449 | the list becomes the inserted-before graph, re-baked |
| KeyFrameWidgets.HandleAddChild | rampage/widgets/KeyFrameWidgets.py:455-461 | a child keyframe with time 1.0 is added under the key, and the list is re-baked |
| KeyFrameWidgets.AddChildTimes | rampage/widgets/KeyFrameWidgets.py:460-461 | the child sits 1.0 after its parent, and every other absolute time is kept |
| KeyFrameWidgets.HandleTimeChanged | rampage/widgets/KeyFrameWidgets.py:400-409 | on any well-formed list: the time is set, the list before is in order of the old cached times (of absolute times when they were right) and the list after in order of the new absolute times, and an order change is reported exactly when they differ |
| KeyFrameWidgets.SortedKeyListsSameLength | rampage/widgets/KeyFrameWidgets.py:406 | two lists of every key of dictionaries with the same keys have the same length, so `zip` compares every position |
| KeyFrameWidgets.OrderChanged | rampage/widgets/KeyFrameWidgets.py:405-409 | the comparison loop answers true exactly when the lists differ |
| KeyFrameWidgets.SortedUncached | rampage/widgets/KeyFrameWidgets.py:401-403 | a sorted key list does not depend on the caches |
| ChannelWidgets.Filter | rampage/widgets/ChannelWidgets.py:250-271 | filtering keeps exactly the keys whose presence in the channel matches: those with a segment, or those without |
| ChannelWidgets.FilterNoDup | rampage/widgets/ChannelWidgets.py:250-271 | no keyframe gets two segments or two buttons |
| ChannelWidgets.FilterPartitions | rampage/widgets/ChannelWidgets.py:250-271 | each sorted keyframe gets exactly one of a segment and an add button |
| ChannelWidgets.Without | rampage/widgets/ChannelWidgets.py:284 | removing a keyframe's widget keeps every other one |
| ChannelWidgets.WithoutNoDup | rampage/widgets/ChannelWidgets.py:284 | removing a widget keeps the widget list free of repeats |
| ChannelWidgets.CutIsWithout | rampage/widgets/ChannelWidgets.py:311 | popping the found index from a list without repeats removes exactly that keyframe |
| ChannelWidgets.WithoutAbsent | rampage/widgets/ChannelWidgets.py:278-283 | removing an absent keyframe changes nothing |
| ChannelWidgets.ZeroData | rampage/widgets/ChannelWidgets.py:174-177 | the new ramp data has exactly the type's parameters, each 0.0 |
| ChannelWidgets.FirstOfSorted | rampage/widgets/ChannelWidgets.py:315 | `sorted(...)[0]` is the alphabetically first type, and only it is |
| ChannelWidgets.FirstRampTypes | rampage/ramps.py:388-397 | the first analog type is "cubic" and the first digital type is "jump" |
| ChannelWidgets.FirstRampType | rampage/widgets/ChannelWidgets.py:315 | the method finds the alphabetically first ramp type |
| ChannelWidgets.AssignedPositional | rampage/widgets/ChannelWidgets.py:180-184 | values go to parameters by position, up to the shorter list; other entries are kept |
| ChannelWidgets.ChannelEditor.constructor | rampage/widgets/ChannelWidgets.py:231-239 | on any well-formed keyframe list, stale caches included, a new editor shows each keyframe exactly once, as a segment or as an add button; the list changes only in its caches |
| ChannelWidgets.ChannelEditor.SetupUi | rampage/widgets/ChannelWidgets.py:241-271 | in the order of the cached times (absolute times when they were right), the channel's keyframes get segments and the others add buttons; the keyframe list changes only in its caches |
| ChannelWidgets.ChannelEditor.EditChannelInfo | rampage/widgets/ChannelWidgets.py:273-276 | the name and data are replaced; the widgets still fit if the keys are the same |
| ChannelWidgets.ChannelEditor.HandleAddSegment | rampage/widgets/ChannelWidgets.py:304-345 | with a button for the key, the button goes, and the key gets a segment of the first ramp type with zero parameters (state False on digital); otherwise nothing changes |
| ChannelWidgets.ChannelEditor.HandleDeleteSegment | rampage/widgets/ChannelWidgets.py:278-302 | with a segment for the key, the segment goes, the key leaves the channel's keys, and it gets an add button; otherwise nothing changes |
| ChannelWidgets.ChannelEditor.HandleRampTypeChanged | rampage/widgets/ChannelWidgets.py:166-178 | "delete" requests deletion and changes nothing; any other type sets the type and replaces the data with that type's parameters at 0.0 |
| ChannelWidgets.ChannelEditor.HandleValueChanged | rampage/widgets/ChannelWidgets.py:180-184 | only the segment's ramp data changes, values assigned positionally |
| ChannelWidgets.ChannelEditor.HandleBoolButtonClicked | rampage/widgets/ChannelWidgets.py:210-219 | only the segment's state changes, to the button's |
| ChannelWidgets.FirstIndex | rampage/widgets/ChannelWidgets.py:305-309 | the loop that breaks finds the first match, or -1 when there is none |
| ChannelWidgets.LastIndex | rampage/widgets/ChannelWidgets.py:279-282 | the loop without a break finds the last match, or -1 when there is none |
| ChannelWidgets.SplitByKeys | rampage/widgets/ChannelWidgets.py:250-271 | the loop sends each sorted key to the segments or to the add buttons |
| ChannelWidgets.SplitSortedKeys | rampage/widgets/ChannelWidgets.py:248-271 | the sorted key list split into the channel's keys and the others, neither with repeats |
| ChannelWidgets.SplitNoDup | rampage/widgets/ChannelWidgets.py:248-271 | splitting a list of every key once gives two lists without repeats |
| ChannelWidgets.SortedKeyListNoDup | rampage/ramps.py:90-97 | a list of every key once has no repeats |
| ChannelWidgets.SortedKeyListMultiset | rampage/ramps.py:90-97 | a list of every key once holds exactly the dictionary's keys |
| RampEditors.StringOrder | rampage/widgets/RampEditor.py:69-71 | string comparison is a total preorder, as `sorted` needs |
| RampEditors.ChannelOrder | rampage/widgets/RampEditor.py:69-71 | every channel appears once, in non-decreasing order of id |
| RampEditors.RampTypesFor | rampage/widgets/RampEditor.py:74-81 | analog channels get the analog type table and digital ones the digital table; there is none for any other kind |
| RampEditors.EditedChannelsEffect | rampage/widgets/RampEditor.py:95-99 | an edit moves the record to the new name with the new comment and id, keeps its segments and kind, and leaves every other channel as it was |
| RampEditors.RenamedOrder | rampage/widgets/RampEditor.py:102-105 | the layout's names with the edited channel's renamed |
| RampEditors.RenamedRows | rampage/widgets/RampEditor.py:102-105 | each widget made for the channel takes the new name and keeps its type table |
| RampEditors.RenamedOrderCounts | rampage/widgets/RampEditor.py:102-105 | renaming to a name not yet listed moves that entry's count to the new name |
| RampEditors.RenameKeepsCounts | rampage/widgets/RampEditor.py:95-105 | the renamed layout names every edited channel once |
| RampEditors.RenameKeepsOrder | rampage/widgets/RampEditor.py:95-105 | with the same id, the renamed layout is still in order of id |
| RampEditors.RenameKeepsLayout | rampage/widgets/RampEditor.py:95-110 | with the same id and a new name not in use, a complete layout stays complete for the edited channels |
| RampEditors.RenameOrphansSegment | rampage/widgets/KeyFrameWidgets.py:434-436 | as written, renaming keyframe "a" leaves a channel's segment on "a", no longer a keyframe |
| RampEditors.KeyRenameKeepsSegments | rampage/widgets/KeyFrameWidgets.py:434-436 | as intended, renaming a keyframe to an unused name and each channel's segment with it keeps every segment on a keyframe, the same segment under the new name |
| RampEditors.RampEditor.constructor | rampage/widgets/RampEditor.py:27-31 | a new editor holds the channels and properties given |
| RampEditors.RampEditor.ReDoUi | rampage/widgets/RampEditor.py:60-82 | the channels are laid out in order of id; an analog or digital channel gets a widget with its kind's type table; a channel of another kind adds the previous widget again, and when the first channel is of another kind UnboundLocalError is raised and no widget is kept; the data does not change |
| RampEditors.RampEditor.HandleEditChannelInfo | rampage/widgets/RampEditor.py:88-110 | an accepted edit renames and updates the channel and every widget made for it takes the new name; the layout is redone exactly when the id changed, ending as `reDoUi` leaves it (UnboundLocalError included); with the same id a complete layout stays complete |
| RampEditors.RampEditor.HandleKeyNameChanged | rampage/widgets/KeyFrameWidgets.py:436 | the handler the keyframe editor calls after a rename, as intended: each channel's segment on the old name moves to the new one |
| RampEditors.RampEditor.HandleProperties | rampage/widgets/RampEditor.py:39-46 | missing properties are created empty, and the edited copy replaces them only when accepted |
| Queuer.Prefixed | rampage/queuer.py:83 | each nested identifier gets the key and separator in front |
| Queuer.SetDictItemSets | rampage/queuer.py:89-102 | `set_dict_item` succeeds exactly when the path leads to an entry whose type converts the value; that entry then holds the converted value |
| Queuer.PutLookup | rampage/queuer.py:97-102 | writing at a path makes it hold the new value, and a path neither above nor below it is unchanged |
| Queuer.SetDictItemLocal | rampage/queuer.py:89-102 | setting one identifier leaves every unrelated path as it was |
| Queuer.FlattenAddressesLeaves | rampage/queuer.py:74-86 | every identifier `flatten_dict` lists leads to a number or bool |
| Queuer.FlattenKeysAddressLeaves | rampage/queuer.py:75-85 | the same holds for the identifiers from any list of keys |
| Queuer.SetFlattenedName | rampage/queuer.py:57-102 | every listed identifier can be set with `set_dict_item`, which converts the value to the entry's type |
| Queuer.FlattenOmitsStrings | rampage/queuer.py:63-85 | a string value is not listed |
| Queuer.FlattenListsVisibleNumbers | rampage/queuer.py:78-80 | every top-level number or bool whose key does not start with `__` is listed; an empty dictionary gives an empty list |
| Queuer.FlattenKeysHas | rampage/queuer.py:75-80 | the key loop lists each visible number or bool key |
| Queuer.FlattenFlatDocument | widgets/RampQueuer.py:12-25 | a flat dictionary of visible numbers lists its keys in sorted order |
| Queuer.FlattenKeysOfLeaves | rampage/queuer.py:75-80 | a key list of visible leaves is listed as is, in order |
| Queuer.FlattenSkipsHidden | rampage/queuer.py:76-77 | every identifier starts with a key that does not begin with `__` |
| Queuer.FlattenKeysSkipsHidden | rampage/queuer.py:75-77 | the same holds for the key loop |
| Queuer.Arange | rampage/queuer.py:288 | `arange(n)*step + start` has n values |
| Queuer.ProductLength | rampage/queuer.py:296 | the product has one row per pair |
| Queuer.ProductAt | rampage/queuer.py:296 | row i·n2 + j is the pair (i-th first value, j-th second value): the first column varies slowest |
| Queuer.Scan2DTableRows | rampage/queuer.py:282-296 | the 2D table has n1·n2 rows, and row i·n2 + j is (start1 + i·step1, start2 + j·step2) |
| Queuer.ScanDocComment | rampage/queuer.py:444-449 | a scan document's comment is the original followed by "Scan:" and the `col=value` pairs |
| Queuer.ScanDocsHaveComments | rampage/queuer.py:449-450 | every scan document has a comment, so `addRamp` can list it |
| Queuer.Entries | rampage/queuer.py:429-436 | `addRamp` queues the prepend document first when prepend is checked, then the document |
| Queuer.RowEntries | rampage/queuer.py:440-450 | queuing one document per row gives one or two entries per row |
| Queuer.Repeat | rampage/queuer.py:440 | repeating the rows reps times gives reps blocks |
| Queuer.RepeatAt | rampage/queuer.py:440-441 | entry j·len + i of the repetition is entry i of the block |
| Queuer.RowEntriesAt | rampage/queuer.py:441-450 | each row's document is at the end of its group, after the prepend document when prepend is checked |
| Queuer.ScanDocs | rampage/queuer.py:441-449 | there are documents exactly when every row makes one, and then the k-th is row k's document |
| Queuer.FirstDocsLeading | rampage/queuer.py:441-449 | the documents made before the scan stops are those of the first rows, in order, and the row after them (if any) makes none |
| Queuer.RampQueuer.constructor | rampage/queuer.py:356-366 | a new queuer has nothing to queue and has sent nothing |
| Queuer.RampQueuer.AddRamp | rampage/queuer.py:429-436 | the local queue grows by the prepend document (when checked) and then the document; a document without a comment raises KeyError after it is queued, so a prepend document without one is queued alone |
| Queuer.RampQueuer.Add1dScanRamps | rampage/queuer.py:438-450 | it succeeds exactly when every row's values can be set and the prepend document (when checked) has a comment; the queue then grows by reps copies of the row entries, repetition-major then row order; on failure the queue grows by exactly the entries of the rows before the first one that cannot be set, once, or by the prepend document alone when it has no comment |
| Queuer.RampQueuer.AddScanPasses | rampage/queuer.py:438-450 | reps passes over the rows: all of them when every pass succeeds, otherwise the first pass up to where it stopped and nothing more |
| Queuer.RampQueuer.AddScanRows | rampage/queuer.py:441-450 | the queue grows by the entries of the rows before the first one that makes no document, in order, or by the prepend document alone when it has no comment; it succeeds exactly when every row makes one and no `addRamp` raises; the old queue always stays a prefix |
| Queuer.RampQueuer.QueueToServer | rampage/queuer.py:472-480 | every local ramp is sent in list order, then the local list is empty |
| Queuer.RowEntriesNext | rampage/queuer.py:441-450 | queuing one more row appends that row's entries |
| Queuer.ScanQueueOrder | rampage/queuer.py:438-450 | the document of repetition j, row k sits at group j·rows + k of the queue |
| Server.DigitalChannelIds | rampage/server.py:585-589 | there are 26 digital ids |
| Server.DigitalIdNamesItsLine | rampage/server.py:585-589 | the i-th id names line i + 5 with two digits, Dev1/port0/line05 to line30 |
| Server.DigitalIdsIncreasing | rampage/server.py:585-589 | the digital ids are strictly increasing as strings |
| Server.AnalogIds | rampage/server.py:592-599 | Dev1 has 4 analog ids and every other device 8 |
| Server.AnalogIdsDistinct | rampage/server.py:597-598 | the n-th id is the device name, "/ao" and digit n, and the ids are distinct |
| Server.RequiredIds | rampage/server.py:742-744 | the checklist covers 34 ids: 26 digital and Dev2's 8 analog |
| Server.RequiredIdsDistinct | rampage/server.py:742-744 | no id is checked twice |
| Server.FirstWithId | rampage/server.py:622-625 | the inner loop finds the first channel with the id, or none |
| Server.SelectChannels | rampage/server.py:616-637 | the result is the first channel for each id, in id order, with ids that have no channel skipped |
| Server.SelectedBound | rampage/server.py:616-637 | the selection is no longer than the id list, and holds only channels with listed ids |
| Server.SelectedComplete | rampage/server.py:616-637 | when every id has a channel, the i-th selected channel has the i-th id and is the first with it |
| Server.MakeDigitalRamps | rampage/server.py:691-710 | with no channels there is no word array; otherwise word i is the sum, over the first 26 channels k, of channel k's sample i times 2^(5 + k) |
| Server.WordBits | rampage/server.py:703-710 | with 0/1 ramps, bit 5 + k of each word is channel k's sample, the low 5 bits are 0, and the word fits the paired lines |
| Server.LowerBitKept | rampage/server.py:708 | adding a higher line's bit keeps the lower bits |
| Server.TopBitSet | rampage/server.py:708 | adding line n's bit sets bit n and keeps the word below 2^(n+1) |
| Server.RoundHalfEven | rampage/server.py:684 | `np.rint` lands within 0.5 of its argument |
| Server.Positions | rampage/server.py:684 | one trigger position per time, within 0.5 of the time over the resolution; a zero resolution gives the most negative int64, as the cast of inf and nan does |
| Server.MaxOf | rampage/server.py:686 | `max` is a bound that is attained |
| Server.MakeTriggerLine | rampage/server.py:683-688 | on any times and resolution: it fails exactly when there is no time, the size is below one or a position lies below minus the size; otherwise the line runs to the largest position and is 1 exactly where a position lands, a negative one counting from the end |
| Server.TriggerLineEndsOnPulse | rampage/server.py:683-688 | the last sample and every time's sample hold a pulse |
| Server.NonNegativeTimesNoWrap | rampage/server.py:683-688 | with a positive resolution and no negative time the line can be built and nothing wraps: each pulse sits at its rounded position |
| Server.NegativeTimeWraps | rampage/server.py:683-688 | times 2.0 and -2.0 at resolution 1.0 give the line [0, 1, 1] |
| Server.TriggerLineFailures | rampage/server.py:686-687 | -1.0 alone, -2.0 alone, and a zero resolution each make numpy raise |
| Server.RoundIsNearest | rampage/server.py:734 | `round` lands at the integer nearest its argument |
| Server.AsWrittenMissesNegativeResidue | rampage/server.py:733-739 | the residue test as written misses a step count 0.4 below an integer, which the intended test flags |
| Server.AsWrittenMisses | rampage/server.py:733-739 | whatever the test as written flags the intended one flags too; the intended one alone flags exactly the step counts more than 0.0001 below their rounded value |
| Server.AsWrittenPassesOffGridKeyFrame | rampage/server.py:725-739 | the keyframe checklist as written reports nothing for a keyframe at time 2.6 with resolution 1.0; the intended one reports it as not a multiple |
| Server.OffGridMeansFarFromEveryInteger | rampage/server.py:733-739 | the intended test flags a time exactly when its step count is more than 0.0001 from every integer |
| Server.KeyFrameErrorsExact | rampage/server.py:725-739 | for either grid test (`AsWritten`, the residue test of server.py:735, or `Intended`): the keyframe errors are exactly one per keyframe with a negative time and one per keyframe off the resolution grid |
| Server.KeyFrameErrorKinds | rampage/server.py:725-739 | for either grid test (`AsWritten`, the residue test of server.py:735, or `Intended`): the keyframe pass adds only negative-time and off-grid errors |
| Server.ListedStep | rampage/server.py:725 | a (key, time) pair is listed when it is the last one or listed before it |
| Server.NegativeTimeReported | rampage/server.py:727-730 | for either grid test (`AsWritten`, the residue test of server.py:735, or `Intended`): a negative-time error is reported exactly for the listed keyframes with negative time |
| Server.NotMultipleReported | rampage/server.py:733-739 | for either grid test (`AsWritten`, the residue test of server.py:735, or `Intended`): an off-grid error is reported exactly for the listed keyframes off the grid, naming the resolution |
| Server.CountErrorsExact | rampage/server.py:745-753 | a count error is reported exactly for each required id with a number of channels other than 1, naming that number |
| Server.ErrorFree | rampage/server.py:713-763 | for either grid test (`AsWritten`, the residue test of server.py:735, or `Intended`): the list is empty exactly when every time is non-negative and on the grid, every required id has one channel, and nothing overlaps |
| Server.NoErrorsMeansSound | rampage/server.py:713-763 | for either grid test (`AsWritten`, the residue test of server.py:735, or `Intended`): an empty list means the document passed every check |
| Server.ErrorsMeanFault | rampage/server.py:713-763 | for either grid test (`AsWritten`, the residue test of server.py:735, or `Intended`): a non-empty list means some check failed |
| Server.CheckKeyFrames | rampage/server.py:725-739 | for either grid test (`AsWritten`, the residue test of server.py:735, or `Intended`): the keyframe loop collects exactly the keyframe errors, in sorted order |
| Server.CountCopies | rampage/server.py:746-749 | the inner loop counts the channels with the id |
| Server.CheckChannelCounts | rampage/server.py:742-753 | the id loop collects exactly the count errors, in id order |
| Server.CheckRampForErrors | rampage/server.py:713-763 | for either grid test (`AsWritten`, the residue test of server.py:735, or `Intended`), on any well-formed list, stale caches included: a zero resolution with any keyframe divides by zero (None); otherwise the result is every error of every check, at the times `get_absolute_time` answers, without short-circuiting; the keyframes change only in their caches; when every cache was right the times are the absolute times |
| Server.CollectErrors | rampage/server.py:725-760 | for either grid test (`AsWritten`, the residue test of server.py:735, or `Intended`): keyframe errors, then count errors, then the overlap error are appended in that order |
| ServerLoop.WaitAfterRunning | rampage/server.py:461-465 | a missing `wait_after_running` means 0 |
| ServerLoop.InitialInv | rampage/server.py:395-412 | a new thread is paused and satisfies the loop invariant |
| ServerLoop.NextKeepsInv | rampage/server.py:414-474 | a pass keeps the invariant: the running document, then the pending one, and never a run while waiting |
| ServerLoop.TakesOnlyWhenNothingPending | rampage/server.py:422-438 | a document is taken, and ramps made from it, only when the thread runs and no ramp is pending; it is the front of the queue |
| ServerLoop.UploadsOnlyWhenIdle | rampage/server.py:460-474 | an upload happens only when no task runs and no wait is pending; it starts the oldest document and clears the pending flag |
| ServerLoop.RunningTaskOnlyPolled | rampage/server.py:440-450 | while a task runs, a pass only polls it; when it is done, the run ends and the wait begins |
| ServerLoop.WaitEnforced | rampage/server.py:452-458 | while waiting there is no upload, and the wait ends exactly when more than `wait_after_running` ms have passed |
| ServerLoop.FinishedRunLogged | rampage/server.py:476-503 | a finished run leaves the list, is logged unless `log_ramp_file` is false, and a short run is reported |
| ServerLoop.HistoryAppend | rampage/server.py:414-474 | the taken, finished and uploaded documents of two action lists add up |
| ServerLoop.LoggingIsSilent | rampage/server.py:476-480 | logging neither takes nor uploads a document; it finishes exactly the oldest one |
| ServerLoop.UploadActions | rampage/server.py:460-474 | an upload takes and finishes nothing, and uploads the oldest document |
| ServerLoop.AdvanceActions | rampage/server.py:440-474 | the second half of a pass finishes the running document when it is done, or uploads the pending one when idle |
| ServerLoop.TakeKeepsInv | rampage/server.py:422-438 | taking a document keeps the invariant |
| ServerLoop.TakeKeepsHistory | rampage/server.py:422-438 | taking a document keeps the record of what was taken, finished and uploaded |
| ServerLoop.FinishKeepsHistory | rampage/server.py:440-450 | finishing a run keeps that record |
| ServerLoop.UploadKeepsHistory | rampage/server.py:460-474 | uploading keeps that record |
| ServerLoop.AdvanceKeepsHistory | rampage/server.py:440-474 | the second half of a pass keeps that record |
| ServerLoop.NextKeepsHistory | rampage/server.py:414-474 | a whole pass keeps that record |
| ServerLoop.TakenFromFront | rampage/server.py:422-428 | a pass takes documents only from the front of the queue |
| ServerLoop.TakeNewFront | rampage/server.py:422-428 | taking removes the queue's front |
| ServerLoop.RunKeepsHistory | rampage/server.py:414-474 | any number of passes keep the record |
| ServerLoop.RunTakesFromFront | rampage/server.py:414-474 | across passes, the documents taken are a prefix of the queue |
| ServerLoop.RunIsFifo | rampage/server.py:414-474 | from a new thread, documents are taken, uploaded and finished in queue order; the list holds the taken documents not yet finished, and the uploaded ones are the finished ones plus the running one |
| ServerLoop.DaqThread.constructor | rampage/server.py:395-412 | a new thread is in the initial state with no actions |
| ServerLoop.DaqThread.LogRamps | rampage/server.py:476-503 | the oldest document leaves the list whether or not it is logged, and the actions are those of finishing a run |
| ServerLoop.DaqThread.ClearTasksIfAny | rampage/server.py:505-512 | old tasks are cleared only when there are some, and the state does not change |
| ServerLoop.DaqThread.UploadAndStartTasks | rampage/server.py:516-530 | the oldest document is uploaded and started, and the start time recorded |
| ServerLoop.DaqThread.TakeNewDoc | rampage/server.py:422-438 | the fields and queue change as taking a document says |
| ServerLoop.DaqThread.AdvanceTask | rampage/server.py:440-474 | the fields change as the second half of a pass says |
| ServerLoop.DaqThread.Pass | rampage/server.py:420-474 | the fields, the queue and the actions change as one pass says |
| ServerLoop.DaqThread.Step | rampage/server.py:414-474 | one pass, paused or running, keeps the thread valid and matches the pass function |
| ServerLoop.BecServer.constructor | rampage/server.py:538-542 | a new server has an empty queue and a thread in the initial state |
| ServerLoop.BecServer.Start | rampage/server.py:544-547 | `start` sets the running flag only, and replies ok |
| ServerLoop.BecServer.PauseAfterCurrentRamp | rampage/server.py:549-552 | `pause_after_current_ramp` clears the running flag only, and replies ok |
| ServerLoop.BecServer.QueueRamp | rampage/server.py:554-558 | `queue_ramp` appends the document to the queue, and replies ok |
| ServerLoop.BecServer.ClearQueue | rampage/server.py:560-570 | `clear_queue` empties the queue, leaves its last document as the current data, and replies ok |
| ServerLoop.BecServer.GetQueueComments | rampage/server.py:572-577 | `get_queue_comments` always replies with the list ['bla'] |
| ServerLoop.BecServer.AbortCurrentRun | rampage/server.py:579-582 | `abort_current_run` only replies ok |
| ServerLoop.BecServer.RunStep | rampage/server.py:414-474 | one pass of the thread over the server's queue |
| Daq.SamplesPerCallback | rampage/daq/daq.py:209-211 | a callback comes every 2500 samples: 250 kHz times 10 ms |
| Daq.Wrap | rampage/daq/daq.py:375-376 | adding into a `uint32` array keeps each word in [0, 2^32) |
| Daq.Bit | rampage/daq/daq.py:87-88 | a bit is 0 or 1 |
| Daq.PadDigitalData | rampage/daq/daq.py:249-261 | data whose length is a multiple of n comes back unchanged; otherwise the input is kept as a prefix and the padding repeats its last element |
| Daq.PadDigitalDataLength | rampage/daq/daq.py:257-261 | the padded length is the smallest multiple of n not below the input length |
| Daq.SetDigitalLineState | rampage/daq/daq.py:73-93 | a write happens exactly when the name ends in a line number below 32; it writes two samples to that line |
| Daq.LineStateSetsItsBit | rampage/daq/daq.py:87-88 | both samples have exactly the line's bit set when the state is true, and are 0 otherwise |
| Daq.BitOfZero | rampage/daq/daq.py:87-88 | a cleared line state writes a word with every bit clear |
| Daq.PowerBit | rampage/daq/daq.py:88 | 2^n has bit n and no other |
| Daq.ClockOutLine | rampage/daq/daq.py:87 | the line number is read back from a two-digit line name |
| Daq.ClockOutNamesMatchBits | rampage/daq/daq.py:64-70 | resetting the sample clock writes lines 31 and 27, each with its own bit set when the state is true |
| Daq.P24PulseTrain | rampage/daq/daq.py:385-395 | a pulse train of n samples is written to line 24; with n = 0, `samples[-1]` fails |
| Daq.PulseTrainShape | rampage/daq/daq.py:393-394 | the samples alternate 0 and 2^24 and end at 0, with (n - 1) / 2 pulses |
| Daq.PulseCount | rampage/daq/daq.py:393 | an alternating prefix of length m has m / 2 high samples |
| Daq.MergeTriggers | rampage/daq/daq.py:375-376 | the trigger lines are merged when they broadcast against the words, and the result has one word per sample |
| Daq.MergedWordBits | rampage/daq/daq.py:375-376 | with line 27 low, the Dev2 trigger becomes bit 31, the Dev3 trigger bit 27, and every other bit is kept |
| Daq.MergeTriggersBits | rampage/daq/daq.py:375-376 | each merged word carries the two triggers in bits 31 and 27 and keeps the others |
| Daq.AddClearBit | rampage/daq/daq.py:375-376 | adding a bit at a clear position sets it and keeps the others |
| Daq.LowWordRoom | rampage/daq/daq.py:376 | a word below 2^31 with bit 27 clear stays below 2^31 once the Dev3 trigger is added |
| Daq.MergeNoWrap | rampage/daq/daq.py:375 | adding the Dev2 trigger then does not wrap |
| Daq.CallbackTask.constructor | rampage/daq/daq.py:202-241 | the data is padded to a multiple of 2500 samples; callbacks are on exactly when the list is non-empty, starting at its first entry |
| Daq.CallbackTask.EveryNCallback | rampage/daq/daq.py:263-285 | the counter goes up by one; when enabled and due, the current functions run in order and the index advances, turning callbacks off after the last entry; the result is 0 |
| Daq.CallbackTask.DoneCallback | rampage/daq/daq.py:287-291 | the DAQ task is marked done, nothing else changes, and the result is 0 |
| Dds.Capitalized | rampage/daq/dds_server.py:30 | an accepted channel is one of A to D |
| Dds.ChannelCommand | rampage/daq/dds_server.py:23-33 | a missing key raises; otherwise a command is sent and success 1 replied exactly when the channel and the integer setting are valid; else success 0 and nothing is sent |
| Dds.Unspaced | rampage/daq/dds_server.py:32 | a decimal integer has no space in it |
| Dds.CommandFields | rampage/daq/dds_server.py:32 | a command splits on spaces into the operation and channel, the setting and an empty tail, and the setting parses back to the value sent |
| Dds.RoundStepTimeBounds | rampage/daq/dds_server.py:82 | an accepted step time is rounded down to a multiple of 4, by less than 4, and stays at least 4 |
| Dds.SweepFreq | rampage/daq/dds_server.py:63-85 | a sweep is sent exactly when the channel, both frequencies, their order, the step size and the step time pass; the command carries the rounded step time |
| Dds.SweepCommandFields | rampage/daq/dds_server.py:84 | a sweep command splits into six fields whose numbers parse back to those sent |
| Dds.PlainRequests | rampage/daq/dds_server.py:102-115 | `reset_phase`, `version` and `heartbeat` ignore their message and send R, V and H; `heartbeat` replies with the comb's answer |
| SynthHd.ChannelOkIff | rampage/daq/mw_server.py:90 | a channel passes exactly when it is '0', '1', or a number (bool included) equal to 0 or 1 |
| SynthHd.MwSetFreq | rampage/daq/mw_server.py:88-96 | a missing key raises; otherwise the frequency is written and success 1 replied exactly when the channel passes and the frequency is a float in [100, 13000]; else success 0 and nothing is written |
| SynthHd.IntCommand | rampage/daq/mw_server.py:99-118 | `set_amp` and `set_phase` write and reply success 1 exactly when the channel passes and the setting is an int in range |
| SynthHd.PublicMembers | rampage/daq/mw_server.py:17-21 | the server dispatches `help`, `mw_set_freq`, `set_amp` and `set_phase` |
| SynthHd.ClientSettingsDispatch | rampage/daq/mw_server.py:58-63 | each client setting call reaches the server method of the same name |
| SynthHd.ClientMismatches | rampage/daq/mw_server.py:121-125 | a client `help` call fails, since `help` takes no message, and a `set_freq` request gets the error reply |
| SynthHd.TrueChannelWrittenAsText | rampage/daq/mw_server.py:90-95 | a channel `True` passes the check and is written as "CTrue…" |
| Esp300.SetPositionAsWritten | rampage/daq/extGPIB_server.py:92-103 | as written, the handler never replies success 1 |
| Esp300.AsWrittenValidMoveRaises | rampage/daq/extGPIB_server.py:102 | as written, every valid move raises NameError |
| Esp300.SetPosition | rampage/daq/extGPIB_server.py:92-103 | the corrected handler, with numpy imported: a missing key raises; otherwise the move is written and success 1 replied exactly when the axis passes and the position is a float in [-0.335, -0.035]; else success 0 and nothing is written |
| Esp300.RoundedTargetInRange | rampage/daq/extGPIB_server.py:96-102 | rounding to 3 decimals keeps an accepted position in range and within 0.0005 |
| Esp300.ReadPosition | rampage/daq/extGPIB_server.py:105-111 | `read_position` queries axis 1 only and always replies success 1 |
| Esp300.PublicMembers | rampage/daq/extGPIB_server.py:11-16 | the server dispatches `open_instrument`, `read_position` and `set_position` |
| Esp300.ClientCalls | rampage/daq/extGPIB_server.py:45-58 | client calls reach the server methods of the same name, and unknown names get the error reply |
| Gpib.SetOutput | rampage/daq/gpib.py:27-32 | "OUTP ON" for a truthy state, "OUTP OFF" otherwise |
| Gpib.Cycles | rampage/daq/gpib.py:62 | `int(period*freq)` exists exactly when both are numbers |
| Gpib.WrittenSplits | rampage/daq/gpib.py:53 | the written string splits back into the command list |
| Gpib.SetFmExtWellBuilt | rampage/daq/gpib.py:34-56 | for any argument values, lists and dictionaries included: the FM list is well built: it starts with FUNC SIN, ends with OUTP ON exactly when the state is `True` (OUTP OFF otherwise), and its written form splits back into it; with no deviation given, the frequency is the deviation |
| Gpib.SetBurstWellBuilt | rampage/daq/gpib.py:59-80 | for any argument values: the burst list exists exactly when period and frequency are numbers; it is then well built and carries int(period·freq) cycles |
| Gpib.SetContinuousWellBuilt | rampage/daq/gpib.py:84-102 | for any argument values: the continuous list starts with FUNC SIN, ends with OUTP ON exactly when the state is `True`, and its written form splits back into it |
| Gpib.SetFreqSweepWellBuilt | rampage/daq/gpib.py:106-126 | for any argument values: the sweep list starts with FUNC SIN, ends with OUTP ON exactly when the state is `True`, and its written form splits back into it |
| Gpib.OneIsNotTrue | rampage/daq/gpib.py:94-97 | the state 1 switches `set_output` on but makes `set_continuous` end with OUTP OFF |
| Gpib.CurveBytes | rampage/daq/gpib.py:169 | the first 6 bytes and the last byte are dropped |
| Gpib.CurveBytesOfReply | rampage/daq/gpib.py:167-169 | from a 6-byte header, the curve and a newline, the curve is recovered |
| Gpib.Int8 | rampage/daq/gpib.py:170 | a byte read as int8 lies in [-128, 128) and is the same byte modulo 256 |
| Gpib.GetData | rampage/daq/gpib.py:155-173 | the time and voltage arrays are as long as the curve |
| Gpib.GetDataInverts | rampage/daq/gpib.py:171-172 | each voltage scales back to its int8 sample, and each time is its index times 10·scale over the length |
| Requests.Success | rampage/daq/mw_server.py:91-96 | the success reply has the single key `success`, set to 1 or 0 |
| Requests.Field | rampage/daq/mw_server.py:89 | `mesg[key]` exists exactly when the message is a dictionary holding the key |
| Requests.PublicNames | rampage/daq/mw_server.py:17-21 | the loop keeps exactly the members whose names do not start with `_` |
| Requests.RequestProcessor.constructor | rampage/daq/mw_server.py:16-21 | the dispatch table holds exactly the public members |
| Requests.ClientRequest | rampage/daq/mw_server.py:58-63 | a client call sends a dictionary with exactly `mesg` and `name` |
| Requests.ClientForServer.constructor | rampage/daq/mw_server.py:51-56 | the client keeps the endpoint and has a call for each public member |
| Requests.ClientCallDispatches | rampage/daq/mw_server.py:36-40 | a client call reaches the server method of the same name with the same message |
| Requests.PrivateNamesRefused | rampage/daq/mw_server.py:36-37 | a name starting with `_`, or not in the table, gets the error reply |

## Left out

- **Qt presentation.** Layouts, painting, dialogs, signals and settings are
  not modelled. A dialog's answer is an input. `handleDelete` of the keyframe
  editor is `KeyFrameLists.KeyFrameList.DelKeyframe` followed by a redraw.
- **Transport and I/O.** zmq sockets, the serial port, UDP, VISA, logging,
  and the log file write and chmod are not modelled. Sent commands and
  thread actions are returned lists. The `show` and `answer` parameters stand
  for values the hardware or Python supplies.
- **Threading and clocks.** The ramp queue is a sequence, and the blocking
  `get` with its timeout is "take the front when there is one". The
  `running` event is a flag. A paused pass does nothing, where the source
  blocks in `running.wait()`. `stoprequest` and `join` are not modelled.
  Times are real inputs.
- **Floating point.** Values are reals. `exp`, `sin`, `pi` and float printing
  are parameters. `np.rint` is modelled as round-half-even and Python 2's
  `round` as rounding half away from zero (round(-2.5) = -3).
- **Functions not shown in this source.** Two server steps are left out:
  - `make_analog_ramps` calls `get_ramp_regions` and `get_analog_ramp_data`;
  - `make_callback_list` and `check_ramp_for_errors` call `get_hooks_list`
    and `do_keyframes_overlap`.
  None of these four functions is part of this model. The overlap answer is
  the `overlap` parameter of `Server.CheckRampForErrors`.
- **Other server parts.** `make_ramps`, the analog tasks of
  `create_all_tasks`, the `Hooks` class and the `main` functions are not
  modelled.
- **server.py:519 arity.** The call unpacks 5 tasks from `create_all_tasks`,
  which takes 6 arguments and returns 3. The model's upload is one action and
  does not reproduce that mismatch.
- **Acyclic parents.** A cyclic parent chain makes `get_absolute_time` and
  `is_ancestor` recurse forever. Every member that walks the graph requires
  it to be well-formed: each key reaches a root.
- KeyFrameLists.KeyFrameList.SetTime: the edited graph must be well-formed,
  so the KeyError that `bake` raises on a dangling parent after the edit is
  not modelled. The same holds for SetParent, SetName, AddKeyframe and
  DelKeyframe.
- KeyFrameLists.KeyFrameList.Init: requires a well-formed graph;
  `KeyFrameLists.KeyFrameList.Create` models the KeyError path.
- **Stale caches.** A list that `Init` built from stale caches is modelled
  throughout: sorting, ramp generation, the error check and the widgets take
  any well-formed list and use the cached times as the source does. The
  editing methods (`SetTime`, `SetParent`, `SetName`, `AddKeyframe`,
  `DelKeyframe`) require only that the edited dictionary, with its caches
  dropped, be well-formed; they unbake first, so stale caches do not matter
  to them.
- Server.CheckRampForErrors: takes the list already built. Building it from
  the document's keyframes is `KeyFrameLists.KeyFrameList.Init`.
- Server.CheckRampForErrors / Ramps.Channel.GenerateRamp /
  Server.MakeTriggerLine: Python 2 divides
  two ints with floor division (server.py:733, ramps.py:262, server.py:684). The model
  divides reals, so a document whose times and resolution are all ints is
  not modelled as Python 2 would compute it.
- RampEditors.RampEditor.ReDoUi: the properties button, the keyframe widget
  list and the Qt widgets are not modelled; a widget is its channel's name
  and type table. `channelOrder` stands for the local sorted key list and is
  set even when the method raises.
- Ramps.Channel.GenerateRamp: requires every time `get_absolute_time`
  answers to be non-negative. With a negative time, numpy would read a negative slice index
  from the end of the array, and that is not modelled. The sample index of a
  time is its floor over `time_div`.
- KeyFrameWidgets.HandleEditAccepted: once the rename raises, nothing after
  it runs; the model stops there and does not model the Qt exception
  handling around the slot.
- RampEditors.RampEditor.HandleKeyNameChanged: the ramp editor defines no
  such method, so this is the intended handler, not code that exists; it is
  the corrected half of the rename finding.
- Queuer.RampQueuer.AddRamp: the comment is any JSON value in the model; a
  comment that is not a string and that Qt's `addItem` would refuse is not
  modelled.
- ServerLoop.BecServer.QueueRamp: accepts only documents whose `properties`
  is a dictionary and whose `wait_after_running`, when present, is a number.
  The source queues anything. The thread fails later on a document without
  such `properties`. A string wait compares as larger than every number in
  Python 2 (server.py:455), so the wait after that ramp never ends; that
  case is not modelled.
- Server.Positions: `astype(int)` is a 64-bit cast. A rounded quotient of
  magnitude 2^63 or more, which int64 cannot hold, is kept as the exact
  integer; only the zero resolution's inf and nan are modelled, as the most
  negative int64 that the cast gives on x86.
- Gpib.SetFmExt / Gpib.SetBurst / Gpib.SetContinuous / Gpib.SetFreqSweep /
  Gpib.CurveRequest: a list or dictionary argument is printed by its
  Python 2 `repr`, which is the `repr` parameter; the model does not spell
  it out (dictionary order is the interpreter's hash order).
- Daq.PadDigitalData: requires n > 0 (n is always 2500 here). With n = 0 the
  source raises ZeroDivisionError.
- Daq.SetDigitalLineState: a line number of 32 or more gives None. The
  source's uint32 multiplication would overflow there.
- **Instrument classes.** The DDS server's receive loop
  (`zmq_server`) is not part of this model; each handler is a function.
  `open_instrument`, `read_all_errors` and `get_save_data` of the GPIB
  classes, `NewportESP300` in gpib.py, and `help` of the SynthHD (a serial
  read) are not modelled beyond their dispatch.
- **Queuer widgets.** Beyond the 2D table, the `Ramp1DScan` and `Ramp2DScan`
  widgets are not modelled. The 1D scan's values are the rows given to
  `Add1dScanRamps`.
- **Dictionary order.** Python dictionaries iterate in insertion order. The
  model uses maps, so orders that depend on it are left open. This covers
  channels with equal ids in `reDoUi` and the keyframes being re-parented.
  `Server.SelectChannels` takes the channel list in order.

## Findings

| source | as written | input that shows it | evidently intended | confidence | as-written member | corrected member |
|---|---|---|---|---|---|---|
| rampage/server.py:733-739 | the residue test `steps - round(steps) > 0.0001` only catches times above a grid point | a keyframe at absolute time 2.6 with jump_resolution 1.0: the residue is -0.4, so no error is reported | flag any time whose step count is more than 0.0001 from the nearest integer | high; not executed | Server.AsWrittenPassesOffGridKeyFrame | Server.OffGridMeansFarFromEveryInteger |
| rampage/daq/extGPIB_server.py:102 | `np.around` is called, but `np` is never imported in that module | `{'axis': '1', 'position': -0.1}` passes both checks and then raises NameError | write `1PA-0.1` and reply success 1 | high; not executed | Esp300.AsWrittenValidMoveRaises | Esp300.RoundedTargetInRange |
| rampage/ramps.py:34-52 | the constructor bakes the given dictionary without unbaking it, so `__abs_time__` values already in it are trusted | keyframes `{"a": time 2.0, no parent, `__abs_time__` 1.0}`: the list reports 1.0 as the absolute time of "a" | every absolute time recomputed from the times and parents | medium; not executed | KeyFrames.StaleCacheTrusted | KeyFrameLists.KeyFrameList.Clean |
| rampage/widgets/KeyFrameWidgets.py:434-439 | after `set_name`, the editor calls `parent_widget.handleKeyNameChanged`, which the ramp editor does not define, so a rename raises AttributeError; the lines that follow never run and no channel learns the new name | keyframe "a" and a channel with a segment on "a", renamed to "b": the channel keeps a segment on "a", which is no longer a keyframe | each channel's segment on the old name moves to the new one, so every segment stays on a keyframe | high; not executed | RampEditors.RenameOrphansSegment | RampEditors.KeyRenameKeepsSegments |

Other quirks are modelled as written:

- **SynthHD channel check.** It accepts `True` (equal to 1) and `1.0`, and
  writes them as "CTrue…" and "C1.0…".
- **Hook name mismatch.** The hooks call `set_freq` on the microwave client,
  but the server offers `mw_set_freq`, so such a request gets the error reply.
- **`read_position`.** It loops over `range(1)`, so only axis 1 is queried.
- **`set_output` and the builders.** `set_output` tests truthiness. The
  command builders test `output_state is True`, so a state of 1 gives OUTP OFF.
- **`flatten_dict`.** It lists no string values, though its docstring example
  lists one.
- **Line 27.** The line-27 trigger of Dev3 is added onto the digital word,
  and line 27 is also a digital channel. `Daq.MergedWordBits` states the
  result only when that line is low.
- **`callback_step`.** The first one is not truncated, but every later one is
  truncated by `int()`. `Daq.CallbackTask.constructor` and
  `Daq.CallbackTask.EveryNCallback` keep that difference.
- **`check_ramp_for_errors`.** It bakes absolute times into the keyframes of
  the document it inspects.

=== FILE: channel_widgets.dfy ===
/**
 * The data rules of the channel editor: which keyframes of a channel show a
 * segment and which an add button, what a new segment holds, and what
 * deleting a segment, changing its ramp type, editing its parameters and
 * toggling a digital state do to the channel's `keys` dictionary.
 *
 * A segment widget edits the very dictionary the channel holds under its
 * key, so the segment operations are stated on the channel, by key name.
 */
module ChannelWidgets {
  import opened Text
  import opened KeyFrames
  import opened KeyFrameLists
  import opened Ramps

  /** No entry occurs twice. */
  predicate NoDup(s: seq<string>)
  {
    forall i, j :: 0 <= i < j < |s| ==> s[i] != s[j]
  }

  /** The entries of `s` that are (`present`) or are not keys of `keys`, in order. */
  function Filter(s: seq<string>, keys: map<string, Segment>, present: bool): (r: seq<string>)
    ensures forall k :: k in r <==> k in s && (k in keys <==> present)
  {
    if |s| == 0 then []
    else
      var rest := Filter(s[..|s| - 1], keys, present);
      var k := s[|s| - 1];
      assert forall j :: j in s <==> j in s[..|s| - 1] || j == k;
      if (k in keys) == present then rest + [k] else rest
  }

  /** `s` with every occurrence of `x` removed. */
  function Without(s: seq<string>, x: string): (r: seq<string>)
    ensures forall k :: k in r <==> k in s && k != x
  {
    if |s| == 0 then []
    else
      var rest := Without(s[..|s| - 1], x);
      assert forall j :: j in s <==> j in s[..|s| - 1] || j == s[|s| - 1];
      if s[|s| - 1] == x then rest else rest + [s[|s| - 1]]
  }

  lemma {:induction false} FilterNoDup(s: seq<string>, keys: map<string, Segment>, present: bool)
    requires NoDup(s)
    ensures NoDup(Filter(s, keys, present))
  {
    if |s| > 0 {
      var front := s[..|s| - 1];
      assert NoDup(front);
      FilterNoDup(front, keys, present);
    }
  }

  lemma {:induction false} WithoutNoDup(s: seq<string>, x: string)
    requires NoDup(s)
    ensures NoDup(Without(s, x))
  {
    if |s| > 0 {
      var front := s[..|s| - 1];
      assert NoDup(front);
      WithoutNoDup(front, x);
      var rest := Without(front, x);
      var last := s[|s| - 1];
      assert forall j :: 0 <= j < |front| ==> front[j] != last;
      if last != x {
        forall j | 0 <= j < |rest|
          ensures rest[j] != last
        {
          assert rest[j] in rest;
        }
      }
    }
  }

  /** Cutting out the one occurrence of `x` from a list without repeats is removing `x`. */
  lemma {:induction false} CutIsWithout(s: seq<string>, i: int)
    requires NoDup(s) && 0 <= i < |s|
    ensures s[..i] + s[i + 1..] == Without(s, s[i])
  {
    var x := s[i];
    var front := s[..|s| - 1];
    assert NoDup(front);
    if i == |s| - 1 {
      WithoutAbsent(front, x);
      assert s[..i] + s[i + 1..] == front;
    } else {
      CutIsWithout(front, i);
      assert s[..i] + s[i + 1..] == (front[..i] + front[i + 1..]) + [s[|s| - 1]];
    }
  }

  lemma {:induction false} WithoutAbsent(s: seq<string>, x: string)
    requires x !in s
    ensures Without(s, x) == s
  {
    if |s| > 0 {
      WithoutAbsent(s[..|s| - 1], x);
      assert s[..|s| - 1] + [s[|s| - 1]] == s;
    }
  }

  /**
   * Every keyframe of a list without repeats lands in exactly one of the
   * two filtered lists.
   */
  lemma {:induction false} FilterPartitions(s: seq<string>, keys: map<string, Segment>)
    ensures multiset(Filter(s, keys, true)) + multiset(Filter(s, keys, false)) == multiset(s)
  {
    if |s| > 0 {
      var front, k := s[..|s| - 1], s[|s| - 1];
      FilterPartitions(front, keys);
      var last := [k];
      assert s == front + last;
      if k in keys {
        assert Filter(s, keys, true) == Filter(front, keys, true) + last;
        assert Filter(s, keys, false) == Filter(front, keys, false);
      } else {
        assert Filter(s, keys, true) == Filter(front, keys, true);
        assert Filter(s, keys, false) == Filter(front, keys, false) + last;
      }
    }
  }

  // ---------------------------------------------------------------------
  // New segments.
  // ---------------------------------------------------------------------

  /** Each of the given parameters set to 0.0. */
  function ZeroData(params: seq<string>): (r: map<string, real>)
    ensures forall p :: p in r <==> p in params
    ensures forall p :: p in r ==> r[p] == 0.0
  {
    map p | p in params :: 0.0
  }

  /**
   * The segment `handleAddSegment` creates with ramp type `rampType`; only
   * a digital channel's segment has a `state`, and it is off.
   */
  function NewSegment(rampType: string, params: seq<string>, chType: string): Segment
  {
    Segment(rampType, ZeroData(params), if chType == "digital" then Some(false) else None)
  }

  /** `t` is the alphabetically first of `names`. */
  predicate IsFirst(t: string, names: set<string>)
  {
    t in names && forall x :: x in names ==> LessEq(t, x)
  }

  /** The head of `sorted(names)` is the alphabetically first name, and the only one. */
  lemma FirstOfSorted(names: set<string>, t: string)
    requires names != {}
    ensures IsFirst(SortedKeys(names)[0], names)
    ensures IsFirst(t, names) <==> t == SortedKeys(names)[0]
  {
    var r := SortedKeys(names);
    forall x | x in names
      ensures LessEq(r[0], x)
    {
      var j :| 0 <= j < |r| && r[j] == x;
    }
    if IsFirst(t, names) {
      assert LessEq(t, r[0]) && LessEq(r[0], t);
      if t != r[0] {
        LessAsymmetric(t, r[0]);
      }
    }
  }

  /** The analog table's first ramp type is "cubic", the digital table's "jump". */
  lemma FirstRampTypes()
    ensures IsFirst("cubic", AnalogRampTypes.Keys)
    ensures IsFirst("jump", DigitalRampTypes.Keys)
  {
    assert AnalogRampTypes.Keys == {"jump", "quadratic", "linear", "cubic", "sine", "quadratic2", "exp"};
    assert DigitalRampTypes.Keys == {"jump", "pulsetrain"};
    assert Less("cubic", "jump") && Less("cubic", "quadratic") && Less("cubic", "linear");
    assert Less("cubic", "sine") && Less("cubic", "quadratic2") && Less("cubic", "exp");
    assert Less("jump", "pulsetrain");
  }

  // ---------------------------------------------------------------------
  // Segment edits, on values.
  // ---------------------------------------------------------------------

  /**
   * `handleValueChanged`: the values go to the parameters in order, as far
   * as the shorter of the two lists reaches.
   */
  function Assigned(data: map<string, real>, names: seq<string>, values: seq<real>): map<string, real>
    decreases |names|
  {
    if |names| == 0 || |values| == 0 then data
    else Assigned(data[names[0] := values[0]], names[1..], values[1..])
  }

  /**
   * `r` is `data` with parameter i set to value i (as far as both lists
   * reach): the other entries keep theirs, and no other entry appears.
   */
  predicate Positional(data: map<string, real>, names: seq<string>, values: seq<real>, r: map<string, real>)
  {
    (forall i :: 0 <= i < |names| && i < |values| ==> names[i] in r && r[names[i]] == values[i]) &&
    (forall p :: p in data && p !in names ==> p in r && r[p] == data[p]) &&
    (forall p :: p in r ==> p in data || p in names)
  }

  /** With distinct parameter names, `handleValueChanged` assigns positionally. */
  lemma {:induction false} AssignedPositional(data: map<string, real>, names: seq<string>, values: seq<real>)
    requires NoDup(names) && |names| <= |values|
    ensures Positional(data, names, values, Assigned(data, names, values))
    decreases |names|
  {
    if |names| > 0 {
      var d1 := data[names[0] := values[0]];
      var tail, vtail := names[1..], values[1..];
      assert NoDup(tail);
      AssignedPositional(d1, tail, vtail);
      var r := Assigned(data, names, values);
      assert r == Assigned(d1, tail, vtail);
      assert forall i :: 0 <= i < |tail| ==> tail[i] == names[i + 1] && vtail[i] == values[i + 1];
      forall i | 0 <= i < |names|
        ensures names[i] in r && r[names[i]] == values[i]
      {
        if i > 0 {
          assert tail[i - 1] == names[i];
        } else {
          assert names[0] !in tail by {
            forall j | 0 <= j < |tail|
              ensures tail[j] != names[0]
            {
              assert tail[j] == names[j + 1];
            }
          }
        }
      }
      forall p | p in data && p !in names
        ensures p in r && r[p] == data[p]
      {
        assert p !in tail;
      }
      forall p | p in r
        ensures p in data || p in names
      {
        assert p in d1 || p in tail;
      }
    }
  }

  // ---------------------------------------------------------------------
  // The channel editor.
  // ---------------------------------------------------------------------

  /**
   * `QChannel`: the channel's name and dictionary, its table of ramp types,
   * and the keyframes that show a segment and those that show an add button.
   */
  class ChannelEditor {
    var chName: string
    var data: ChannelData
    var rampTypes: map<string, seq<string>>
    var segments: seq<string>
    var addButtons: seq<string>

    /**
     * Segments and add buttons never repeat a keyframe; a keyframe with a
     * segment is one of the channel's keys, one with an add button is not.
     */
    ghost predicate Valid()
      reads this
    {
      NoDup(segments) && NoDup(addButtons) &&
      (forall k :: k in segments ==> k in data.keys) &&
      (forall k :: k in addButtons ==> k !in data.keys)
    }

    constructor (name: string, d: ChannelData, kfl: KeyFrameList, types: map<string, seq<string>>)
      requires kfl.Ready()
      modifies kfl
      ensures chName == name && data == d && rampTypes == types
      ensures kfl.Ready() && kfl.isBaked && FillsFrom(old(kfl.dct), kfl.dct)
      ensures old(kfl.Valid()) ==> kfl.Valid()
      ensures Valid()
      ensures multiset(segments) + multiset(addButtons) == multiset(kfl.dct.Keys)
    {
      chName, data, rampTypes := name, d, types;
      segments, addButtons := [], [];
      new;
      ghost var skl := SetupUi(kfl);
      SortedKeyListMultiset(kfl.dct, skl);
      FilterPartitions(skl, data.keys);
    }

    /**
     * `setupUi`: in sorted keyframe order (by the cached times, stale ones
     * included), a keyframe of the channel gets a segment and any other
     * keyframe an add button.
     */
    method SetupUi(kfl: KeyFrameList) returns (ghost skl: seq<string>)
      requires kfl.Ready()
      modifies this, kfl
      ensures kfl.Ready() && kfl.isBaked && FillsFrom(old(kfl.dct), kfl.dct)
      ensures chName == old(chName) && data == old(data) && rampTypes == old(rampTypes)
      ensures CacheSorted(kfl.dct, skl)
      ensures old(kfl.Valid()) ==> kfl.Valid() && IsSortedKeyList(kfl.dct, skl)
      ensures segments == Filter(skl, data.keys, true) && addButtons == Filter(skl, data.keys, false)
      ensures Valid()
    {
      var segs, adds;
      segs, adds, skl := SplitSortedKeys(kfl, data.keys);
      PlaceWidgets(segs, adds);
    }

    /** Records the segment widgets and add buttons `setupUi` placed in the grid. */
    method PlaceWidgets(segs: seq<string>, adds: seq<string>)
      modifies this
      ensures segments == segs && addButtons == adds
      ensures chName == old(chName) && data == old(data) && rampTypes == old(rampTypes)
    {
      segments, addButtons := segs, adds;
    }

    /**
     * `edit_channel_info`: the channel takes its new name and the edited
     * dictionary; with the same keys the segments and add buttons still fit.
     */
    method EditChannelInfo(newName: string, d: ChannelData)
      modifies this
      ensures chName == newName && data == d && rampTypes == old(rampTypes)
      ensures segments == old(segments) && addButtons == old(addButtons)
      ensures old(Valid()) && d.keys == old(data.keys) ==> Valid()
    {
      chName, data := newName, d;
    }

    /**
     * `handleAddSegment`: when the keyframe shows an add button, the button
     * goes, the keyframe gets a segment of the alphabetically first ramp
     * type with every parameter at 0.0, and it joins the segments.
     */
    method HandleAddSegment(keyname: string)
      requires Valid() && (keyname in addButtons ==> |rampTypes| > 0)
      modifies this
      ensures Valid()
      ensures chName == old(chName) && rampTypes == old(rampTypes)
      ensures keyname !in old(addButtons) ==>
        data == old(data) && segments == old(segments) && addButtons == old(addButtons)
      ensures keyname in old(addButtons) ==>
        var t := SortedKeys(rampTypes.Keys)[0];
        t in rampTypes &&
        data == old(data).(keys := old(data.keys)[keyname := NewSegment(t, rampTypes[t], data.chType)]) &&
        segments == old(segments) + [keyname] &&
        addButtons == Without(old(addButtons), keyname)
    {
      var index := FirstIndex(addButtons, keyname);
      if index != -1 {
        CutIsWithout(addButtons, index);
        addButtons := addButtons[..index] + addButtons[index + 1..];
        var t := FirstRampType(rampTypes);
        data := data.(keys := data.keys[keyname := NewSegment(t, rampTypes[t], data.chType)]);
        segments := segments + [keyname];
        WithoutNoDup(old(addButtons), keyname);
      }
    }

    /**
     * `handleDeleteSegment`: when the keyframe shows a segment, the segment
     * goes, its entry leaves the channel's keys, and it gets an add button.
     */
    method HandleDeleteSegment(keyname: string)
      requires Valid()
      modifies this
      ensures Valid()
      ensures chName == old(chName) && rampTypes == old(rampTypes)
      ensures keyname !in old(segments) ==>
        data == old(data) && segments == old(segments) && addButtons == old(addButtons)
      ensures keyname in old(segments) ==>
        data == old(data).(keys := old(data.keys) - {keyname}) &&
        segments == Without(old(segments), keyname) &&
        addButtons == old(addButtons) + [keyname]
    {
      var index := LastIndex(segments, keyname);
      if index != -1 {
        CutIsWithout(segments, index);
        segments := segments[..index] + segments[index + 1..];
        WithoutNoDup(old(segments), keyname);
        assert keyname in data.keys;
        forall j | 0 <= j < |addButtons|
          ensures addButtons[j] != keyname
        {
          assert addButtons[j] in addButtons;
        }
        data := data.(keys := data.keys - {keyname});
        addButtons := addButtons + [keyname];
      }
    }

    /**
     * `handleRampTypeChanged`: "delete" asks for the segment's deletion and
     * changes nothing; any other type replaces the segment's type and sets
     * exactly that type's parameters to 0.0.
     */
    method HandleRampTypeChanged(keyname: string, itemText: string) returns (deleteRequested: bool)
      requires Valid() && keyname in data.keys && (itemText == "delete" || itemText in rampTypes)
      modifies this
      ensures Valid()
      ensures chName == old(chName) && rampTypes == old(rampTypes)
      ensures segments == old(segments) && addButtons == old(addButtons)
      ensures deleteRequested <==> itemText == "delete"
      ensures deleteRequested ==> data == old(data)
      ensures !deleteRequested ==>
        data == old(data).(keys := old(data.keys)[keyname := old(data.keys)[keyname].(
          rampType := itemText, rampData := ZeroData(rampTypes[itemText]))])
    {
      if itemText == "delete" {
        deleteRequested := true;
      } else {
        deleteRequested := false;
        var seg := data.keys[keyname];
        data := data.(keys := data.keys[keyname := seg.(rampType := itemText, rampData := ZeroData(rampTypes[itemText]))]);
      }
    }

    /**
     * `handleValueChanged`: the new values go to the segment's parameters
     * one by one, in the order its ramp type lists them.
     */
    method HandleValueChanged(keyname: string, newValues: seq<real>)
      requires Valid() && keyname in data.keys && data.keys[keyname].rampType in rampTypes
      modifies this
      ensures Valid()
      ensures chName == old(chName) && rampTypes == old(rampTypes)
      ensures segments == old(segments) && addButtons == old(addButtons)
      ensures var seg := old(data.keys)[keyname];
        data == old(data).(keys := old(data.keys)[keyname := seg.(
          rampData := Assigned(seg.rampData, rampTypes[seg.rampType], newValues))])
    {
      var seg := data.keys[keyname];
      var names := rampTypes[seg.rampType];
      var rd := seg.rampData;
      var i := 0;
      while i < |names| && i < |newValues|
        invariant 0 <= i <= |names| && i <= |newValues|
        invariant Assigned(rd, names[i..], newValues[i..]) == Assigned(seg.rampData, names, newValues)
      {
        assert names[i..][1..] == names[i + 1..] && newValues[i..][1..] == newValues[i + 1..];
        rd := rd[names[i] := newValues[i]];
        i := i + 1;
      }
      data := data.(keys := data.keys[keyname := seg.(rampData := rd)]);
    }

    /** `handleBoolButtonClicked`: the segment's state becomes the button's. */
    method HandleBoolButtonClicked(keyname: string, checked: bool)
      requires Valid() && keyname in data.keys
      modifies this
      ensures Valid()
      ensures chName == old(chName) && rampTypes == old(rampTypes)
      ensures segments == old(segments) && addButtons == old(addButtons)
      ensures data == old(data).(keys := old(data.keys)[keyname := old(data.keys)[keyname].(state := Some(checked))])
    {
      data := data.(keys := data.keys[keyname := data.keys[keyname].(state := Some(checked))]);
    }
  }

  /** The search loop of `handleAddSegment`: the first position of `x`, or -1. */
  method FirstIndex(s: seq<string>, x: string) returns (index: int)
    ensures index == -1 <==> x !in s
    ensures index != -1 ==> 0 <= index < |s| && s[index] == x && x !in s[..index]
  {
    index := -1;
    var i := 0;
    while i < |s|
      invariant 0 <= i <= |s|
      invariant x !in s[..i]
    {
      if s[i] == x {
        index := i;
        break;
      }
      i := i + 1;
    }
    if index == -1 {
      assert s[..i] == s;
    }
  }

  /** The search loop of `handleDeleteSegment`, which runs to the end: the last position of `x`, or -1. */
  method LastIndex(s: seq<string>, x: string) returns (index: int)
    ensures index == -1 <==> x !in s
    ensures index != -1 ==> 0 <= index < |s| && s[index] == x && x !in s[index + 1..]
  {
    index := -1;
    var i := 0;
    while i < |s|
      invariant 0 <= i <= |s|
      invariant index == -1 ==> x !in s[..i]
      invariant index != -1 ==> 0 <= index < i && s[index] == x && x !in s[index + 1..i]
    {
      if s[i] == x {
        index := i;
      } else if index != -1 {
        assert s[index + 1..i + 1] == s[index + 1..i] + [s[i]];
      }
      i := i + 1;
    }
    if index == -1 {
      assert s[..i] == s;
    } else {
      assert s[index + 1..i] == s[index + 1..];
    }
  }

  /** `sorted(ramp_types.keys())[0]`: the alphabetically first ramp type. */
  method FirstRampType(types: map<string, seq<string>>) returns (t: string)
    requires |types| > 0
    ensures t in types && IsFirst(t, types.Keys) && t == SortedKeys(types.Keys)[0]
  {
    assert types.Keys != {} by {
      var k :| k in types;
    }
    MinimumExists(types.Keys);
    t :| t in types.Keys && forall x :: x in types.Keys ==> LessEq(t, x);
    FirstOfSorted(types.Keys, t);
  }

  /** The loop of `setupUi`: each keyframe in turn to the segments or the add buttons. */
  method SplitByKeys(keys: seq<string>, chKeys: map<string, Segment>) returns (segments: seq<string>, addButtons: seq<string>)
    ensures segments == Filter(keys, chKeys, true) && addButtons == Filter(keys, chKeys, false)
  {
    segments, addButtons := [], [];
    var i := 0;
    while i < |keys|
      invariant 0 <= i <= |keys|
      invariant segments == Filter(keys[..i], chKeys, true)
      invariant addButtons == Filter(keys[..i], chKeys, false)
    {
      assert keys[..i + 1][..i] == keys[..i];
      if keys[i] in chKeys {
        segments := segments + [keys[i]];
      } else {
        addButtons := addButtons + [keys[i]];
      }
      i := i + 1;
    }
    assert keys[..i] == keys;
  }

  /** A repeated entry occurs at least twice in the multiset. */
  lemma RepeatCounts(s: seq<string>, i: int, j: int)
    requires 0 <= i < j < |s|
    ensures s[i] == s[j] ==> multiset(s)[s[i]] >= 2
  {
    assert s == s[..i] + [s[i]] + s[i + 1..j] + [s[j]] + s[j + 1..];
  }

  /** The sorted key list, split into the keys of the channel and the others. */
  method SplitSortedKeys(kfl: KeyFrameList, chKeys: map<string, Segment>)
    returns (segs: seq<string>, adds: seq<string>, ghost skl: seq<string>)
    requires kfl.Ready()
    modifies kfl
    ensures kfl.Ready() && kfl.isBaked && FillsFrom(old(kfl.dct), kfl.dct)
    ensures CacheSorted(kfl.dct, skl)
    ensures old(kfl.Valid()) ==> kfl.Valid() && IsSortedKeyList(kfl.dct, skl)
    ensures segs == Filter(skl, chKeys, true) && adds == Filter(skl, chKeys, false)
    ensures NoDup(segs) && NoDup(adds)
  {
    var keys := kfl.SortedKeyList();
    skl := keys;
    SplitNoDup(kfl.dct, keys, chKeys);
    segs, adds := SplitByKeys(keys, chKeys);
  }

  /** Splitting a list of every key once gives two lists without repeats. */
  lemma SplitNoDup(d: Frames, skl: seq<string>, keys: map<string, Segment>)
    requires KeyList(d, skl)
    ensures NoDup(Filter(skl, keys, true)) && NoDup(Filter(skl, keys, false))
  {
    SortedKeyListNoDup(d, skl);
    FilterNoDup(skl, keys, true);
    FilterNoDup(skl, keys, false);
  }

  /** A list of every key once has no repeats. */
  lemma SortedKeyListNoDup(d: Frames, skl: seq<string>)
    requires KeyList(d, skl)
    ensures NoDup(skl)
  {
    forall i, j | 0 <= i < j < |skl|
      ensures skl[i] != skl[j]
    {
      RepeatCounts(skl, i, j);
    }
  }

  /** A list of every key once holds exactly the keys of the dictionary. */
  lemma SortedKeyListMultiset(d: Frames, skl: seq<string>)
    requires KeyList(d, skl)
    ensures multiset(skl) == multiset(d.Keys)
  {
    forall k
      ensures multiset(skl)[k] == multiset(d.Keys)[k]
    {
    }
  }
}

=== FILE: daq.dfy ===
/**
 * The arithmetic of the digital-output driver: the experiment's clock
 * settings, the padding of a word array to a multiple of the callback
 * period, the two samples that set one digital line, the line-24 pulse
 * train, the merge of the two analog-clock trigger lines into the digital
 * words, and the counter machine that fires timed callbacks while a task
 * runs. The National Instruments driver itself is not modelled: a write is
 * the (line name, samples) pair handed to it.
 */
module Daq {
  import opened Text
  import opened Json
  import Server

  // ---------------------------------------------------------------------
  // Experiment settings.
  // ---------------------------------------------------------------------

  const Dev2ClockOut: nat := 31
  const Dev2ClockOutName: string := "Dev1/port0/line31"
  const Dev3ClockOut: nat := 27
  const Dev3ClockOutName: string := "Dev1/port0/line27"
  /** Seconds between two callback events. */
  const CallbackResolution: real := 0.01
  /** Hz. */
  const ExtClockFrequency: real := 250000.0

  /** `n_wait`: clock samples between two callback events. */
  function SamplesPerCallback(): (n: int)
    ensures n == 2500
  {
    Trunc(ExtClockFrequency * CallbackResolution)
  }

  /** A word of the 32-bit digital port. */
  const WordRange: int := 0x1_0000_0000

  function Wrap(x: int): (w: int)
    ensures 0 <= w < WordRange
  {
    x % WordRange
  }

  /** Bit k of a non-negative word. */
  function Bit(w: nat, k: nat): (b: nat)
    ensures b < 2
  {
    if k == 0 then w % 2 else Bit(w / 2, k - 1)
  }

  // ---------------------------------------------------------------------
  // Padding.
  // ---------------------------------------------------------------------

  /**
   * `padDigitalData`: the words unchanged when their count is a multiple of
   * n, else followed by as many copies of the last word as make it one.
   */
  function PadDigitalData(data: seq<int>, n: int): (r: seq<int>)
    requires n > 0
    ensures |data| % n == 0 ==> r == data
    ensures |data| <= |r|
    ensures r[..|data|] == data
    ensures forall i :: |data| <= i < |r| ==> r[i] == data[|data| - 1]
  {
    if |data| % n == 0 then data
    else data + seq(n - |data| % n, _ => data[|data| - 1])
  }

  lemma MulSign(k: int, n: int)
    requires n > 0
    ensures k > 0 ==> k * n >= n
    ensures k <= 0 ==> k * n <= 0
  {
  }

  lemma MultipleMod(k: int, n: int)
    requires n > 0
    ensures (k * n) % n == 0
  {
    Server.DivUnique(k * n, n, k, 0);
  }

  lemma MultiplesApart(a: int, b: int, n: int)
    requires n > 0 && a % n == 0 && b % n == 0 && a < b
    ensures a + n <= b
  {
    var p, q := a / n, b / n;
    assert a == p * n;
    assert b == q * n;
    assert b - a == (q - p) * n;
    MulSign(q - p, n);
  }

  /**
   * The padded length is the least multiple of n that is not below the
   * original length.
   */
  lemma PadDigitalDataLength(data: seq<int>, n: int)
    requires n > 0
    ensures |PadDigitalData(data, n)| % n == 0
    ensures |data| <= |PadDigitalData(data, n)| < |data| + n
    ensures forall m :: |data| <= m && m % n == 0 ==> |PadDigitalData(data, n)| <= m
  {
    var l0, r := |data|, |PadDigitalData(data, n)|;
    if l0 % n != 0 {
      assert r == l0 + n - l0 % n;
      assert l0 == (l0 / n) * n + l0 % n;
      assert r == (l0 / n + 1) * n;
      MultipleMod(l0 / n + 1, n);
    }
    forall m | l0 <= m && m % n == 0
      ensures r <= m
    {
      if m < r {
        MultiplesApart(m, r, n);
      }
    }
  }

  // ---------------------------------------------------------------------
  // Single-line writes.
  // ---------------------------------------------------------------------

  /** What is handed to the digital-output driver: a line name and its samples. */
  datatype Write = Write(lines: string, samples: seq<int>)

  /**
   * `set_digital_line_state`: the bit is the integer after the last `line`
   * of the name; both samples hold that bit when the state is true and are
   * 0 otherwise. A name with no such integer is a ValueError (None); a bit
   * outside the 32-bit port is also None (see README).
   */
  function SetDigitalLineState(lineName: string, state: bool): (r: Option<Write>)
    ensures r.Some? <==> Server.LineNumber(lineName).Some? && 0 <= Server.LineNumber(lineName).value < 32
    ensures r.Some? ==> r.value.lines == lineName && |r.value.samples| == 2
  {
    match Server.LineNumber(lineName)
    case None => None
    case Some(bits) =>
      if 0 <= bits < 32 then
        var v := if state then Server.Pow2(bits) else 0;
        Some(Write(lineName, [v, v]))
      else None
  }

  /**
   * On a name that ends in `line` and a bit number, both samples have
   * exactly that bit set (state true) or no bit set (state false).
   */
  lemma LineStateSetsItsBit(prefix: string, n: nat, state: bool)
    requires n < 32
    ensures var r := SetDigitalLineState(prefix + "line" + NatToString(n), state);
      r.Some? && forall i, k :: 0 <= i < 2 && 0 <= k < 32 ==>
        Bit(r.value.samples[i], k) == (if state && k == n then 1 else 0)
  {
    LineNumberAfterLine(prefix, n);
    var v := if state then Server.Pow2(n) else 0;
    assert SetDigitalLineState(prefix + "line" + NatToString(n), state) ==
      Some(Write(prefix + "line" + NatToString(n), [v, v]));
    forall k: nat | k < 32
      ensures Bit(v, k) == (if state && k == n then 1 else 0)
    {
      if state {
        PowerBit(n, k);
      } else {
        BitOfZero(k);
      }
    }
  }

  /** The number after the last `line` of a name is read back. */
  lemma LineNumberAfterLine(prefix: string, n: nat)
    ensures Server.LineNumber(prefix + "line" + NatToString(n)) == Some(n)
  {
    var digits := NatToString(n);
    assert Unambiguous("line") by {
      assert "line"[..3] == "lin";
    }
    assert Last("line") !in digits by {
      assert forall k :: 0 <= k < |digits| ==> digits[k] != 'e';
    }
    SplitLastPiece(prefix, "line", digits);
    ParseIntToString(n);
    assert IntToString(n) == digits;
  }

  /** 2^n has bit n set and no other. */
  lemma {:induction false} PowerBit(n: nat, k: nat)
    ensures Bit(Server.Pow2(n), k) == (if k == n then 1 else 0)
  {
    if k > 0 {
      if n == 0 {
        BitOfZero(k - 1);
      } else {
        PowerBit(n - 1, k - 1);
      }
    }
  }

  lemma {:induction false} BitOfZero(k: nat)
    ensures Bit(0, k) == 0
  {
    if k > 0 {
      BitOfZero(k - 1);
    }
  }

  /**
   * `reset_analog_sample_clock`: the two clock-out lines are written in
   * turn, Dev2's first.
   */
  function ResetAnalogSampleClock(state: bool): seq<Option<Write>>
  {
    [SetDigitalLineState(Dev2ClockOutName, state), SetDigitalLineState(Dev3ClockOutName, state)]
  }

  lemma ClockOutLine(prefix: string, n: nat)
    requires 10 <= n < 100
    ensures Server.LineNumber(prefix + "line" + Pad2(n)) == Some(n)
  {
    assert "line"[..3] == "lin";
    SplitLastPiece(prefix, "line", Pad2(n));
    Pad2Value(n);
  }

  /**
   * The clock-out line names agree with the clock-out bit numbers: the
   * reset writes bit 31 of Dev2's line and bit 27 of Dev3's.
   */
  lemma ClockOutNamesMatchBits(state: bool)
    ensures var r := ResetAnalogSampleClock(state);
      |r| == 2 && r[0].Some? && r[1].Some? &&
      r[0].value.lines == Dev2ClockOutName && r[1].value.lines == Dev3ClockOutName &&
      r[0].value.samples == (if state then [Server.Pow2(Dev2ClockOut), Server.Pow2(Dev2ClockOut)] else [0, 0]) &&
      r[1].value.samples == (if state then [Server.Pow2(Dev3ClockOut), Server.Pow2(Dev3ClockOut)] else [0, 0])
  {
    assert Pad2(31) == "31" && Pad2(27) == "27";
    assert Dev2ClockOutName == Server.LinePort + "line" + Pad2(31);
    assert Dev3ClockOutName == Server.LinePort + "line" + Pad2(27);
    ClockOutLine(Server.LinePort, 31);
    ClockOutLine(Server.LinePort, 27);
  }

  // ---------------------------------------------------------------------
  // The line-24 pulse train.
  // ---------------------------------------------------------------------

  const PulseLine: string := "Dev1/port0/line24"
  /** 2^24, the sample value that drives line 24 high. */
  const Line24High: int := 0x100_0000

  /**
   * `p24_pulse_train`: bit 24 alternates low/high sample by sample and the
   * last sample is forced low. With no samples the final assignment is an
   * IndexError (None).
   */
  function P24PulseTrain(n: nat): (r: Option<Write>)
    ensures r.Some? <==> n > 0
    ensures r.Some? ==> r.value.lines == PulseLine && |r.value.samples| == n
  {
    if n == 0 then None
    else
      var samples := seq(n, i => (i % 2) * Line24High);
      Some(Write(PulseLine, samples[n - 1 := 0]))
  }

  function CountHigh(s: seq<int>): nat
  {
    if |s| == 0 then 0 else CountHigh(s[..|s| - 1]) + (if s[|s| - 1] != 0 then 1 else 0)
  }

  /**
   * Every sample is 0 or 2^24; the train ends low; it holds (n - 1) / 2
   * high samples, each followed by a low one.
   */
  lemma PulseTrainShape(n: nat)
    requires n > 0
    ensures var s := P24PulseTrain(n).value.samples;
      (forall i :: 0 <= i < n ==> s[i] == 0 || s[i] == Line24High) &&
      s[n - 1] == 0 &&
      (forall i :: 0 <= i < n - 1 && s[i] != 0 ==> s[i + 1] == 0) &&
      CountHigh(s) == (n - 1) / 2
  {
    var s := P24PulseTrain(n).value.samples;
    var full := seq(n, i => (i % 2) * Line24High);
    PulseCount(full, n - 1);
    assert s[..n - 1] == full[..n - 1];
    assert CountHigh(s) == CountHigh(full[..n - 1]);
  }

  lemma {:induction false} PulseCount(full: seq<int>, m: nat)
    requires m <= |full|
    requires forall i :: 0 <= i < |full| ==> full[i] == (i % 2) * Line24High
    ensures CountHigh(full[..m]) == m / 2
  {
    if m > 0 {
      PulseCount(full, m - 1);
      assert full[..m][..m - 1] == full[..m - 1];
    }
  }

  // ---------------------------------------------------------------------
  // Trigger lines on the digital port.
  // ---------------------------------------------------------------------

  /**
   * Element i of an array that numpy broadcasts onto n elements: a
   * one-element array stands for all of them.
   */
  function Broadcast(t: seq<int>, i: nat): int
    requires |t| == 1 || i < |t|
  {
    if |t| == 1 then t[0] else t[i]
  }

  predicate Broadcastable(t: seq<int>, n: nat)
  {
    |t| == n || |t| == 1
  }

  /**
   * The merge in `create_all_tasks`: the Dev2 trigger line scaled to bit 31
   * and then the Dev3 trigger line scaled to bit 27 are added in place to
   * the unsigned 32-bit words, each step wrapping around. A trigger line
   * whose length numpy cannot broadcast is a ValueError (None).
   */
  function MergeTriggers(words: seq<int>, trig2: seq<int>, trig3: seq<int>): (r: Option<seq<int>>)
    ensures r.Some? <==> Broadcastable(trig2, |words|) && Broadcastable(trig3, |words|)
    ensures r.Some? ==> |r.value| == |words|
  {
    if Broadcastable(trig2, |words|) && Broadcastable(trig3, |words|) then
      Some(seq(|words|, i requires 0 <= i < |words| =>
        MergedWord(words[i], Broadcast(trig2, i), Broadcast(trig3, i))))
    else None
  }

  /** 2 ** dev2_clock_out and 2 ** dev3_clock_out. */
  const Bit31: int := 0x8000_0000
  const Bit27: int := 0x800_0000

  function MergedWord(w: int, t2: int, t3: int): int
  {
    var step := Wrap(w + Wrap(t2 * Bit31));
    Wrap(step + Wrap(t3 * Bit27))
  }

  /**
   * Adding bit n (or nothing) to a word whose bit n is clear sets bit n to
   * exactly that and leaves every other bit alone.
   */
  lemma {:induction false} AddClearBit(w: nat, b: nat, n: nat, k: nat)
    requires Bit(w, n) == 0 && b < 2
    ensures Bit(w + b * Server.Pow2(n), k) == (if k == n then b else Bit(w, k))
  {
    if n == 0 {
      if k > 0 {
        assert (w + b) / 2 == w / 2;
      }
    } else {
      var p := Server.Pow2(n - 1);
      assert b * Server.Pow2(n) == 2 * (b * p);
      if k > 0 {
        assert (w + 2 * (b * p)) / 2 == w / 2 + b * p;
        AddClearBit(w / 2, b, n - 1, k - 1);
      }
    }
  }

  /** A word below 2^n has no bit at n or above. */
  lemma {:induction false} HighBitsClear(w: nat, n: nat, k: nat)
    requires w < Server.Pow2(n) && n <= k
    ensures Bit(w, k) == 0
  {
    if n == 0 {
      BitOfZero(k);
    } else if k > 0 {
      HighBitsClear(w / 2, n - 1, k - 1);
    }
  }

  /** Below 2^(n+m) with bit n clear, adding bit n stays below 2^(n+m). */
  lemma {:induction false} ClearBitRoom(w: nat, n: nat, m: nat)
    requires w < Server.Pow2(n + m) && Bit(w, n) == 0 && m > 0
    ensures w + Server.Pow2(n) < Server.Pow2(n + m)
  {
    var h, r := w / 2, w % 2;
    assert w == 2 * h + r;
    if n == 0 {
      EvenPower(m);
      assert r == 0;
    } else {
      var q, p := Server.Pow2(n - 1 + m), Server.Pow2(n - 1);
      assert Server.Pow2(n + m) == 2 * q && Server.Pow2(n) == 2 * p;
      assert h < q;
      ClearBitRoom(h, n - 1, m);
      assert h + p < q;
    }
  }

  lemma EvenPower(m: nat)
    requires m > 0
    ensures Server.Pow2(m) % 2 == 0
  {
  }

  lemma Pow2Values()
    ensures Server.Pow2(27) == Bit27 && Server.Pow2(31) == Bit31 && WordRange == 2 * Bit31
  {
    assert Server.Pow2(8) == 256;
    Server.Pow2Add(8, 8);
    Server.Pow2Add(16, 8);
    Server.Pow2Add(24, 3);
    assert Server.Pow2(3) == 8;
    Server.Pow2Add(27, 4);
    assert Server.Pow2(4) == 16;
  }

  /**
   * On a word below 2^31 whose line-27 bit is clear (as the packed words
   * of the digital channels are when the line-27 channel stays low), with
   * 0/1 trigger samples, the merge never wraps: bit 31 carries the Dev2
   * trigger, bit 27 the Dev3 trigger, and every other bit is kept.
   */
  lemma MergedWordBits(w: nat, t2: nat, t3: nat)
    requires w < Server.Pow2(31) && Bit(w, 27) == 0 && t2 < 2 && t3 < 2
    ensures MergedWord(w, t2, t3) == w + t2 * Server.Pow2(31) + t3 * Server.Pow2(27)
    ensures Bit(MergedWord(w, t2, t3), 31) == t2
    ensures Bit(MergedWord(w, t2, t3), 27) == t3
    ensures forall k :: 0 <= k < 32 && k != 27 && k != 31 ==> Bit(MergedWord(w, t2, t3), k) == Bit(w, k)
  {
    Pow2Values();
    var x := w + t3 * Bit27;
    LowWordRoom(w, t3);
    MergeNoWrap(w, x, t2, t3);
    var m := MergedWord(w, t2, t3);
    assert m == x + t2 * Bit31;
    MergedBit(w, t2, t3, 31);
    MergedBit(w, t2, t3, 27);
    forall k | 0 <= k < 32 && k != 27 && k != 31
      ensures Bit(m, k) == Bit(w, k)
    {
      MergedBit(w, t2, t3, k);
    }
  }

  /** Bit k of the merged sum, before any wrap-around is considered. */
  lemma MergedBit(w: nat, t2: nat, t3: nat, k: nat)
    requires w < Bit31 && Bit(w, 27) == 0 && t2 < 2 && t3 < 2
    ensures w + t3 * Bit27 < Bit31
    ensures Bit(w + t3 * Bit27 + t2 * Bit31, k) == (if k == 31 then t2 else if k == 27 then t3 else Bit(w, k))
  {
    Pow2Values();
    var x := w + t3 * Bit27;
    LowWordRoom(w, t3);
    HighBitsClear(x, 31, 31);
    AddClearBit(x, t2, 31, k);
    AddClearBit(w, t3, 27, k);
  }

  /** Setting the clear bit 27 of a word below 2^31 keeps it below 2^31. */
  lemma LowWordRoom(w: nat, t3: nat)
    requires w < Server.Pow2(31) && Bit(w, 27) == 0 && t3 < 2
    ensures w + t3 * Server.Pow2(27) < Server.Pow2(31)
  {
    if t3 == 1 {
      ClearBitRoom(w, 27, 4);
    }
  }

  /** With the two additions in range, no wrap-around happens. */
  lemma MergeNoWrap(w: nat, x: nat, t2: nat, t3: nat)
    requires x == w + t3 * Bit27 && x < Bit31 && t2 < 2 && t3 < 2
    ensures MergedWord(w, t2, t3) == x + t2 * Bit31
  {
    if t2 == 0 {
      assert Wrap(w + Wrap(t2 * Bit31)) == w;
    } else {
      assert Wrap(w + Wrap(t2 * Bit31)) == w + Bit31;
    }
    if t3 == 0 {
      assert Wrap(t3 * Bit27) == 0;
    } else {
      assert Wrap(t3 * Bit27) == Bit27;
    }
  }

  /**
   * Word by word, the merged array carries the Dev2 trigger on bit 31 and
   * the Dev3 trigger on bit 27 and keeps every other bit of the digital
   * word, under the conditions of MergedWordBits.
   */
  lemma MergeTriggersBits(words: seq<int>, trig2: seq<int>, trig3: seq<int>, i: nat)
    requires Broadcastable(trig2, |words|) && Broadcastable(trig3, |words|) && i < |words|
    requires 0 <= words[i] < Server.Pow2(31) && Bit(words[i], 27) == 0
    requires 0 <= Broadcast(trig2, i) < 2 && 0 <= Broadcast(trig3, i) < 2
    ensures var r := MergeTriggers(words, trig2, trig3);
      r.Some? && Bit(r.value[i], 31) == Broadcast(trig2, i) && Bit(r.value[i], 27) == Broadcast(trig3, i) &&
      forall k :: 0 <= k < 32 && k != 27 && k != 31 ==> Bit(r.value[i], k) == Bit(words[i], k)
  {
    MergedWordBits(words[i], Broadcast(trig2, i), Broadcast(trig3, i));
  }

  // ---------------------------------------------------------------------
  // Timed callbacks.
  // ---------------------------------------------------------------------

  /** One function of a callback entry with the dictionary it is called with. */
  datatype Call = Call(func: string, args: map<string, Value>)

  /** An entry of the callback list: when to fire (seconds) and what to call. */
  datatype CallbackEntry = CallbackEntry(time: real, funcs: seq<Call>)

  /** The calls of the given entries, entry by entry and in order within each. */
  function CallsOf(entries: seq<CallbackEntry>): seq<Call>
  {
    if |entries| == 0 then [] else CallsOf(entries[..|entries| - 1]) + entries[|entries| - 1].funcs
  }

  /**
   * The state of `DigitalOutputTaskWithCallbacks`. When callbacks are not
   * configured the source leaves the index, step and functions unset; here
   * they hold 0 and the empty list. `fired` records every call made so far.
   */
  class CallbackTask {
    var lines: string
    var digitalData: seq<int>
    var nWait: int
    var nCallbacks: nat
    var isTaskDone: bool
    var doCallbacks: bool
    var latestCallbackIndex: nat
    var callbackStep: real
    var callbackFuncs: seq<Call>
    var callbackList: seq<CallbackEntry>
    ghost var fired: seq<Call>

    /**
     * The calls made so far are those of the entries before the current
     * one; while enabled the current entry's functions are loaded, and once
     * disabled every entry has been used.
     */
    ghost predicate Valid()
      reads this
    {
      latestCallbackIndex <= |callbackList| &&
      fired == CallsOf(callbackList[..latestCallbackIndex]) &&
      (doCallbacks ==>
        latestCallbackIndex < |callbackList| &&
        callbackFuncs == callbackList[latestCallbackIndex].funcs) &&
      (!doCallbacks ==> latestCallbackIndex == |callbackList|)
    }

    /**
     * `__init__`: the words are padded to a multiple of `n_wait`; callbacks
     * are on exactly when a non-empty list is given, starting at its first
     * entry, whose step is its time over the resolution (not truncated).
     */
    constructor (lineNames: string, data: seq<int>, callbacks: Option<seq<CallbackEntry>>)
      ensures Valid()
      ensures lines == lineNames && nWait == 2500 && digitalData == PadDigitalData(data, 2500)
      ensures nCallbacks == 0 && !isTaskDone && fired == []
      ensures doCallbacks <==> callbacks.Some? && |callbacks.value| > 0
      ensures doCallbacks ==>
        callbackList == callbacks.value && latestCallbackIndex == 0 &&
        callbackStep == callbacks.value[0].time / CallbackResolution &&
        callbackFuncs == callbacks.value[0].funcs
    {
      lines := lineNames;
      var n := SamplesPerCallback();
      nWait := n;
      nCallbacks := 0;
      digitalData := PadDigitalData(data, n);
      isTaskDone := false;
      fired := [];
      callbackStep, callbackFuncs := 0.0, [];
      if callbacks.None? || |callbacks.value| == 0 {
        doCallbacks := false;
        latestCallbackIndex, callbackList := 0, [];
      } else {
        doCallbacks := true;
        latestCallbackIndex := 0;
        var out := callbacks.value[0];
        callbackStep := out.time / CallbackResolution;
        callbackFuncs := out.funcs;
        callbackList := callbacks.value;
      }
    }

    /**
     * `EveryNCallback`: once enabled and the event count has reached the
     * step, the current functions run in order and the next entry (with a
     * truncated step) is loaded, or callbacks stop after the last one. The
     * event count grows by one on every call and the result is always 0.
     */
    method EveryNCallback() returns (ret: int, ran: seq<Call>)
      requires Valid()
      modifies this
      ensures Valid()
      ensures ret == 0 && nCallbacks == old(nCallbacks) + 1
      ensures fired == old(fired) + ran
      ensures var due := old(doCallbacks) && old(nCallbacks) as real >= old(callbackStep);
        ran == (if due then old(callbackFuncs) else []) &&
        latestCallbackIndex == old(latestCallbackIndex) + (if due then 1 else 0) &&
        (due && doCallbacks ==>
          callbackStep == Trunc(callbackList[latestCallbackIndex].time / CallbackResolution) as real) &&
        (!due ==>
          doCallbacks == old(doCallbacks) && callbackStep == old(callbackStep) &&
          callbackFuncs == old(callbackFuncs))
      ensures callbackList == old(callbackList) && isTaskDone == old(isTaskDone)
      ensures lines == old(lines) && digitalData == old(digitalData) && nWait == old(nWait)
    {
      ran := [];
      if doCallbacks {
        if nCallbacks as real >= callbackStep {
          ran := callbackFuncs;
          assert callbackList[..latestCallbackIndex + 1][..latestCallbackIndex] == callbackList[..latestCallbackIndex];
          fired := fired + ran;
          latestCallbackIndex := latestCallbackIndex + 1;
          if latestCallbackIndex >= |callbackList| {
            doCallbacks := false;
          } else {
            var out := callbackList[latestCallbackIndex];
            callbackStep := Trunc(out.time / CallbackResolution) as real;
            callbackFuncs := out.funcs;
          }
        }
      }
      nCallbacks := nCallbacks + 1;
      ret := 0;
    }

    /** `DoneCallback`: the DAQ task is marked done; the result is 0. */
    method DoneCallback() returns (ret: int)
      modifies this
      ensures ret == 0 && isTaskDone
      ensures nCallbacks == old(nCallbacks) && doCallbacks == old(doCallbacks)
      ensures latestCallbackIndex == old(latestCallbackIndex) && callbackStep == old(callbackStep)
      ensures callbackFuncs == old(callbackFuncs) && callbackList == old(callbackList)
      ensures lines == old(lines) && digitalData == old(digitalData) && nWait == old(nWait)
      ensures fired == old(fired)
    {
      isTaskDone := true;
      ret := 0;
    }
  }
}

=== FILE: dds.dfy ===
/**
 * The DDS comb server: each request names a channel A to D (either case)
 * and integer settings; a request that passes every range check sends one
 * space-separated command to the comb and replies `{'success': 1}`, any
 * other replies `{'success': 0}` and sends nothing. The UDP socket is the
 * `sent` list of the outcome.
 */
module Dds {
  import opened Text
  import opened Json
  import opened Requests

  const ChannelNames: seq<string> := ["A", "B", "C", "D", "a", "b", "c", "d"]

  /** `ch in ['A', ..., 'd']`: only an equal string matches. */
  predicate ChannelOk(ch: Value)
  {
    ch.Str? && ch.s in ChannelNames
  }

  /** `type(v) == int and lo <= v <= hi`: a bool or a float is refused. */
  predicate IntIn(v: Value, lo: int, hi: int)
  {
    v.Int? && lo <= v.i <= hi
  }

  /** `ch.capitalize()` of an accepted channel. */
  function Capitalized(ch: Value): (c: char)
    requires ChannelOk(ch)
    ensures c in "ABCD"
  {
    Upper(ch.s[0])
  }

  /** `op + ch + ' ' + str(v) + ' '`. */
  function Command(op: char, ch: char, v: int): string
  {
    [op, ch] + " " + IntToString(v) + " "
  }

  /**
   * The shape shared by `set_freq`, `set_amp`, `set_phase` and `ramp_amp`:
   * read the setting and the channel (a missing key raises), check the
   * channel, then the setting, then send. A command is sent exactly when
   * both checks pass, and the reply says so.
   */
  function ChannelCommand(op: char, field: string, lo: int, hi: int, mesg: Value): (r: Outcome)
    ensures r.Raised? <==> Field(mesg, field).None? || Field(mesg, "ch").None?
    ensures r.Reply? ==>
      (r.reply == Success(true) <==> ChannelOk(mesg.d["ch"]) && IntIn(mesg.d[field], lo, hi)) &&
      (r.reply == Success(true) ==>
        r.sent == [Command(op, Capitalized(mesg.d["ch"]), mesg.d[field].i)]) &&
      (r.reply != Success(true) ==> r.reply == Success(false) && r.sent == [])
  {
    var v, ch := Field(mesg, field), Field(mesg, "ch");
    if v.None? || ch.None? then Raised(FieldError(mesg))
    else if !ChannelOk(ch.value) then Reply(Success(false), [])
    else if !IntIn(v.value, lo, hi) then Reply(Success(false), [])
    else Reply(Success(true), [Command(op, Capitalized(ch.value), v.value.i)])
  }

  /** `set_freq`: 30 kHz to 175 MHz, command `F`. */
  function SetFreq(mesg: Value): Outcome
  {
    ChannelCommand('F', "freq", 30000, 175000000, mesg)
  }

  /** `set_amp`: 0 to 100, command `A`. */
  function SetAmp(mesg: Value): Outcome
  {
    ChannelCommand('A', "amp", 0, 100, mesg)
  }

  /** `set_phase`: 0 to 359, command `P`. */
  function SetPhase(mesg: Value): Outcome
  {
    ChannelCommand('P', "phase", 0, 359, mesg)
  }

  /** `ramp_amp`: 0 to 255, command `U`. */
  function RampAmp(mesg: Value): Outcome
  {
    ChannelCommand('U', "ramp_time", 0, 255, mesg)
  }

  lemma Unspaced(v: int)
    ensures ' ' !in IntToString(v)
  {
    var s := IntToString(v);
    if v < 0 {
      assert s == "-" + NatToString(-v);
      forall k | 0 <= k < |s|
        ensures s[k] != ' '
      {
        if k > 0 {
          assert s[k] == NatToString(-v)[k - 1];
        }
      }
    }
  }

  /**
   * The comb reads a command back: split on spaces it gives the operation
   * and channel, the decimal setting, and an empty tail; the setting parses
   * to the value sent.
   */
  lemma CommandFields(op: char, ch: char, v: int)
    requires op != ' ' && ch != ' '
    ensures Split(Command(op, ch, v), " ") == [[op, ch], IntToString(v), ""]
    ensures ParseInt(Split(Command(op, ch, v), " ")[1]) == Some(v)
  {
    var parts := [[op, ch], IntToString(v), ""];
    Unspaced(v);
    assert Join(parts[2..], " ") == "";
    assert Join(parts[1..], " ") == IntToString(v) + " " + "";
    assert Command(op, ch, v) == Join(parts, " ");
    forall i | 0 <= i < |parts|
      ensures Last(" ") !in parts[i]
    {
    }
    SplitJoin(parts, " ");
    ParseIntToString(v);
  }

  /** `int(float(step_time) / 4) * 4`. */
  function RoundStepTime(t: int): int
  {
    Trunc(t as real / 4.0) * 4
  }

  /** An accepted step time is rounded down to a multiple of 4, by less than 4. */
  lemma RoundStepTimeBounds(t: int)
    requires 4 <= t
    ensures RoundStepTime(t) % 4 == 0
    ensures t - 4 < RoundStepTime(t) <= t
    ensures RoundStepTime(t) >= 4
  {
    var q := Trunc(t as real / 4.0);
    assert q == (t as real / 4.0).Floor;
    assert q as real <= t as real / 4.0 < q as real + 1.0;
  }

  function SweepCommand(ch: char, high: int, low: int, step: int, time: int): string
  {
    ['S', ch] + " " + IntToString(high) + " " + IntToString(low) + " " +
    IntToString(step) + " " + IntToString(time) + " "
  }

  predicate SweepAccepted(low: Value, high: Value, step: Value, time: Value, ch: Value)
  {
    ChannelOk(ch) && IntIn(low, 30000, 175000000) && IntIn(high, 30000, 175000000) &&
    high.i >= low.i && IntIn(step, 1, 175000000) && IntIn(time, 4, 65000)
  }

  /**
   * `sweep_freq`: the channel, both ends, their order, the step size and the
   * step time are checked in turn; an accepted sweep sends `S`, the channel,
   * the high and the low frequency, the step size and the rounded step
   * time.
   */
  function SweepFreq(mesg: Value): (r: Outcome)
    ensures r.Raised? <==>
      Field(mesg, "low_freq").None? || Field(mesg, "high_freq").None? ||
      Field(mesg, "step_size").None? || Field(mesg, "step_time").None? || Field(mesg, "ch").None?
    ensures r.Reply? ==>
      var d := mesg.d;
      (r.reply == Success(true) <==>
        SweepAccepted(d["low_freq"], d["high_freq"], d["step_size"], d["step_time"], d["ch"])) &&
      (r.reply == Success(true) ==>
        r.sent == [SweepCommand(Capitalized(d["ch"]), d["high_freq"].i, d["low_freq"].i,
                                d["step_size"].i, RoundStepTime(d["step_time"].i))]) &&
      (r.reply != Success(true) ==> r.reply == Success(false) && r.sent == [])
  {
    var low, high := Field(mesg, "low_freq"), Field(mesg, "high_freq");
    var step, time := Field(mesg, "step_size"), Field(mesg, "step_time");
    var ch := Field(mesg, "ch");
    if low.None? || high.None? || step.None? || time.None? || ch.None? then Raised(FieldError(mesg))
    else if !ChannelOk(ch.value) then Reply(Success(false), [])
    else if !IntIn(low.value, 30000, 175000000) then Reply(Success(false), [])
    else if !IntIn(high.value, 30000, 175000000) then Reply(Success(false), [])
    else if high.value.i < low.value.i then Reply(Success(false), [])
    else if !IntIn(step.value, 1, 175000000) then Reply(Success(false), [])
    else if !IntIn(time.value, 4, 65000) then Reply(Success(false), [])
    else
      Reply(Success(true), [SweepCommand(Capitalized(ch.value), high.value.i, low.value.i,
                                         step.value.i, RoundStepTime(time.value.i))])
  }

  /**
   * The comb reads a sweep back: six space-separated fields, the numbers
   * parsing to the high and low frequency, the step size and the step time
   * sent, the last field empty.
   */
  lemma SweepCommandFields(ch: char, high: int, low: int, step: int, time: int)
    requires ch != ' '
    ensures var f := Split(SweepCommand(ch, high, low, step, time), " ");
      f == [['S', ch], IntToString(high), IntToString(low), IntToString(step), IntToString(time), ""] &&
      ParseInt(f[1]) == Some(high) && ParseInt(f[2]) == Some(low) &&
      ParseInt(f[3]) == Some(step) && ParseInt(f[4]) == Some(time)
  {
    var parts := [['S', ch], IntToString(high), IntToString(low), IntToString(step), IntToString(time), ""];
    Unspaced(high);
    Unspaced(low);
    Unspaced(step);
    Unspaced(time);
    SweepCommandJoined(ch, IntToString(high), IntToString(low), IntToString(step), IntToString(time));
    SplitJoin(parts, " ");
    ParseIntToString(high);
    ParseIntToString(low);
    ParseIntToString(step);
    ParseIntToString(time);
  }

  /** The sweep command is its six fields joined by spaces, the last one empty. */
  lemma SweepCommandJoined(ch: char, a: string, b: string, c: string, d: string)
    ensures ['S', ch] + " " + a + " " + b + " " + c + " " + d + " " == Join([['S', ch], a, b, c, d, ""], " ")
  {
    var parts := [['S', ch], a, b, c, d, ""];
    var sp := " ";
    assert Join(parts[5..], sp) == "";
    assert Join(parts[4..], sp) == d + sp + "";
    assert Join(parts[3..], sp) == c + sp + Join(parts[4..], sp);
    assert Join(parts[2..], sp) == b + sp + Join(parts[3..], sp);
    assert Join(parts[1..], sp) == a + sp + Join(parts[2..], sp);
    assert Join(parts, sp) == ['S', ch] + sp + Join(parts[1..], sp);
  }

  /** `reset_phase`: sends `R`. */
  function ResetPhase(mesg: Value): Outcome
  {
    Reply(Success(true), ["R"])
  }

  /** `version`: sends `V`. */
  function Version(mesg: Value): Outcome
  {
    Reply(Success(true), ["V"])
  }

  /** `heartbeat`: sends `H` and replies with what the comb answers. */
  function Heartbeat(mesg: Value, answer: string): Outcome
  {
    Reply(Dict(map["reply" := Str(answer)]), ["H"])
  }

  /**
   * The three requests without settings ignore their message: each sends
   * its one-letter command; `reset_phase` and `version` always succeed and
   * `heartbeat` passes the comb's answer back.
   */
  lemma PlainRequests(m1: Value, m2: Value, answer: string)
    ensures ResetPhase(m1) == ResetPhase(m2) == Reply(Success(true), ["R"])
    ensures Version(m1) == Version(m2) == Reply(Success(true), ["V"])
    ensures var h := Heartbeat(m1, answer);
      h == Heartbeat(m2, answer) && h.Reply? && h.sent == ["H"] &&
      h.reply.Dict? && "reply" in h.reply.d && h.reply.d["reply"] == Str(answer)
  {
  }
}

=== FILE: esp300.dfy ===
/**
 * The ESP300 motion-controller server: `set_position` moves the barrier
 * axis to an absolute position inside the range the barrier is known to
 * travel, and `read_position` queries the axes. Requests reach the
 * handlers through the shared dispatch of the Requests module.
 */
module Esp300 {
  import opened Text
  import opened Json
  import opened Requests
  import Server

  /** The members of the server class, as `inspect.getmembers` lists them. */
  const Members: seq<string> := ["__init__", "_run", "open_instrument", "read_position", "set_position"]

  /** The barrier's travel, in the controller's units. */
  const MaxPos: real := -0.035
  const MinPos: real := -0.335

  /** `axis in ['1', '2', 1, 2]`, compared with Python's `==`. */
  predicate AxisOk(axis: Value)
  {
    PyEq(axis, Str("1")) || PyEq(axis, Str("2")) || PyEq(axis, Int(1)) || PyEq(axis, Int(2))
  }

  /** `type(pos) == float and min_pos <= pos <= max_pos`. */
  predicate PositionOk(pos: Value)
  {
    pos.Float? && MinPos <= pos.r <= MaxPos
  }

  /**
   * `set_position` as written: after both checks pass, the command is built
   * with `np.around`, but the module never imports `np`, so every accepted
   * request ends in a NameError before anything is written.
   */
  function SetPositionAsWritten(mesg: Value): (r: Outcome)
    ensures r.Reply? ==> r == Reply(Success(false), [])
  {
    var axis, pos := Field(mesg, "axis"), Field(mesg, "position");
    if axis.None? || pos.None? then Raised(FieldError(mesg))
    else if !AxisOk(axis.value) then Reply(Success(false), [])
    else if !PositionOk(pos.value) then Reply(Success(false), [])
    else Raised("NameError")
  }

  /** Every valid move request fails: no request ever moves the barrier. */
  lemma AsWrittenValidMoveRaises(axis: Value, pos: real)
    requires AxisOk(axis) && MinPos <= pos <= MaxPos
    ensures SetPositionAsWritten(Dict(map["axis" := axis, "position" := Float(pos)])) == Raised("NameError")
  {
  }

  /** `np.around(x, decimals=3)`: the nearest thousandth, ties to even. */
  function Around3(x: real): real
  {
    Server.RoundHalfEven(x * 1000.0) as real / 1000.0
  }

  /**
   * `set_position` with numpy imported, as intended: an accepted request
   * writes the axis, `PA` and the position rounded to three decimals, and
   * replies success.
   */
  function SetPosition(mesg: Value, show: real -> string): (r: Outcome)
    ensures r.Raised? <==> Field(mesg, "axis").None? || Field(mesg, "position").None?
    ensures r.Reply? ==>
      (r.reply == Success(true) <==> AxisOk(mesg.d["axis"]) && PositionOk(mesg.d["position"])) &&
      (r.reply == Success(true) ==>
        r.sent == [PyStr(mesg.d["axis"], show) + "PA" + show(Around3(mesg.d["position"].r))]) &&
      (r.reply != Success(true) ==> r.reply == Success(false) && r.sent == [])
  {
    var axis, pos := Field(mesg, "axis"), Field(mesg, "position");
    if axis.None? || pos.None? then Raised(FieldError(mesg))
    else if !AxisOk(axis.value) then Reply(Success(false), [])
    else if !PositionOk(pos.value) then Reply(Success(false), [])
    else Reply(Success(true), [PyStr(axis.value, show) + "PA" + show(Around3(pos.value.r))])
  }

  /**
   * The position the corrected handler writes is within half a thousandth
   * of the request and, because both limits are whole thousandths, never
   * outside the barrier's travel.
   */
  lemma RoundedTargetInRange(pos: real)
    requires MinPos <= pos <= MaxPos
    ensures MinPos <= Around3(pos) <= MaxPos
    ensures pos - 0.0005 <= Around3(pos) <= pos + 0.0005
  {
    var n := Server.RoundHalfEven(pos * 1000.0);
    assert -335.5 <= n as real <= -34.5;
    assert -335 <= n <= -35;
  }

  /** Whatever message it gets, `read_position` queries axis 1 only and replies success. */
  function ReadPosition(mesg: Value): (r: Outcome)
    ensures r == Reply(Success(true), ["1TP?"])
  {
    var numAxes := 2;
    var queries := seq(numAxes - 1, i => IntToString(i + 1) + "TP?");
    assert IntToString(1) == "1";
    assert |queries| == 1 && queries[0] == "1" + "TP?";
    assert "1" + "TP?" == "1TP?";
    assert queries == ["1TP?"];
    Reply(Success(true), queries)
  }

  /** The method a request name selects; `open_instrument` takes no message (TypeError). */
  function Handle(name: string, mesg: Value, show: real -> string): Outcome
  {
    if name == "set_position" then SetPosition(mesg, show)
    else if name == "read_position" then ReadPosition(mesg)
    else Raised("TypeError")
  }

  /** One request to the ESP300 server, with the corrected `set_position`. */
  function Serve(request: Value, show: real -> string): Outcome
  {
    Dispatch((set n | n in Members && Public(n)), request, (n, m) => Handle(n, m, show))
  }

  lemma PublicMembers()
    ensures (set n | n in Members && Public(n)) == {"open_instrument", "read_position", "set_position"}
  {
    assert "__init__"[0] == '_' && "_run"[0] == '_';
  }

  /**
   * The client's `set_position` and `read_position` reach their handlers;
   * an unknown name gets the error reply.
   */
  lemma ClientCalls(mesg: Value, show: real -> string, other: string)
    requires other !in Members
    ensures Serve(ClientRequest("set_position", mesg), show) == SetPosition(mesg, show)
    ensures Serve(ClientRequest("read_position", mesg), show) == Reply(Success(true), ["1TP?"])
    ensures Serve(ClientRequest(other, mesg), show) == Reply(NotValid, [])
  {
    PublicMembers();
  }
}

=== FILE: gpib.dfy ===
/**
 * The GPIB instrument helpers: the Agilent 33250A function generator is
 * programmed by one newline-joined write of SCPI commands, and the
 * Tektronix TDS1002 oscilloscope's curve reply is stripped of its header
 * and trailing newline and scaled. The VISA session is not modelled: a
 * builder returns the string it writes.
 */
module Gpib {
  import opened Text
  import opened Json

  /** A value `'{0}'.format` prints plainly: not a container. */
  predicate Scalar(v: Value)
  {
    !v.List? && !v.Dict?
  }

  /**
   * `'{0}'.format(v)`. A list or dictionary prints as its `repr`, which the
   * `repr` parameter stands for.
   */
  function Fmt(v: Value, show: real -> string, repr: Value -> string): string
  {
    if Scalar(v) then PyStr(v, show) else repr(v)
  }

  /** `set_output`: any truthy state switches the output on. */
  function SetOutput(state: Value): (cmd: string)
    ensures cmd == "OUTP ON" <==> Truthy(state)
    ensures cmd == "OUTP ON" || cmd == "OUTP OFF"
  {
    if Truthy(state) then "OUTP ON" else "OUTP OFF"
  }

  /** The closing command of every builder: only the object `True` means on. */
  function OutputCommand(outputState: Value): string
  {
    if outputState == Bool(true) then "OUTP ON" else "OUTP OFF"
  }

  /** `set_fm_ext`: the deviation defaults to the carrier frequency. */
  function SetFmExt(freq: Value, amplitude: Value, peakFreqDev: Value, outputState: Value,
                    show: real -> string, repr: Value -> string): seq<string>
  {
    var dev := if peakFreqDev == Null then freq else peakFreqDev;
    ["FUNC SIN", "FM:STAT ON", "FREQ " + Fmt(freq, show, repr), "FM:SOUR EXT",
     "FM:DEV " + Fmt(dev, show, repr), "VOLT " + Fmt(amplitude, show, repr), "VOLT:OFFS 0",
     OutputCommand(outputState)]
  }

  /** `int(period * freq)`; anything but two numbers is a TypeError (None). */
  function Cycles(period: Value, freq: Value): (n: Option<int>)
    ensures n.Some? <==> IsNumber(period) && IsNumber(freq)
  {
    if IsNumber(period) && IsNumber(freq) then Some(Trunc(ToReal(period) * ToReal(freq))) else None
  }

  /** `set_burst`: externally triggered bursts of `int(period * freq)` cycles. */
  function SetBurst(freq: Value, amplitude: Value, period: Value, outputState: Value,
                    show: real -> string, repr: Value -> string): Option<seq<string>>
  {
    match Cycles(period, freq)
    case None => None
    case Some(ncyc) =>
      Some(["FUNC SIN", "BURS:STAT ON", "BURS:MODE TRIG", "TRIG:SOUR EXT", "TRIG:SLOP POS",
            "FREQ " + Fmt(freq, show, repr), "VOLT " + Fmt(amplitude, show, repr), "VOLT:OFFS 0",
            "BURS:NCYC " + IntToString(ncyc), OutputCommand(outputState)])
  }

  /** `set_continuous`: burst, sweep and modulation off. */
  function SetContinuous(freq: Value, amplitude: Value, offset: Value, outputState: Value,
                         show: real -> string, repr: Value -> string): seq<string>
  {
    ["FUNC SIN", "BURS:STAT OFF", "SWE:STAT OFF", "FM:STAT OFF", "FREQ " + Fmt(freq, show, repr),
     "VOLT " + Fmt(amplitude, show, repr), "VOLT:OFFS " + Fmt(offset, show, repr), OutputCommand(outputState)]
  }

  /** `set_freq_sweep`: an externally triggered sweep (the sweep state is set on twice). */
  function SetFreqSweep(startFreq: Value, stopFreq: Value, sweepTime: Value, amplitude: Value,
                        outputState: Value, show: real -> string, repr: Value -> string): seq<string>
  {
    ["FUNC SIN", "TRIG:SOUR EXT", "TRIG:SLOP POS", "SWE:STAT ON",
     "FREQ:STAR " + Fmt(startFreq, show, repr), "FREQ:STOP " + Fmt(stopFreq, show, repr),
     "SWE:TIME " + Fmt(sweepTime, show, repr), "VOLT " + Fmt(amplitude, show, repr), "VOLT:OFFS 0",
     "SWE:STAT ON", OutputCommand(outputState)]
  }

  /** The single write: `'\n'.join(commands)`. */
  function Written(commands: seq<string>): string
  {
    Join(commands, "\n")
  }

  /**
   * What every builder promises: it starts by selecting the sine function
   * and ends by switching the output on exactly when `output_state is
   * True`; and when no command holds a newline, the instrument splits the
   * write back into exactly the command list.
   */
  predicate WellBuilt(commands: seq<string>, outputState: Value)
  {
    |commands| >= 2 && commands[0] == "FUNC SIN" &&
    (commands[|commands| - 1] == "OUTP ON" <==> outputState == Bool(true)) &&
    (commands[|commands| - 1] == "OUTP ON" || commands[|commands| - 1] == "OUTP OFF") &&
    ((forall i :: 0 <= i < |commands| ==> '\n' !in commands[i]) ==> Split(Written(commands), "\n") == commands)
  }

  lemma WrittenSplits(commands: seq<string>)
    requires |commands| > 0
    ensures (forall i :: 0 <= i < |commands| ==> '\n' !in commands[i]) ==> Split(Written(commands), "\n") == commands
  {
    if forall i :: 0 <= i < |commands| ==> '\n' !in commands[i] {
      assert Unambiguous("\n");
      SplitJoin(commands, "\n");
    }
  }

  lemma SetFmExtWellBuilt(freq: Value, amplitude: Value, peakFreqDev: Value, outputState: Value,
                          show: real -> string, repr: Value -> string)
    ensures WellBuilt(SetFmExt(freq, amplitude, peakFreqDev, outputState, show, repr), outputState)
    ensures peakFreqDev == Null ==>
      SetFmExt(freq, amplitude, peakFreqDev, outputState, show, repr)[4] == "FM:DEV " + Fmt(freq, show, repr)
  {
    WrittenSplits(SetFmExt(freq, amplitude, peakFreqDev, outputState, show, repr));
  }

  lemma SetBurstWellBuilt(freq: Value, amplitude: Value, period: Value, outputState: Value,
                          show: real -> string, repr: Value -> string)
    ensures var c := SetBurst(freq, amplitude, period, outputState, show, repr);
      c.Some? <==> IsNumber(period) && IsNumber(freq)
    ensures var c := SetBurst(freq, amplitude, period, outputState, show, repr);
      c.Some? ==>
        WellBuilt(c.value, outputState) &&
        c.value[8] == "BURS:NCYC " + IntToString(Trunc(ToReal(period) * ToReal(freq)))
  {
    var c := SetBurst(freq, amplitude, period, outputState, show, repr);
    if c.Some? {
      WrittenSplits(c.value);
    }
  }

  lemma SetContinuousWellBuilt(freq: Value, amplitude: Value, offset: Value, outputState: Value,
                               show: real -> string, repr: Value -> string)
    ensures WellBuilt(SetContinuous(freq, amplitude, offset, outputState, show, repr), outputState)
  {
    WrittenSplits(SetContinuous(freq, amplitude, offset, outputState, show, repr));
  }

  lemma SetFreqSweepWellBuilt(startFreq: Value, stopFreq: Value, sweepTime: Value, amplitude: Value,
                              outputState: Value, show: real -> string, repr: Value -> string)
    ensures WellBuilt(SetFreqSweep(startFreq, stopFreq, sweepTime, amplitude, outputState, show, repr), outputState)
  {
    WrittenSplits(SetFreqSweep(startFreq, stopFreq, sweepTime, amplitude, outputState, show, repr));
  }

  /**
   * `set_output` tests truth but the builders test identity with `True`:
   * an output state of 1 switches the output on in one and off in the other.
   */
  lemma OneIsNotTrue(freq: Value, amplitude: Value, offset: Value, show: real -> string, repr: Value -> string)
    ensures SetOutput(Int(1)) == "OUTP ON"
    ensures var c := SetContinuous(freq, amplitude, offset, Int(1), show, repr); c[|c| - 1] == "OUTP OFF"
  {
  }

  // ---------------------------------------------------------------------
  // The oscilloscope curve.
  // ---------------------------------------------------------------------

  /** A byte of the raw reply. */
  type Byte = b: int | 0 <= b < 256

  /** `'\r\n'.join` of the commands that request the curve of a channel. */
  function CurveRequest(channel: Value, show: real -> string, repr: Value -> string): string
  {
    Join(["DATA:WIDTH 1", "DATA:STAR 1", "DATA:STOP 2500", "DATA:SOU CH" + Fmt(channel, show, repr), "CURV?"], "\r\n")
  }

  /** `raw[6:-1]`: Python slicing, empty when the reply is too short. */
  function CurveBytes(raw: seq<Byte>): (r: seq<Byte>)
    ensures |r| == if |raw| >= 7 then |raw| - 7 else 0
    ensures forall i :: 0 <= i < |r| ==> r[i] == raw[i + 6]
  {
    if |raw| >= 7 then raw[6..|raw| - 1] else []
  }

  /** A reply made of a six-byte header, the curve and a newline yields the curve. */
  lemma CurveBytesOfReply(header: seq<Byte>, curve: seq<Byte>)
    requires |header| == 6
    ensures CurveBytes(header + curve + [10]) == curve
  {
    var raw := header + curve + [10];
    assert raw[6..|raw| - 1] == curve;
  }

  /** `numpy.int8` of a byte. */
  function Int8(b: Byte): (v: int)
    ensures -128 <= v < 128
    ensures (v + 256) % 256 == b
  {
    if b >= 128 then b - 256 else b
  }

  /**
   * `get_data` after the reply: each curve byte read as a signed 8-bit
   * sample and scaled to volts, and the matching sample times over ten
   * horizontal divisions.
   */
  function GetData(raw: seq<Byte>, chPos: real, chSca: real, horScale: real): (r: (seq<real>, seq<real>))
    ensures |r.0| == |r.1| == |CurveBytes(raw)|
  {
    var data := CurveBytes(raw);
    var n := |data|;
    var volts := seq(n, i requires 0 <= i < n => ((Int8(data[i]) as real) * (10.0 / 256.0) - chPos) * chSca);
    var times := seq(n, i requires 0 <= i < n => (i as real) * 10.0 * horScale / (n as real));
    (times, volts)
  }

  /**
   * The scaling can be undone: with a non-zero scale each volt value gives
   * back its signed sample, and the times step evenly from 0 to just under
   * ten divisions.
   */
  lemma GetDataInverts(raw: seq<Byte>, chPos: real, chSca: real, horScale: real, i: nat)
    requires chSca != 0.0 && i < |CurveBytes(raw)|
    ensures var (times, volts) := GetData(raw, chPos, chSca, horScale);
      (volts[i] / chSca + chPos) * 25.6 == Int8(CurveBytes(raw)[i]) as real &&
      times[i] == (i as real) * (10.0 * horScale / (|CurveBytes(raw)| as real))
  {
    var d := Int8(CurveBytes(raw)[i]) as real;
    var v := (d * (10.0 / 256.0) - chPos) * chSca;
    assert v / chSca == d * (10.0 / 256.0) - chPos;
  }
}

=== FILE: json.dfy ===
/**
 * The JSON-like values that ramp documents, request messages and hook
 * dictionaries are made of, with the few Python built-ins applied to them
 * (`bool(x)`, `int(x)`, `str(x)`, `==` between numbers).
 */
module Json {
  import opened Text

  datatype Value =
    | Null
    | Bool(b: bool)
    | Int(i: int)
    | Float(r: real)
    | Str(s: string)
    | List(items: seq<Value>)
    | Dict(d: map<string, Value>)

  /** `bool(v)`. */
  predicate Truthy(v: Value)
  {
    match v
    case Null => false
    case Bool(b) => b
    case Int(i) => i != 0
    case Float(r) => r != 0.0
    case Str(s) => |s| > 0
    case List(items) => |items| > 0
    case Dict(d) => |d| > 0
  }

  /** Python numbers: `bool` is a subclass of `int`. */
  predicate IsNumber(v: Value)
  {
    v.Bool? || v.Int? || v.Float?
  }

  function ToReal(v: Value): real
    requires IsNumber(v)
  {
    match v
    case Bool(b) => if b then 1.0 else 0.0
    case Int(i) => i as real
    case Float(r) => r
  }

  /** `int(x)` of a float: truncation toward zero. */
  function Trunc(x: real): (n: int)
    ensures x >= 0.0 ==> n == x.Floor
    ensures (if x >= 0.0 then x else -x) - (if n >= 0 then n else -n) as real < 1.0
    ensures 0.0 <= (if x >= 0.0 then x else -x) - (if n >= 0 then n else -n) as real
  {
    if x >= 0.0 then x.Floor else -((-x).Floor)
  }

  /** `a == b` for Python values: numbers compare by value across types. */
  predicate PyEq(a: Value, b: Value)
  {
    if IsNumber(a) && IsNumber(b) then ToReal(a) == ToReal(b)
    else a == b
  }

  /**
   * `str(v)` of a scalar. How Python prints a float is not modelled: it is
   * the `show` parameter. Containers are never printed by the model.
   */
  function PyStr(v: Value, show: real -> string): string
    requires !v.List? && !v.Dict?
  {
    match v
    case Null => "None"
    case Bool(b) => if b then "True" else "False"
    case Int(i) => IntToString(i)
    case Float(r) => show(r)
    case Str(s) => s
  }
}

=== FILE: keyframe_list.dfy ===
/**
 * `KeyFrameList`: the object that owns a ramp's keyframe dictionary, keeps
 * the `__abs_time__` cache in it, and performs every edit of the keyframe
 * graph (each edit drops the cache, changes the dictionary, and rebuilds the
 * cache).
 */
module KeyFrameLists {
  import opened Text
  import opened Json
  import opened KeyFrames
  import Sorting

  /** The outcome of constructing a list: the object, or the KeyError raised. */
  datatype Built = Built(list: KeyFrameList) | UnknownParent(key: string, parent: string)

  // ---------------------------------------------------------------------
  // Hooks: the optional "hooks" dictionary of a keyframe.
  // ---------------------------------------------------------------------

  /** `list_hooks`: the names of the hooks attached to a keyframe. */
  function HookNames(kf: KeyFrame): set<string>
  {
    if kf.hooks.None? then {} else kf.hooks.value.Keys
  }

  /** `add_hook`: creates the hooks dictionary if needed, then stores the hook. */
  function WithHook(kf: KeyFrame, name: string, hook: Value): (r: KeyFrame)
    ensures HookNames(r) == HookNames(kf) + {name}
    ensures r.hooks.Some? && r.hooks.value[name] == hook
    ensures r.(hooks := kf.hooks) == kf
  {
    var hs := if kf.hooks.None? then map[] else kf.hooks.value;
    kf.(hooks := Some(hs[name := hook]))
  }

  /** `remove_hook`: the keyframe without the hook, and the hook removed (if any). */
  function WithoutHook(kf: KeyFrame, name: string): (r: (KeyFrame, Option<Value>))
    ensures HookNames(r.0) == HookNames(kf) - {name}
    ensures r.1.Some? <==> name in HookNames(kf)
    ensures r.1.Some? ==> r.1.value == kf.hooks.value[name]
    ensures r.0.(hooks := kf.hooks) == kf
  {
    if kf.hooks.Some? && name in kf.hooks.value then
      (kf.(hooks := Some(kf.hooks.value - {name})), Some(kf.hooks.value[name]))
    else (kf, None)
  }

  /** Removing a hook right after adding it gives the hook back. */
  lemma RemoveAddedHook(kf: KeyFrame, name: string, hook: Value)
    ensures WithoutHook(WithHook(kf, name, hook), name).1 == Some(hook)
    ensures HookNames(WithoutHook(WithHook(kf, name, hook), name).0) == HookNames(kf) - {name}
  {
  }

  class KeyFrameList {
    var dct: Frames
    var isBaked: bool

    /**
     * The graph is well-formed, every cached absolute time is right, and a
     * baked list has them all.
     */
    ghost predicate Valid()
      reads this
    {
      WellFormed(dct) && CacheSound(dct) && (isBaked ==> AllCached(dct))
    }

    /**
     * What the source itself keeps: the graph is well-formed and a baked
     * list has every time cached. The cached times may be stale (a document
     * saved after baking and edited since), and they are what the list
     * then reports.
     */
    ghost predicate Ready()
      reads this
    {
      WellFormed(dct) && (isBaked ==> AllCached(dct))
    }

    /**
     * The constructor: the dictionary is taken as it is, caches included,
     * and baked without being unbaked first, so every cached time is the
     * answer of `get_absolute_time` on `d`, which trusts the caches already
     * there. Those answers are the true absolute times exactly when the
     * caches of `d` were right.
     */
    constructor Init(d: Frames)
      requires WellFormed(d)
      ensures isBaked && WellFormed(dct) && AllCached(dct) && FillsFrom(d, dct)
      ensures forall k :: k in dct ==> Rooted(d, k) && dct[k].absTime == Some(CachedTime(d, k))
      ensures CacheSound(d) ==> Valid()
    {
      dct := d;
      isBaked := false;
      new;
      Bake();
    }

    /**
     * The constructor as it is evidently meant to work: stale caches are
     * dropped before baking, so the list is valid whatever `d` caches.
     */
    constructor Clean(d: Frames)
      requires WellFormed(d)
      ensures Valid() && isBaked && Uncached(dct) == Uncached(d)
      ensures forall k :: k in dct ==> Rooted(d, k) && dct[k].absTime == Some(AbsTime(d, k))
    {
      dct := d;
      isBaked := false;
      new;
      Unbake();
      SameUncachedAbsTime(d, dct);
      UncachedSound(dct);
      Bake();
      SameUncachedAbsTime(d, dct);
    }

    /**
     * `KeyFrameList(dct)`: a keyframe naming a parent that is not in the
     * dictionary is a KeyError; otherwise the list is built and baked as
     * `Init` does. (A cyclic parent chain would recurse without end and is
     * excluded.)
     */
    static method Create(d: Frames) returns (r: Built)
      requires ParentsKnown(d) ==> WellFormed(d)
      ensures r.UnknownParent? <==> !ParentsKnown(d)
      ensures r.UnknownParent? ==> r.key in d && d[r.key].parent == Some(r.parent) && r.parent !in d
      ensures r.Built? ==> fresh(r.list) && r.list.isBaked && AllCached(r.list.dct)
      ensures r.Built? ==> FillsFrom(d, r.list.dct)
      ensures r.Built? ==> forall k :: k in r.list.dct ==> r.list.dct[k].absTime == Some(CachedTime(d, k))
      ensures r.Built? && CacheSound(d) ==> r.list.Valid()
    {
      var keys := d.Keys;
      while keys != {}
        invariant keys <= d.Keys
        invariant forall k :: k in d && k !in keys && d[k].parent.Some? ==> d[k].parent.value in d
        decreases keys
      {
        var k :| k in keys;
        if d[k].parent.Some? && d[k].parent.value !in d {
          return UnknownParent(k, d[k].parent.value);
        }
        keys := keys - {k};
      }
      var l := new KeyFrameList.Init(d);
      r := Built(l);
    }

    /**
     * `get_absolute_time`: the cached time if there is one, otherwise the
     * relative time plus the parent's answer, which is then cached.
     */
    method GetAbsoluteTime(key: string) returns (t: real)
      requires WellFormed(dct) && key in dct
      modifies this
      ensures WellFormed(dct) && isBaked == old(isBaked)
      ensures FillsFrom(old(dct), dct)
      ensures t == CachedTime(old(dct), key) && dct[key].absTime == Some(t)
      ensures old(Ready()) ==> Ready()
      ensures old(Valid()) ==> Valid() && t == AbsTime(dct, key)
      decreases Height(dct, key)
    {
      ghost var d0 := dct;
      FillsReflexive(d0);
      var kf := dct[key];
      if kf.absTime.Some? {
        t := kf.absTime.value;
      } else {
        if kf.parent.None? {
          t := kf.time;
        } else {
          ParentRooted(dct, key);
          var pt := GetAbsoluteTime(kf.parent.value);
          t := kf.time + pt;
        }
        FillsStore(d0, dct, key);
        dct := dct[key := dct[key].(absTime := Some(t))];
      }
      SameUncachedAbsTime(d0, dct);
      if old(Valid()) {
        FillsSound(d0, dct);
        CachedTimeSound(d0, key);
      }
    }

    /**
     * `bake`: asks `get_absolute_time` for every keyframe, so that every
     * keyframe is cached (with the answers on the dictionary as it was).
     */
    method Bake()
      requires WellFormed(dct)
      modifies this
      ensures isBaked && WellFormed(dct) && AllCached(dct) && FillsFrom(old(dct), dct)
      ensures old(CacheSound(dct)) ==> Valid()
    {
      ghost var d0 := dct;
      FillsReflexive(d0);
      var keys := dct.Keys;
      while keys != {}
        invariant WellFormed(dct) && FillsFrom(d0, dct)
        invariant keys <= dct.Keys
        invariant forall k :: k in dct && k !in keys ==> dct[k].absTime.Some?
        decreases keys
      {
        var k :| k in keys;
        ghost var before := dct;
        var _ := GetAbsoluteTime(k);
        FillsTransitive(d0, before, dct);
        keys := keys - {k};
      }
      isBaked := true;
      if CacheSound(d0) {
        FillsSound(d0, dct);
      }
    }

    /** `unbake`: removes every cached absolute time. */
    method Unbake()
      modifies this
      ensures dct == Uncached(old(dct)) && !isBaked
    {
      var keys := dct.Keys;
      while keys != {}
        invariant dct.Keys == old(dct).Keys && keys <= dct.Keys
        invariant forall k :: k in dct ==> dct[k] == (if k in keys then old(dct)[k] else old(dct)[k].(absTime := None))
        decreases keys
      {
        var k :| k in keys;
        dct := dct[k := dct[k].(absTime := None)];
        keys := keys - {k};
      }
      isBaked := false;
    }

    /**
     * `sorted_key_list`: bakes if needed, then lists the keyframes in order
     * of their cached times, which are the absolute times when every cache
     * was right.
     */
    method SortedKeyList() returns (skl: seq<string>)
      requires Ready()
      modifies this
      ensures Ready() && isBaked && FillsFrom(old(dct), dct)
      ensures CacheSorted(dct, skl)
      ensures old(Valid()) ==> Valid() && IsSortedKeyList(dct, skl)
    {
      if !isBaked {
        Bake();
      } else {
        FillsReflexive(dct);
      }
      skl := SortByCache(dct);
      if old(Valid()) {
        CacheSortedIsSorted(dct, skl);
      }
    }

    /** `set_time`. */
    method SetTime(k: string, t: real)
      requires k in dct && WellFormed(WithTime(Uncached(dct), k, t))
      modifies this
      ensures Valid() && isBaked
      ensures Uncached(dct) == WithTime(Uncached(old(dct)), k, t)
    {
      Unbake();
      dct := dct[k := dct[k].(time := t)];
      UncachedIsClean(dct);
      Bake();
    }

    /** `set_comment`: the only edit that keeps the cache. */
    method SetComment(k: string, c: string)
      requires k in dct
      modifies this
      ensures dct == old(dct)[k := old(dct)[k].(comment := c)]
      ensures isBaked == old(isBaked)
      ensures old(Valid()) ==> Valid()
    {
      ghost var d0 := dct;
      dct := dct[k := dct[k].(comment := c)];
      if old(Valid()) {
        SameLinksValid(d0, dct);
      }
    }

    /** `set_parent`. */
    method SetParent(k: string, p: Option<string>)
      requires k in dct && WellFormed(WithParent(Uncached(dct), k, p))
      modifies this
      ensures Valid() && isBaked
      ensures Uncached(dct) == WithParent(Uncached(old(dct)), k, p)
    {
      Unbake();
      dct := dct[k := dct[k].(parent := p)];
      UncachedIsClean(dct);
      Bake();
    }

    /**
     * `set_name`: nothing happens when the names agree; otherwise the record
     * moves to the new name and its children follow it.
     */
    method SetName(o: string, n: string)
      requires o != n ==> o in dct && WellFormed(Renamed(Uncached(dct), o, n))
      modifies this
      ensures o == n ==> dct == old(dct) && isBaked == old(isBaked)
      ensures o != n ==> Valid() && isBaked && Uncached(dct) == Renamed(Uncached(old(dct)), o, n)
    {
      if o != n {
        Unbake();
        ghost var d0 := dct;
        dct := dct[n := dct[o]];
        dct := dct - {o};
        ghost var moved := dct;
        var keys := dct.Keys;
        while keys != {}
          invariant keys <= moved.Keys
          invariant dct == Relinked(moved, o, n, moved.Keys - keys)
          decreases keys
        {
          var j :| j in keys;
          RelinkedStep(moved, o, n, moved.Keys - keys, j);
          assert moved.Keys - (keys - {j}) == (moved.Keys - keys) + {j};
          if dct[j].parent == Some(o) {
            dct := dct[j := dct[j].(parent := Some(n))];
          }
          keys := keys - {j};
        }
        assert moved.Keys - keys == moved.Keys;
        RenamedByLoop(d0, moved, o, n);
        RenamedIsClean(d0, o, n);
        Bake();
      }
    }

    /** `add_keyframe`: stores the record under the name (over any old one). */
    method AddKeyframe(name: string, kf: KeyFrame)
      requires kf.absTime.None? && WellFormed(Uncached(dct)[name := kf])
      modifies this
      ensures Valid() && isBaked
      ensures Uncached(dct) == Uncached(old(dct))[name := kf]
    {
      Unbake();
      dct := dct[name := kf];
      UncachedIsClean(dct);
      Bake();
    }

    /**
     * `del_keyframe`: the children of the deleted keyframe are handed to
     * its parent.
     */
    method DelKeyframe(k: string)
      requires k in dct && WellFormed(Deleted(Uncached(dct), k))
      modifies this
      ensures Valid() && isBaked
      ensures Uncached(dct) == Deleted(Uncached(old(dct)), k)
    {
      Unbake();
      ghost var d0 := dct;
      var parentKey := dct[k].parent;
      var children := set j | j in dct && dct[j].parent == Some(k);
      var todo := children;
      while todo != {}
        invariant !isBaked
        invariant todo <= children && dct.Keys == d0.Keys
        invariant forall j :: j in dct ==>
          dct[j] == (if j in children && j !in todo then d0[j].(parent := parentKey) else d0[j])
        decreases todo
      {
        var c :| c in todo;
        dct := dct[c := dct[c].(parent := parentKey)];
        todo := todo - {c};
      }
      DeletedByLoop(d0, dct, k, children);
      dct := dct - {k};
      UncachedIsClean(dct);
      Bake();
    }

    /** `add_hook`. */
    method AddHook(k: string, name: string, hook: Value)
      requires k in dct
      modifies this
      ensures dct == old(dct)[k := WithHook(old(dct)[k], name, hook)]
      ensures isBaked == old(isBaked)
      ensures old(Valid()) ==> Valid()
    {
      ghost var d0 := dct;
      dct := dct[k := WithHook(dct[k], name, hook)];
      if old(Valid()) {
        SameLinksValid(d0, dct);
      }
    }

    /** `remove_hook`: returns the removed hook, or None when there was none. */
    method RemoveHook(k: string, name: string) returns (removed: Option<Value>)
      requires k in dct
      modifies this
      ensures k in dct
      ensures (dct[k], removed) == WithoutHook(old(dct)[k], name)
      ensures dct == old(dct)[k := dct[k]]
      ensures isBaked == old(isBaked)
      ensures old(Valid()) ==> Valid()
    {
      ghost var d0 := dct;
      var r := WithoutHook(dct[k], name);
      if r.1.Some? {
        dct := dct[k := r.0];
      }
      removed := r.1;
      if old(Valid()) {
        SameLinksValid(d0, dct);
      }
    }
  }

  /** The sorting step of `sorted_key_list`, on a dictionary with every time cached. */
  method SortByCache(d: Frames) returns (skl: seq<string>)
    requires WellFormed(d) && AllCached(d)
    ensures CacheSorted(d, skl)
  {
    var times := map k | k in d :: d[k].absTime.value;
    var key := (k: string) => if k in times then times[k] else 0.0;
    var le := (a: real, b: real) => a <= b;
    assert Sorting.TotalPreorder(le);
    var keys := d.Keys;
    skl := [];
    while keys != {}
      invariant keys <= d.Keys
      invariant forall k :: multiset(skl)[k] == (if k in d && k !in keys then 1 else 0)
      invariant Sorting.SortedBy(skl, key, le)
      decreases keys
    {
      var k :| k in keys;
      Sorting.InsertBySorted(k, skl, key, le);
      skl := Sorting.InsertBy(k, skl, key, le);
      keys := keys - {k};
    }
    forall i | 0 <= i < |skl|
      ensures skl[i] in d && key(skl[i]) == CachedTime(d, skl[i])
    {
      assert skl[i] in multiset(skl);
    }
  }

  /**
   * Changing anything but times, parents and caches (a comment, the hooks)
   * keeps a well-formed graph with a sound, complete cache so.
   */
  lemma SameLinksValid(d: Frames, e: Frames)
    requires WellFormed(d) && CacheSound(d) && d.Keys == e.Keys
    requires forall k :: k in d ==>
      e[k].time == d[k].time && e[k].parent == d[k].parent && e[k].absTime == d[k].absTime
    ensures WellFormed(e) && CacheSound(e)
    ensures AllCached(d) ==> AllCached(e)
  {
    assert Extends(d, e);
    forall k | k in d
      ensures Rooted(e, k) && AbsTime(e, k) == AbsTime(d, k)
    {
      ExtendsKeepsAbsTime(d, e, k);
    }
  }

  /** What the loop of `del_keyframe` leaves, less `k`, is `Deleted`. */
  lemma DeletedByLoop(d0: Frames, e: Frames, k: string, children: set<string>)
    requires k in d0 && children == set j | j in d0 && d0[j].parent == Some(k)
    requires e.Keys == d0.Keys
    requires forall j :: j in e ==> e[j] == (if j in children then d0[j].(parent := d0[k].parent) else d0[j])
    ensures e - {k} == Deleted(d0, k)
  {
    var r := e - {k};
    assert r.Keys == Deleted(d0, k).Keys;
    forall j | j in r
      ensures r[j] == Deleted(d0, k)[j]
    {
    }
  }

  /** `m` with the children of `o` among `done` moved to `n`. */
  function Relinked(m: Frames, o: string, n: string, done: set<string>): (r: Frames)
    ensures r.Keys == m.Keys
  {
    map j | j in m :: if j in done && m[j].parent == Some(o) then m[j].(parent := Some(n)) else m[j]
  }

  /** One step of the loop of `set_name`. */
  lemma RelinkedStep(m: Frames, o: string, n: string, done: set<string>, j: string)
    requires j in m && j !in done
    ensures var e := Relinked(m, o, n, done);
      Relinked(m, o, n, done + {j}) ==
        if e[j].parent == Some(o) then e[j := e[j].(parent := Some(n))] else e
  {
  }

  /** What the loop of `set_name` leaves is `Renamed`. */
  lemma RenamedByLoop(d0: Frames, moved: Frames, o: string, n: string)
    requires o in d0 && o != n && moved == d0[n := d0[o]] - {o}
    ensures Relinked(moved, o, n, moved.Keys) == Renamed(d0, o, n)
  {
  }

  /** Renaming in a dictionary without caches leaves none. */
  lemma RenamedIsClean(d: Frames, o: string, n: string)
    requires o in d && o != n && d == Uncached(d)
    ensures Uncached(Renamed(d, o, n)) == Renamed(d, o, n) && CacheSound(Renamed(d, o, n))
  {
    var r := Renamed(d, o, n);
    forall k | k in r
      ensures r[k].absTime.None?
    {
      var src := if k == n then o else k;
      assert src in d && Uncached(d)[src] == d[src];
    }
    UncachedIsClean(r);
  }

  /** A dictionary without caches is its own uncached form, with a sound cache. */
  lemma UncachedIsClean(d: Frames)
    requires forall k :: k in d ==> d[k].absTime.None?
    ensures Uncached(d) == d && CacheSound(d)
  {
    assert forall k :: k in d ==> d[k].(absTime := None) == d[k];
  }
}

=== FILE: keyframe_widgets.dfy ===
/**
 * The data rules of the keyframe editor: how the parent arrows are packed
 * into rows, which arrows a keyframe list draws, which parents the edit
 * dialog offers, and what inserting a keyframe before another, editing one
 * and changing a time do to the keyframe dictionary.
 */
module KeyFrameWidgets {
  import opened Text
  import opened KeyFrames
  import opened KeyFrameLists

  // ---------------------------------------------------------------------
  // Packing arrows into rows.
  // ---------------------------------------------------------------------

  /** An arrow joins two columns: the parent's index and the child's. */
  type Arrow = (nat, nat)

  function Lo(a: Arrow): nat { if a.0 <= a.1 then a.0 else a.1 }
  function Hi(a: Arrow): nat { if a.0 <= a.1 then a.1 else a.0 }

  /** The column x lies in the half-open span [Lo, Hi) of the arrow. */
  predicate InSpan(a: Arrow, x: int)
  {
    Lo(a) <= x < Hi(a)
  }

  /** Two arrows share a column of their spans. */
  predicate Overlap(a: Arrow, b: Arrow)
  {
    (if Lo(a) <= Lo(b) then Lo(b) else Lo(a)) < (if Hi(a) <= Hi(b) then Hi(a) else Hi(b))
  }

  lemma OverlapIffShared(a: Arrow, b: Arrow)
    ensures Overlap(a, b) <==> exists x :: InSpan(a, x) && InSpan(b, x)
  {
    if Overlap(a, b) {
      var x := if Lo(a) <= Lo(b) then Lo(b) else Lo(a);
      assert InSpan(a, x) && InSpan(b, x);
    }
  }

  /** The largest endpoint of the arrows (0 when there are none). */
  function MaxEnd(arrows: seq<Arrow>): nat
  {
    if |arrows| == 0 then 0
    else
      var m := MaxEnd(arrows[..|arrows| - 1]);
      var a := arrows[|arrows| - 1];
      var m1 := if m <= a.0 then a.0 else m;
      if m1 <= a.1 then a.1 else m1
  }

  /** Every endpoint is below the column count, and the count is 1 without arrows. */
  lemma {:induction false} MaxEndBounds(arrows: seq<Arrow>)
    ensures |arrows| == 0 ==> MaxEnd(arrows) + 1 == 1
    ensures forall i :: 0 <= i < |arrows| ==> arrows[i].0 <= MaxEnd(arrows) && arrows[i].1 <= MaxEnd(arrows)
    ensures |arrows| > 0 ==> exists i :: 0 <= i < |arrows| && (arrows[i].0 == MaxEnd(arrows) || arrows[i].1 == MaxEnd(arrows))
  {
    if |arrows| > 0 {
      var front := arrows[..|arrows| - 1];
      MaxEndBounds(front);
      forall i | 0 <= i < |arrows| - 1
        ensures arrows[i] == front[i]
      {
      }
      var m := MaxEnd(front);
      var a := arrows[|arrows| - 1];
      if !(m < MaxEnd(arrows)) && |front| > 0 {
        var i :| 0 <= i < |front| && (front[i].0 == m || front[i].1 == m);
        assert arrows[i] == front[i];
      }
    }
  }

  /** Some arrow placed before arrow j sits in row h and overlaps it. */
  ghost predicate Blocked(arrows: seq<Arrow>, heights: seq<nat>, j: int, h: int)
    requires 0 <= j < |arrows|
  {
    exists i :: 0 <= i < j && i < |heights| && heights[i] == h && Overlap(arrows[i], arrows[j])
  }

  ghost predicate RowUsed(heights: seq<nat>, h: int)
  {
    exists i :: 0 <= i < |heights| && heights[i] == h
  }

  /**
   * The first |heights| arrows are packed first-fit into `rows` rows: each
   * in the lowest row where it overlaps no arrow placed before it, every
   * row in use, and no two arrows of a row overlapping.
   */
  ghost predicate Packed(arrows: seq<Arrow>, heights: seq<nat>, rows: nat)
  {
    |heights| <= |arrows| &&
    (forall j :: 0 <= j < |heights| ==> heights[j] < rows) &&
    (forall h :: 0 <= h < rows ==> RowUsed(heights, h)) &&
    (forall i, j :: 0 <= i < j < |heights| && heights[i] == heights[j] ==> !Overlap(arrows[i], arrows[j])) &&
    (forall j :: 0 <= j < |heights| ==> !Blocked(arrows, heights, j, heights[j])) &&
    (forall j, h :: 0 <= j < |heights| && 0 <= h < heights[j] ==> Blocked(arrows, heights, j, h))
  }

  /** Placing the next arrow in the lowest row where it is not blocked keeps the packing first-fit. */
  lemma PackedStep(arrows: seq<Arrow>, heights: seq<nat>, rows: nat, height: nat)
    requires Packed(arrows, heights, rows) && |heights| < |arrows| && height <= rows
    requires forall h :: 0 <= h < height ==> Blocked(arrows, heights, |heights|, h)
    requires !Blocked(arrows, heights, |heights|, height)
    ensures Packed(arrows, heights + [height], if height == rows then rows + 1 else rows)
  {
    var hs := heights + [height];
    var n := |heights|;
    var rows' := if height == rows then rows + 1 else rows;
    forall j, h | 0 <= j < n && 0 <= h < rows'
      ensures Blocked(arrows, hs, j, h) == Blocked(arrows, heights, j, h)
    {
      if Blocked(arrows, heights, j, h) {
        var i :| 0 <= i < j && i < n && heights[i] == h && Overlap(arrows[i], arrows[j]);
        assert hs[i] == heights[i];
      }
      if Blocked(arrows, hs, j, h) {
        var i :| 0 <= i < j && i < |hs| && hs[i] == h && Overlap(arrows[i], arrows[j]);
        assert hs[i] == heights[i];
      }
    }
    forall h | 0 <= h < height
      ensures Blocked(arrows, hs, n, h)
    {
      assert Blocked(arrows, heights, n, h);
      var i :| 0 <= i < n && i < |heights| && heights[i] == h && Overlap(arrows[i], arrows[n]);
      assert hs[i] == h;
    }
    forall i | 0 <= i < n && hs[i] == height
      ensures !Overlap(arrows[i], arrows[n])
    {
      assert hs[i] == heights[i];
    }
    forall h | 0 <= h < rows'
      ensures RowUsed(hs, h)
    {
      if h < rows {
        assert RowUsed(heights, h);
        var i :| 0 <= i < |heights| && heights[i] == h;
        assert hs[i] == h;
      } else {
        assert hs[n] == h;
      }
    }
    forall i, j | 0 <= i < j < |hs| && hs[i] == hs[j]
      ensures !Overlap(arrows[i], arrows[j])
    {
      if j == n {
        assert hs[i] == heights[i];
      }
    }
  }

  /** A column x of row h is free when no arrow placed so far in h spans it. */
  ghost predicate FreeAt(arrows: seq<Arrow>, heights: seq<nat>, h: int, x: int)
    requires |heights| <= |arrows|
  {
    forall i :: 0 <= i < |heights| && heights[i] == h ==> !InSpan(arrows[i], x)
  }

  /** A row is free over the span of the next arrow exactly when that arrow is not blocked there. */
  lemma FreeSpanIffUnblocked(arrows: seq<Arrow>, heights: seq<nat>, h: int)
    requires |heights| < |arrows|
    ensures (forall x :: InSpan(arrows[|heights|], x) ==> FreeAt(arrows, heights, h, x))
      <==> !Blocked(arrows, heights, |heights|, h)
  {
    var n := |heights|;
    if Blocked(arrows, heights, n, h) {
      var i :| 0 <= i < n && i < |heights| && heights[i] == h && Overlap(arrows[i], arrows[n]);
      OverlapIffShared(arrows[i], arrows[n]);
      var x :| InSpan(arrows[i], x) && InSpan(arrows[n], x);
      assert !FreeAt(arrows, heights, h, x);
    } else {
      forall x | InSpan(arrows[n], x)
        ensures FreeAt(arrows, heights, h, x)
      {
        forall i | 0 <= i < n && heights[i] == h
          ensures !InSpan(arrows[i], x)
        {
          OverlapIffShared(arrows[i], arrows[n]);
        }
      }
    }
  }

  /** What the availability grid records: exactly the free columns of every row. */
  ghost predicate GridMatches(arrows: seq<Arrow>, heights: seq<nat>, avail: seq<seq<bool>>, cols: nat)
    requires |heights| <= |arrows|
  {
    (forall h :: 0 <= h < |avail| ==> |avail[h]| == cols) &&
    (forall h, x :: 0 <= h < |avail| && 0 <= x < cols ==> (avail[h][x] <==> FreeAt(arrows, heights, h, x)))
  }

  lemma GridAfterPlace(arrows: seq<Arrow>, heights: seq<nat>, avail: seq<seq<bool>>, cols: nat, height: nat)
    requires |heights| < |arrows| && height < |avail| && GridMatches(arrows, heights, avail, cols)
    requires Hi(arrows[|heights|]) <= cols
    ensures var a := arrows[|heights|];
      var row := avail[height][..Lo(a)] + seq(Hi(a) - Lo(a), _ => false) + avail[height][Hi(a)..];
      GridMatches(arrows, heights + [height], avail[height := row], cols)
  {
    var a := arrows[|heights|];
    var row := avail[height][..Lo(a)] + seq(Hi(a) - Lo(a), _ => false) + avail[height][Hi(a)..];
    var hs := heights + [height];
    var av := avail[height := row];
    forall h, x | 0 <= h < |av| && 0 <= x < cols
      ensures av[h][x] <==> FreeAt(arrows, hs, h, x)
    {
      assert FreeAt(arrows, hs, h, x) <==> FreeAt(arrows, heights, h, x) && !(h == height && InSpan(a, x)) by {
        forall i | 0 <= i < |heights|
          ensures hs[i] == heights[i]
        {
        }
        assert hs[|heights|] == height;
      }
      if h == height {
        if x < Lo(a) {
          assert row[x] == avail[height][x];
        } else if x < Hi(a) {
          assert row[x] == false;
        } else {
          assert row[x] == avail[height][x];
        }
      }
    }
  }

  /** The largest endpoint of any arrow, found in one pass. */
  method LargestEndpoint(arrows: seq<Arrow>) returns (n: nat)
    ensures n == MaxEnd(arrows)
  {
    n := 0;
    var k := 0;
    while k < |arrows|
      invariant 0 <= k <= |arrows| && n == MaxEnd(arrows[..k])
    {
      assert arrows[..k + 1][..k] == arrows[..k];
      n := if n <= arrows[k].0 then arrows[k].0 else n;
      n := if n <= arrows[k].1 then arrows[k].1 else n;
      k := k + 1;
    }
    assert arrows[..|arrows|] == arrows;
  }

  /**
   * The first existing row whose columns over the next arrow's span are all
   * free; `found` is false when every row is blocked.
   */
  method FirstFreeRow(arrows: seq<Arrow>, hs: seq<nat>, avail: seq<seq<bool>>, cols: nat)
    returns (height: nat, found: bool)
    requires |hs| < |arrows| && GridMatches(arrows, hs, avail, cols) && Hi(arrows[|hs|]) <= cols
    ensures height <= |avail|
    ensures forall h :: 0 <= h < height ==> Blocked(arrows, hs, |hs|, h)
    ensures found ==> height < |avail| && !Blocked(arrows, hs, |hs|, height)
    ensures !found ==> height == |avail|
  {
    var a := arrows[|hs|];
    var left, right := Lo(a), Hi(a);
    height := 0;
    found := false;
    while height < |avail| && !found
      invariant 0 <= height <= |avail|
      invariant forall h :: 0 <= h < height ==> Blocked(arrows, hs, |hs|, h)
      invariant found ==> height < |avail| && !Blocked(arrows, hs, |hs|, height)
      decreases |avail| - height, !found
    {
      FreeSpanIffUnblocked(arrows, hs, height);
      if forall x :: left <= x < right ==> avail[height][x] {
        found := true;
      } else {
        height := height + 1;
      }
    }
  }

  /**
   * Each arrow in turn goes in the first row whose columns over its span are
   * all free; a new row is added when none is.
   */
  method PlaceArrows(arrows: seq<Arrow>, cols: nat) returns (hs: seq<nat>, rows: nat)
    requires forall i :: 0 <= i < |arrows| ==> Hi(arrows[i]) < cols
    ensures |hs| == |arrows| && Packed(arrows, hs, rows)
  {
    var avail: seq<seq<bool>> := [];
    hs := [];
    while |hs| < |arrows|
      invariant Packed(arrows, hs, |avail|)
      invariant GridMatches(arrows, hs, avail, cols)
      decreases |arrows| - |hs|
    {
      var a := arrows[|hs|];
      var left, right := Lo(a), Hi(a);
      assert right < cols;
      var before := |avail|;
      var height, found := FirstFreeRow(arrows, hs, avail, cols);
      if !found {
        avail := avail + [seq(cols, _ => true)];
        forall h, x | 0 <= h < |avail| && 0 <= x < cols
          ensures avail[h][x] <==> FreeAt(arrows, hs, h, x)
        {
        }
        assert !Blocked(arrows, hs, |hs|, height);
      }
      PackedStep(arrows, hs, before, height);
      GridAfterPlace(arrows, hs, avail, cols, height);
      avail := avail[height := avail[height][..left] + seq(right - left, _ => false) + avail[height][right..]];
      hs := hs + [height];
    }
    rows := |avail|;
  }

  /**
   * `QArrowWidget`: the arrows, the number of columns they need, the row of
   * each arrow and the number of rows.
   */
  class ArrowWidget {
    var arrowList: seq<Arrow>
    var nCols: nat
    var heightList: seq<nat>
    var maxHeight: nat

    constructor (arrows: seq<Arrow>)
      ensures arrowList == arrows && nCols == MaxEnd(arrows) + 1
      ensures |heightList| == |arrows| && Packed(arrows, heightList, maxHeight)
    {
      arrowList := [];
      heightList := [];
      new;
      FigureOutHowToDrawArrows(arrows);
    }

    /**
     * `figureOutHowToDrawArrows`: one column more than the largest
     * endpoint, then each arrow in turn goes in the first row whose columns
     * over its span are all free; a new row is added when none is.
     */
    method FigureOutHowToDrawArrows(arrows: seq<Arrow>)
      modifies this
      ensures arrowList == arrows && nCols == MaxEnd(arrows) + 1
      ensures |heightList| == |arrows| && Packed(arrows, heightList, maxHeight)
    {
      var n := LargestEndpoint(arrows);
      var cols := n + 1;
      MaxEndBounds(arrows);
      var hs, rows := PlaceArrows(arrows, cols);
      arrowList, nCols := arrows, cols;
      heightList := hs;
      maxHeight := rows;
    }
  }

  // ---------------------------------------------------------------------
  // The arrows of a keyframe list.
  // ---------------------------------------------------------------------

  /** The first index of `x` in `s`, as `list.index` finds it. */
  function IndexOf(s: seq<string>, x: string): (i: nat)
    requires x in s
    ensures i < |s| && s[i] == x
    ensures forall j :: 0 <= j < i ==> s[j] != x
  {
    if s[0] == x then 0 else 1 + IndexOf(s[1..], x)
  }

  /** Every listed keyframe is in the dictionary and so is its parent. */
  predicate Closed(d: Frames, skl: seq<string>)
  {
    forall i :: 0 <= i < |skl| ==> skl[i] in d && (d[skl[i]].parent.Some? ==> d[skl[i]].parent.value in skl)
  }

  /** A list of every key of a well-formed dictionary holds every parent it names. */
  lemma SortedKeyListClosed(d: Frames, skl: seq<string>)
    requires WellFormed(d) && KeyList(d, skl)
    ensures Closed(d, skl)
  {
    WellFormedParentsKnown(d);
    forall i | 0 <= i < |skl| && d[skl[i]].parent.Some?
      ensures d[skl[i]].parent.value in skl
    {
      var p := d[skl[i]].parent.value;
      assert multiset(skl)[p] == 1;
    }
  }

  /**
   * `getArrowList` over the first `n` keys of the sorted list: for each key
   * with a parent, in list order, the arrow from the parent's index to the
   * key's own.
   */
  function ArrowsUpTo(d: Frames, skl: seq<string>, n: nat): seq<Arrow>
    requires Closed(d, skl) && n <= |skl|
  {
    if n == 0 then []
    else
      var k := skl[n - 1];
      ArrowsUpTo(d, skl, n - 1) + (if d[k].parent.None? then [] else [(IndexOf(skl, d[k].parent.value), n - 1)])
  }

  /** Each arrow ends at a key before `n` and starts at that key's parent. */
  predicate JoinsParents(d: Frames, skl: seq<string>, arrows: seq<Arrow>, n: nat)
    requires Closed(d, skl) && n <= |skl|
  {
    forall m :: 0 <= m < |arrows| ==>
      arrows[m].0 < |skl| && arrows[m].1 < n && d[skl[arrows[m].1]].parent == Some(skl[arrows[m].0])
  }

  /** The right ends of the arrows increase strictly. */
  predicate RightEndsIncrease(arrows: seq<Arrow>)
  {
    forall m, m' :: 0 <= m < m' < |arrows| ==> arrows[m].1 < arrows[m'].1
  }

  /** Every key before `n` that has a parent has an arrow ending at it. */
  predicate Covers(d: Frames, skl: seq<string>, arrows: seq<Arrow>, n: nat)
    requires Closed(d, skl) && n <= |skl|
  {
    forall i :: 0 <= i < n && d[skl[i]].parent.Some? ==> exists m :: 0 <= m < |arrows| && arrows[m].1 == i
  }

  /** `ArrowsUpTo` for `n` keys: the arrows for `n - 1`, then the arrow of key `n - 1` if it has a parent. */
  lemma ArrowsUpToLast(d: Frames, skl: seq<string>, n: nat)
    requires Closed(d, skl) && 0 < n <= |skl|
    ensures var k := skl[n - 1];
      d[k].parent.None? ==> ArrowsUpTo(d, skl, n) == ArrowsUpTo(d, skl, n - 1)
    ensures var k := skl[n - 1];
      d[k].parent.Some? ==> ArrowsUpTo(d, skl, n) == ArrowsUpTo(d, skl, n - 1) + [(IndexOf(skl, d[k].parent.value), n - 1)]
  {
  }

  /** Each arrow joins a key to its parent. */
  lemma {:induction false} ArrowsJoinParents(d: Frames, skl: seq<string>, n: nat)
    requires Closed(d, skl) && n <= |skl|
    ensures JoinsParents(d, skl, ArrowsUpTo(d, skl, n), n)
  {
    if n > 0 {
      ArrowsJoinParents(d, skl, n - 1);
      ArrowsUpToLast(d, skl, n);
      var front := ArrowsUpTo(d, skl, n - 1);
      var r := ArrowsUpTo(d, skl, n);
      forall m | 0 <= m < |r|
        ensures r[m].0 < |skl| && r[m].1 < n && d[skl[r[m].1]].parent == Some(skl[r[m].0])
      {
        if m < |front| {
          assert r[m] == front[m];
        }
      }
    }
  }

  /** The right ends of the arrows increase strictly. */
  lemma {:induction false} ArrowsIncrease(d: Frames, skl: seq<string>, n: nat)
    requires Closed(d, skl) && n <= |skl|
    ensures RightEndsIncrease(ArrowsUpTo(d, skl, n))
    ensures forall m :: 0 <= m < |ArrowsUpTo(d, skl, n)| ==> ArrowsUpTo(d, skl, n)[m].1 < n
  {
    if n > 0 {
      ArrowsIncrease(d, skl, n - 1);
      ArrowsUpToLast(d, skl, n);
      var front := ArrowsUpTo(d, skl, n - 1);
      var r := ArrowsUpTo(d, skl, n);
      forall m | 0 <= m < |r|
        ensures r[m].1 < n
      {
        if m < |front| {
          assert r[m] == front[m];
        }
      }
      forall m, m' | 0 <= m < m' < |r|
        ensures r[m].1 < r[m'].1
      {
        assert r[m] == front[m];
        if m' < |front| {
          assert r[m'] == front[m'];
        }
      }
    }
  }

  /** Every key with a parent has an arrow ending at it. */
  lemma {:induction false} ArrowsCover(d: Frames, skl: seq<string>, n: nat)
    requires Closed(d, skl) && n <= |skl|
    ensures Covers(d, skl, ArrowsUpTo(d, skl, n), n)
  {
    if n > 0 {
      ArrowsCover(d, skl, n - 1);
      ArrowsUpToLast(d, skl, n);
      var front := ArrowsUpTo(d, skl, n - 1);
      var r := ArrowsUpTo(d, skl, n);
      forall i | 0 <= i < n && d[skl[i]].parent.Some?
        ensures exists m :: 0 <= m < |r| && r[m].1 == i
      {
        if i < n - 1 {
          var m :| 0 <= m < |front| && front[m].1 == i;
          assert r[m] == front[m];
        } else {
          assert r[|r| - 1].1 == i;
        }
      }
    }
  }

  /** When every keyframe lies after its parent, each arrow points forward. */
  lemma ArrowsPointForward(d: Frames, skl: seq<string>)
    requires IsSortedKeyList(d, skl)
    requires forall k :: k in d && d[k].parent.Some? ==> d[k].time > 0.0
    ensures Closed(d, skl)
    ensures forall m :: 0 <= m < |ArrowsUpTo(d, skl, |skl|)| ==>
      ArrowsUpTo(d, skl, |skl|)[m].0 < ArrowsUpTo(d, skl, |skl|)[m].1
  {
    SortedKeyListClosed(d, skl);
    ArrowsJoinParents(d, skl, |skl|);
    var r := ArrowsUpTo(d, skl, |skl|);
    forall m | 0 <= m < |r|
      ensures r[m].0 < r[m].1
    {
      ParentBeforeChild(d, skl, r[m].1, r[m].0);
    }
  }

  /** The loop of `getArrowList` over a sorted key list. */
  method ArrowList(d: Frames, skl: seq<string>) returns (arrows: seq<Arrow>)
    requires Closed(d, skl)
    ensures arrows == ArrowsUpTo(d, skl, |skl|)
  {
    arrows := [];
    var i := 0;
    while i < |skl|
      invariant 0 <= i <= |skl| && arrows == ArrowsUpTo(d, skl, i)
    {
      var key := skl[i];
      if d[key].parent.Some? {
        arrows := arrows + [(IndexOf(skl, d[key].parent.value), i)];
      }
      i := i + 1;
    }
  }

  /**
   * `getArrowList`: the sorted key list (by the cached times, stale ones
   * included), then one arrow per key with a parent.
   */
  method GetArrowList(kfl: KeyFrameList) returns (arrows: seq<Arrow>, ghost skl: seq<string>)
    requires kfl.Ready()
    modifies kfl
    ensures kfl.Ready() && kfl.isBaked && FillsFrom(old(kfl.dct), kfl.dct)
    ensures CacheSorted(kfl.dct, skl) && Closed(kfl.dct, skl)
    ensures arrows == ArrowsUpTo(kfl.dct, skl, |skl|)
    ensures old(kfl.Valid()) ==> kfl.Valid() && IsSortedKeyList(kfl.dct, skl)
  {
    var keys := kfl.SortedKeyList();
    skl := keys;
    SortedKeyListClosed(kfl.dct, keys);
    arrows := ArrowList(kfl.dct, keys);
  }

  // ---------------------------------------------------------------------
  // The edit dialog.
  // ---------------------------------------------------------------------

  /**
   * `handleEdit`'s disabled list: a parent choice is greyed out exactly
   * when that keyframe descends from the one being edited (itself included).
   */
  function DisabledList(d: Frames, skl: seq<string>, key: string): (r: seq<bool>)
    requires WellFormed(d) && forall i :: 0 <= i < |skl| ==> skl[i] in d
    ensures |r| == |skl|
  {
    seq(|skl|, i requires 0 <= i < |skl| => IsAncestor(d, skl[i], Some(key)))
  }

  /** `c` reaches `a` by following parent links zero or more times. */
  ghost predicate Descends(d: Frames, c: string, a: string)
    requires Rooted(d, c)
  {
    exists n: nat :: Up(d, c, n) == Some(a)
  }

  lemma DisabledIffDescendant(d: Frames, skl: seq<string>, key: string)
    requires WellFormed(d) && forall i :: 0 <= i < |skl| ==> skl[i] in d
    ensures forall i :: 0 <= i < |skl| ==>
      (DisabledList(d, skl, key)[i] <==> Descends(d, skl[i], key))
    ensures forall i :: 0 <= i < |skl| && skl[i] == key ==> DisabledList(d, skl, key)[i]
  {
    forall i | 0 <= i < |skl|
      ensures DisabledList(d, skl, key)[i] <==> Descends(d, skl[i], key)
    {
      assert DisabledList(d, skl, key)[i] == IsAncestor(d, skl[i], Some(key));
      if IsAncestor(d, skl[i], Some(key)) {
        var n := AncestorIsReached(d, skl[i], key);
      }
      if Descends(d, skl[i], key) {
        var n: nat :| Up(d, skl[i], n) == Some(key);
        ReachedIsAncestor(d, skl[i], key, n);
      }
    }
  }

  /** The dialog's parent text: the entry "None" means no parent. */
  function ParentChoice(text: string): (p: Option<string>)
    ensures p.None? <==> text == "None"
    ensures p.Some? ==> p.value == text
  {
    if text == "None" then None else Some(text)
  }

  /** The dictionary after an accepted edit: comment, then parent, then the name. */
  function Edited(d: Frames, key: string, newName: string, comment: string, p: Option<string>): Frames
    requires key in d
  {
    var e := d[key := d[key].(comment := comment, parent := p)];
    if key == newName then e else Renamed(e, key, newName)
  }

  /**
   * Any parent the dialog leaves enabled, with a name not already in use,
   * gives a well-formed dictionary.
   */
  lemma EnabledChoiceKeepsWellFormed(d: Frames, skl: seq<string>, key: string, newName: string,
                                     comment: string, choice: int)
    requires IsSortedKeyList(d, skl) && key in d && (newName == key || newName !in d)
    requires choice == -1 || (0 <= choice < |skl| && !DisabledList(d, skl, key)[choice])
    ensures var p := if choice == -1 then None else Some(skl[choice]);
      WellFormed(d[key := d[key].(comment := comment, parent := p)]) &&
      WellFormed(Edited(d, key, newName, comment, p))
  {
    var p := if choice == -1 then None else Some(skl[choice]);
    ReparentKeepsWellFormed(d, key, p);
    var e := d[key := d[key].(comment := comment, parent := p)];
    forall j | j in e
      ensures Rooted(e, j)
    {
      ExtendsKeepsAbsTime(WithParent(d, key, p), e, j);
    }
    if key != newName {
      RenameKeepsWellFormed(e, key, newName);
    }
  }

  /**
   * `handleEdit` once the dialog is accepted. After a rename the call to the
   * editor's `handleKeyNameChanged`, which the ramp editor does not define,
   * raises AttributeError (`raised`), so the layout is not redone.
   */
  method HandleEditAccepted(kfl: KeyFrameList, key: string, newName: string, comment: string, parentText: string)
    returns (raised: bool)
    requires key in kfl.dct
    requires var e := Uncached(kfl.dct);
      WellFormed(e[key := e[key].(comment := comment, parent := ParentChoice(parentText))])
    requires WellFormed(Edited(Uncached(kfl.dct), key, newName, comment, ParentChoice(parentText)))
    modifies kfl
    ensures kfl.Valid() && kfl.isBaked
    ensures Uncached(kfl.dct) == Edited(Uncached(old(kfl.dct)), key, newName, comment, ParentChoice(parentText))
    ensures raised <==> key != newName
  {
    ghost var d0 := Uncached(kfl.dct);
    var p := ParentChoice(parentText);
    kfl.SetComment(key, comment);
    assert Uncached(kfl.dct) == d0[key := d0[key].(comment := comment)];
    assert WithParent(Uncached(kfl.dct), key, p) == d0[key := d0[key].(comment := comment, parent := p)];
    kfl.SetParent(key, p);
    raised := false;
    if key != newName {
      kfl.SetName(key, newName);
      raised := true;
    }
  }

  // ---------------------------------------------------------------------
  // Inserting, adding and re-timing keyframes.
  // ---------------------------------------------------------------------

  /** The keyframe `handleInsertBefore` and `handleAddChild` create. */
  function NewKeyFrame(parent: Option<string>): (kf: KeyFrame)
    ensures kf.time == 1.0 && kf.parent == parent && kf.comment == "comment"
    ensures kf.hooks.None? && kf.absTime.None?
  {
    KeyFrame(1.0, parent, "comment", None, None)
  }

  /**
   * `handleInsertBefore`: a new keyframe one time unit after the old
   * parent takes the place of `key`'s parent, and `key` hangs under it.
   */
  function InsertedBefore(d: Frames, key: string, newName: string): Frames
    requires key in d
  {
    d[key := d[key].(parent := Some(newName))][newName := NewKeyFrame(d[key].parent)]
  }

  lemma {:induction false} InsertKeepsOutside(d: Frames, key: string, newName: string, j: string)
    requires WellFormed(d) && key in d && newName !in d && j in d && !IsAncestor(d, j, Some(key))
    ensures Rooted(InsertedBefore(d, key, newName), j)
    ensures AbsTime(InsertedBefore(d, key, newName), j) == AbsTime(d, j)
    decreases Height(d, j)
  {
    var r := InsertedBefore(d, key, newName);
    assert r[j] == d[j];
    if d[j].parent.None? {
      RootIsRooted(r, j);
    } else {
      ParentRooted(d, j);
      InsertKeepsOutside(d, key, newName, d[j].parent.value);
      RootedStep(r, j);
    }
  }

  lemma InsertedRooted(d: Frames, key: string, newName: string)
    requires WellFormed(d) && key in d && newName !in d
    ensures Rooted(InsertedBefore(d, key, newName), newName)
    ensures AbsTime(InsertedBefore(d, key, newName), newName) == AbsTime(d, key) - d[key].time + 1.0
  {
    var r := InsertedBefore(d, key, newName);
    if d[key].parent.None? {
      RootIsRooted(r, newName);
    } else {
      var q := d[key].parent.value;
      ParentRooted(d, key);
      AncestorBelow(d, q, key);
      InsertKeepsOutside(d, key, newName, q);
      RootedStep(r, newName);
    }
  }

  /** A keyframe strictly closer to the root than `a` does not descend from `a`. */
  lemma AncestorBelow(d: Frames, c: string, a: string)
    requires Rooted(d, c) && Rooted(d, a) && Height(d, c) < Height(d, a)
    ensures !IsAncestor(d, c, Some(a))
  {
    AncestorHeightIf(d, c, a);
  }

  lemma AncestorHeightIf(d: Frames, c: string, a: string)
    requires Rooted(d, c) && Rooted(d, a)
    ensures IsAncestor(d, c, Some(a)) ==> Height(d, a) <= Height(d, c)
  {
    if IsAncestor(d, c, Some(a)) {
      AncestorHeight(d, c, a);
    }
  }

  lemma {:induction false} InsertShiftsSubtree(d: Frames, key: string, newName: string, j: string)
    requires WellFormed(d) && key in d && newName !in d && j in d && IsAncestor(d, j, Some(key))
    ensures Rooted(InsertedBefore(d, key, newName), j)
    ensures AbsTime(InsertedBefore(d, key, newName), j) == AbsTime(d, j) + 1.0
    decreases Height(d, j)
  {
    var r := InsertedBefore(d, key, newName);
    if j == key {
      InsertedRooted(d, key, newName);
      RootedStep(r, key);
    } else {
      assert r[j] == d[j];
      ParentRooted(d, j);
      InsertShiftsSubtree(d, key, newName, d[j].parent.value);
      RootedStep(r, j);
    }
  }

  /**
   * Inserting before `key` under a fresh name keeps the graph well-formed;
   * `key` and everything below it move one time unit later, the rest stays.
   */
  lemma InsertBeforeShifts(d: Frames, key: string, newName: string)
    requires WellFormed(d) && key in d && newName !in d
    ensures WellFormed(InsertedBefore(d, key, newName))
    ensures AbsTime(InsertedBefore(d, key, newName), newName) == AbsTime(d, key) - d[key].time + 1.0
    ensures forall j :: j in d ==>
      AbsTime(InsertedBefore(d, key, newName), j) == AbsTime(d, j) + (if IsAncestor(d, j, Some(key)) then 1.0 else 0.0)
  {
    var r := InsertedBefore(d, key, newName);
    InsertedRooted(d, key, newName);
    forall j | j in d
      ensures Rooted(r, j) && AbsTime(r, j) == AbsTime(d, j) + (if IsAncestor(d, j, Some(key)) then 1.0 else 0.0)
    {
      if IsAncestor(d, j, Some(key)) {
        InsertShiftsSubtree(d, key, newName, j);
      } else {
        InsertKeepsOutside(d, key, newName, j);
      }
    }
  }

  /** `handleInsertBefore` once a name is entered. */
  method HandleInsertBefore(kfl: KeyFrameList, key: string, newName: string)
    requires key in kfl.dct && WellFormed(InsertedBefore(Uncached(kfl.dct), key, newName))
    modifies kfl
    ensures kfl.Valid() && kfl.isBaked
    ensures Uncached(kfl.dct) == InsertedBefore(Uncached(old(kfl.dct)), key, newName)
  {
    var parent := kfl.dct[key].parent;
    kfl.dct := kfl.dct[key := kfl.dct[key].(parent := Some(newName))];
    assert Uncached(kfl.dct)[newName := NewKeyFrame(parent)] == InsertedBefore(Uncached(old(kfl.dct)), key, newName);
    kfl.AddKeyframe(newName, NewKeyFrame(parent));
  }

  /** `handleAddChild` once a name is entered. */
  method HandleAddChild(kfl: KeyFrameList, key: string, newName: string)
    requires WellFormed(Uncached(kfl.dct)[newName := NewKeyFrame(Some(key))])
    modifies kfl
    ensures kfl.Valid() && kfl.isBaked
    ensures Uncached(kfl.dct) == Uncached(old(kfl.dct))[newName := NewKeyFrame(Some(key))]
  {
    kfl.AddKeyframe(newName, NewKeyFrame(Some(key)));
  }

  /** A child added under an existing keyframe with a fresh name lies one time unit after it. */
  lemma AddChildTimes(d: Frames, key: string, newName: string)
    requires WellFormed(d) && key in d && newName !in d
    ensures WellFormed(d[newName := NewKeyFrame(Some(key))])
    ensures AbsTime(d[newName := NewKeyFrame(Some(key))], newName) == AbsTime(d, key) + 1.0
    ensures forall j :: j in d ==> AbsTime(d[newName := NewKeyFrame(Some(key))], j) == AbsTime(d, j)
  {
    AddKeepsTimes(d, newName, NewKeyFrame(Some(key)));
  }

  /**
   * `handleTimeChanged`: the sorted key list before and after the new time,
   * compared position by position; the order changed exactly when they differ.
   * The list before is in order of the cached times, stale ones included;
   * setting the time drops every cache, so the list after is in true time order.
   */
  method HandleTimeChanged(kfl: KeyFrameList, key: string, t: real)
    returns (orderChanged: bool, ghost before: seq<string>, ghost after: seq<string>)
    requires kfl.Ready() && key in kfl.dct
    modifies kfl
    ensures kfl.Valid() && kfl.isBaked
    ensures Uncached(kfl.dct) == WithTime(Uncached(old(kfl.dct)), key, t)
    ensures CacheSorted(old(kfl.dct), before) && IsSortedKeyList(kfl.dct, after)
    ensures old(kfl.Valid()) ==> IsSortedKeyList(Uncached(old(kfl.dct)), before)
    ensures orderChanged <==> before != after
  {
    ghost var d0 := kfl.dct;
    var sklOld := kfl.SortedKeyList();
    FillsKeepCacheSorted(d0, kfl.dct, sklOld);
    if old(kfl.Valid()) {
      SortedUncached(kfl.dct, sklOld);
    }
    assert Uncached(Uncached(kfl.dct)) == Uncached(kfl.dct);
    SameUncachedAbsTime(kfl.dct, Uncached(kfl.dct));
    RetimeKeepsWellFormed(Uncached(kfl.dct), key, t);
    kfl.SetTime(key, t);
    var sklNew := kfl.SortedKeyList();
    before, after := sklOld, sklNew;
    SortedKeyListsSameLength(d0, kfl.dct, sklOld, sklNew);
    orderChanged := OrderChanged(sklOld, sklNew);
  }

  /** Two lists of every key of dictionaries with the same keys have the same length. */
  lemma SortedKeyListsSameLength(d: Frames, e: Frames, a: seq<string>, b: seq<string>)
    requires KeyList(d, a) && KeyList(e, b) && d.Keys == e.Keys
    ensures |a| == |b|
  {
    assert multiset(a) == multiset(b) by {
      forall k
        ensures multiset(a)[k] == multiset(b)[k]
      {
      }
    }
    assert |a| == |multiset(a)| == |multiset(b)| == |b|;
  }

  /** The comparison loop of `handleTimeChanged`, over two lists of one length. */
  method OrderChanged(a: seq<string>, b: seq<string>) returns (changed: bool)
    requires |a| == |b|
    ensures changed <==> a != b
  {
    changed := false;
    var i := 0;
    while i < |a| && !changed
      invariant 0 <= i <= |a|
      invariant !changed ==> a[..i] == b[..i]
      invariant changed ==> a != b
    {
      if a[i] != b[i] {
        changed := true;
      }
      i := i + 1;
    }
    assert !changed ==> a == a[..i] && b == b[..i];
  }

  /** A sorted key list stays one once the cache is dropped. */
  lemma SortedUncached(d: Frames, skl: seq<string>)
    requires IsSortedKeyList(d, skl)
    ensures IsSortedKeyList(Uncached(d), skl)
  {
    assert Uncached(d) == Uncached(Uncached(d));
    SameUncachedAbsTime(d, Uncached(d));
  }
}

=== FILE: keyframes.dfy ===
/**
 * The keyframe graph of a ramp document: every keyframe has a time relative
 * to its parent keyframe (or to the start of the ramp when it has none), and
 * its absolute time is the sum of the relative times up its parent chain.
 *
 * This module holds the value-level definitions: what a well-formed graph
 * is, the absolute time it assigns, `is_ancestor`, and the dictionary each
 * editing operation of `KeyFrameList` leaves behind, with what each of them
 * does to well-formedness and to absolute times.
 */
module KeyFrames {
  import opened Text
  import opened Json

  /**
   * One entry of the keyframe dictionary. `hooks` is the optional "hooks"
   * dictionary; `absTime` is the cached `__abs_time__` entry that baking
   * adds and unbaking removes.
   */
  datatype KeyFrame = KeyFrame(
    time: real,
    parent: Option<string>,
    comment: string,
    hooks: Option<map<string, Value>>,
    absTime: Option<real>)

  type Frames = map<string, KeyFrame>

  // ---------------------------------------------------------------------
  // Well-formedness: every parent chain ends at a root within finitely
  // many steps (all parents exist and there is no cycle).
  // ---------------------------------------------------------------------

  predicate RootWithin(d: Frames, k: string, n: nat)
    decreases n
  {
    k in d && (d[k].parent.None? || (n > 0 && RootWithin(d, d[k].parent.value, n - 1)))
  }

  ghost predicate Rooted(d: Frames, k: string)
  {
    exists n: nat :: RootWithin(d, k, n)
  }

  ghost predicate WellFormed(d: Frames)
  {
    forall k :: k in d ==> Rooted(d, k)
  }

  /** Every parent named in the dictionary is one of its keys. */
  predicate ParentsKnown(d: Frames)
  {
    forall k :: k in d && d[k].parent.Some? ==> d[k].parent.value in d
  }

  function HeightWithin(d: Frames, k: string, n: nat): nat
    requires RootWithin(d, k, n)
    decreases n
  {
    if d[k].parent.None? then 0 else 1 + HeightWithin(d, d[k].parent.value, n - 1)
  }

  lemma HeightWithinFuel(d: Frames, k: string, n: nat, m: nat)
    requires RootWithin(d, k, n) && RootWithin(d, k, m)
    ensures HeightWithin(d, k, n) == HeightWithin(d, k, m)
    decreases n
  {
    if d[k].parent.Some? {
      HeightWithinFuel(d, d[k].parent.value, n - 1, m - 1);
    }
  }

  /** The number of parent steps from `k` to its root. */
  ghost function Height(d: Frames, k: string): nat
    requires Rooted(d, k)
  {
    var n :| RootWithin(d, k, n);
    HeightWithin(d, k, n)
  }

  lemma HeightIs(d: Frames, k: string, n: nat)
    requires RootWithin(d, k, n)
    ensures Rooted(d, k) && Height(d, k) == HeightWithin(d, k, n)
  {
    var m :| RootWithin(d, k, m) && Height(d, k) == HeightWithin(d, k, m);
    HeightWithinFuel(d, k, n, m);
  }

  lemma ParentRooted(d: Frames, k: string)
    requires Rooted(d, k) && d[k].parent.Some?
    ensures Rooted(d, d[k].parent.value)
    ensures Height(d, d[k].parent.value) + 1 == Height(d, k)
  {
    var n: nat :| RootWithin(d, k, n);
    HeightIs(d, k, n);
    HeightIs(d, d[k].parent.value, n - 1);
  }

  /** A keyframe whose parent is rooted is rooted. */
  lemma RootedStep(d: Frames, k: string)
    requires k in d && d[k].parent.Some? && Rooted(d, d[k].parent.value)
    ensures Rooted(d, k)
  {
    var n: nat :| RootWithin(d, d[k].parent.value, n);
    assert RootWithin(d, k, n + 1);
  }

  lemma RootIsRooted(d: Frames, k: string)
    requires k in d && d[k].parent.None?
    ensures Rooted(d, k)
  {
    assert RootWithin(d, k, 0);
  }

  lemma WellFormedParentsKnown(d: Frames)
    requires WellFormed(d)
    ensures ParentsKnown(d)
  {
    forall k | k in d && d[k].parent.Some?
      ensures d[k].parent.value in d
    {
      ParentRooted(d, k);
    }
  }

  // ---------------------------------------------------------------------
  // Absolute time and ancestry.
  // ---------------------------------------------------------------------

  /** The time of `k` measured from the start of the ramp. */
  ghost function AbsTime(d: Frames, k: string): real
    requires Rooted(d, k)
    decreases Height(d, k)
  {
    if d[k].parent.None? then d[k].time
    else
      ParentRooted(d, k);
      d[k].time + AbsTime(d, d[k].parent.value)
  }

  /**
   * `is_ancestor(child, ancestor)`: every keyframe descends from None, and
   * a keyframe lies in its own ancestry.
   */
  function IsAncestor(d: Frames, child: string, ancestor: Option<string>): bool
    requires Rooted(d, child)
    decreases Height(d, child)
  {
    if ancestor.None? then true
    else if child == ancestor.value then true
    else if d[child].parent.None? then false
    else
      ParentRooted(d, child);
      IsAncestor(d, d[child].parent.value, ancestor)
  }

  /** The keyframe `n` parent steps above `k`, if the chain is that long. */
  ghost function Up(d: Frames, k: string, n: nat): Option<string>
    requires Rooted(d, k)
    decreases n
  {
    if n == 0 then Some(k)
    else if d[k].parent.None? then None
    else
      ParentRooted(d, k);
      Up(d, d[k].parent.value, n - 1)
  }

  lemma {:induction false} AncestorIsReached(d: Frames, c: string, a: string) returns (n: nat)
    requires Rooted(d, c) && IsAncestor(d, c, Some(a))
    ensures Up(d, c, n) == Some(a)
    decreases Height(d, c)
  {
    if c == a {
      n := 0;
    } else {
      ParentRooted(d, c);
      var m := AncestorIsReached(d, d[c].parent.value, a);
      n := m + 1;
    }
  }

  lemma {:induction false} ReachedIsAncestor(d: Frames, c: string, a: string, n: nat)
    requires Rooted(d, c) && Up(d, c, n) == Some(a)
    ensures IsAncestor(d, c, Some(a))
    decreases n
  {
    if n > 0 && c != a {
      ParentRooted(d, c);
      ReachedIsAncestor(d, d[c].parent.value, a, n - 1);
    }
  }

  /**
   * `is_ancestor(c, a)` holds exactly when `a` is reached from `c` by
   * following parent links zero or more times.
   */
  lemma IsAncestorIffReached(d: Frames, c: string, a: string)
    requires Rooted(d, c)
    ensures IsAncestor(d, c, Some(a)) <==> exists n: nat :: Up(d, c, n) == Some(a)
  {
    if IsAncestor(d, c, Some(a)) {
      var n := AncestorIsReached(d, c, a);
    }
    if exists n: nat :: Up(d, c, n) == Some(a) {
      var n: nat :| Up(d, c, n) == Some(a);
      ReachedIsAncestor(d, c, a, n);
    }
  }

  /** An ancestor is never further from the root than its descendant. */
  lemma {:induction false} AncestorHeight(d: Frames, c: string, a: string)
    requires Rooted(d, c) && IsAncestor(d, c, Some(a))
    ensures Rooted(d, a) && Height(d, a) <= Height(d, c)
    decreases Height(d, c)
  {
    if c != a {
      ParentRooted(d, c);
      AncestorHeight(d, d[c].parent.value, a);
    }
  }

  /**
   * Every keyframe exactly once, ordered by absolute time: what
   * `sorted_key_list` returns when every cached time is right.
   */
  ghost predicate IsSortedKeyList(d: Frames, skl: seq<string>)
  {
    WellFormed(d) &&
    (forall k :: multiset(skl)[k] == (if k in d then 1 else 0)) &&
    (forall i :: 0 <= i < |skl| ==> skl[i] in d) &&
    (forall i, j :: 0 <= i < j < |skl| ==> AbsTime(d, skl[i]) <= AbsTime(d, skl[j]))
  }

  /** In a sorted key list a keyframe comes after a parent it follows in time. */
  lemma ParentBeforeChild(d: Frames, skl: seq<string>, i: int, j: int)
    requires IsSortedKeyList(d, skl) && 0 <= i < |skl| && 0 <= j < |skl|
    requires d[skl[i]].parent == Some(skl[j]) && d[skl[i]].time > 0.0
    ensures j < i
  {
    ParentRooted(d, skl[i]);
    assert AbsTime(d, skl[i]) > AbsTime(d, skl[j]);
  }

  // ---------------------------------------------------------------------
  // The absolute-time cache.
  // ---------------------------------------------------------------------

  /** The dictionary with every `__abs_time__` entry removed. */
  function Uncached(d: Frames): (r: Frames)
    ensures r.Keys == d.Keys
    ensures forall k :: k in r ==> r[k] == d[k].(absTime := None)
  {
    map k | k in d :: d[k].(absTime := None)
  }

  /** Every cached absolute time is the true one. */
  ghost predicate CacheSound(d: Frames)
  {
    forall k :: k in d && d[k].absTime.Some? ==> Rooted(d, k) && d[k].absTime.value == AbsTime(d, k)
  }

  predicate AllCached(d: Frames)
  {
    forall k :: k in d ==> d[k].absTime.Some?
  }

  /**
   * `e` keeps every keyframe of `d` with the same time and parent (it may
   * have more keyframes and other comments, hooks or caches).
   */
  predicate Extends(d: Frames, e: Frames)
  {
    forall k :: k in d ==> k in e && e[k].time == d[k].time && e[k].parent == d[k].parent
  }

  /** Absolute times depend only on the times and parents along the chain. */
  lemma {:induction false} ExtendsKeepsAbsTime(d: Frames, e: Frames, k: string)
    requires Extends(d, e) && Rooted(d, k)
    ensures Rooted(e, k) && AbsTime(e, k) == AbsTime(d, k)
    decreases Height(d, k)
  {
    if d[k].parent.None? {
      RootIsRooted(e, k);
    } else {
      ParentRooted(d, k);
      ExtendsKeepsAbsTime(d, e, d[k].parent.value);
      RootedStep(e, k);
    }
  }

  lemma SameUncached(d: Frames, e: Frames)
    requires Uncached(d) == Uncached(e)
    ensures Extends(d, e) && Extends(e, d)
  {
    forall k | k in d
      ensures k in e && e[k].time == d[k].time && e[k].parent == d[k].parent
    {
      assert Uncached(d)[k] == Uncached(e)[k];
    }
  }

  /** Changing only caches (or comments, or hooks) keeps well-formedness and times. */
  lemma SameUncachedAbsTime(d: Frames, e: Frames)
    requires Uncached(d) == Uncached(e) && WellFormed(d)
    ensures WellFormed(e)
    ensures forall k :: k in d ==> AbsTime(e, k) == AbsTime(d, k)
  {
    SameUncached(d, e);
    forall k | k in d
      ensures Rooted(e, k) && AbsTime(e, k) == AbsTime(d, k)
    {
      ExtendsKeepsAbsTime(d, e, k);
    }
  }

  /** Storing the true absolute time of `k` keeps the cache sound. */
  lemma CacheStore(d: Frames, k: string, t: real)
    requires WellFormed(d) && CacheSound(d) && k in d && t == AbsTime(d, k)
    ensures WellFormed(d[k := d[k].(absTime := Some(t))])
    ensures CacheSound(d[k := d[k].(absTime := Some(t))])
    ensures forall j :: j in d ==> AbsTime(d[k := d[k].(absTime := Some(t))], j) == AbsTime(d, j)
  {
    var e := d[k := d[k].(absTime := Some(t))];
    assert Uncached(e) == Uncached(d);
    SameUncachedAbsTime(d, e);
  }

  /** A dictionary without cached times has a sound cache. */
  lemma UncachedSound(d: Frames)
    requires forall k :: k in d ==> d[k].absTime.None?
    ensures CacheSound(d)
  {
  }

  /**
   * The time `get_absolute_time` answers: a cached `__abs_time__` is
   * trusted as it stands; otherwise the keyframe's own time is added to
   * its parent's answer.
   */
  ghost function CachedTime(d: Frames, k: string): real
    requires Rooted(d, k)
    decreases Height(d, k)
  {
    if d[k].absTime.Some? then d[k].absTime.value
    else if d[k].parent.None? then d[k].time
    else
      ParentRooted(d, k);
      d[k].time + CachedTime(d, d[k].parent.value)
  }

  /** Where every cached time is right, trusting the cache gives the true absolute time. */
  lemma {:induction false} CachedTimeSound(d: Frames, k: string)
    requires CacheSound(d) && Rooted(d, k)
    ensures CachedTime(d, k) == AbsTime(d, k)
    decreases Height(d, k)
  {
    if d[k].absTime.None? && d[k].parent.Some? {
      ParentRooted(d, k);
      CachedTimeSound(d, d[k].parent.value);
    }
  }

  /**
   * `e` is `d` with some caches filled in: times, parents, comments and
   * hooks are unchanged, every cache of `d` is kept, and every cache of `e`
   * holds the time `get_absolute_time` answers on `d`.
   */
  ghost predicate FillsFrom(d: Frames, e: Frames)
  {
    Uncached(e) == Uncached(d) &&
    (forall k :: k in d ==> k in e && (d[k].absTime.Some? ==> e[k].absTime == d[k].absTime)) &&
    (forall k :: k in e && e[k].absTime.Some? ==> Rooted(d, k) && e[k].absTime.value == CachedTime(d, k))
  }

  /** Filling caches with the answers of `get_absolute_time` does not change its answers. */
  lemma {:induction false} FillsKeepCachedTime(d: Frames, e: Frames, k: string)
    requires FillsFrom(d, e) && Rooted(d, k)
    ensures Rooted(e, k) && CachedTime(e, k) == CachedTime(d, k)
    decreases Height(d, k)
  {
    SameUncached(d, e);
    ExtendsKeepsAbsTime(d, e, k);
    if e[k].absTime.None? && d[k].parent.Some? {
      ParentRooted(d, k);
      FillsKeepCachedTime(d, e, d[k].parent.value);
    }
  }

  lemma FillsReflexive(d: Frames)
    requires WellFormed(d)
    ensures FillsFrom(d, d)
  {
  }

  lemma FillsTransitive(d: Frames, e: Frames, f: Frames)
    requires WellFormed(d) && FillsFrom(d, e) && FillsFrom(e, f)
    ensures FillsFrom(d, f)
  {
    forall k | k in f && f[k].absTime.Some?
      ensures Rooted(d, k) && f[k].absTime.value == CachedTime(d, k)
    {
      assert k in d;
      FillsKeepCachedTime(d, e, k);
    }
  }

  /** Caching the answer for `k` is one more fill. */
  lemma FillsStore(d: Frames, e: Frames, k: string)
    requires FillsFrom(d, e) && k in e && Rooted(d, k)
    ensures FillsFrom(d, e[k := e[k].(absTime := Some(CachedTime(d, k)))])
  {
    var f := e[k := e[k].(absTime := Some(CachedTime(d, k)))];
    assert Uncached(f) == Uncached(e);
  }

  /** Filling a sound cache from itself keeps it sound. */
  lemma FillsSound(d: Frames, e: Frames)
    requires WellFormed(d) && CacheSound(d) && FillsFrom(d, e)
    ensures WellFormed(e) && CacheSound(e)
  {
    SameUncachedAbsTime(d, e);
    forall k | k in e && e[k].absTime.Some?
      ensures Rooted(e, k) && e[k].absTime.value == AbsTime(e, k)
    {
      CachedTimeSound(d, k);
    }
  }

  /**
   * A stale cache is trusted: a root keyframe at time 2 whose cache says 1
   * is answered with 1.
   */
  lemma StaleCacheTrusted()
    ensures var d := map["a" := KeyFrame(2.0, None, "", None, Some(1.0))];
      WellFormed(d) && CachedTime(d, "a") == 1.0 && AbsTime(d, "a") == 2.0
  {
    var d := map["a" := KeyFrame(2.0, None, "", None, Some(1.0))];
    RootIsRooted(d, "a");
  }

  /** `skl` lists every key of `d` exactly once. */
  ghost predicate KeyList(d: Frames, skl: seq<string>)
  {
    (forall k :: multiset(skl)[k] == (if k in d then 1 else 0)) &&
    (forall i :: 0 <= i < |skl| ==> skl[i] in d)
  }

  /**
   * What `sorted_key_list` returns: every key once, in order of the time
   * `get_absolute_time` answers, which trusts the caches.
   */
  ghost predicate CacheSorted(d: Frames, skl: seq<string>)
  {
    WellFormed(d) && KeyList(d, skl) &&
    (forall i, j :: 0 <= i < j < |skl| ==> CachedTime(d, skl[i]) <= CachedTime(d, skl[j]))
  }

  /** Where every cache is right, the order by answers is the order by absolute time. */
  lemma CacheSortedIsSorted(d: Frames, skl: seq<string>)
    requires WellFormed(d) && CacheSound(d)
    ensures CacheSorted(d, skl) <==> IsSortedKeyList(d, skl)
  {
    forall k | k in d
      ensures CachedTime(d, k) == AbsTime(d, k)
    {
      CachedTimeSound(d, k);
    }
  }

  /** Filling caches with the answers keeps a list in order of the answers, and conversely. */
  lemma FillsKeepCacheSorted(d: Frames, e: Frames, skl: seq<string>)
    requires WellFormed(d) && FillsFrom(d, e)
    ensures CacheSorted(d, skl) <==> CacheSorted(e, skl)
  {
    SameUncachedAbsTime(d, e);
    forall k | k in d
      ensures Rooted(e, k) && CachedTime(e, k) == CachedTime(d, k)
    {
      FillsKeepCachedTime(d, e, k);
    }
  }

  // ---------------------------------------------------------------------
  // What each editing operation leaves in the dictionary.
  // ---------------------------------------------------------------------

  function WithTime(d: Frames, k: string, t: real): Frames
    requires k in d
  {
    d[k := d[k].(time := t)]
  }

  function WithParent(d: Frames, k: string, p: Option<string>): Frames
    requires k in d
  {
    d[k := d[k].(parent := p)]
  }

  /**
   * `set_name(o, n)` with `o != n`: the record moves to the new name (over
   * any record already there) and every child of `o` now names `n`.
   */
  function Renamed(d: Frames, o: string, n: string): (r: Frames)
    requires o in d && o != n
    ensures r.Keys == d.Keys - {o} + {n}
  {
    var moved := d[n := d[o]] - {o};
    map j | j in moved :: if moved[j].parent == Some(o) then moved[j].(parent := Some(n)) else moved[j]
  }

  /**
   * `del_keyframe(k)`: every child of `k` takes `k`'s parent, and `k`
   * disappears.
   */
  function Deleted(d: Frames, k: string): (r: Frames)
    requires k in d
    ensures r.Keys == d.Keys - {k}
  {
    map j | j in d && j != k :: if d[j].parent == Some(k) then d[j].(parent := d[k].parent) else d[j]
  }

  /**
   * Moving `k` under `p` keeps the times of keyframes outside `k`'s subtree
   * and of `p`'s chain.
   */
  lemma {:induction false} ReparentOutside(d: Frames, k: string, p: Option<string>, j: string)
    requires k in d && Rooted(d, j) && !IsAncestor(d, j, Some(k))
    ensures Rooted(WithParent(d, k, p), j)
    ensures AbsTime(WithParent(d, k, p), j) == AbsTime(d, j)
    decreases Height(d, j)
  {
    var e := WithParent(d, k, p);
    if d[j].parent.None? {
      RootIsRooted(e, j);
    } else {
      ParentRooted(d, j);
      ReparentOutside(d, k, p, d[j].parent.value);
      RootedStep(e, j);
    }
  }

  lemma {:induction false} ReparentInside(d: Frames, k: string, p: Option<string>, j: string)
    requires k in d && (p.None? || (Rooted(d, p.value) && !IsAncestor(d, p.value, Some(k))))
    requires Rooted(d, j) && IsAncestor(d, j, Some(k))
    ensures Rooted(WithParent(d, k, p), j)
    decreases Height(d, j)
  {
    var e := WithParent(d, k, p);
    if j == k {
      if p.None? {
        RootIsRooted(e, k);
      } else {
        ReparentOutside(d, k, p, p.value);
        RootedStep(e, k);
      }
    } else {
      ParentRooted(d, j);
      ReparentInside(d, k, p, d[j].parent.value);
      RootedStep(e, j);
    }
  }

  /**
   * Re-parenting `k` under a keyframe that does not descend from `k` (or
   * under None) leaves a well-formed graph.
   */
  lemma ReparentKeepsWellFormed(d: Frames, k: string, p: Option<string>)
    requires WellFormed(d) && k in d
    requires p.None? || (p.value in d && !IsAncestor(d, p.value, Some(k)))
    ensures WellFormed(WithParent(d, k, p))
  {
    forall j | j in WithParent(d, k, p)
      ensures Rooted(WithParent(d, k, p), j)
    {
      if IsAncestor(d, j, Some(k)) {
        ReparentInside(d, k, p, j);
      } else {
        ReparentOutside(d, k, p, j);
      }
    }
  }

  /**
   * Changing the time of `k` by some amount moves `k` and exactly its
   * descendants by that amount.
   */
  lemma {:induction false} RetimeShifts(d: Frames, k: string, t: real, j: string)
    requires k in d && Rooted(d, j)
    ensures Rooted(WithTime(d, k, t), j)
    ensures AbsTime(WithTime(d, k, t), j)
         == AbsTime(d, j) + (if IsAncestor(d, j, Some(k)) then t - d[k].time else 0.0)
    decreases Height(d, j)
  {
    var e := WithTime(d, k, t);
    if d[j].parent.None? {
      RootIsRooted(e, j);
    } else {
      ParentRooted(d, j);
      var q := d[j].parent.value;
      if j == k && IsAncestor(d, q, Some(k)) {
        AncestorHeight(d, q, k);
      }
      RetimeShifts(d, k, t, q);
      RootedStep(e, j);
    }
  }

  lemma RetimeKeepsWellFormed(d: Frames, k: string, t: real)
    requires WellFormed(d) && k in d
    ensures WellFormed(WithTime(d, k, t))
  {
    forall j | j in WithTime(d, k, t)
      ensures Rooted(WithTime(d, k, t), j)
    {
      RetimeShifts(d, k, t, j);
    }
  }

  /**
   * Deleting `k` keeps the graph well-formed; its former descendants move
   * earlier by `k`'s relative time and every other keyframe stays put.
   */
  lemma {:induction false} DeleteShifts(d: Frames, k: string, j: string)
    requires k in d && j in d && j != k && Rooted(d, j)
    ensures Rooted(Deleted(d, k), j)
    ensures AbsTime(Deleted(d, k), j)
         == AbsTime(d, j) - (if IsAncestor(d, j, Some(k)) then d[k].time else 0.0)
    decreases Height(d, j)
  {
    var e := Deleted(d, k);
    if d[j].parent.None? {
      RootIsRooted(e, j);
    } else if d[j].parent == Some(k) {
      ParentRooted(d, j);
      assert IsAncestor(d, j, Some(k));
      if d[k].parent.None? {
        RootIsRooted(e, j);
      } else {
        ParentRooted(d, k);
        var q := d[k].parent.value;
        if IsAncestor(d, q, Some(k)) {
          AncestorHeight(d, q, k);
        }
        DeleteShifts(d, k, q);
        RootedStep(e, j);
      }
    } else {
      ParentRooted(d, j);
      DeleteShifts(d, k, d[j].parent.value);
      RootedStep(e, j);
    }
  }

  lemma DeleteKeepsWellFormed(d: Frames, k: string)
    requires WellFormed(d) && k in d
    ensures WellFormed(Deleted(d, k))
  {
    forall j | j in Deleted(d, k)
      ensures Rooted(Deleted(d, k), j)
    {
      DeleteShifts(d, k, j);
    }
  }

  function Renaming(o: string, n: string, j: string): string
  {
    if j == o then n else j
  }

  /**
   * Renaming `o` to a name not yet in use keeps every keyframe's absolute
   * time, under its new name.
   */
  lemma {:induction false} RenameKeepsTimes(d: Frames, o: string, n: string, j: string)
    requires o in d && n !in d && o != n && Rooted(d, j)
    ensures Renaming(o, n, j) in Renamed(d, o, n)
    ensures Rooted(Renamed(d, o, n), Renaming(o, n, j))
    ensures AbsTime(Renamed(d, o, n), Renaming(o, n, j)) == AbsTime(d, j)
    decreases Height(d, j)
  {
    var e := Renamed(d, o, n);
    var rj := Renaming(o, n, j);
    assert e[rj].time == d[j].time;
    if d[j].parent.None? {
      RootIsRooted(e, rj);
    } else {
      ParentRooted(d, j);
      var q := d[j].parent.value;
      RenameKeepsTimes(d, o, n, q);
      assert e[rj].parent == Some(Renaming(o, n, q));
      RootedStep(e, rj);
    }
  }

  lemma RenameKeepsWellFormed(d: Frames, o: string, n: string)
    requires WellFormed(d) && o in d && n !in d && o != n
    ensures WellFormed(Renamed(d, o, n))
  {
    forall x | x in Renamed(d, o, n)
      ensures Rooted(Renamed(d, o, n), x)
    {
      if x == n {
        RenameKeepsTimes(d, o, n, o);
      } else {
        RenameKeepsTimes(d, o, n, x);
      }
    }
  }

  /**
   * Adding a keyframe under a new name whose parent exists (or is None)
   * keeps the graph well-formed and every existing absolute time.
   */
  lemma AddKeepsTimes(d: Frames, name: string, kf: KeyFrame)
    requires WellFormed(d) && name !in d
    requires kf.parent.None? || kf.parent.value in d
    ensures WellFormed(d[name := kf])
    ensures forall j :: j in d ==> AbsTime(d[name := kf], j) == AbsTime(d, j)
    ensures AbsTime(d[name := kf], name)
         == kf.time + (if kf.parent.None? then 0.0 else AbsTime(d, kf.parent.value))
  {
    var e := d[name := kf];
    assert Extends(d, e);
    forall j | j in d
      ensures Rooted(e, j) && AbsTime(e, j) == AbsTime(d, j)
    {
      ExtendsKeepsAbsTime(d, e, j);
    }
    if kf.parent.None? {
      RootIsRooted(e, name);
    } else {
      RootedStep(e, name);
    }
  }
}

=== FILE: queuer.dfy ===
/**
 * Building queues of ramp documents for the server: naming every numeric
 * entry of a nested document by its path of keys, setting an entry by such
 * a name, scan tables, and the queuer's local list of documents to send.
 */
module Queuer {
  import opened Text
  import opened Json

  /** The separator between the keys of a path. */
  const Sep: string := "-->"

  /** The value types a scan can set: int, float and bool. */
  predicate Leaf(v: Value)
  {
    v.Int? || v.Float? || v.Bool?
  }

  /** Keys beginning with two underscores are internal and never listed. */
  predicate Hidden(key: string)
  {
    |key| >= 2 && key[..2] == "__"
  }

  function Prefixed(p: string, ids: seq<string>): (r: seq<string>)
    ensures |r| == |ids| && forall i :: 0 <= i < |ids| ==> r[i] == p + ids[i]
  {
    seq(|ids|, i requires 0 <= i < |ids| => p + ids[i])
  }

  /**
   * `flatten_dict(d, sep)`: for each key in sorted order, the key itself for
   * a scalar number, the key, `sep` and each name inside a nested
   * dictionary (named there with the default separator), and nothing for
   * anything else.
   */
  ghost function Flatten(d: map<string, Value>, sep: string): seq<string>
    decreases Dict(d), 1
  {
    FlattenKeys(d, SortedKeys(d.Keys), sep)
  }

  ghost function FlattenKeys(d: map<string, Value>, keys: seq<string>, sep: string): seq<string>
    requires forall k :: k in keys ==> k in d
    decreases Dict(d), 0, |keys|
  {
    if |keys| == 0 then []
    else
      var k := keys[0];
      assert d[k] in d.Values;
      var here :=
        if Hidden(k) then []
        else if Leaf(d[k]) then [k]
        else if d[k].Dict? then Prefixed(k + sep, Flatten(d[k].d, Sep))
        else [];
      here + FlattenKeys(d, keys[1..], sep)
  }

  /** The value at a path of keys, if each step is a dictionary holding the next key. */
  function Lookup(v: Value, path: seq<string>): Option<Value>
    decreases |path|
  {
    if |path| == 0 then Some(v)
    else if v.Dict? && path[0] in v.d then Lookup(v.d[path[0]], path[1..])
    else None
  }

  /** `v` with the value at an existing path replaced by `x`. */
  function Put(v: Value, path: seq<string>, x: Value): Value
    requires Lookup(v, path).Some?
    decreases |path|
  {
    if |path| == 0 then x
    else Dict(v.d[path[0] := Put(v.d[path[0]], path[1..], x)])
  }

  /**
   * `type(prior)(x)` for a number x: int truncates, bool tests for non-zero,
   * str prints (the `show` parameter); None, lists and dictionaries cannot
   * be built from a number.
   */
  function Convert(prior: Value, x: real, show: real -> string): Option<Value>
  {
    match prior
    case Int(_) => Some(Int(Trunc(x)))
    case Float(_) => Some(Float(x))
    case Bool(_) => Some(Bool(x != 0.0))
    case Str(_) => Some(Str(show(x)))
    case Null => None
    case List(_) => None
    case Dict(_) => None
  }

  /**
   * `set_dict_item(v, name, x)`: split the name on the separator, walk the
   * keys, and replace the final entry by x converted to that entry's type.
   * A missing key, a step into something that is not a dictionary, or an
   * impossible conversion raises (None).
   */
  function SetDictItem(v: Value, name: string, x: real, show: real -> string): (r: Option<Value>)
  {
    var path := Split(name, Sep);
    match Lookup(v, path)
    case None => None
    case Some(prior) =>
      match Convert(prior, x, show)
      case None => None
      case Some(y) => Some(Put(v, path, y))
  }

  /**
   * A set succeeds exactly when the path leads to an entry whose type can be
   * built from a number, and the entry then holds the converted number.
   */
  lemma SetDictItemSets(v: Value, name: string, x: real, show: real -> string)
    ensures var path := Split(name, Sep);
      var r := SetDictItem(v, name, x, show);
      (r.Some? <==> Lookup(v, path).Some? && Convert(Lookup(v, path).value, x, show).Some?) &&
      (r.Some? ==> Lookup(r.value, path) == Convert(Lookup(v, path).value, x, show))
  {
    var path := Split(name, Sep);
    if Lookup(v, path).Some? && Convert(Lookup(v, path).value, x, show).Some? {
      PutLookup(v, path, Convert(Lookup(v, path).value, x, show).value, path);
    }
  }

  predicate IsPrefix(a: seq<string>, b: seq<string>)
  {
    |a| <= |b| && b[..|a|] == a
  }

  /**
   * Replacing the value at path p puts it there and changes nothing at any
   * path that neither leads to p nor runs through it.
   */
  lemma {:induction false} PutLookup(v: Value, p: seq<string>, x: Value, q: seq<string>)
    requires Lookup(v, p).Some?
    ensures q == p ==> Lookup(Put(v, p, x), q) == Some(x)
    ensures !IsPrefix(p, q) && !IsPrefix(q, p) ==> Lookup(Put(v, p, x), q) == Lookup(v, q)
    decreases |p|
  {
    if |p| > 0 && |q| > 0 && q[0] == p[0] {
      if q == p {
        PutLookup(v.d[p[0]], p[1..], x, q[1..]);
      } else if !IsPrefix(p, q) && !IsPrefix(q, p) {
        PrefixTail(p, q);
        PrefixTail(q, p);
        PutLookup(v.d[p[0]], p[1..], x, q[1..]);
      }
    }
  }

  lemma PrefixTail(a: seq<string>, b: seq<string>)
    requires |a| > 0 && |b| > 0 && a[0] == b[0]
    ensures IsPrefix(a[1..], b[1..]) ==> IsPrefix(a, b)
  {
    if IsPrefix(a[1..], b[1..]) {
      assert b[..|a|] == [b[0]] + b[1..][..|a| - 1];
      assert a == [a[0]] + a[1..];
    }
  }

  /** A set leaves every entry elsewhere in the document as it was. */
  lemma SetDictItemLocal(v: Value, name: string, x: real, show: real -> string, q: seq<string>)
    requires SetDictItem(v, name, x, show).Some?
    requires !IsPrefix(Split(name, Sep), q) && !IsPrefix(q, Split(name, Sep))
    ensures Lookup(SetDictItem(v, name, x, show).value, q) == Lookup(v, q)
  {
    var path := Split(name, Sep);
    PutLookup(v, path, Convert(Lookup(v, path).value, x, show).value, q);
  }

  /** No key anywhere in the document contains the separator's final character. */
  ghost predicate CleanKeys(d: map<string, Value>)
    decreases Dict(d)
  {
    forall k :: k in d ==> Last(Sep) !in k && (d[k].Dict? ==> (assert d[k] in d.Values; CleanKeys(d[k].d)))
  }

  /**
   * Every name `flatten_dict` lists (with the default separator) addresses
   * an int, float or bool of the document: the names are exactly what
   * `set_dict_item` can set.
   */
  lemma {:induction false} FlattenAddressesLeaves(d: map<string, Value>)
    requires CleanKeys(d)
    ensures forall id :: id in Flatten(d, Sep) ==>
      Lookup(Dict(d), Split(id, Sep)).Some? && Leaf(Lookup(Dict(d), Split(id, Sep)).value)
    decreases Dict(d), 1
  {
    FlattenKeysAddressLeaves(d, SortedKeys(d.Keys));
  }

  lemma {:induction false} FlattenKeysAddressLeaves(d: map<string, Value>, keys: seq<string>)
    requires CleanKeys(d) && forall k :: k in keys ==> k in d
    ensures forall id :: id in FlattenKeys(d, keys, Sep) ==>
      Lookup(Dict(d), Split(id, Sep)).Some? && Leaf(Lookup(Dict(d), Split(id, Sep)).value)
    decreases Dict(d), 0, |keys|
  {
    if |keys| > 0 {
      var k := keys[0];
      assert d[k] in d.Values;
      FlattenKeysAddressLeaves(d, keys[1..]);
      assert "-->"[..2] == "--";
      if !Hidden(k) && !Leaf(d[k]) && d[k].Dict? {
        var inner := d[k].d;
        FlattenAddressesLeaves(inner);
        forall id | id in Prefixed(k + Sep, Flatten(inner, Sep))
          ensures Lookup(Dict(d), Split(id, Sep)).Some? && Leaf(Lookup(Dict(d), Split(id, Sep)).value)
        {
          var i :| 0 <= i < |Flatten(inner, Sep)| && Prefixed(k + Sep, Flatten(inner, Sep))[i] == id;
          var sub := Flatten(inner, Sep)[i];
          assert id == k + Sep + sub;
          SplitFirstCut(k, Sep, sub);
          assert Split(id, Sep)[1..] == Split(sub, Sep);
        }
      } else if !Hidden(k) && Leaf(d[k]) {
        SplitNoCut(k, Sep);
      }
    }
  }

  /** So setting any listed name succeeds and puts the converted number there. */
  lemma SetFlattenedName(d: map<string, Value>, id: string, x: real, show: real -> string)
    requires CleanKeys(d) && id in Flatten(d, Sep)
    ensures SetDictItem(Dict(d), id, x, show).Some?
    ensures Lookup(SetDictItem(Dict(d), id, x, show).value, Split(id, Sep)) ==
      Convert(Lookup(Dict(d), Split(id, Sep)).value, x, show)
  {
    FlattenAddressesLeaves(d);
    SetDictItemSets(Dict(d), id, x, show);
  }

  /**
   * A string entry gets no name: it is not among the names, contrary to the
   * example in the function's own documentation.
   */
  lemma FlattenOmitsStrings(d: map<string, Value>, k: string)
    requires CleanKeys(d) && k in d && d[k].Str?
    ensures k !in Flatten(d, Sep)
  {
    FlattenAddressesLeaves(d);
    SplitNoCut(k, Sep);
    assert Lookup(Dict(d), Split(k, Sep)) == Some(d[k]);
    assert !Leaf(d[k]);
  }

  /** Names are listed for every visible top-level number, and nothing for an empty document. */
  lemma FlattenListsVisibleNumbers(d: map<string, Value>, sep: string, k: string)
    requires k in d && !Hidden(k) && Leaf(d[k])
    ensures k in Flatten(d, sep)
    ensures Flatten(map[], sep) == []
  {
    var keys := SortedKeys(d.Keys);
    var i :| 0 <= i < |keys| && keys[i] == k;
    FlattenKeysHas(d, keys, sep, i);
  }

  lemma {:induction false} FlattenKeysHas(d: map<string, Value>, keys: seq<string>, sep: string, i: nat)
    requires forall k :: k in keys ==> k in d
    requires i < |keys| && !Hidden(keys[i]) && Leaf(d[keys[i]])
    ensures keys[i] in FlattenKeys(d, keys, sep)
    decreases i
  {
    if i > 0 {
      FlattenKeysHas(d, keys[1..], sep, i - 1);
    }
  }

  /**
   * Names come in sorted key order: a document of visible numbers only is
   * named by its keys in sorted order.
   */
  lemma FlattenFlatDocument(d: map<string, Value>, sep: string)
    requires forall k :: k in d ==> !Hidden(k) && Leaf(d[k])
    ensures Flatten(d, sep) == SortedKeys(d.Keys)
  {
    FlattenKeysOfLeaves(d, SortedKeys(d.Keys), sep);
  }

  lemma {:induction false} FlattenKeysOfLeaves(d: map<string, Value>, keys: seq<string>, sep: string)
    requires forall k :: k in keys ==> k in d && !Hidden(k) && Leaf(d[k])
    ensures FlattenKeys(d, keys, sep) == keys
    decreases |keys|
  {
    if |keys| > 0 {
      FlattenKeysOfLeaves(d, keys[1..], sep);
    }
  }

  /** Every name starts with a visible key of the document. */
  lemma {:induction false} FlattenSkipsHidden(d: map<string, Value>, sep: string, id: string)
    requires id in Flatten(d, sep)
    ensures exists k :: k in d && !Hidden(k) && IsPrefixOf(k, id)
  {
    FlattenKeysSkipsHidden(d, SortedKeys(d.Keys), sep, id);
  }

  predicate IsPrefixOf(a: string, b: string)
  {
    |a| <= |b| && b[..|a|] == a
  }

  lemma {:induction false} FlattenKeysSkipsHidden(d: map<string, Value>, keys: seq<string>, sep: string, id: string)
    requires forall k :: k in keys ==> k in d
    requires id in FlattenKeys(d, keys, sep)
    ensures exists k :: k in d && !Hidden(k) && IsPrefixOf(k, id)
    decreases |keys|
  {
    var k := keys[0];
    var here :=
      if Hidden(k) then []
      else if Leaf(d[k]) then [k]
      else if d[k].Dict? then Prefixed(k + sep, Flatten(d[k].d, Sep))
      else [];
    assert FlattenKeys(d, keys, sep) == here + FlattenKeys(d, keys[1..], sep);
    if id in here {
      if Leaf(d[k]) {
        assert IsPrefixOf(k, id);
      } else {
        var i :| 0 <= i < |here| && here[i] == id;
        assert id == k + sep + Flatten(d[k].d, Sep)[i];
        assert IsPrefixOf(k, id);
      }
    } else {
      FlattenKeysSkipsHidden(d, keys[1..], sep, id);
    }
  }

  // ---------------------------------------------------------------------
  // Scan tables.
  // ---------------------------------------------------------------------

  /** `np.arange(n) * step + start`. */
  function Arange(n: nat, step: real, start: real): (r: seq<real>)
    ensures |r| == n
  {
    seq(n, i requires 0 <= i < n => i as real * step + start)
  }

  /** `[[i, j] for i in a for j in b]`. */
  function Product(a: seq<real>, b: seq<real>): seq<seq<real>>
  {
    if |a| == 0 then []
    else seq(|b|, j requires 0 <= j < |b| => [a[0], b[j]]) + Product(a[1..], b)
  }

  lemma {:induction false} ProductLength(a: seq<real>, b: seq<real>)
    ensures |Product(a, b)| == |a| * |b|
  {
    if |a| > 0 {
      ProductLength(a[1..], b);
      var p := (|a| - 1) * |b|;
      assert |a| * |b| == p + |b|;
    }
  }

  /** Row i·|b| + j of the product is the pair of a[i] and b[j]: the first column varies slowest. */
  lemma {:induction false} ProductAt(a: seq<real>, b: seq<real>, i: nat, j: nat)
    requires i < |a| && j < |b|
    ensures i * |b| + j < |Product(a, b)|
    ensures Product(a, b)[i * |b| + j] == [a[i], b[j]]
    decreases i
  {
    ProductLength(a, b);
    var m := |b|;
    var head := seq(m, k requires 0 <= k < m => [a[0], b[k]]);
    assert Product(a, b) == head + Product(a[1..], b);
    IndexBelow(i, j, |a|, m);
    if i > 0 {
      ProductAt(a[1..], b, i - 1, j);
      var p := (i - 1) * m;
      assert i * m + j == m + (p + j);
      assert a[1..][i - 1] == a[i];
    }
  }

  /** i·m + j lies below n·m when i < n and j < m. */
  lemma IndexBelow(i: nat, j: nat, n: nat, m: nat)
    requires i < n && j < m
    ensures i * m + j < n * m
  {
    var p := i * m;
    assert p + m <= n * m by {
      assert (i + 1) * m <= n * m;
    }
  }

  /** The row of the table holding the i-th value of the first column and the j-th of the second. */
  function RowIndex(i: int, j: int, m: int): int
  {
    i * m + j
  }

  /**
   * `Ramp2DScan.handleProgramValues`: n1·n2 rows holding every pair of the
   * two columns' values.
   */
  function Scan2DTable(n1: nat, start1: real, step1: real, n2: nat, start2: real, step2: real): seq<seq<real>>
  {
    Product(Arange(n1, step1, start1), Arange(n2, step2, start2))
  }

  lemma Scan2DTableRows(n1: nat, start1: real, step1: real, n2: nat, start2: real, step2: real)
    ensures |Scan2DTable(n1, start1, step1, n2, start2, step2)| == n1 * n2
    ensures forall i, j :: 0 <= i < n1 && 0 <= j < n2 ==>
      RowIndex(i, j, n2) < n1 * n2 &&
      Scan2DTable(n1, start1, step1, n2, start2, step2)[RowIndex(i, j, n2)] ==
        [i as real * step1 + start1, j as real * step2 + start2]
  {
    ProductLength(Arange(n1, step1, start1), Arange(n2, step2, start2));
    forall i, j | 0 <= i < n1 && 0 <= j < n2
      ensures RowIndex(i, j, n2) < n1 * n2
      ensures Scan2DTable(n1, start1, step1, n2, start2, step2)[RowIndex(i, j, n2)] ==
        [i as real * step1 + start1, j as real * step2 + start2]
    {
      Scan2DTableRow(n1, start1, step1, n2, start2, step2, i, j);
    }
  }

  lemma Scan2DTableRow(n1: nat, start1: real, step1: real, n2: nat, start2: real, step2: real, i: nat, j: nat)
    requires i < n1 && j < n2
    ensures RowIndex(i, j, n2) < n1 * n2
    ensures RowIndex(i, j, n2) < |Scan2DTable(n1, start1, step1, n2, start2, step2)|
    ensures Scan2DTable(n1, start1, step1, n2, start2, step2)[RowIndex(i, j, n2)] ==
      [i as real * step1 + start1, j as real * step2 + start2]
  {
    var a, b := Arange(n1, step1, start1), Arange(n2, step2, start2);
    assert |a| == n1 && |b| == n2;
    IndexBelow(i, j, n1, n2);
    ProductLength(a, b);
    ProductAt(a, b, i, j);
    assert a[i] == i as real * step1 + start1 && b[j] == j as real * step2 + start2;
  }

  // ---------------------------------------------------------------------
  // The queuer's list of documents.
  // ---------------------------------------------------------------------

  /** The comment of a scan row: `name=value` pairs joined by `, `. */
  function ScanComment(names: seq<string>, row: seq<real>, show: real -> string): string
    requires |row| >= |names|
  {
    Join(seq(|names|, i requires 0 <= i < |names| => names[i] + "=" + show(row[i])), ", ")
  }

  /** Sets the first n named entries to the row's values, in order. */
  function SetAll(doc: Value, names: seq<string>, row: seq<real>, n: nat, show: real -> string): Option<Value>
    requires n <= |names| && |names| <= |row|
  {
    if n == 0 then Some(doc)
    else match SetAll(doc, names, row, n - 1, show)
      case None => None
      case Some(d) => SetDictItem(d, names[n - 1], row[n - 1], show)
  }

  const CommentPath: seq<string> := ["properties", "comment"]

  /**
   * One document of a scan: the main document with each named entry set to
   * the row's value and `Scan:` plus the pairs appended to its comment.
   * A row with fewer values than names, a failed set, or a comment that is
   * not a string raises (None).
   */
  function ScanDoc(main: Value, names: seq<string>, row: seq<real>, show: real -> string): (r: Option<Value>)
  {
    if |row| < |names| then None
    else
      var d := SetAll(main, names, row, |names|, show);
      if d.None? then None else AppendScanComment(d.value, ScanComment(names, row, show))
  }

  function AppendScanComment(d: Value, pairs: string): Option<Value>
  {
    match Lookup(d, CommentPath)
    case Some(Str(c)) => Some(Put(d, CommentPath, Str(c + "Scan:" + pairs)))
    case _ => None
  }

  /** The comment of a scan document is the main comment followed by the scan's pairs. */
  lemma ScanDocComment(main: Value, names: seq<string>, row: seq<real>, show: real -> string)
    requires ScanDoc(main, names, row, show).Some?
    ensures var d := SetAll(main, names, row, |names|, show).value;
      Lookup(d, CommentPath).Some? && Lookup(d, CommentPath).value.Str? &&
      Lookup(ScanDoc(main, names, row, show).value, CommentPath) ==
        Some(Str(Lookup(d, CommentPath).value.s + "Scan:" + ScanComment(names, row, show)))
  {
    var d := SetAll(main, names, row, |names|, show).value;
    PutLookup(d, CommentPath, Str(Lookup(d, CommentPath).value.s + "Scan:" + ScanComment(names, row, show)), CommentPath);
  }

  /** The document has a `properties` → `comment` entry, which `addRamp` reads to list it. */
  predicate HasComment(v: Value)
  {
    Lookup(v, CommentPath).Some?
  }

  /** `addRamp` lists the prepend document without raising: prepending is off, or it has a comment. */
  predicate PrependOk(prepend: bool, prependDoc: Value)
  {
    prepend ==> HasComment(prependDoc)
  }

  /** Every document of a scan has a string comment, which `addRamp` can list. */
  lemma ScanDocsHaveComments(main: Value, names: seq<string>, show: real -> string)
    ensures forall row :: ScanMaker(main, names, show)(row).Some? ==> HasComment(ScanMaker(main, names, show)(row).value)
  {
    forall row | ScanMaker(main, names, show)(row).Some?
      ensures HasComment(ScanMaker(main, names, show)(row).value)
    {
      ScanDocComment(main, names, row, show);
    }
  }

  /** What `addRamp` appends: the prepend document first when prepending is on. */
  function Entries(prepend: bool, prependDoc: Value, doc: Value): (r: seq<Value>)
    ensures |r| == (if prepend then 2 else 1) && r[|r| - 1] == doc
    ensures prepend ==> r[0] == prependDoc
  {
    if prepend then [prependDoc, doc] else [doc]
  }

  /** Every row's entries, in row order. */
  function RowEntries(prepend: bool, prependDoc: Value, docs: seq<Value>): (r: seq<Value>)
    ensures |r| == |docs| * (if prepend then 2 else 1)
  {
    if |docs| == 0 then []
    else RowEntries(prepend, prependDoc, docs[..|docs| - 1]) + Entries(prepend, prependDoc, docs[|docs| - 1])
  }

  /** The entries of `reps` repetitions of the rows. */
  function Repeat(reps: nat, block: seq<Value>): (r: seq<Value>)
    ensures |r| == reps * |block|
  {
    if reps == 0 then [] else Repeat(reps - 1, block) + block
  }

  /** Row r of repetition j is entry j·|block| + r. */
  lemma {:induction false} RepeatAt(reps: nat, block: seq<Value>, j: nat, i: nat)
    requires j < reps && i < |block|
    ensures j * |block| + i < reps * |block|
    ensures Repeat(reps, block)[j * |block| + i] == block[i]
  {
    var m := |block|;
    IndexBelow(j, i, reps, m);
    var front := Repeat(reps - 1, block);
    assert Repeat(reps, block) == front + block;
    if j < reps - 1 {
      RepeatAt(reps - 1, block, j, i);
    } else {
      assert j * m == |front|;
    }
  }

  /** In the row entries, document k is the last of its group. */
  lemma {:induction false} RowEntriesAt(prepend: bool, prependDoc: Value, docs: seq<Value>, k: nat)
    requires k < |docs|
    ensures var w := if prepend then 2 else 1;
      k * w + w - 1 < |RowEntries(prepend, prependDoc, docs)| &&
      RowEntries(prepend, prependDoc, docs)[k * w + w - 1] == docs[k] &&
      (prepend ==> RowEntries(prepend, prependDoc, docs)[k * w] == prependDoc)
  {
    var w := if prepend then 2 else 1;
    var n := |docs| - 1;
    assert k * w + w <= |docs| * w;
    if k < n {
      RowEntriesAt(prepend, prependDoc, docs[..n], k);
      assert docs[..n][k] == docs[k];
    } else {
      assert k * w == |RowEntries(prepend, prependDoc, docs[..n])|;
    }
  }

  /** The document each row makes. */
  function ScanMaker(main: Value, names: seq<string>, show: real -> string): seq<real> -> Option<Value>
  {
    row => ScanDoc(main, names, row, show)
  }

  /**
   * The documents of the leading rows that make one, up to the first row
   * that makes none.
   */
  function FirstDocs(mk: seq<real> -> Option<Value>, rows: seq<seq<real>>): (r: seq<Value>)
    ensures |r| <= |rows|
  {
    if |rows| == 0 then []
    else match mk(rows[0])
      case None => []
      case Some(d) => [d] + FirstDocs(mk, rows[1..])
  }

  /**
   * The leading documents are those of the first rows, and the row after
   * them (if any) makes none.
   */
  lemma {:induction false} FirstDocsLeading(mk: seq<real> -> Option<Value>, rows: seq<seq<real>>)
    ensures var r := FirstDocs(mk, rows);
      (forall k :: 0 <= k < |r| ==> mk(rows[k]) == Some(r[k])) &&
      (|r| < |rows| ==> mk(rows[|r|]).None?)
  {
    if |rows| > 0 && mk(rows[0]).Some? {
      FirstDocsLeading(mk, rows[1..]);
      var r := FirstDocs(mk, rows);
      assert r == [mk(rows[0]).value] + FirstDocs(mk, rows[1..]);
      forall k | 0 <= k < |r|
        ensures mk(rows[k]) == Some(r[k])
      {
        if k > 0 {
          assert rows[k] == rows[1..][k - 1];
        }
      }
      if |r| < |rows| {
        assert rows[|r|] == rows[1..][|r| - 1];
      }
    }
  }

  /** Row `n`, reached by the loop, either makes the next leading document or ends them. */
  lemma FirstDocsAt(mk: seq<real> -> Option<Value>, rows: seq<seq<real>>, n: nat)
    requires n <= |FirstDocs(mk, rows)| && n < |rows|
    ensures mk(rows[n]).None? ==> |FirstDocs(mk, rows)| == n
    ensures mk(rows[n]).Some? ==> n < |FirstDocs(mk, rows)| && FirstDocs(mk, rows)[n] == mk(rows[n]).value
  {
    FirstDocsLeading(mk, rows);
  }

  /** The documents of the rows, if every row makes one. */
  function ScanDocs(mk: seq<real> -> Option<Value>, rows: seq<seq<real>>): (r: Option<seq<Value>>)
    ensures r.Some? <==> forall k :: 0 <= k < |rows| ==> mk(rows[k]).Some?
    ensures r.Some? ==> |r.value| == |rows| && forall k :: 0 <= k < |rows| ==> mk(rows[k]) == Some(r.value[k])
  {
    FirstDocsLeading(mk, rows);
    var ds := FirstDocs(mk, rows);
    if |ds| == |rows| then Some(ds) else None
  }

  /** `RampQueuer`: the local list of documents and what has been sent to the server. */
  class RampQueuer {
    var rampsToQueue: seq<Value>
    var prependChecked: bool
    /** The documents the prepend and main ramp files hold. */
    var prependDoc: Value
    var mainDoc: Value
    /** The documents sent to the server by `queue_ramp`, in order. */
    var sent: seq<Value>

    constructor (prepend: bool, prependDoc: Value, mainDoc: Value)
      ensures rampsToQueue == [] && sent == [] && prependChecked == prepend
      ensures this.prependDoc == prependDoc && this.mainDoc == mainDoc
    {
      rampsToQueue := [];
      sent := [];
      prependChecked := prepend;
      this.prependDoc := prependDoc;
      this.mainDoc := mainDoc;
    }

    /**
     * `addRamp`: the prepend document (when checked) and then `doc` join the
     * list. Each is appended before its comment is read for the on-screen
     * list, so a missing comment raises KeyError (not `ok`) with that
     * document already queued: a prepend document without one stops the
     * call before `doc` is added.
     */
    method AddRamp(doc: Value) returns (ok: bool)
      modifies this
      ensures ok <==> PrependOk(prependChecked, prependDoc) && HasComment(doc)
      ensures rampsToQueue == old(rampsToQueue) +
        (if PrependOk(prependChecked, prependDoc) then Entries(prependChecked, prependDoc, doc) else [prependDoc])
      ensures sent == old(sent) && prependChecked == old(prependChecked)
      ensures prependDoc == old(prependDoc) && mainDoc == old(mainDoc)
    {
      if prependChecked {
        rampsToQueue := rampsToQueue + [prependDoc];
        if Lookup(prependDoc, CommentPath).None? {
          return false;
        }
      }
      rampsToQueue := rampsToQueue + [doc];
      ok := Lookup(doc, CommentPath).Some?;
    }

    /**
     * `add1dScanRamps`: for each repetition, for each row, a scan document
     * made from a fresh copy of the main document is added. A row that
     * cannot be made, or a prepend document without a comment, stops the
     * scan (false) with the documents added so far.
     */
    method Add1dScanRamps(names: seq<string>, rows: seq<seq<real>>, reps: nat, show: real -> string) returns (ok: bool)
      modifies this
      ensures sent == old(sent) && prependChecked == old(prependChecked)
      ensures prependDoc == old(prependDoc) && mainDoc == old(mainDoc)
      ensures ok <==> ScanEntries(prependChecked, prependDoc, ScanMaker(mainDoc, names, show), rows, reps).Some?
      ensures ok ==> (rampsToQueue == old(rampsToQueue) +
        ScanEntries(prependChecked, prependDoc, ScanMaker(mainDoc, names, show), rows, reps).value)
      ensures !ok ==> IsPrefixOfValues(old(rampsToQueue), rampsToQueue)
      ensures !ok ==>
        rampsToQueue == old(rampsToQueue) + PartialPass(prependChecked, prependDoc, ScanMaker(mainDoc, names, show), rows)
    {
      var mk := ScanMaker(mainDoc, names, show);
      ghost var start := rampsToQueue;
      ScanDocsHaveComments(mainDoc, names, show);
      ok := AddScanPasses(mk, rows, reps);
      PrefixOfAppend(start, PartialPass(prependChecked, prependDoc, mk, rows));
    }

    /**
     * The repetitions of a scan: `reps` passes over the rows, stopping at
     * the first pass that fails.
     */
    method AddScanPasses(mk: seq<real> -> Option<Value>, rows: seq<seq<real>>, reps: nat) returns (ok: bool)
      requires forall row :: mk(row).Some? ==> HasComment(mk(row).value)
      modifies this
      ensures sent == old(sent) && prependChecked == old(prependChecked)
      ensures prependDoc == old(prependDoc) && mainDoc == old(mainDoc)
      ensures ok <==> ScanEntries(prependChecked, prependDoc, mk, rows, reps).Some?
      ensures ok ==> rampsToQueue == old(rampsToQueue) + ScanEntries(prependChecked, prependDoc, mk, rows, reps).value
      ensures !ok ==> rampsToQueue == old(rampsToQueue) + PartialPass(prependChecked, prependDoc, mk, rows)
    {
      ghost var start, s0, pre, pd, main := rampsToQueue, sent, prependChecked, prependDoc, mainDoc;
      ghost var pass := Pass(pre, pd, mk, rows);
      ghost var block := if pass.Some? then pass.value else [];
      ok := true;
      var j := 0;
      while j < reps && ok
        invariant 0 <= j <= reps
        invariant sent == s0 && prependChecked == pre && prependDoc == pd && mainDoc == main
        invariant ok ==> (j > 0 ==> pass == Some(block)) && rampsToQueue == start + Repeat(j, block)
        invariant !ok ==> j == 1 && pass.None? && rampsToQueue == start + PartialPass(pre, pd, mk, rows)
      {
        ghost var before := rampsToQueue;
        ok := AddScanRows(mk, rows);
        if ok {
          AppendAssoc(start, Repeat(j, block), block);
        } else {
          assert before == start + [];
        }
        j := j + 1;
      }
    }

    /**
     * One pass of a scan: the document of each row in turn, stopping at a
     * row that makes none or at an `addRamp` that raises.
     */
    method AddScanRows(mk: seq<real> -> Option<Value>, rows: seq<seq<real>>) returns (ok: bool)
      requires forall row :: mk(row).Some? ==> HasComment(mk(row).value)
      modifies this
      ensures sent == old(sent) && prependChecked == old(prependChecked)
      ensures prependDoc == old(prependDoc) && mainDoc == old(mainDoc)
      ensures rampsToQueue == old(rampsToQueue) + PartialPass(prependChecked, prependDoc, mk, rows)
      ensures ok <==> |FirstDocs(mk, rows)| == |rows| && (PrependOk(prependChecked, prependDoc) || |rows| == 0)
      ensures ok <==> Pass(prependChecked, prependDoc, mk, rows).Some?
      ensures ok ==> rampsToQueue == old(rampsToQueue) + Pass(prependChecked, prependDoc, mk, rows).value
      ensures IsPrefixOfValues(old(rampsToQueue), rampsToQueue)
    {
      ghost var start, pre, pd, main := rampsToQueue, prependChecked, prependDoc, mainDoc;
      ghost var all := FirstDocs(mk, rows);
      var nr := 0;
      while nr < |rows|
        invariant 0 <= nr <= |all|
        invariant sent == old(sent) && prependChecked == pre && prependDoc == pd && mainDoc == main
        invariant !PrependOk(pre, pd) ==> nr == 0
        invariant rampsToQueue == start + RowEntries(pre, pd, all[..nr])
      {
        var doc := mk(rows[nr]);
        FirstDocsAt(mk, rows, nr);
        if doc.None? {
          TakeAll(all);
          AddScanRowsDone(start, pre, pd, mk, rows);
          return false;
        }
        TakeNext(all, nr);
        RowEntriesNext(pre, pd, all[..nr], doc.value);
        AppendAssoc(start, RowEntries(pre, pd, all[..nr]), Entries(pre, pd, doc.value));
        var added := AddRamp(doc.value);
        if !added {
          assert rampsToQueue == start + [pd];
          AddScanRowsDone(start, pre, pd, mk, rows);
          return false;
        }
        nr := nr + 1;
      }
      TakeAll(all);
      AddScanRowsDone(start, pre, pd, mk, rows);
      ok := true;
    }

    /** `handleQueueToServerPressed`: every listed document is sent, in order, and the list emptied. */
    method QueueToServer()
      modifies this
      ensures sent == old(sent) + old(rampsToQueue) && rampsToQueue == []
      ensures prependChecked == old(prependChecked) && prependDoc == old(prependDoc) && mainDoc == old(mainDoc)
    {
      var i := 0;
      while i < |rampsToQueue|
        invariant 0 <= i <= |rampsToQueue| && rampsToQueue == old(rampsToQueue)
        invariant sent == old(sent) + rampsToQueue[..i]
        invariant prependChecked == old(prependChecked) && prependDoc == old(prependDoc) && mainDoc == old(mainDoc)
      {
        assert rampsToQueue[..i + 1] == rampsToQueue[..i] + [rampsToQueue[i]];
        sent := sent + [rampsToQueue[i]];
        i := i + 1;
      }
      assert rampsToQueue[..|rampsToQueue|] == rampsToQueue;
      rampsToQueue := [];
    }
  }

  predicate IsPrefixOfValues(a: seq<Value>, b: seq<Value>)
  {
    |a| <= |b| && b[..|a|] == a
  }

  /**
   * What one pass over the rows adds, if every row makes a document and no
   * `addRamp` raises (a prepend document without a comment raises at the
   * first row).
   */
  function Pass(prepend: bool, prependDoc: Value, mk: seq<real> -> Option<Value>, rows: seq<seq<real>>): Option<seq<Value>>
  {
    if !PrependOk(prepend, prependDoc) && |rows| > 0 then None
    else match ScanDocs(mk, rows)
      case None => None
      case Some(ds) => Some(RowEntries(prepend, prependDoc, ds))
  }

  /**
   * What a pass adds when it stops: the entries of the leading documents,
   * or, when the prepend document has no comment, that document alone
   * once the first row makes a document.
   */
  function PartialPass(prepend: bool, prependDoc: Value, mk: seq<real> -> Option<Value>, rows: seq<seq<real>>): seq<Value>
  {
    if PrependOk(prepend, prependDoc) then RowEntries(prepend, prependDoc, FirstDocs(mk, rows))
    else if |FirstDocs(mk, rows)| > 0 then [prependDoc]
    else []
  }

  /** A pass adds the entries of the leading documents, and succeeds when every row makes one and none raises. */
  lemma PassFirstDocs(prepend: bool, prependDoc: Value, mk: seq<real> -> Option<Value>, rows: seq<seq<real>>)
    ensures Pass(prepend, prependDoc, mk, rows) ==
      if |FirstDocs(mk, rows)| == |rows| && (PrependOk(prepend, prependDoc) || |rows| == 0)
      then Some(RowEntries(prepend, prependDoc, FirstDocs(mk, rows))) else None
  {
  }

  /** What a pass adds, in the terms of `Pass` and as a prefix-keeping append. */
  lemma AddScanRowsDone(start: seq<Value>, prepend: bool, prependDoc: Value, mk: seq<real> -> Option<Value>, rows: seq<seq<real>>)
    ensures var added := PartialPass(prepend, prependDoc, mk, rows);
      IsPrefixOfValues(start, start + added) &&
      (Pass(prepend, prependDoc, mk, rows).Some? <==>
        |FirstDocs(mk, rows)| == |rows| && (PrependOk(prepend, prependDoc) || |rows| == 0)) &&
      (Pass(prepend, prependDoc, mk, rows).Some? ==> Pass(prepend, prependDoc, mk, rows).value == added)
  {
    PassFirstDocs(prepend, prependDoc, mk, rows);
    PrefixOfAppend(start, PartialPass(prepend, prependDoc, mk, rows));
  }

  lemma TakeNext(s: seq<Value>, n: nat)
    requires n < |s|
    ensures s[..n + 1] == s[..n] + [s[n]]
  {
  }

  lemma TakeAll(s: seq<Value>)
    ensures s[..|s|] == s
  {
  }

  lemma AppendAssoc(a: seq<Value>, b: seq<Value>, c: seq<Value>)
    ensures (a + b) + c == a + (b + c)
  {
  }

  lemma PrefixOfAppend(a: seq<Value>, b: seq<Value>)
    ensures IsPrefixOfValues(a, a + b)
  {
    assert (a + b)[..|a|] == a;
  }

  /** Everything a scan of `reps` passes over the rows adds, if every row makes a document. */
  function ScanEntries(prepend: bool, prependDoc: Value, mk: seq<real> -> Option<Value>, rows: seq<seq<real>>,
                       reps: nat): Option<seq<Value>>
  {
    if reps == 0 then Some([])
    else match Pass(prepend, prependDoc, mk, rows)
      case None => None
      case Some(block) => Some(Repeat(reps, block))
  }

  lemma {:induction false} RowEntriesNext(prepend: bool, prependDoc: Value, docs: seq<Value>, d: Value)
    ensures RowEntries(prepend, prependDoc, docs + [d]) == RowEntries(prepend, prependDoc, docs) + Entries(prepend, prependDoc, d)
  {
    assert (docs + [d])[..|docs|] == docs;
  }

  /**
   * A scan adds reps × rows documents, repetition by repetition and row by
   * row within each, each preceded by the prepend document when prepending
   * is on.
   */
  lemma ScanQueueOrder(prepend: bool, prependDoc: Value, docs: seq<Value>, reps: nat, j: nat, k: nat)
    requires j < reps && k < |docs|
    ensures var w := if prepend then 2 else 1;
      var q := Repeat(reps, RowEntries(prepend, prependDoc, docs));
      |q| == reps * (|docs| * w) &&
      (j * |docs| + k) * w + w - 1 < |q| &&
      q[(j * |docs| + k) * w + w - 1] == docs[k]
  {
    var w := if prepend then 2 else 1;
    var block := RowEntries(prepend, prependDoc, docs);
    var bl := |docs| * w;
    assert |block| == bl;
    RowEntriesAt(prepend, prependDoc, docs, k);
    RepeatAt(reps, block, j, k * w + w - 1);
    GroupIndex(j, |docs|, k, w);
  }

  lemma GroupIndex(j: nat, n: nat, k: nat, w: nat)
    ensures (j * n + k) * w + w - 1 == j * (n * w) + (k * w + w - 1)
  {
  }

}

=== FILE: ramp_editor.dfy ===
/**
 * The data rules of the ramp editor: channels are laid out in order of
 * their hardware id, each with the ramp-type table of its kind; an accepted
 * channel edit renames the channel and updates its comment and id; the
 * ramp's `properties` dictionary is created empty when missing and replaced
 * only when its edit is accepted.
 */
module RampEditors {
  import opened Text
  import opened Json
  import opened Ramps
  import opened KeyFrames
  import KeyFrameWidgets
  import Sorting

  /** String order is a total preorder, as `sorted` needs. */
  lemma StringOrder()
    ensures Sorting.TotalPreorder((a: string, b: string) => LessEq(a, b))
  {
    var le := (a: string, b: string) => LessEq(a, b);
    forall a: string, b: string
      ensures le(a, b) || le(b, a)
    {
      LessTotal(a, b);
    }
    forall a: string, b: string, c: string | le(a, b) && le(b, c)
      ensures le(a, c)
    {
      if a != b && b != c {
        LessTransitive(a, b, c);
      }
    }
  }

  /** `order` lists every channel once, in non-decreasing order of id. */
  ghost predicate IsChannelOrder(channels: map<string, ChannelData>, order: seq<string>)
  {
    (forall k :: multiset(order)[k] == (if k in channels then 1 else 0)) &&
    (forall i :: 0 <= i < |order| ==> order[i] in channels) &&
    (forall i, j :: 0 <= i < j < |order| ==> LessEq(channels[order[i]].id, channels[order[j]].id))
  }

  /**
   * The ordering of `reDoUi`: the channels sorted by their `id` field.
   * Channels with equal ids keep the dictionary's iteration order, which
   * the model leaves open.
   */
  method ChannelOrder(channels: map<string, ChannelData>) returns (order: seq<string>)
    ensures IsChannelOrder(channels, order)
  {
    var key := (name: string) => if name in channels then channels[name].id else "";
    var le := (a: string, b: string) => LessEq(a, b);
    StringOrder();
    var names := channels.Keys;
    order := [];
    while names != {}
      invariant names <= channels.Keys
      invariant forall k :: multiset(order)[k] == (if k in channels && k !in names then 1 else 0)
      invariant Sorting.SortedBy(order, key, le)
      decreases names
    {
      var k :| k in names;
      Sorting.InsertBySorted(k, order, key, le);
      order := Sorting.InsertBy(k, order, key, le);
      names := names - {k};
    }
    forall i | 0 <= i < |order|
      ensures order[i] in channels && key(order[i]) == channels[order[i]].id
    {
      assert order[i] in multiset(order);
    }
  }

  /** The ramp-type table a channel of the given kind is edited with; None for any other kind. */
  function RampTypesFor(chType: string): (r: Option<map<string, seq<string>>>)
    ensures r.Some? <==> chType == "analog" || chType == "digital"
    ensures chType == "analog" ==> r == Some(AnalogRampTypes)
    ensures chType == "digital" ==> r == Some(DigitalRampTypes)
  {
    if chType == "analog" then Some(AnalogRampTypes)
    else if chType == "digital" then Some(DigitalRampTypes)
    else None
  }

  /**
   * The channels after an accepted edit of `name`: its record, with the new
   * comment and id, now sits under `newName`.
   */
  function EditedChannels(channels: map<string, ChannelData>, name: string, newName: string,
                          comment: string, id: string): map<string, ChannelData>
    requires name in channels
  {
    (channels - {name})[newName := channels[name].(comment := comment, id := id)]
  }

  /**
   * The edited record is under the new name and the old name is gone (unless
   * it is the new one); every other channel is untouched; the segments and
   * the kind of the channel are kept.
   */
  lemma EditedChannelsEffect(channels: map<string, ChannelData>, name: string, newName: string,
                             comment: string, id: string)
    requires name in channels
    ensures var r := EditedChannels(channels, name, newName, comment, id);
      r.Keys == channels.Keys - {name} + {newName} &&
      r[newName].comment == comment && r[newName].id == id &&
      r[newName].keys == channels[name].keys && r[newName].chType == channels[name].chType &&
      (forall c :: c in channels && c != name && c != newName ==> c in r && r[c] == channels[c])
  {
  }

  /** Every segment of every channel sits on a keyframe of `d`. */
  ghost predicate SegmentsOnKeyFrames(d: Frames, channels: map<string, ChannelData>)
  {
    forall c, k :: c in channels && k in channels[c].keys ==> k in d
  }

  /** A channel's segments after keyframe `o` is renamed `n`. */
  function RenamedKeys(keys: map<string, Segment>, o: string, n: string): map<string, Segment>
  {
    if o in keys then (keys - {o})[n := keys[o]] else keys
  }

  /** Every channel after keyframe `o` is renamed `n`. */
  function KeyRenamedChannels(channels: map<string, ChannelData>, o: string, n: string): (r: map<string, ChannelData>)
    ensures r.Keys == channels.Keys
  {
    map c | c in channels :: channels[c].(keys := RenamedKeys(channels[c].keys, o, n))
  }

  /**
   * As written: after `set_name` the call to the missing
   * `handleKeyNameChanged` raises, so the channels keep their segment under
   * the old name, which is no longer a keyframe.
   */
  lemma RenameOrphansSegment()
    ensures var d := map["a" := KeyFrame(0.0, None, "", None, None)];
      var chs := map["ch" := ChannelData("", "0", "analog", map["a" := Segment("jump", map["value" := 0.0], None)])];
      SegmentsOnKeyFrames(d, chs) && !SegmentsOnKeyFrames(KeyFrameWidgets.Edited(d, "a", "b", "", None), chs)
  {
    var d := map["a" := KeyFrame(0.0, None, "", None, None)];
    var chs := map["ch" := ChannelData("", "0", "analog", map["a" := Segment("jump", map["value" := 0.0], None)])];
    assert "a" !in KeyFrameWidgets.Edited(d, "a", "b", "", None);
    assert "a" in chs["ch"].keys;
  }

  /**
   * As intended: renaming a keyframe to an unused name and each channel's
   * segment with it keeps every segment on a keyframe, the same segment
   * under the new name.
   */
  lemma KeyRenameKeepsSegments(d: Frames, channels: map<string, ChannelData>, o: string, n: string)
    requires o in d && n !in d && SegmentsOnKeyFrames(d, channels)
    ensures SegmentsOnKeyFrames(Renamed(d, o, n), KeyRenamedChannels(channels, o, n))
    ensures forall c, k :: c in channels && k in channels[c].keys ==>
      Renaming(o, n, k) in KeyRenamedChannels(channels, o, n)[c].keys &&
      KeyRenamedChannels(channels, o, n)[c].keys[Renaming(o, n, k)] == channels[c].keys[k]
  {
  }

  /** A channel widget: the channel it was made for and the ramp-type table it edits with. */
  datatype Row = Row(name: string, table: map<string, seq<string>>)

  /**
   * Widget `j` of the layout: made for channel `order[j]` with its kind's
   * table, or, for a channel of another kind, the widget before it again.
   */
  predicate RowFits(channels: map<string, ChannelData>, order: seq<string>, rows: seq<Row>, j: int)
    requires 0 <= j < |order| && j < |rows| && order[j] in channels
  {
    var types := RampTypesFor(channels[order[j]].chType);
    (types.Some? ==> rows[j] == Row(order[j], types.value)) &&
    (types.None? ==> j > 0 && rows[j] == rows[j - 1])
  }

  /**
   * The layout `reDoUi` leaves: `order` lists the channels by id; `raised`
   * exactly when the first of them is of a kind with no ramp-type table,
   * and then no widget is kept; otherwise one fitting widget per channel.
   */
  ghost predicate LaidOut(channels: map<string, ChannelData>, order: seq<string>, rows: seq<Row>, raised: bool)
  {
    IsChannelOrder(channels, order) &&
    (raised <==> |order| > 0 && RampTypesFor(channels[order[0]].chType).None?) &&
    (raised ==> rows == []) &&
    (!raised ==> |rows| == |order| && forall i :: 0 <= i < |order| ==> RowFits(channels, order, rows, i))
  }

  /** The channel names in layout order, with `name` now called `newName`. */
  function RenamedOrder(order: seq<string>, name: string, newName: string): (r: seq<string>)
    ensures |r| == |order|
    ensures forall i :: 0 <= i < |order| ==> r[i] == Renaming(name, newName, order[i])
  {
    seq(|order|, i requires 0 <= i < |order| => Renaming(name, newName, order[i]))
  }

  /** The widgets after `edit_channel_info` on each one made for `name`. */
  function RenamedRows(rows: seq<Row>, name: string, newName: string): (r: seq<Row>)
    ensures |r| == |rows|
    ensures forall i :: 0 <= i < |rows| ==> r[i].table == rows[i].table
    ensures forall i :: 0 <= i < |rows| ==> r[i].name == Renaming(name, newName, rows[i].name)
  {
    seq(|rows|, i requires 0 <= i < |rows| => Row(Renaming(name, newName, rows[i].name), rows[i].table))
  }

  /** Renaming one entry of a sequence to a name not in it moves that entry's count to the new name. */
  lemma {:induction false} RenamedOrderCounts(order: seq<string>, name: string, newName: string)
    requires newName == name || newName !in order
    ensures forall k ::
      multiset(RenamedOrder(order, name, newName))[k] ==
      (if newName == name then multiset(order)[k]
       else if k == name then 0
       else if k == newName then multiset(order)[name]
       else multiset(order)[k])
  {
    if |order| > 0 {
      var front := order[..|order| - 1];
      assert order == front + [order[|order| - 1]];
      assert RenamedOrder(order, name, newName) ==
        RenamedOrder(front, name, newName) + [Renaming(name, newName, order[|order| - 1])];
      RenamedOrderCounts(front, name, newName);
    }
  }

  /** Under the edit that keeps the id, channel `k` is found under its new name with its id and kind. */
  lemma EditedAt(channels: map<string, ChannelData>, name: string, newName: string, comment: string, k: string)
    requires name in channels && (newName == name || newName !in channels) && k in channels
    ensures var e := EditedChannels(channels, name, newName, comment, channels[name].id);
      Renaming(name, newName, k) in e &&
      e[Renaming(name, newName, k)].id == channels[k].id &&
      e[Renaming(name, newName, k)].chType == channels[k].chType
  {
  }

  /** Read with the new name, the order still names each edited channel once. */
  lemma RenameKeepsCounts(channels: map<string, ChannelData>, order: seq<string>,
                          name: string, newName: string, comment: string)
    requires name in channels && (newName == name || newName !in channels)
    requires forall k :: multiset(order)[k] == (if k in channels then 1 else 0)
    ensures var e := EditedChannels(channels, name, newName, comment, channels[name].id);
      forall k :: multiset(RenamedOrder(order, name, newName))[k] == (if k in e then 1 else 0)
  {
    assert multiset(order)[newName] == 0 || newName == name;
    RenamedOrderCounts(order, name, newName);
  }

  /** Read with the new name, the order by id is still one of the edited channels. */
  lemma RenameKeepsOrder(channels: map<string, ChannelData>, order: seq<string>,
                         name: string, newName: string, comment: string)
    requires name in channels && (newName == name || newName !in channels)
    requires IsChannelOrder(channels, order)
    ensures IsChannelOrder(EditedChannels(channels, name, newName, comment, channels[name].id),
                           RenamedOrder(order, name, newName))
  {
    var e := EditedChannels(channels, name, newName, comment, channels[name].id);
    var o := RenamedOrder(order, name, newName);
    RenameKeepsCounts(channels, order, name, newName, comment);
    forall i | 0 <= i < |order|
      ensures o[i] in e && e[o[i]].id == channels[order[i]].id
    {
      EditedAt(channels, name, newName, comment, order[i]);
    }
  }

  /**
   * An edit that keeps the id keeps a complete layout complete: read with the
   * new name, the same widgets fit the edited channels in the same order.
   */
  lemma RenameKeepsLayout(channels: map<string, ChannelData>, order: seq<string>, rows: seq<Row>,
                          name: string, newName: string, comment: string)
    requires name in channels && (newName == name || newName !in channels)
    requires LaidOut(channels, order, rows, false)
    ensures LaidOut(EditedChannels(channels, name, newName, comment, channels[name].id),
                    RenamedOrder(order, name, newName), RenamedRows(rows, name, newName), false)
  {
    var e := EditedChannels(channels, name, newName, comment, channels[name].id);
    var o := RenamedOrder(order, name, newName);
    var r := RenamedRows(rows, name, newName);
    RenameKeepsOrder(channels, order, name, newName, comment);
    forall i | 0 <= i < |order|
      ensures RowFits(e, o, r, i)
    {
      EditedAt(channels, name, newName, comment, order[i]);
      assert RowFits(channels, order, rows, i);
    }
  }

  /** The ramp being edited: its channels, its properties and the channel layout. */
  class RampEditor {
    var channels: map<string, ChannelData>
    var properties: Option<map<string, Value>>
    var channelOrder: seq<string>
    var channelRows: seq<Row>

    constructor (chs: map<string, ChannelData>, props: Option<map<string, Value>>)
      ensures channels == chs && properties == props && channelOrder == [] && channelRows == []
    {
      channels, properties := chs, props;
      channelOrder, channelRows := [], [];
    }

    /**
     * `reDoUi`: one widget per channel in order of id, made with the
     * ramp-type table of its kind. A channel of any other kind makes no
     * widget: the widget of the channel before it is appended again, and
     * when there is none (the first channel by id is of another kind) the
     * unset local raises UnboundLocalError (`raised`), with no widget kept.
     */
    method ReDoUi() returns (raised: bool)
      modifies this
      ensures channels == old(channels) && properties == old(properties)
      ensures LaidOut(channels, channelOrder, channelRows, raised)
    {
      var order := ChannelOrder(channels);
      var rows := [];
      var i := 0;
      raised := false;
      while i < |order|
        invariant 0 <= i <= |order| && |rows| == i
        invariant !raised
        invariant i > 0 ==> RampTypesFor(channels[order[0]].chType).Some?
        invariant forall j :: 0 <= j < i ==> RowFits(channels, order, rows, j)
      {
        var types := RampTypesFor(channels[order[i]].chType);
        var row;
        if types.Some? {
          row := Row(order[i], types.value);
        } else if i == 0 {
          raised := true;
          break;
        } else {
          row := rows[i - 1];
        }
        assert forall j :: 0 <= j < i ==> RowFits(channels, order, rows + [row], j) by {
          forall j | 0 <= j < i
            ensures RowFits(channels, order, rows + [row], j)
          {
            assert RowFits(channels, order, rows, j);
            assert (rows + [row])[j] == rows[j];
            if j > 0 {
              assert (rows + [row])[j - 1] == rows[j - 1];
            }
          }
        }
        rows := rows + [row];
        i := i + 1;
      }
      channelOrder := order;
      channelRows := if raised then [] else rows;
    }

    /**
     * `handleEditChannelInfo` once the dialog is accepted: the record moves
     * to the new name with the new comment and id, and every widget made for
     * the channel takes the new name; the whole layout is redone (`redo`)
     * exactly when the id changed, and then ends as `reDoUi` leaves it,
     * `raised` included.
     */
    method HandleEditChannelInfo(name: string, newName: string, comment: string, id: string)
      returns (redo: bool, raised: bool)
      requires name in channels
      modifies this
      ensures channels == EditedChannels(old(channels), name, newName, comment, id)
      ensures properties == old(properties)
      ensures redo <==> old(channels)[name].id != id
      ensures !redo ==> !raised
      ensures !redo ==> channelOrder == RenamedOrder(old(channelOrder), name, newName)
      ensures !redo ==> channelRows == RenamedRows(old(channelRows), name, newName)
      ensures redo ==> LaidOut(channels, channelOrder, channelRows, raised)
      ensures !redo && (newName == name || newName !in old(channels)) &&
              old(LaidOut(channels, channelOrder, channelRows, false)) ==>
              LaidOut(channels, channelOrder, channelRows, false)
    {
      var oldId := channels[name].id;
      var ch := channels[name].(comment := comment, id := id);
      channels := (channels - {name})[newName := ch];
      var rows := channelRows;
      var i := 0;
      while i < |rows|
        invariant 0 <= i <= |rows| == |channelRows|
        invariant forall j :: 0 <= j < |rows| ==>
          rows[j] == if j < i then RenamedRows(channelRows, name, newName)[j] else channelRows[j]
      {
        if rows[i].name == name {
          rows := rows[i := Row(newName, rows[i].table)];
        }
        i := i + 1;
      }
      channelRows := rows;
      channelOrder := RenamedOrder(channelOrder, name, newName);
      redo := oldId != id;
      raised := false;
      if redo {
        raised := ReDoUi();
      } else if newName == name || newName !in old(channels) {
        if old(LaidOut(channels, channelOrder, channelRows, false)) {
          RenameKeepsLayout(old(channels), old(channelOrder), old(channelRows), name, newName, comment);
        }
      }
    }

    /**
     * The `handleKeyNameChanged` the keyframe editor calls after renaming
     * keyframe `o` to `n`, which the ramp editor does not define: as
     * intended, each channel's segment on `o` moves to `n`.
     */
    method HandleKeyNameChanged(o: string, n: string)
      modifies this
      ensures channels == KeyRenamedChannels(old(channels), o, n)
      ensures properties == old(properties)
      ensures channelOrder == old(channelOrder) && channelRows == old(channelRows)
    {
      channels := KeyRenamedChannels(channels, o, n);
    }

    /**
     * `handleProperties`: a missing `properties` entry is created empty; the
     * dictionary editor works on a copy (`edit` is what it makes of it), and
     * the copy replaces the entry only when the editor is accepted.
     */
    method HandleProperties(accepted: bool, edit: map<string, Value> -> map<string, Value>)
      returns (changed: bool)
      modifies this
      ensures channels == old(channels)
      ensures channelOrder == old(channelOrder) && channelRows == old(channelRows)
      ensures var current := if old(properties).Some? then old(properties).value else map[];
        properties == Some(if accepted then edit(current) else current)
      ensures changed == accepted
    {
      if properties.None? {
        properties := Some(map[]);
      }
      var copy := properties.value;
      var edited := edit(copy);
      if accepted {
        properties := Some(edited);
      }
      changed := accepted;
    }
  }
}

=== FILE: ramps.dfy ===
/**
 * Channels and the ramps they generate: the per-segment ramp functions
 * (what value a segment takes at a given time), the tables of ramp types
 * and their parameters, and `Channel.generate_ramp`, which samples a whole
 * channel on a uniform time grid.
 *
 * Times and values are exact reals; `exp`, `sin` and `pi` are supplied as
 * the `Numerics` parameter. A sample of a digital channel is 0.0 or 1.0.
 */
module Ramps {
  import opened Text
  import opened KeyFrames
  import opened KeyFrameLists

  /** The floating-point library functions the ramp functions call. */
  datatype Numerics = Numerics(exp: real -> real, sin: real -> real, pi: real)

  /** What the model needs of `Numerics`: pi is not zero, exp(x) is 1 only at 0. */
  ghost predicate NumericsOk(m: Numerics)
  {
    m.pi != 0.0 && forall x :: m.exp(x) == 1.0 ==> x == 0.0
  }

  /** The data a channel holds for one keyframe. */
  datatype Segment = Segment(rampType: string, rampData: map<string, real>, state: Option<bool>)

  /** A channel's dictionary: comment, hardware id, "analog"/"digital", and its keys. */
  datatype ChannelData = ChannelData(comment: string, id: string, chType: string, keys: map<string, Segment>)

  /** `analog_ramp_types`: the parameters the editor offers for each analog ramp. */
  const AnalogRampTypes: map<string, seq<string>> :=
    map["jump" := ["value"],
        "quadratic" := ["value", "slope"],
        "linear" := ["value"],
        "cubic" := ["value", "slope_left", "slope_right"],
        "sine" := ["value", "amp", "freq", "phase"],
        "quadratic2" := ["value", "curvature"],
        "exp" := ["value", "tau"]]

  /** `digital_ramp_types`. */
  const DigitalRampTypes: map<string, seq<string>> :=
    map["jump" := [],
        "pulsetrain" := ["freq", "phase", "duty_cycle"]]

  /** The entries of `ramp_data` each analog ramp function reads. */
  function AnalogReads(rampType: string): set<string>
  {
    match rampType
    case "quadratic" => {"value", "slope"}
    case "quadratic2" => {"value", "curvature"}
    case "exp" => {"value", "tau"}
    case "sine" => {"value", "amp", "freq", "phase"}
    case _ => {"value"}
  }

  /** The entries of `ramp_data` each digital ramp function reads. */
  function DigitalReads(rampType: string): set<string>
  {
    if rampType == "pulsetrain" then {"freq", "phase", "duty_cycle"} else {}
  }

  /**
   * Every ramp function reads only parameters its type lists, so a segment
   * the editor fills with its type's parameters can always be evaluated.
   */
  lemma RampFunctionsReadListedParameters()
    ensures forall t :: t in AnalogRampTypes ==>
      forall p :: p in AnalogReads(t) ==> p in AnalogRampTypes[t]
    ensures forall t :: t in DigitalRampTypes ==>
      forall p :: p in DigitalReads(t) ==> p in DigitalRampTypes[t]
  {
    assert AnalogRampTypes.Keys == {"jump", "quadratic", "linear", "cubic", "sine", "quadratic2", "exp"};
    assert DigitalRampTypes.Keys == {"jump", "pulsetrain"};
  }

  // ---------------------------------------------------------------------
  // Ramp functions, at one sample time t of the segment [t0, t1).
  // ---------------------------------------------------------------------

  /** `analog_linear_ramp`. */
  function LinearAt(v0: real, t0: real, t1: real, vf: real, t: real): real
    requires t0 != t1
  {
    var interp := (t - t0) / (t1 - t0);
    v0 * (1.0 - interp) + vf * interp
  }

  /** `analog_quadratic_ramp`: starts with the given slope, ends at `vf`. */
  function QuadraticAt(v0: real, slope: real, t0: real, t1: real, vf: real, t: real): real
    requires t0 != t1
  {
    var dt := t1 - t0;
    var curvature := (vf - v0 - slope * dt) / (dt * dt);
    var x := t - t0;
    v0 + slope * x + curvature * x * x
  }

  /** `analog_quadratic2_ramp`: has the given curvature, ends at `vf`. */
  function Quadratic2At(v0: real, curvature: real, t0: real, t1: real, vf: real, t: real): real
    requires t0 != t1
  {
    var dt := t1 - t0;
    var slope := (vf - v0 - curvature * dt * dt) / dt;
    var x := t - t0;
    v0 + slope * x + curvature * x * x
  }

  /** `analog_exp_ramp`: a jump when tau is 0, otherwise an exponential to `vf`. */
  function ExpAt(v0: real, tau: real, t0: real, t1: real, vf: real, t: real, m: Numerics): real
    requires tau != 0.0 ==> m.exp((t1 - t0) / tau) != 1.0
  {
    if tau == 0.0 then v0
    else
      var b := (vf - v0) / (m.exp((t1 - t0) / tau) - 1.0);
      var a := v0 - b;
      a + b * m.exp((t - t0) / tau)
  }

  /** `analog_sine_ramp`. */
  function SineAt(v0: real, amp: real, freq: real, phase: real, t0: real, t: real, m: Numerics): real
  {
    v0 + amp * m.sin(2.0 * m.pi * freq * (t - t0) + phase)
  }

  /** Python's `x % 1.0`: the fractional part, in [0, 1). */
  function Frac(x: real): (r: real)
    ensures 0.0 <= r < 1.0
  {
    x - x.Floor as real
  }

  function Bit(b: bool): real
  {
    if b then 1.0 else 0.0
  }

  /** `digital_pulsetrain_ramp`: on while the phase is within the duty cycle. */
  function PulseTrainAt(freq: real, phase: real, duty: real, t0: real, state: bool, t: real, m: Numerics): (r: real)
    requires m.pi != 0.0
    ensures r == 0.0 || r == Bit(state)
  {
    var ph := (t - t0) * freq + phase / m.pi / 2.0;
    if Frac(ph) < duty then Bit(state) else 0.0
  }

  /** The segment can be evaluated as an analog ramp. */
  predicate AnalogOk(s: Segment)
  {
    s.rampType in AnalogRampTypes && AnalogReads(s.rampType) <= s.rampData.Keys
  }

  /** The segment can be evaluated as a digital ramp. */
  predicate DigitalOk(s: Segment)
  {
    s.state.Some? && s.rampType in DigitalRampTypes && DigitalReads(s.rampType) <= s.rampData.Keys
  }

  /** The value of analog segment `s` at time `t`, heading for `vf` at `t1`. */
  function AnalogAt(s: Segment, t0: real, t1: real, vf: real, t: real, m: Numerics): real
    requires AnalogOk(s) && t0 < t1 && NumericsOk(m)
  {
    var d := s.rampData;
    match s.rampType
    case "linear" => LinearAt(d["value"], t0, t1, vf, t)
    case "quadratic" => QuadraticAt(d["value"], d["slope"], t0, t1, vf, t)
    case "quadratic2" => Quadratic2At(d["value"], d["curvature"], t0, t1, vf, t)
    case "exp" =>
      assert d["tau"] != 0.0 ==> (t1 - t0) / d["tau"] != 0.0;
      ExpAt(d["value"], d["tau"], t0, t1, vf, t, m)
    case "sine" => SineAt(d["value"], d["amp"], d["freq"], d["phase"], t0, t, m)
    case _ => d["value"]
  }

  /** The value of digital segment `s` at time `t`. */
  function DigitalAt(s: Segment, t0: real, t: real, m: Numerics): (r: real)
    requires DigitalOk(s) && NumericsOk(m)
    ensures r == 0.0 || r == 1.0
  {
    if s.rampType == "pulsetrain" then
      PulseTrainAt(s.rampData["freq"], s.rampData["phase"], s.rampData["duty_cycle"], t0, s.state.value, t, m)
    else Bit(s.state.value)
  }

  // ---------------------------------------------------------------------
  // What each ramp function promises at the ends of its segment.
  // ---------------------------------------------------------------------

  /** A linear ramp starts at its value and ends at the next one. */
  lemma LinearEndpoints(v0: real, t0: real, t1: real, vf: real)
    requires t0 != t1
    ensures LinearAt(v0, t0, t1, vf, t0) == v0
    ensures LinearAt(v0, t0, t1, vf, t1) == vf
  {
    assert (t1 - t0) / (t1 - t0) == 1.0;
  }

  lemma DivIsFraction(a: real, b: real)
    requires 0.0 <= a <= b && 0.0 < b
    ensures 0.0 <= a / b <= 1.0
  {
    var q := a / b;
    assert q * b == a;
  }

  lemma ScaleByFraction(x: real, q: real)
    requires 0.0 <= x && 0.0 <= q <= 1.0
    ensures 0.0 <= x * q <= x
  {
    assert x - x * q == x * (1.0 - q);
  }

  /** Between its ends a linear ramp stays between the two values. */
  lemma LinearBetween(v0: real, t0: real, t1: real, vf: real, t: real)
    requires t0 < t1 && t0 <= t <= t1
    ensures v0 <= vf ==> v0 <= LinearAt(v0, t0, t1, vf, t) <= vf
    ensures vf <= v0 ==> vf <= LinearAt(v0, t0, t1, vf, t) <= v0
  {
    var interp := (t - t0) / (t1 - t0);
    DivIsFraction(t - t0, t1 - t0);
    assert LinearAt(v0, t0, t1, vf, t) == v0 + (vf - v0) * interp;
    if v0 <= vf {
      ScaleByFraction(vf - v0, interp);
      assert 0.0 <= (vf - v0) * interp <= vf - v0;
    } else {
      ScaleByFraction(v0 - vf, interp);
      assert (vf - v0) * interp == -((v0 - vf) * interp);
    }
  }

  /** A quadratic ramp starts at its value and ends at the next one. */
  lemma QuadraticEndpoints(v0: real, slope: real, t0: real, t1: real, vf: real)
    requires t0 != t1
    ensures QuadraticAt(v0, slope, t0, t1, vf, t0) == v0
    ensures QuadraticAt(v0, slope, t0, t1, vf, t1) == vf
  {
    var dt := t1 - t0;
    var c := (vf - v0 - slope * dt) / (dt * dt);
    assert c * dt * dt == vf - v0 - slope * dt;
  }

  /** So does a quadratic ramp given by its curvature. */
  lemma Quadratic2Endpoints(v0: real, curvature: real, t0: real, t1: real, vf: real)
    requires t0 != t1
    ensures Quadratic2At(v0, curvature, t0, t1, vf, t0) == v0
    ensures Quadratic2At(v0, curvature, t0, t1, vf, t1) == vf
  {
    var dt := t1 - t0;
    var slope := (vf - v0 - curvature * dt * dt) / dt;
    assert slope * dt == vf - v0 - curvature * dt * dt;
  }

  /** With exp(0) = 1 an exponential ramp starts at its value and ends at the next. */
  lemma ExpEndpoints(v0: real, tau: real, t0: real, t1: real, vf: real, m: Numerics)
    requires tau != 0.0 && m.exp((t1 - t0) / tau) != 1.0 && m.exp(0.0) == 1.0
    ensures ExpAt(v0, tau, t0, t1, vf, t0, m) == v0
    ensures ExpAt(v0, tau, t0, t1, vf, t1, m) == vf
  {
    var e := m.exp((t1 - t0) / tau);
    var b := (vf - v0) / (e - 1.0);
    assert (t0 - t0) / tau == 0.0;
    assert b * (e - 1.0) == vf - v0;
  }

  /** A digital pulse train with a duty cycle above 1 is always on, below 0 always off. */
  lemma PulseTrainDuty(freq: real, phase: real, duty: real, t0: real, state: bool, t: real, m: Numerics)
    requires m.pi != 0.0
    ensures duty >= 1.0 ==> PulseTrainAt(freq, phase, duty, t0, state, t, m) == Bit(state)
    ensures duty <= 0.0 ==> PulseTrainAt(freq, phase, duty, t0, state, t, m) == 0.0
  {
  }

  // ---------------------------------------------------------------------
  // Sampling a channel.
  // ---------------------------------------------------------------------

  /** The array index numpy uses for time `t`: `t / time_div`, truncated. */
  function Pos(t: real, td: real): int
    requires td > 0.0
  {
    (t / td).Floor
  }

  lemma PosMonotone(t: real, u: real, td: real)
    requires td > 0.0 && t <= u
    ensures Pos(t, td) <= Pos(u, td)
  {
    assert t / td <= u / td by {
      assert u / td - t / td == (u - t) / td;
    }
  }

  /**
   * `len(np.arange(0.0, t_last + time_div, time_div))`, which is
   * ceil((t_last + time_div) / time_div), that is ceil(t_last / time_div) + 1.
   */
  function SampleCount(tLast: real, td: real): nat
    requires td > 0.0 && tLast >= 0.0
  {
    DivNonNegative(tLast, td);
    -((-(tLast / td)).Floor) + 1
  }

  lemma SampleCountCovers(t: real, tLast: real, td: real)
    requires td > 0.0 && 0.0 <= t <= tLast
    ensures 0 <= Pos(t, td) < SampleCount(tLast, td)
  {
    PosMonotone(t, tLast, td);
    DivNonNegative(t, td);
  }

  lemma DivNonNegative(t: real, td: real)
    requires 0.0 <= t && 0.0 < td
    ensures 0.0 <= t / td
  {
    var q := t / td;
    assert q * td == t;
  }

  predicate NonDecreasing(times: seq<real>)
  {
    forall i, j :: 0 <= i < j < |times| ==> times[i] <= times[j]
  }

  /** Every segment can be evaluated: what `generate_ramp` needs to not raise. */
  predicate Generable(analog: bool, segs: seq<Segment>)
  {
    |segs| > 0 &&
    if analog then
      (forall j :: 0 <= j < |segs| ==> "value" in segs[j].rampData) &&
      (forall j :: 0 <= j < |segs| - 1 ==> AnalogOk(segs[j]))
    else
      (forall j :: 0 <= j < |segs| ==> segs[j].state.Some?) &&
      (forall j :: 0 <= j < |segs| - 1 ==> DigitalOk(segs[j]))
  }

  function StartValue(analog: bool, segs: seq<Segment>): real
    requires Generable(analog, segs)
  {
    if analog then segs[0].rampData["value"] else Bit(segs[0].state.value)
  }

  function EndValue(analog: bool, segs: seq<Segment>): real
    requires Generable(analog, segs)
  {
    var s := segs[|segs| - 1];
    if analog then s.rampData["value"] else Bit(s.state.value)
  }

  /** The value segment `j` gives at time `t`. */
  function RegionValue(analog: bool, segs: seq<Segment>, times: seq<real>, j: int, t: real, m: Numerics): real
    requires Generable(analog, segs) && |times| == |segs| && 0 <= j < |segs| - 1
    requires times[j] < times[j + 1] && NumericsOk(m)
  {
    if analog then AnalogAt(segs[j], times[j], times[j + 1], segs[j + 1].rampData["value"], t, m)
    else DigitalAt(segs[j], times[j], t, m)
  }

  /**
   * `v` is the ramp of the used segments `segs` at absolute times `times`:
   * the first value before the first keyframe, the last value from the last
   * keyframe on, and in between, each segment's ramp function from its
   * keyframe up to (not including) the next.
   */
  ghost predicate IsRamp(analog: bool, segs: seq<Segment>, times: seq<real>, td: real, m: Numerics, v: seq<real>)
    requires Generable(analog, segs) && |times| == |segs| && td > 0.0 && NumericsOk(m)
  {
    (forall i :: 0 <= i < |v| && i < Pos(times[0], td) ==> v[i] == StartValue(analog, segs)) &&
    (forall i :: 0 <= i < |v| && Pos(times[|segs| - 1], td) <= i ==> v[i] == EndValue(analog, segs)) &&
    SegmentsFilled(analog, segs, times, td, m, v, |segs| - 1)
  }

  /** Each of the first `upto` segments has been sampled into `v`. */
  ghost predicate SegmentsFilled(analog: bool, segs: seq<Segment>, times: seq<real>, td: real, m: Numerics, v: seq<real>, upto: int)
    requires Generable(analog, segs) && |times| == |segs| && td > 0.0 && NumericsOk(m)
    requires upto <= |segs| - 1
  {
    forall k, i :: 0 <= k < upto && 0 <= i < |v| && times[k] < times[k + 1] &&
      Pos(times[k], td) <= i < Pos(times[k + 1], td)
      ==> v[i] == RegionValue(analog, segs, times, k, i as real * td, m)
  }

  /** Sampling segment `j` into `v` keeps the earlier segments, which lie before it. */
  lemma FillSegmentStep(analog: bool, segs: seq<Segment>, times: seq<real>, td: real, m: Numerics,
                        v: seq<real>, w: seq<real>, j: int)
    requires Generable(analog, segs) && |times| == |segs| && td > 0.0 && NumericsOk(m)
    requires NonDecreasing(times) && 0 <= j < |segs| - 1 && |w| == |v|
    requires SegmentsFilled(analog, segs, times, td, m, v, j)
    requires forall i :: 0 <= i < |v| && !(Pos(times[j], td) <= i < Pos(times[j + 1], td)) ==> w[i] == v[i]
    requires times[j] < times[j + 1] ==> forall i :: 0 <= i < |v| && Pos(times[j], td) <= i < Pos(times[j + 1], td) ==>
      w[i] == RegionValue(analog, segs, times, j, i as real * td, m)
    ensures SegmentsFilled(analog, segs, times, td, m, w, j + 1)
  {
    forall k, i | 0 <= k < j + 1 && 0 <= i < |w| && times[k] < times[k + 1] &&
      (Pos(times[k], td) <= i < Pos(times[k + 1], td))
      ensures w[i] == RegionValue(analog, segs, times, k, i as real * td, m)
    {
      if k < j {
        PosMonotone(times[k + 1], times[j], td);
      }
    }
  }

  /**
   * Fills the sample array the way `generate_ramp` does: zeros, then the
   * part before the first keyframe, the part from the last keyframe on, and
   * one slice per segment.
   */
  method FillRamp(analog: bool, segs: seq<Segment>, times: seq<real>, td: real, n: nat, m: Numerics)
    returns (v: seq<real>)
    requires Generable(analog, segs) && |times| == |segs| && td > 0.0 && NumericsOk(m)
    requires NonDecreasing(times)
    ensures |v| == n
    ensures IsRamp(analog, segs, times, td, m, v)
  {
    var last := |segs| - 1;
    var a := new real[n](_ => 0.0);
    var startV := StartValue(analog, segs);
    var endV := EndValue(analog, segs);
    var p0 := Pos(times[0], td);
    var pl := Pos(times[last], td);
    PosMonotone(times[0], times[last], td);
    forall i | 0 <= i < n && i < p0 {
      a[i] := startV;
    }
    forall i | 0 <= i < n && pl <= i {
      a[i] := endV;
    }
    var j := 0;
    while j < last
      invariant 0 <= j <= last
      invariant forall i :: 0 <= i < n && i < p0 ==> a[i] == startV
      invariant forall i :: 0 <= i < n && pl <= i ==> a[i] == endV
      invariant SegmentsFilled(analog, segs, times, td, m, a[..], j)
    {
      var s := Pos(times[j], td);
      var e := Pos(times[j + 1], td);
      PosMonotone(times[0], times[j], td);
      PosMonotone(times[j + 1], times[last], td);
      assert p0 <= s && e <= pl;
      ghost var before := a[..];
      if times[j] < times[j + 1] {
        forall i | 0 <= i < n && s <= i < e {
          a[i] := RegionValue(analog, segs, times, j, i as real * td, m);
        }
      }
      FillSegmentStep(analog, segs, times, td, m, before, a[..], j);
      j := j + 1;
    }
    v := a[..];
  }

  /** Between the first and last keyframe, every sample lies in some segment. */
  lemma {:induction false} SampleInSomeSegment(times: seq<real>, td: real, i: int)
    requires td > 0.0 && |times| > 0 && NonDecreasing(times)
    requires Pos(times[0], td) <= i < Pos(times[|times| - 1], td)
    ensures exists j :: (0 <= j < |times| - 1 && times[j] < times[j + 1] &&
      Pos(times[j], td) <= i < Pos(times[j + 1], td))
    decreases |times|
  {
    var last := |times| - 1;
    if Pos(times[last - 1], td) <= i {
      assert times[last - 1] < times[last];
    } else {
      var front := times[..last];
      assert NonDecreasing(front);
      SampleInSomeSegment(front, td, i);
      var j :| (0 <= j < |front| - 1 && front[j] < front[j + 1] &&
        Pos(front[j], td) <= i < Pos(front[j + 1], td));
      assert times[j] == front[j] && times[j + 1] == front[j + 1];
    }
  }

  /** Every sample of a digital ramp is 0 or 1. */
  lemma DigitalRampIsBinary(segs: seq<Segment>, times: seq<real>, td: real, m: Numerics, v: seq<real>)
    requires Generable(false, segs) && |times| == |segs| && td > 0.0 && NumericsOk(m)
    requires NonDecreasing(times) && IsRamp(false, segs, times, td, m, v)
    ensures forall i :: 0 <= i < |v| ==> v[i] == 0.0 || v[i] == 1.0
  {
    forall i | 0 <= i < |v|
      ensures v[i] == 0.0 || v[i] == 1.0
    {
      var last := |segs| - 1;
      if Pos(times[0], td) <= i < Pos(times[last], td) {
        SampleInSomeSegment(times, td, i);
      }
    }
  }

  /** The segment's own value is where each of these ramps starts. */
  predicate StartsAtOwnValue(s: Segment, m: Numerics)
  {
    s.rampType in {"jump", "cubic", "linear", "quadratic", "quadratic2"} ||
    (s.rampType == "exp" && m.exp(0.0) == 1.0) ||
    (s.rampType == "sine" && "phase" in s.rampData && m.sin(s.rampData["phase"]) == 0.0)
  }

  lemma SegmentStartsAtValue(s: Segment, t0: real, t1: real, vf: real, m: Numerics)
    requires AnalogOk(s) && t0 < t1 && NumericsOk(m) && StartsAtOwnValue(s, m)
    ensures AnalogAt(s, t0, t1, vf, t0, m) == s.rampData["value"]
  {
    var d := s.rampData;
    if s.rampType == "linear" {
      LinearEndpoints(d["value"], t0, t1, vf);
    } else if s.rampType == "quadratic" {
      QuadraticEndpoints(d["value"], d["slope"], t0, t1, vf);
    } else if s.rampType == "quadratic2" {
      Quadratic2Endpoints(d["value"], d["curvature"], t0, t1, vf);
    } else if s.rampType == "exp" && d["tau"] != 0.0 {
      assert (t1 - t0) / d["tau"] != 0.0;
      ExpEndpoints(d["value"], d["tau"], t0, t1, vf, m);
    } else if s.rampType == "sine" {
      assert 2.0 * m.pi * d["freq"] * (t0 - t0) + d["phase"] == d["phase"];
    }
  }

  /**
   * An analog ramp passes through the value of each keyframe that lies on
   * the time grid and starts a non-empty segment (a sine segment only when
   * the sine of its phase is 0).
   */
  lemma AnalogRampHitsKeyframes(segs: seq<Segment>, times: seq<real>, td: real, m: Numerics, v: seq<real>, j: int)
    requires Generable(true, segs) && |times| == |segs| && td > 0.0 && NumericsOk(m)
    requires IsRamp(true, segs, times, td, m, v)
    requires 0 <= j < |segs| - 1 && times[j] < times[j + 1] && StartsAtOwnValue(segs[j], m)
    requires times[j] == Pos(times[j], td) as real * td
    requires 0 <= Pos(times[j], td) < Pos(times[j + 1], td) && Pos(times[j], td) < |v|
    ensures v[Pos(times[j], td)] == segs[j].rampData["value"]
  {
    var p := Pos(times[j], td);
    SampleOfSegment(true, segs, times, td, m, v, j, p);
    var t := p as real * td;
    assert t == times[j];
    assert v[p] == RegionValue(true, segs, times, j, times[j], m);
    SegmentStartsAtValue(segs[j], times[j], times[j + 1], segs[j + 1].rampData["value"], m);
  }

  /** A sample inside segment `j` has that segment's value. */
  lemma SampleOfSegment(analog: bool, segs: seq<Segment>, times: seq<real>, td: real, m: Numerics, v: seq<real>, j: int, i: int)
    requires Generable(analog, segs) && |times| == |segs| && td > 0.0 && NumericsOk(m)
    requires SegmentsFilled(analog, segs, times, td, m, v, |segs| - 1)
    requires 0 <= j < |segs| - 1 && 0 <= i < |v| && times[j] < times[j + 1]
    requires Pos(times[j], td) <= i < Pos(times[j + 1], td)
    ensures v[i] == RegionValue(analog, segs, times, j, i as real * td, m)
  {
  }

  /** `np.arange(0.0, max_time, time_div)` with `n` elements: sample `i` is at time i * time_div. */
  function TimeGrid(n: nat, td: real): (g: seq<real>)
    ensures |g| == n
  {
    seq(n, i => i as real * td)
  }

  /** `used_key_frames`: the keys of `skl`, in order, for which the channel has data. */
  function UsedKeys(skl: seq<string>, keys: map<string, Segment>): (r: seq<string>)
    ensures forall u :: u in r <==> u in skl && u in keys
    ensures |r| <= |skl|
  {
    if |skl| == 0 then []
    else UsedKeys(skl[..|skl| - 1], keys) + (if skl[|skl| - 1] in keys then [skl[|skl| - 1]] else [])
  }

  /** No keyframe lies before time 0, by the times `get_absolute_time` answers. */
  ghost predicate NonNegativeTimes(d: Frames)
  {
    forall k :: k in d ==> Rooted(d, k) && CachedTime(d, k) >= 0.0
  }

  /**
   * `r` is what `generate_ramp` returns for channel `c` over keyframes `d`
   * sorted as `skl`: None exactly where the source raises, otherwise the time
   * grid up to the last keyframe and the ramp of the keyframes the channel uses,
   * all at the times `get_absolute_time` answers.
   */
  ghost predicate RampOfChannel(d: Frames, c: ChannelData, skl: seq<string>, td: real, m: Numerics,
                                r: Option<(seq<real>, seq<real>)>)
  {
    CacheSorted(d, skl) && NonNegativeTimes(d) && td > 0.0 && NumericsOk(m) &&
    var analog := c.chType == "analog";
    var used := UsedKeys(skl, c.keys);
    (r.None? <==> |skl| == 0 || !Generable(analog, Segs(used, c.keys))) &&
    (r.Some? ==>
      |skl| > 0 && Generable(analog, Segs(used, c.keys)) &&
      var n := SampleCount(CachedTime(d, skl[|skl| - 1]), td);
      r.value.0 == TimeGrid(n, td) && |r.value.1| == n &&
      IsRamp(analog, Segs(used, c.keys), Times(d, used), td, m, r.value.1))
  }

  /** Filling caches with the answers keeps every answer, hence its sign. */
  lemma NonNegativeTimesKept(d: Frames, e: Frames)
    requires WellFormed(d) && FillsFrom(d, e) && NonNegativeTimes(d)
    ensures NonNegativeTimes(e)
  {
    SameUncachedAbsTime(d, e);
    forall k | k in e
      ensures Rooted(e, k) && CachedTime(e, k) == CachedTime(d, k)
    {
      FillsKeepCachedTime(d, e, k);
    }
  }

  /** So are the times of the used keys. */
  lemma TimesKept(d: Frames, e: Frames, used: seq<string>)
    requires WellFormed(d) && FillsFrom(d, e) && forall u :: u in used ==> u in d
    ensures forall u :: u in used ==> Rooted(e, u)
    ensures Times(e, used) == Times(d, used)
  {
    forall u | u in used
      ensures Rooted(e, u) && CachedTime(e, u) == CachedTime(d, u)
    {
      FillsKeepCachedTime(d, e, u);
    }
  }

  /** Where every cache is right, the times of the used keys are their absolute times. */
  lemma TimesSound(d: Frames, used: seq<string>)
    requires WellFormed(d) && CacheSound(d) && forall u :: u in used ==> u in d
    ensures forall j :: 0 <= j < |used| ==> Times(d, used)[j] == AbsTime(d, used[j])
  {
    forall j | 0 <= j < |used|
      ensures Times(d, used)[j] == AbsTime(d, used[j])
    {
      CachedTimeSound(d, used[j]);
    }
  }

  /**
   * What sorting, asking for the last time and asking for the used times
   * (each of which only fills caches) leave for the sampling step.
   */
  lemma TimesFilled(d1: Frames, d2: Frames, d3: Frames, skl: seq<string>, used: seq<string>, keys: map<string, Segment>)
    requires WellFormed(d1) && FillsFrom(d1, d2) && FillsFrom(d2, d3)
    requires CacheSorted(d1, skl) && NonNegativeTimes(d1) && used == UsedKeys(skl, keys)
    ensures CacheSorted(d3, skl) && NonNegativeTimes(d3)
    ensures forall k :: k in d1 ==> k in d3 && CachedTime(d3, k) == CachedTime(d1, k)
    ensures forall u :: u in used ==> u in d3
    ensures NonDecreasing(Times(d3, used))
  {
    FillsTransitive(d1, d2, d3);
    FillsKeepCacheSorted(d1, d3, skl);
    NonNegativeTimesKept(d1, d3);
    forall k | k in d1
      ensures k in d3 && CachedTime(d3, k) == CachedTime(d1, k)
    {
      FillsKeepCachedTime(d1, d3, k);
    }
    UsedTimesSorted(d3, skl, used, keys);
  }

  /** Assembles `RampOfChannel` from what each step of `generate_ramp` established. */
  lemma RampOfChannelIntro(d: Frames, c: ChannelData, skl: seq<string>, td: real, m: Numerics,
                           times: seq<real>, tLast: real, r: Option<(seq<real>, seq<real>)>)
    requires CacheSorted(d, skl) && NonNegativeTimes(d) && td > 0.0 && NumericsOk(m)
    requires |skl| == 0 ==> r.None?
    requires |skl| > 0 ==>
      var used := UsedKeys(skl, c.keys);
      (forall u :: u in used ==> u in d) &&
      tLast == CachedTime(d, skl[|skl| - 1]) && times == Times(d, used) &&
      (r.None? <==> !Generable(c.chType == "analog", Segs(used, c.keys))) &&
      (r.Some? ==>
        r.value.0 == TimeGrid(SampleCount(tLast, td), td) && |r.value.1| == SampleCount(tLast, td) &&
        IsRamp(c.chType == "analog", Segs(used, c.keys), times, td, m, r.value.1))
    ensures RampOfChannel(d, c, skl, td, m, r)
  {
  }

  /** An arbitrary waveform channel: its name, its data and the shared keyframes. */
  class Channel {
    var chName: string
    var data: ChannelData
    var keyFrameList: KeyFrameList

    constructor (name: string, d: ChannelData, kfl: KeyFrameList)
      ensures chName == name && data == d && keyFrameList == kfl
    {
      chName := name;
      data := d;
      keyFrameList := kfl;
    }

    /** `set_name`. */
    method SetName(name: string)
      modifies this
      ensures chName == name && data == old(data) && keyFrameList == old(keyFrameList)
    {
      chName := name;
    }

    /**
     * `generate_ramp(time_div)`: the time grid and the samples of this
     * channel, or None where the source raises (no keyframes, no keyframe
     * used by this channel, an unknown ramp type or a missing parameter).
     * `skl` is the sorted key list the sampling used. Stale caches are
     * trusted; where every cache is right the list is in true time order.
     */
    method GenerateRamp(td: real, m: Numerics) returns (r: Option<(seq<real>, seq<real>)>, ghost skl: seq<string>)
      requires td > 0.0 && NumericsOk(m) && keyFrameList.Ready()
      requires NonNegativeTimes(keyFrameList.dct)
      modifies keyFrameList
      ensures keyFrameList.Ready() && keyFrameList.isBaked
      ensures FillsFrom(old(keyFrameList.dct), keyFrameList.dct)
      ensures RampOfChannel(keyFrameList.dct, data, skl, td, m, r)
      ensures old(keyFrameList.Valid()) ==> keyFrameList.Valid() && IsSortedKeyList(keyFrameList.dct, skl)
    {
      ghost var d0 := keyFrameList.dct;
      var analog := data.chType == "analog";
      var sorted := keyFrameList.SortedKeyList();
      skl := sorted;
      NonNegativeTimesKept(d0, keyFrameList.dct);
      var d := data;
      var used := UsedKeyFrames(sorted, d.keys);
      if |sorted| == 0 {
        r := None;
        RampOfChannelIntro(keyFrameList.dct, d, sorted, td, m, [], 0.0, r);
        return;
      }
      assert sorted[|sorted| - 1] in multiset(sorted);
      ghost var d1 := keyFrameList.dct;
      var tLast := keyFrameList.GetAbsoluteTime(sorted[|sorted| - 1]);
      ghost var d2 := keyFrameList.dct;
      UsedTimesSorted(d1, sorted, used, d.keys);
      var times := KeyFrameTimes(keyFrameList, used);
      FillsTransitive(d0, d1, d2);
      FillsTransitive(d0, d2, keyFrameList.dct);
      TimesFilled(d1, d2, keyFrameList.dct, sorted, used, d.keys);
      r := SampleKeyFrames(analog, Segs(used, d.keys), times, tLast, td, m);
      RampOfChannelIntro(keyFrameList.dct, d, sorted, td, m, times, tLast, r);
      if old(keyFrameList.Valid()) {
        CacheSortedIsSorted(keyFrameList.dct, sorted);
      }
    }
  }

  /**
   * The sampling part of `generate_ramp`, once the used keyframes, their
   * segments and their absolute times are known.
   */
  method SampleKeyFrames(analog: bool, segs: seq<Segment>, times: seq<real>, tLast: real, td: real, m: Numerics)
    returns (r: Option<(seq<real>, seq<real>)>)
    requires |times| == |segs| && td > 0.0 && NumericsOk(m) && NonDecreasing(times) && tLast >= 0.0
    ensures r.None? <==> !Generable(analog, segs)
    ensures r.Some? ==>
      r.value.0 == TimeGrid(SampleCount(tLast, td), td) && |r.value.1| == SampleCount(tLast, td) &&
      IsRamp(analog, segs, times, td, m, r.value.1)
  {
    if !Generable(analog, segs) {
      return None;
    }
    var n := SampleCount(tLast, td);
    var v := FillRamp(analog, segs, times, td, n, m);
    r := Some((TimeGrid(n, td), v));
  }

  /** The keys of the sorted key list that the channel has data for, in order. */
  method UsedKeyFrames(skl: seq<string>, keys: map<string, Segment>) returns (used: seq<string>)
    ensures used == UsedKeys(skl, keys)
  {
    used := [];
    var i := 0;
    while i < |skl|
      invariant 0 <= i <= |skl|
      invariant used == UsedKeys(skl[..i], keys)
    {
      assert skl[..i + 1][..i] == skl[..i];
      if skl[i] in keys {
        used := used + [skl[i]];
      }
      i := i + 1;
    }
    assert skl[..|skl|] == skl;
  }

  /**
   * `[get_absolute_time(k) for k in used]`: the answers, which only fill
   * caches and so are the same before and after; where every cache was
   * right they are the absolute times.
   */
  method KeyFrameTimes(kfl: KeyFrameList, used: seq<string>) returns (times: seq<real>)
    requires WellFormed(kfl.dct) && forall u :: u in used ==> u in kfl.dct
    modifies kfl
    ensures WellFormed(kfl.dct) && kfl.isBaked == old(kfl.isBaked)
    ensures FillsFrom(old(kfl.dct), kfl.dct)
    ensures times == Times(old(kfl.dct), used) && times == Times(kfl.dct, used)
    ensures old(kfl.Ready()) ==> kfl.Ready()
    ensures old(kfl.Valid()) ==> kfl.Valid() && forall j :: 0 <= j < |used| ==> times[j] == AbsTime(kfl.dct, used[j])
  {
    ghost var d0 := kfl.dct;
    FillsReflexive(d0);
    times := [];
    var i := 0;
    while i < |used|
      invariant 0 <= i <= |used|
      invariant WellFormed(kfl.dct) && kfl.isBaked == old(kfl.isBaked)
      invariant FillsFrom(d0, kfl.dct)
      invariant old(kfl.Ready()) ==> kfl.Ready()
      invariant old(kfl.Valid()) ==> kfl.Valid()
      invariant times == Times(d0, used[..i])
    {
      ghost var before := kfl.dct;
      var t := kfl.GetAbsoluteTime(used[i]);
      TimesStep(d0, before, kfl.dct, used, i, t);
      times := times + [t];
      i := i + 1;
    }
    assert used[..|used|] == used;
    TimesKept(d0, kfl.dct, used);
    if old(kfl.Valid()) {
      TimesSound(kfl.dct, used);
    }
  }

  /** The channel's segment for each used key. */
  function Segs(used: seq<string>, keys: map<string, Segment>): (r: seq<Segment>)
    requires forall u :: u in used ==> u in keys
    ensures |r| == |used|
    ensures forall j :: 0 <= j < |used| ==> r[j] == keys[used[j]]
  {
    seq(|used|, j requires 0 <= j < |used| => keys[used[j]])
  }

  lemma SegsAppend(used: seq<string>, u: string, keys: map<string, Segment>)
    requires forall x :: x in used ==> x in keys
    requires u in keys
    ensures Segs(used + [u], keys) == Segs(used, keys) + [keys[u]]
  {
  }

  /** The time `get_absolute_time` answers for each used key. */
  ghost function Times(d: Frames, used: seq<string>): (r: seq<real>)
    requires forall u :: u in used ==> Rooted(d, u)
    ensures |r| == |used|
    ensures forall j :: 0 <= j < |used| ==> r[j] == CachedTime(d, used[j])
  {
    seq(|used|, j requires 0 <= j < |used| => CachedTime(d, used[j]))
  }

  lemma TimesAppend(d: Frames, used: seq<string>, u: string)
    requires forall x :: x in used ==> Rooted(d, x)
    requires Rooted(d, u)
    ensures Times(d, used + [u]) == Times(d, used) + [CachedTime(d, u)]
  {
  }

  /** One more answer, taken from a dictionary filled from d, extends the times by one key. */
  lemma TimesStep(d: Frames, e: Frames, f: Frames, used: seq<string>, i: nat, t: real)
    requires WellFormed(d) && FillsFrom(d, e) && FillsFrom(e, f)
    requires i < |used| && forall u :: u in used ==> u in d
    requires Rooted(e, used[i]) && t == CachedTime(e, used[i])
    ensures FillsFrom(d, f)
    ensures Times(d, used[..i]) + [t] == Times(d, used[..i + 1])
  {
    FillsKeepCachedTime(d, e, used[i]);
    FillsTransitive(d, e, f);
    assert used[..i + 1] == used[..i] + [used[i]];
    TimesAppend(d, used[..i], used[i]);
  }

  /** A subsequence of a sorted key list is in time order too. */
  lemma UsedTimesSorted(d: Frames, skl: seq<string>, used: seq<string>, keys: map<string, Segment>)
    requires CacheSorted(d, skl) && used == UsedKeys(skl, keys)
    ensures forall u :: u in used ==> u in d
    ensures NonDecreasing(Times(d, used))
  {
    forall u | u in used
      ensures u in d
    {
      assert u in multiset(skl);
    }
    UsedKeysOrdered(d, skl, keys);
    assert forall a, b :: 0 <= a < b < |used| ==> Times(d, used)[a] <= Times(d, used)[b];
  }

  /** Keeping some keys of a time-ordered sequence keeps it time-ordered. */
  lemma {:induction false} UsedKeysOrdered(d: Frames, s: seq<string>, keys: map<string, Segment>)
    requires WellFormed(d) && forall i :: 0 <= i < |s| ==> s[i] in d
    requires forall i, j :: 0 <= i < j < |s| ==> CachedTime(d, s[i]) <= CachedTime(d, s[j])
    ensures forall u :: u in UsedKeys(s, keys) ==> u in d
    ensures forall a, b :: 0 <= a < b < |UsedKeys(s, keys)| ==>
      CachedTime(d, UsedKeys(s, keys)[a]) <= CachedTime(d, UsedKeys(s, keys)[b])
  {
    if |s| > 0 {
      var front := s[..|s| - 1];
      var last := s[|s| - 1];
      UsedKeysOrdered(d, front, keys);
      var u := UsedKeys(s, keys);
      var uf := UsedKeys(front, keys);
      forall a, b | 0 <= a < b < |u|
        ensures CachedTime(d, u[a]) <= CachedTime(d, u[b])
      {
        if b < |uf| {
          assert u[a] == uf[a] && u[b] == uf[b];
        } else {
          assert u[a] == uf[a] && u[b] == last;
          assert uf[a] in front;
          var i :| 0 <= i < |front| && front[i] == uf[a];
          assert s[i] == u[a];
        }
      }
    }
  }
}

=== FILE: requests.dfy ===
/**
 * The request/reply layer shared by the instrument servers: a server
 * answers a JSON request `{'name': n, 'mesg': m}` by calling its public
 * method `n` on `m`, and a client has one call per public method of the
 * server class, each building exactly such a request. The socket, the JSON
 * encoding and the receive loop are not modelled; one request is one call.
 */
module Requests {
  import opened Text
  import opened Json

  /**
   * What handling one request comes to: a reply with the commands written
   * to the instrument on the way, or an exception that ends the server.
   */
  datatype Outcome = Reply(reply: Value, sent: seq<string>) | Raised(error: string)

  /** `{'success': 1}` or `{'success': 0}`. */
  function Success(ok: bool): (r: Value)
    ensures r.Dict? && r.d.Keys == {"success"} && r.d["success"] == Int(if ok then 1 else 0)
  {
    Dict(map["success" := Int(if ok then 1 else 0)])
  }

  const NotValid: Value := Dict(map["error" := Str("Request name not valid.")])

  /** `mesg[key]`: a missing key is a KeyError, a message that is not a dictionary a TypeError. */
  function Field(mesg: Value, key: string): (r: Option<Value>)
    ensures r.Some? <==> mesg.Dict? && key in mesg.d
    ensures r.Some? ==> r.value == mesg.d[key]
  {
    if mesg.Dict? && key in mesg.d then Some(mesg.d[key]) else None
  }

  function FieldError(mesg: Value): string
  {
    if mesg.Dict? then "KeyError" else "TypeError"
  }

  /** A method name reachable by request: its first character is not `_`. */
  predicate Public(name: string)
  {
    |name| > 0 && name[0] != '_'
  }

  /** The public names among a class's members. */
  method PublicNames(members: seq<string>) returns (names: set<string>)
    ensures forall n :: n in names <==> n in members && Public(n)
  {
    names := {};
    var i := 0;
    while i < |members|
      invariant 0 <= i <= |members|
      invariant forall n :: n in names <==> n in members[..i] && Public(n)
    {
      if Public(members[i]) {
        names := names + {members[i]};
      }
      assert members[..i + 1] == members[..i] + [members[i]];
      i := i + 1;
    }
    assert members[..i] == members;
  }

  /**
   * One pass of the receive loop: the request must be a dictionary with a
   * `name`; a list or dictionary name is unhashable (TypeError); any other
   * name that is not a known method gets the error reply; a known one is
   * called on the request's `mesg`.
   */
  function Dispatch(messages: set<string>, request: Value, handle: (string, Value) -> Outcome): (r: Outcome)
  {
    if !request.Dict? then Raised("TypeError")
    else if "name" !in request.d then Raised("KeyError")
    else
      var name := request.d["name"];
      if name.List? || name.Dict? then Raised("TypeError")
      else if !(name.Str? && name.s in messages) then Reply(NotValid, [])
      else if "mesg" !in request.d then Raised("KeyError")
      else handle(name.s, request.d["mesg"])
  }

  /** The dispatch table of a server: its public methods. */
  class RequestProcessor {
    var messages: set<string>

    constructor (members: seq<string>)
      ensures forall n :: n in messages <==> n in members && Public(n)
    {
      var names := PublicNames(members);
      messages := names;
    }
  }

  /** `_add_request_name`: the request a client call sends. */
  function ClientRequest(name: string, mesg: Value): (r: Value)
    ensures r.Dict? && r.d.Keys == {"mesg", "name"}
    ensures r.d["name"] == Str(name) && r.d["mesg"] == mesg
  {
    Dict(map["mesg" := mesg, "name" := Str(name)])
  }

  /** A client with one call per public method of the server class. */
  class ClientForServer {
    var endpoint: string
    var names: set<string>

    constructor (members: seq<string>, serverEndpoint: string)
      ensures endpoint == serverEndpoint
      ensures forall n :: n in names <==> n in members && Public(n)
    {
      endpoint := serverEndpoint;
      var publicNames := PublicNames(members);
      names := publicNames;
    }
  }

  /**
   * A client call reaches the server method of the same name with the same
   * message: server and client are built from the same members, so every
   * call the client has is one the server dispatches.
   */
  lemma ClientCallDispatches(members: set<string>, name: string, mesg: Value, handle: (string, Value) -> Outcome)
    requires name in members && Public(name)
    ensures Dispatch((set n | n in members && Public(n)), ClientRequest(name, mesg), handle) == handle(name, mesg)
  {
  }

  /** A name starting with `_`, or any name the class lacks, is never called. */
  lemma PrivateNamesRefused(messages: set<string>, request: Value, handle: (string, Value) -> Outcome)
    requires forall n :: n in messages ==> Public(n)
    requires request.Dict? && "name" in request.d && request.d["name"].Str?
    requires !Public(request.d["name"].s) || request.d["name"].s !in messages
    ensures Dispatch(messages, request, handle) == Reply(NotValid, [])
  {
  }
}

=== FILE: server.dfy ===
/**
 * The experiment-specific layer of the ramp server: which channel ids the
 * hardware has, how the channels of a ramp document are matched to them,
 * how the digital lines are packed into one word per sample, the trigger
 * line of an analog device, and the checklist a ramp must pass before it is
 * queued.
 */
module Server {
  import opened Text
  import opened KeyFrames
  import opened KeyFrameLists
  import opened Ramps

  // ---------------------------------------------------------------------
  // Channel ids.
  // ---------------------------------------------------------------------

  const LinePort: string := "Dev1/port0/"

  /** `digital_channel_ids()`: lines 05 to 30 of port 0 of Dev1, in order. */
  function DigitalChannelIds(): (r: seq<string>)
    ensures |r| == 26
  {
    seq(26, i requires 0 <= i < 26 => LinePort + "line" + Pad2(i + 5))
  }

  /**
   * How the digital driver reads the line number back off a line name:
   * the integer after the last `"line"`.
   */
  function LineNumber(name: string): Option<int>
  {
    var pieces := Split(name, "line");
    ParseInt(pieces[|pieces| - 1])
  }

  /** The i-th digital id names line 5 + i. */
  lemma DigitalIdNamesItsLine(i: int)
    requires 0 <= i < 26
    ensures LineNumber(DigitalChannelIds()[i]) == Some(i + 5)
  {
    var p := Pad2(i + 5);
    assert "line"[..3] == "lin";
    assert forall k :: 0 <= k < |p| ==> p[k] != 'e';
    SplitLastPiece(LinePort, "line", p);
    assert DigitalChannelIds()[i] == LinePort + "line" + p;
    Pad2Value(i + 5);
  }

  /** A common prefix does not change which of two strings sorts first. */
  lemma {:induction false} LessUnderPrefix(p: string, a: string, b: string)
    requires Less(a, b)
    ensures Less(p + a, p + b)
    decreases |p|
  {
    if |p| > 0 {
      LessUnderPrefix(p[1..], a, b);
      assert (p + a)[0] == p[0] == (p + b)[0];
      assert (p + a)[1..] == p[1..] + a;
      assert (p + b)[1..] == p[1..] + b;
    } else {
      assert p + a == a && p + b == b;
    }
  }

  lemma Pad2Less(a: nat, b: nat)
    requires a < b < 100
    ensures Less(Pad2(a), Pad2(b))
  {
    var s, t := Pad2(a), Pad2(b);
    assert s[0] == DigitChar(a / 10) && t[0] == DigitChar(b / 10);
    assert s[1] == DigitChar(a % 10) && t[1] == DigitChar(b % 10);
    assert s[1..][1..] == [] && t[1..][1..] == [];
  }

  /** The digital ids are in increasing order, hence all different. */
  lemma DigitalIdsIncreasing()
    ensures StrictlySorted(DigitalChannelIds())
  {
    var ids := DigitalChannelIds();
    forall i, j | 0 <= i < j < |ids|
      ensures Less(ids[i], ids[j])
    {
      Pad2Less(i + 5, j + 5);
      LessUnderPrefix(LinePort + "line", Pad2(i + 5), Pad2(j + 5));
    }
  }

  /** Dev1 has four analog outputs, every other device eight. */
  function AnalogChannelCount(dev: string): nat
  {
    if dev == "Dev1" then 4 else 8
  }

  /** `get_analog_ids(dev)`: `dev/ao0`, `dev/ao1`, ... */
  function AnalogIds(dev: string): (r: seq<string>)
    ensures |r| == AnalogChannelCount(dev)
  {
    seq(AnalogChannelCount(dev), n requires 0 <= n < AnalogChannelCount(dev) => dev + "/ao" + [DigitChar(n)])
  }

  /**
   * The analog ids of a device are all different, each names its device
   * and ends in its own output number.
   */
  lemma AnalogIdsDistinct(dev: string)
    ensures forall n :: 0 <= n < |AnalogIds(dev)| ==>
      AnalogIds(dev)[n][..|dev| + 3] == dev + "/ao" &&
      AnalogIds(dev)[n][|dev| + 3..] == [DigitChar(n)]
    ensures forall i, j :: 0 <= i < j < |AnalogIds(dev)| ==> AnalogIds(dev)[i] != AnalogIds(dev)[j]
  {
    var ids := AnalogIds(dev);
    forall i, j | 0 <= i < j < |ids|
      ensures ids[i] != ids[j]
    {
      assert ids[i][|dev| + 3] == DigitChar(i);
      assert ids[j][|dev| + 3] == DigitChar(j);
    }
  }

  /** The ids every ramp must provide exactly once. */
  function RequiredIds(): (r: seq<string>)
    ensures |r| == 34
  {
    DigitalChannelIds() + AnalogIds("Dev2")
  }

  /** No id is required twice: digital and Dev2 ids differ in length. */
  lemma RequiredIdsDistinct()
    ensures forall i, j :: 0 <= i < j < |RequiredIds()| ==> RequiredIds()[i] != RequiredIds()[j]
  {
    var r := RequiredIds();
    DigitalIdsIncreasing();
    AnalogIdsDistinct("Dev2");
    forall i, j | 0 <= i < j < |r|
      ensures r[i] != r[j]
    {
      if j < 26 {
        LessIrreflexive(r[i]);
      } else if i >= 26 {
        assert r[i] == AnalogIds("Dev2")[i - 26] && r[j] == AnalogIds("Dev2")[j - 26];
      } else {
        assert |r[i]| == 17 && |r[j]| == 8;
      }
    }
  }

  // ---------------------------------------------------------------------
  // Matching channels to ids.
  // ---------------------------------------------------------------------

  /** Where the first channel carrying `id` stands, if any does. */
  function FirstWithId(chans: seq<ChannelData>, id: string): (r: Option<nat>)
    ensures r.Some? ==>
      r.value < |chans| && chans[r.value].id == id && forall k :: 0 <= k < r.value ==> chans[k].id != id
    ensures r.None? ==> forall k :: 0 <= k < |chans| ==> chans[k].id != id
  {
    if |chans| == 0 then None
    else if chans[0].id == id then Some(0)
    else match FirstWithId(chans[1..], id)
      case None => None
      case Some(k) => Some(k + 1)
  }

  /** For each id in order, the first channel carrying it; ids no channel carries are skipped. */
  function Selected(ids: seq<string>, chans: seq<ChannelData>): seq<ChannelData>
  {
    if |ids| == 0 then []
    else
      var rest := Selected(ids[..|ids| - 1], chans);
      match FirstWithId(chans, ids[|ids| - 1])
      case None => rest
      case Some(k) => rest + [chans[k]]
  }

  /** `get_digital_channels` / `get_analog_channels`. */
  method SelectChannels(ids: seq<string>, chans: seq<ChannelData>) returns (r: seq<ChannelData>)
    ensures r == Selected(ids, chans)
  {
    r := [];
    var i := 0;
    while i < |ids|
      invariant 0 <= i <= |ids|
      invariant r == Selected(ids[..i], chans)
    {
      assert ids[..i + 1][..i] == ids[..i];
      var j := 0;
      while j < |chans|
        invariant 0 <= j <= |chans|
        invariant forall k :: 0 <= k < j ==> chans[k].id != ids[i]
      {
        if chans[j].id == ids[i] {
          r := r + [chans[j]];
          break;
        }
        j := j + 1;
      }
      i := i + 1;
    }
    assert ids[..|ids|] == ids;
  }

  /** At most one channel per id, each one carrying an id asked for. */
  lemma {:induction false} SelectedBound(ids: seq<string>, chans: seq<ChannelData>)
    ensures |Selected(ids, chans)| <= |ids|
    ensures forall c :: c in Selected(ids, chans) ==> c in chans && c.id in ids
  {
    if |ids| > 0 {
      var front := ids[..|ids| - 1];
      SelectedBound(front, chans);
      forall c | c in Selected(front, chans)
        ensures c.id in ids
      {
        var k :| 0 <= k < |front| && front[k] == c.id;
        assert ids[k] == c.id;
      }
    }
  }

  /**
   * When every id is carried by some channel, the selection lines up with
   * the ids position by position, taking the first channel of each id.
   */
  lemma {:induction false} SelectedComplete(ids: seq<string>, chans: seq<ChannelData>)
    requires forall i :: 0 <= i < |ids| ==> FirstWithId(chans, ids[i]).Some?
    ensures |Selected(ids, chans)| == |ids|
    ensures forall i :: 0 <= i < |ids| ==>
      Selected(ids, chans)[i].id == ids[i] &&
      Selected(ids, chans)[i] == chans[FirstWithId(chans, ids[i]).value]
  {
    if |ids| > 0 {
      var front := ids[..|ids| - 1];
      SelectedComplete(front, chans);
      assert FirstWithId(chans, ids[|ids| - 1]).Some?;
    }
  }

  // ---------------------------------------------------------------------
  // Packing the digital lines.
  // ---------------------------------------------------------------------

  function Pow2(n: nat): (r: nat)
    ensures r >= 1
  {
    if n == 0 then 1 else 2 * Pow2(n - 1)
  }

  /** `zip(range(5, 31), channels)` drives at most 26 lines. */
  function Driven(n: nat): nat
  {
    if n < 26 then n else 26
  }

  predicate SameLength(ramps: seq<seq<int>>)
  {
    forall k :: 0 <= k < |ramps| ==> |ramps[k]| == |ramps[0]|
  }

  /** Sample i of the first j channels, channel k shifted to line 5 + k. */
  function PartialWord(ramps: seq<seq<int>>, j: nat, i: nat): int
    requires j <= |ramps| && forall k :: 0 <= k < j ==> i < |ramps[k]|
  {
    if j == 0 then 0 else PartialWord(ramps, j - 1, i) + ramps[j - 1][i] * Pow2(5 + j - 1)
  }

  /**
   * `make_digital_ramps`, given the ramps of the selected digital channels
   * in line order: one word per sample, channel k's value on line 5 + k.
   * With no digital channel the word array is never created (None). All
   * channels share one keyframe list, so their ramps have the same length.
   */
  method MakeDigitalRamps(ramps: seq<seq<int>>) returns (r: Option<seq<int>>)
    requires SameLength(ramps)
    ensures r.None? <==> |ramps| == 0
    ensures r.Some? ==>
      |r.value| == |ramps[0]| && forall i :: 0 <= i < |r.value| ==> r.value[i] == PartialWord(ramps, Driven(|ramps|), i)
  {
    if |ramps| == 0 {
      return None;
    }
    var data := new int[|ramps[0]|](_ => 0);
    var j := 0;
    while j < Driven(|ramps|)
      invariant 0 <= j <= Driven(|ramps|)
      invariant forall i :: 0 <= i < data.Length ==> data[i] == PartialWord(ramps, j, i)
    {
      forall i | 0 <= i < data.Length {
        data[i] := data[i] + ramps[j][i] * Pow2(5 + j);
      }
      j := j + 1;
    }
    r := Some(data[..]);
  }

  lemma Pow2Add(a: nat, b: nat)
    ensures Pow2(a + b) == Pow2(a) * Pow2(b)
  {
    if b > 0 {
      Pow2Add(a, b - 1);
    }
  }

  lemma MulCancel(a: int, d: int)
    requires d > 0 && -d < a * d < d
    ensures a == 0
  {
  }

  /** Division undoes `q * d + r` for a remainder below d. */
  lemma DivUnique(z: int, d: int, q: int, r: int)
    requires d > 0 && 0 <= r < d && z == q * d + r
    ensures z / d == q
  {
    var q1 := z / d;
    assert (q - q1) * d == z % d - r;
    MulCancel(q - q1, d);
  }

  /** Adding a multiple of 2d leaves the quotient by d with the same parity. */
  lemma ShiftedBitKept(x: int, y: int, d: int)
    requires d > 0
    ensures ((x + y * (2 * d)) / d) % 2 == (x / d) % 2
  {
    var q := x / d;
    assert x + y * (2 * d) == (q + 2 * y) * d + x % d;
    DivUnique(x + y * (2 * d), d, q + 2 * y, x % d);
  }

  /** A value below d placed next to bit b at d reads back as b. */
  lemma TopBitRead(x: int, b: int, d: int)
    requires d > 0 && 0 <= x < d && (b == 0 || b == 1)
    ensures ((x + b * d) / d) % 2 == b
  {
    DivUnique(x + b * d, d, b, x);
  }

  lemma MulRearrange(b: int, p: int, q: int)
    ensures b * ((2 * p) * q) == (b * q) * (2 * p)
  {
  }

  /** Setting bit n of a word below 2^n leaves every lower bit as it was. */
  lemma LowerBitKept(w: int, b: int, n: nat, k: nat)
    requires k < n
    ensures ((w + b * Pow2(n)) / Pow2(k)) % 2 == (w / Pow2(k)) % 2
  {
    var p, q := Pow2(k), Pow2(n - k - 1);
    Pow2Add(k + 1, n - k - 1);
    assert Pow2(n) == (2 * p) * q;
    MulRearrange(b, p, q);
    ShiftedBitKept(w, b * q, p);
  }

  /** Setting bit n of a word below 2^n keeps it below 2^(n+1) and a multiple of 32. */
  lemma TopBitSet(w: int, b: int, n: nat)
    requires 0 <= w < Pow2(n) && (b == 0 || b == 1) && 5 <= n && w % 32 == 0
    ensures 0 <= w + b * Pow2(n) < Pow2(n + 1)
    ensures (w + b * Pow2(n)) % 32 == 0
    ensures ((w + b * Pow2(n)) / Pow2(n)) % 2 == b
  {
    Pow2Add(5, n - 5);
    assert Pow2(5) == 32;
    assert w + b * Pow2(n) == w + (b * Pow2(n - 5)) * 32;
    TopBitRead(w, b, Pow2(n));
  }

  /**
   * With 0/1 samples each word fits in 31 bits (no unsigned 32-bit
   * wrap-around), lines 0 to 4 stay clear, and line 5 + k reads back
   * channel k's sample.
   */
  lemma {:induction false} WordBits(ramps: seq<seq<int>>, j: nat, i: nat)
    requires j <= |ramps| && forall k :: 0 <= k < j ==> i < |ramps[k]| && (ramps[k][i] == 0 || ramps[k][i] == 1)
    ensures 0 <= PartialWord(ramps, j, i) < Pow2(5 + j)
    ensures PartialWord(ramps, j, i) % 32 == 0
    ensures forall k :: 0 <= k < j ==> (PartialWord(ramps, j, i) / Pow2(5 + k)) % 2 == ramps[k][i]
  {
    if j == 0 {
      assert Pow2(5) == 32;
    } else {
      var w := PartialWord(ramps, j - 1, i);
      var b := ramps[j - 1][i];
      var n := 5 + j - 1;
      var p := PartialWord(ramps, j, i);
      assert p == w + b * Pow2(n);
      WordBits(ramps, j - 1, i);
      TopBitSet(w, b, n);
      forall k | 0 <= k < j - 1
        ensures (p / Pow2(5 + k)) % 2 == ramps[k][i]
      {
        LowerBitKept(w, b, n, 5 + k);
      }
    }
  }

  // ---------------------------------------------------------------------
  // Trigger line.
  // ---------------------------------------------------------------------

  /** The rounding of `numpy.rint`: to the nearest integer, ties to even. */
  function RoundHalfEven(x: real): (n: int)
    ensures x - 0.5 <= n as real <= x + 0.5
  {
    var f := x.Floor;
    var frac := x - f as real;
    if frac < 0.5 then f
    else if frac > 0.5 then f + 1
    else if f % 2 == 0 then f else f + 1
  }

  /** What numpy's cast to int makes of inf and nan on x86: the most negative int64. */
  const Int64Min: int := -0x8000_0000_0000_0000

  /**
   * The sample positions of the trigger pulses, `np.rint(t / jr)` cast to
   * int. A zero resolution divides to inf or nan, which the cast turns into
   * the most negative int64.
   */
  function Positions(times: seq<real>, jr: real): (p: seq<int>)
    ensures |p| == |times|
    ensures forall k :: 0 <= k < |times| && jr != 0.0 ==>
      times[k] / jr - 0.5 <= p[k] as real <= times[k] / jr + 0.5
    ensures forall k :: 0 <= k < |times| && jr == 0.0 ==> p[k] == Int64Min
  {
    seq(|times|, k requires 0 <= k < |times| => if jr == 0.0 then Int64Min else RoundHalfEven(times[k] / jr))
  }

  function MaxOf(p: seq<int>): (m: int)
    requires |p| > 0
    ensures (forall k :: 0 <= k < |p| ==> p[k] <= m) && m in p
  {
    if |p| == 1 then p[0]
    else
      var rest := MaxOf(p[1..]);
      if p[0] >= rest then p[0] else rest
  }

  /** The sample numpy reaches with index q into n samples: a negative index counts from the end. */
  function Slot(q: int, n: int): int
  {
    if q < 0 then q + n else q
  }

  /**
   * `trigger_line[positions] = True` on `n` samples succeeds: there is a
   * sample (`np.zeros` refuses a negative size) and no position lies below
   * -n (an IndexError).
   */
  predicate Indexable(p: seq<int>, n: int)
  {
    n >= 1 && forall k :: 0 <= k < |p| ==> -n <= p[k] < n
  }

  /** A line of 0/1 samples up to the largest position, with a 1 exactly where a position lands. */
  ghost predicate IsTriggerLine(p: seq<int>, line: seq<int>)
    requires |p| > 0
  {
    |line| == MaxOf(p) + 1 &&
    forall i :: 0 <= i < |line| ==>
      line[i] == (if exists k :: 0 <= k < |p| && Slot(p[k], |line|) == i then 1 else 0)
  }

  /**
   * `make_trigger_line`: a 0/1 array up to the last pulse, with a 1 at each
   * rounded position, negative positions counting from the end. No time at
   * all makes `max` fail, and a negative size or a position below the start
   * makes numpy raise (None).
   */
  method MakeTriggerLine(times: seq<real>, jr: real) returns (r: Option<seq<int>>)
    ensures r.None? <==>
      |times| == 0 || !Indexable(Positions(times, jr), MaxOf(Positions(times, jr)) + 1)
    ensures r.Some? ==> IsTriggerLine(Positions(times, jr), r.value)
  {
    if |times| == 0 {
      return None;
    }
    var p := Positions(times, jr);
    var n := MaxOf(p) + 1;
    if n < 1 || exists k :: 0 <= k < |p| && p[k] < -n {
      return None;
    }
    var line := new int[n](_ => 0);
    forall k | 0 <= k < |p| {
      line[Slot(p[k], n)] := 1;
    }
    r := Some(line[..]);
  }

  /** The trigger line ends on a pulse, and every time's position holds one. */
  lemma TriggerLineEndsOnPulse(p: seq<int>, line: seq<int>)
    requires |p| > 0 && Indexable(p, MaxOf(p) + 1) && IsTriggerLine(p, line)
    ensures line[|line| - 1] == 1
    ensures forall k :: 0 <= k < |p| ==> 0 <= Slot(p[k], |line|) < |line| && line[Slot(p[k], |line|)] == 1
  {
    var k :| 0 <= k < |p| && p[k] == MaxOf(p);
    assert Slot(p[k], |line|) == |line| - 1;
  }

  /**
   * With a positive resolution and no negative time nothing wraps: the
   * line can be built, and it holds a 1 exactly at the rounded positions.
   */
  lemma NonNegativeTimesNoWrap(times: seq<real>, jr: real)
    requires jr > 0.0 && |times| > 0 && forall k :: 0 <= k < |times| ==> times[k] >= 0.0
    ensures var p := Positions(times, jr);
      Indexable(p, MaxOf(p) + 1) && forall k :: 0 <= k < |p| ==> p[k] >= 0 && Slot(p[k], MaxOf(p) + 1) == p[k]
  {
    var p := Positions(times, jr);
    forall k | 0 <= k < |p|
      ensures p[k] >= 0
    {
      DivNonNegative(times[k], jr);
    }
  }

  /**
   * A negative time wraps: times 2.0 and -2.0 at resolution 1.0 give the
   * line [0, 1, 1], the pulse for -2.0 landing on sample 1.
   */
  lemma NegativeTimeWraps()
    ensures Positions([2.0, -2.0], 1.0) == [2, -2]
    ensures Indexable([2, -2], MaxOf([2, -2]) + 1)
    ensures IsTriggerLine([2, -2], [0, 1, 1])
  {
    assert RoundHalfEven(2.0 / 1.0) == 2;
    assert RoundHalfEven(-2.0 / 1.0) == -2;
    var p: seq<int> := [2, -2];
    assert MaxOf(p) == 2 by {
      assert MaxOf(p[1..]) == -2;
    }
    assert Slot(p[0], 3) == 2 && Slot(p[1], 3) == 1;
  }

  /**
   * The failing cases: -1.0 alone leaves a line of no samples (IndexError),
   * -2.0 alone a negative size (ValueError), and a zero resolution the most
   * negative int64 (ValueError).
   */
  lemma TriggerLineFailures()
    ensures Positions([-1.0], 1.0) == [-1] && !Indexable([-1], MaxOf([-1]) + 1)
    ensures Positions([-2.0], 1.0) == [-2] && !Indexable([-2], MaxOf([-2]) + 1)
    ensures Positions([1.0], 0.0) == [Int64Min] && !Indexable([Int64Min], MaxOf([Int64Min]) + 1)
  {
    assert RoundHalfEven(-1.0 / 1.0) == -1;
    assert RoundHalfEven(-2.0 / 1.0) == -2;
  }

  // ---------------------------------------------------------------------
  // The error checklist.
  // ---------------------------------------------------------------------

  datatype CheckError =
    | NegativeTime(key: string, time: real)
    | NotMultiple(key: string, time: real, resolution: real)
    | WrongCount(found: nat, id: string)
    | Overlap(key: string)

  /** The text of each error; how a float prints is the `show` parameter. */
  function Message(e: CheckError, show: real -> string): string
  {
    match e
    case NegativeTime(k, t) => "keyframe '" + k + "' has negative absolute time " + show(t)
    case NotMultiple(k, t, jr) =>
      "keyframe '" + k + "' has absolute time " + show(t) + " which is not a multiple of jump_resolution " + show(jr)
    case WrongCount(n, id) => NatToString(n) + " copies of " + id + " found. There should only be 1"
    case Overlap(k) => k + " overlaps with the next keyframe"
  }

  function Abs(x: real): real
  {
    if x < 0.0 then -x else x
  }

  /** Python 2 `round`: to the nearest integer, ties away from zero. */
  function Round(x: real): int
  {
    if x >= 0.0 then (x + 0.5).Floor else -((-x + 0.5).Floor)
  }

  /** How far x lies from the integer n. */
  function Dist(x: real, n: int): real
  {
    Abs(x - n as real)
  }

  /** `round` gives a nearest integer. */
  lemma RoundIsNearest(x: real, n: int)
    ensures Dist(x, Round(x)) <= 0.5
    ensures Dist(x, Round(x)) <= Dist(x, n)
  {
    var f := Round(x);
    if x >= 0.0 {
      assert f as real <= x + 0.5 < f as real + 1.0;
    } else {
      assert -(f as real) <= -x + 0.5 < -(f as real) + 1.0;
    }
    if n > f {
      assert n as real >= f as real + 1.0;
    } else if n < f {
      assert n as real <= f as real - 1.0;
    }
  }

  /** The residue test as written: only a residue above the tolerance is caught. */
  predicate OffGridAsWritten(steps: real)
  {
    steps - Round(steps) as real > 0.0001
  }

  /** The residue test as intended: a residue of either sign beyond the tolerance. */
  predicate OffGrid(steps: real)
  {
    Dist(steps, Round(steps)) > 0.0001
  }

  /** A keyframe at 2.6 with resolution 1.0 rounds up to 3: the written test lets it through. */
  lemma AsWrittenMissesNegativeResidue()
    ensures Round(2.6 / 1.0) == 3
    ensures !OffGridAsWritten(2.6 / 1.0) && OffGrid(2.6 / 1.0)
  {
  }

  /**
   * The written test misses exactly the keyframes whose step count lies
   * more than the tolerance below its rounded value.
   */
  lemma AsWrittenMisses(x: real)
    ensures OffGridAsWritten(x) ==> OffGrid(x)
    ensures OffGrid(x) && !OffGridAsWritten(x) <==> x - Round(x) as real < -0.0001
  {
  }

  /** The intended test flags exactly the step counts further than the tolerance from every integer. */
  lemma OffGridMeansFarFromEveryInteger(x: real)
    ensures OffGrid(x) <==> forall n: int :: Dist(x, n) > 0.0001
  {
    if OffGrid(x) {
      forall n: int
        ensures Dist(x, n) > 0.0001
      {
        RoundIsNearest(x, n);
      }
    }
  }

  /**
   * Which residue test the keyframe checklist applies: the one the server
   * is written with, or the one it evidently means.
   */
  datatype GridTest = AsWritten | Intended

  /** Whether the test flags a keyframe that lies `steps` resolutions from time 0. */
  predicate Flags(g: GridTest, steps: real)
  {
    match g
    case AsWritten => OffGridAsWritten(steps)
    case Intended => OffGrid(steps)
  }

  /** The errors of one keyframe at absolute time t. */
  function KeyFrameErrors(k: string, t: real, jr: real, g: GridTest): seq<CheckError>
    requires jr != 0.0
  {
    (if t < 0.0 then [NegativeTime(k, t)] else []) +
    (if Flags(g, t / jr) then [NotMultiple(k, t, jr)] else [])
  }

  function AllKeyFrameErrors(skl: seq<string>, times: seq<real>, jr: real, g: GridTest): seq<CheckError>
    requires |skl| == |times| && jr != 0.0
  {
    if |skl| == 0 then []
    else AllKeyFrameErrors(skl[..|skl| - 1], times[..|times| - 1], jr, g) +
         KeyFrameErrors(skl[|skl| - 1], times[|times| - 1], jr, g)
  }

  /** How many channels carry `id`. */
  function CountOf(chans: seq<ChannelData>, id: string): nat
  {
    if |chans| == 0 then 0
    else CountOf(chans[..|chans| - 1], id) + (if chans[|chans| - 1].id == id then 1 else 0)
  }

  function CountErrors(ids: seq<string>, chans: seq<ChannelData>): seq<CheckError>
  {
    if |ids| == 0 then []
    else
      var id := ids[|ids| - 1];
      CountErrors(ids[..|ids| - 1], chans) +
      (if CountOf(chans, id) != 1 then [WrongCount(CountOf(chans, id), id)] else [])
  }

  /** Everything wrong with a ramp, in the order the checklist reports it. */
  function Errors(skl: seq<string>, times: seq<real>, jr: real, chans: seq<ChannelData>, overlap: Option<string>, g: GridTest): seq<CheckError>
    requires |skl| == |times| && jr != 0.0
  {
    AllKeyFrameErrors(skl, times, jr, g) + CountErrors(RequiredIds(), chans) +
    (if overlap.Some? then [Overlap(overlap.value)] else [])
  }

  /** Keyframe k sits at time t. */
  predicate Listed(skl: seq<string>, times: seq<real>, k: string, t: real)
  {
    exists i :: 0 <= i < |skl| && i < |times| && skl[i] == k && times[i] == t
  }

  /** Each keyframe error names a keyframe and its time, and every faulty keyframe is named. */
  lemma KeyFrameErrorsExact(skl: seq<string>, times: seq<real>, jr: real, g: GridTest)
    requires |skl| == |times| && jr != 0.0
    ensures forall e :: e in AllKeyFrameErrors(skl, times, jr, g) ==> e.NegativeTime? || e.NotMultiple?
    ensures forall k, t :: NegativeTime(k, t) in AllKeyFrameErrors(skl, times, jr, g) <==>
      t < 0.0 && Listed(skl, times, k, t)
    ensures forall k, t, r :: NotMultiple(k, t, r) in AllKeyFrameErrors(skl, times, jr, g) <==>
      r == jr && Flags(g, t / jr) && Listed(skl, times, k, t)
  {
    KeyFrameErrorKinds(skl, times, jr, g);
    forall k, t
      ensures NegativeTime(k, t) in AllKeyFrameErrors(skl, times, jr, g) <==> t < 0.0 && Listed(skl, times, k, t)
    {
      NegativeTimeReported(skl, times, jr, k, t, g);
    }
    forall k, t, r
      ensures NotMultiple(k, t, r) in AllKeyFrameErrors(skl, times, jr, g) <==>
        r == jr && Flags(g, t / jr) && Listed(skl, times, k, t)
    {
      NotMultipleReported(skl, times, jr, k, t, r, g);
    }
  }

  lemma {:induction false} KeyFrameErrorKinds(skl: seq<string>, times: seq<real>, jr: real, g: GridTest)
    requires |skl| == |times| && jr != 0.0
    ensures forall e :: e in AllKeyFrameErrors(skl, times, jr, g) ==> e.NegativeTime? || e.NotMultiple?
  {
    if |skl| > 0 {
      KeyFrameErrorKinds(skl[..|skl| - 1], times[..|times| - 1], jr, g);
    }
  }

  /** Listed in a list with one more keyframe: listed before, or the new one. */
  lemma ListedStep(skl: seq<string>, times: seq<real>, k: string, t: real)
    requires |skl| == |times| > 0
    ensures var n := |skl| - 1;
      Listed(skl, times, k, t) <==> Listed(skl[..n], times[..n], k, t) || (skl[n] == k && times[n] == t)
  {
    var n := |skl| - 1;
    if Listed(skl, times, k, t) {
      var i :| 0 <= i < |skl| && i < |times| && skl[i] == k && times[i] == t;
      if i < n {
        assert skl[..n][i] == k && times[..n][i] == t;
      }
    }
    if Listed(skl[..n], times[..n], k, t) {
      var i :| 0 <= i < n && skl[..n][i] == k && times[..n][i] == t;
      assert skl[i] == k && times[i] == t;
    }
  }

  lemma {:induction false} NegativeTimeReported(skl: seq<string>, times: seq<real>, jr: real, k: string, t: real, g: GridTest)
    requires |skl| == |times| && jr != 0.0
    ensures NegativeTime(k, t) in AllKeyFrameErrors(skl, times, jr, g) <==> t < 0.0 && Listed(skl, times, k, t)
  {
    if |skl| > 0 {
      var n := |skl| - 1;
      var front := AllKeyFrameErrors(skl[..n], times[..n], jr, g);
      var last := KeyFrameErrors(skl[n], times[n], jr, g);
      assert AllKeyFrameErrors(skl, times, jr, g) == front + last;
      assert NegativeTime(k, t) in last <==> skl[n] == k && times[n] == t && t < 0.0;
      NegativeTimeReported(skl[..n], times[..n], jr, k, t, g);
      ListedStep(skl, times, k, t);
    }
  }

  lemma {:induction false} NotMultipleReported(skl: seq<string>, times: seq<real>, jr: real, k: string, t: real, r: real, g: GridTest)
    requires |skl| == |times| && jr != 0.0
    ensures NotMultiple(k, t, r) in AllKeyFrameErrors(skl, times, jr, g) <==>
      r == jr && Flags(g, t / jr) && Listed(skl, times, k, t)
  {
    if |skl| > 0 {
      var n := |skl| - 1;
      var front := AllKeyFrameErrors(skl[..n], times[..n], jr, g);
      var last := KeyFrameErrors(skl[n], times[n], jr, g);
      assert AllKeyFrameErrors(skl, times, jr, g) == front + last;
      assert NotMultiple(k, t, r) in last <==> r == jr && skl[n] == k && times[n] == t && Flags(g, t / jr);
      NotMultipleReported(skl[..n], times[..n], jr, k, t, r, g);
      ListedStep(skl, times, k, t);
    }
  }

  /** A count error is reported for exactly the ids not carried by exactly one channel. */
  lemma {:induction false} CountErrorsExact(ids: seq<string>, chans: seq<ChannelData>)
    ensures forall e :: e in CountErrors(ids, chans) ==> e.WrongCount?
    ensures forall n, id :: WrongCount(n, id) in CountErrors(ids, chans) <==>
      id in ids && n == CountOf(chans, id) && n != 1
  {
    if |ids| > 0 {
      var front := ids[..|ids| - 1];
      CountErrorsExact(front, chans);
      assert ids == front + [ids[|ids| - 1]];
    }
  }

  /** A ramp passes the checklist exactly when nothing on it is wrong. */
  lemma ErrorFree(skl: seq<string>, times: seq<real>, jr: real, chans: seq<ChannelData>, overlap: Option<string>, g: GridTest)
    requires |skl| == |times| && jr != 0.0
    ensures Errors(skl, times, jr, chans, overlap, g) == [] <==>
      (forall i :: 0 <= i < |times| ==> times[i] >= 0.0 && !Flags(g, times[i] / jr)) &&
      (forall id :: id in RequiredIds() ==> CountOf(chans, id) == 1) &&
      overlap.None?
  {
    if Errors(skl, times, jr, chans, overlap, g) == [] {
      NoErrorsMeansSound(skl, times, jr, chans, overlap, g);
    } else {
      ErrorsMeanFault(skl, times, jr, chans, overlap, g);
    }
  }

  lemma NoErrorsMeansSound(skl: seq<string>, times: seq<real>, jr: real, chans: seq<ChannelData>, overlap: Option<string>, g: GridTest)
    requires |skl| == |times| && jr != 0.0 && Errors(skl, times, jr, chans, overlap, g) == []
    ensures forall i :: 0 <= i < |times| ==> times[i] >= 0.0 && !Flags(g, times[i] / jr)
    ensures forall id :: id in RequiredIds() ==> CountOf(chans, id) == 1
    ensures overlap.None?
  {
    KeyFrameErrorsExact(skl, times, jr, g);
    CountErrorsExact(RequiredIds(), chans);
    var e := Errors(skl, times, jr, chans, overlap, g);
    assert AllKeyFrameErrors(skl, times, jr, g) == [] && CountErrors(RequiredIds(), chans) == [];
    forall i | 0 <= i < |times|
      ensures times[i] >= 0.0 && !Flags(g, times[i] / jr)
    {
      assert NegativeTime(skl[i], times[i]) !in AllKeyFrameErrors(skl, times, jr, g);
      assert NotMultiple(skl[i], times[i], jr) !in AllKeyFrameErrors(skl, times, jr, g);
    }
    forall id | id in RequiredIds()
      ensures CountOf(chans, id) == 1
    {
      assert WrongCount(CountOf(chans, id), id) !in CountErrors(RequiredIds(), chans);
    }
  }

  lemma ErrorsMeanFault(skl: seq<string>, times: seq<real>, jr: real, chans: seq<ChannelData>, overlap: Option<string>, g: GridTest)
    requires |skl| == |times| && jr != 0.0 && Errors(skl, times, jr, chans, overlap, g) != []
    ensures overlap.None? && (forall id :: id in RequiredIds() ==> CountOf(chans, id) == 1) ==>
      exists i :: 0 <= i < |times| && (times[i] < 0.0 || Flags(g, times[i] / jr))
  {
    if overlap.None? && (forall id :: id in RequiredIds() ==> CountOf(chans, id) == 1) {
      KeyFrameErrorsExact(skl, times, jr, g);
      CountErrorsExact(RequiredIds(), chans);
      if AllKeyFrameErrors(skl, times, jr, g) == [] {
        var x := CountErrors(RequiredIds(), chans)[0];
        assert x in CountErrors(RequiredIds(), chans);
      } else {
        var x := AllKeyFrameErrors(skl, times, jr, g)[0];
        assert x in AllKeyFrameErrors(skl, times, jr, g);
      }
    }
  }

  /** The checklist as written passes the keyframe at 2.6 that the intended one reports. */
  lemma AsWrittenPassesOffGridKeyFrame()
    ensures AllKeyFrameErrors(["a"], [2.6], 1.0, AsWritten) == []
    ensures AllKeyFrameErrors(["a"], [2.6], 1.0, Intended) == [NotMultiple("a", 2.6, 1.0)]
  {
    AsWrittenMissesNegativeResidue();
    assert ["a"][..0] == [] && [2.6][..0] == [];
  }

  /** The keyframe part of the checklist. */
  method CheckKeyFrames(skl: seq<string>, times: seq<real>, jr: real, g: GridTest) returns (errors: seq<CheckError>)
    requires |skl| == |times| && jr != 0.0
    ensures errors == AllKeyFrameErrors(skl, times, jr, g)
  {
    errors := [];
    var i := 0;
    while i < |skl|
      invariant 0 <= i <= |skl|
      invariant errors == AllKeyFrameErrors(skl[..i], times[..i], jr, g)
    {
      assert skl[..i + 1][..i] == skl[..i] && times[..i + 1][..i] == times[..i];
      var t := times[i];
      if t < 0.0 {
        errors := errors + [NegativeTime(skl[i], t)];
      }
      var steps := t / jr;
      var residue := steps - Round(steps) as real;
      if (if g.AsWritten? then residue > 0.0001 else Abs(residue) > 0.0001) {
        errors := errors + [NotMultiple(skl[i], t, jr)];
      }
      i := i + 1;
    }
    assert skl[..|skl|] == skl && times[..|times|] == times;
  }

  /** How many channels carry `id`, counted one by one. */
  method CountCopies(chans: seq<ChannelData>, id: string) returns (n: nat)
    ensures n == CountOf(chans, id)
  {
    n := 0;
    var j := 0;
    while j < |chans|
      invariant 0 <= j <= |chans|
      invariant n == CountOf(chans[..j], id)
    {
      assert chans[..j + 1][..j] == chans[..j];
      if chans[j].id == id {
        n := n + 1;
      }
      j := j + 1;
    }
    assert chans[..|chans|] == chans;
  }

  /** The missing-or-duplicated-channel part of the checklist. */
  method CheckChannelCounts(ids: seq<string>, chans: seq<ChannelData>) returns (errors: seq<CheckError>)
    ensures errors == CountErrors(ids, chans)
  {
    errors := [];
    var i := 0;
    while i < |ids|
      invariant 0 <= i <= |ids|
      invariant errors == CountErrors(ids[..i], chans)
    {
      assert ids[..i + 1][..i] == ids[..i];
      var n := CountCopies(chans, ids[i]);
      if n != 1 {
        errors := errors + [WrongCount(n, ids[i])];
      }
      i := i + 1;
    }
    assert ids[..|ids|] == ids;
  }

  /**
   * `check_ramp_for_errors`, over the ramp's keyframe list and channels.
   * `overlap` is what `do_keyframes_overlap` answers, which is not part of
   * this model. A zero jump resolution with any keyframe divides by zero
   * (None). Times are those `get_absolute_time` answers, stale caches
   * included; where every cache was right they are the absolute times.
   */
  method CheckRampForErrors(kfl: KeyFrameList, chans: seq<ChannelData>, jr: real, overlap: Option<string>, g: GridTest)
    returns (r: Option<seq<CheckError>>, ghost skl: seq<string>)
    requires kfl.Ready()
    modifies kfl
    ensures kfl.Ready() && kfl.isBaked
    ensures FillsFrom(old(kfl.dct), kfl.dct)
    ensures CacheSorted(kfl.dct, skl)
    ensures old(kfl.Valid()) ==>
      kfl.Valid() && IsSortedKeyList(kfl.dct, skl) &&
      forall j :: 0 <= j < |skl| ==> Times(kfl.dct, skl)[j] == AbsTime(kfl.dct, skl[j])
    ensures r.None? <==> jr == 0.0 && |skl| > 0
    ensures r.Some? && jr != 0.0 ==> r.value == Errors(skl, Times(kfl.dct, skl), jr, chans, overlap, g)
    ensures r.Some? && jr == 0.0 ==>
      r.value == CountErrors(RequiredIds(), chans) + (if overlap.Some? then [Overlap(overlap.value)] else [])
  {
    ghost var d0 := kfl.dct;
    var sorted := kfl.SortedKeyList();
    skl := sorted;
    forall u | u in sorted
      ensures u in kfl.dct
    {
      assert u in multiset(sorted);
    }
    ghost var before := kfl.dct;
    var times := KeyFrameTimes(kfl, sorted);
    FillsKeepCacheSorted(before, kfl.dct, sorted);
    FillsTransitive(d0, before, kfl.dct);
    if old(kfl.Valid()) {
      CacheSortedIsSorted(kfl.dct, sorted);
    }
    if jr == 0.0 && |sorted| > 0 {
      return None, skl;
    }
    var errors := CollectErrors(sorted, times, jr, chans, overlap, g);
    r := Some(errors);
  }

  /** The checklist over the sorted keyframes, their times and the channels. */
  method CollectErrors(skl: seq<string>, times: seq<real>, jr: real, chans: seq<ChannelData>, overlap: Option<string>, g: GridTest)
    returns (errors: seq<CheckError>)
    requires |skl| == |times| && (jr == 0.0 ==> |skl| == 0)
    ensures jr != 0.0 ==> errors == Errors(skl, times, jr, chans, overlap, g)
    ensures jr == 0.0 ==>
      errors == CountErrors(RequiredIds(), chans) + (if overlap.Some? then [Overlap(overlap.value)] else [])
  {
    errors := [];
    if jr != 0.0 {
      errors := CheckKeyFrames(skl, times, jr, g);
    }
    var counted := CheckChannelCounts(RequiredIds(), chans);
    errors := errors + counted;
    if overlap.Some? {
      errors := errors + [Overlap(overlap.value)];
    }
  }
}

=== FILE: server_loop.dfy ===
/**
 * The acquisition thread of the ramp server and the server's queue
 * requests. One pass of the thread's loop is a step whose inputs are the
 * ramp queue, whether the running task reports itself done, and the time;
 * what the loop does to the hardware and the log is a list of actions.
 */
module ServerLoop {
  import opened Text
  import opened Json

  /** A queued ramp document: a dictionary whose `properties` is a dictionary. */
  predicate RampDoc(v: Value)
  {
    v.Dict? && "properties" in v.d && v.d["properties"].Dict? &&
    ("wait_after_running" in v.d["properties"].d ==> IsNumber(v.d["properties"].d["wait_after_running"]))
  }

  predicate AllRampDocs(q: seq<Value>)
  {
    forall i :: 0 <= i < |q| ==> RampDoc(q[i])
  }

  function Properties(doc: Value): map<string, Value>
    requires RampDoc(doc)
  {
    doc.d["properties"].d
  }

  /** The pause after a run, in milliseconds: `wait_after_running`, or 0 when absent. */
  function WaitAfterRunning(doc: Value): (w: real)
    requires RampDoc(doc)
    ensures "wait_after_running" !in Properties(doc) ==> w == 0.0
  {
    var p := Properties(doc);
    if "wait_after_running" in p then ToReal(p["wait_after_running"]) else 0.0
  }

  /** A document whose `log_ramp_file` is present and false is not logged. */
  predicate LogSkipped(doc: Value)
    requires RampDoc(doc)
  {
    "log_ramp_file" in Properties(doc) && !Truthy(Properties(doc)["log_ramp_file"])
  }

  /** A run shorter than this many seconds is reported as an error. */
  const ShortRun: real := 0.1

  /** What one pass of the loop does outside its own flags. */
  datatype Action =
    | MakeRamps(doc: Value)
    | TaskDone(doc: Value)
    | ShortRunError
    | WriteLog(doc: Value, start: real, end: real)
    | ClearTasks
    | UploadAndStart(doc: Value)

  /** The thread's flags and bookkeeping. */
  datatype Loop = Loop(
    running: bool,
    taskRunning: bool,
    rampGenerated: bool,
    waitingAfterRunning: bool,
    prevDataList: seq<Value>,
    waitTime: real,
    taskStart: real,
    taskEnd: real,
    hasTasks: bool)

  const Initial: Loop := Loop(false, false, false, false, [], 0.0, 0.0, 0.0, false)

  /**
   * `prev_data_list` holds the running document (if a task runs) followed by
   * the generated one (if a ramp is pending); no task runs while waiting.
   */
  ghost predicate Inv(s: Loop)
  {
    |s.prevDataList| == (if s.taskRunning then 1 else 0) + (if s.rampGenerated then 1 else 0) &&
    !(s.taskRunning && s.waitingAfterRunning) &&
    (s.taskRunning ==> s.hasTasks) &&
    AllRampDocs(s.prevDataList)
  }

  /** Take the next document off the queue, unless a ramp is already pending. */
  function TakeNew(s: Loop, q: seq<Value>): (Loop, seq<Value>, seq<Action>)
  {
    if !s.rampGenerated && |q| > 0 then
      (s.(prevDataList := s.prevDataList + [q[0]], rampGenerated := true), q[1..], [MakeRamps(q[0])])
    else (s, q, [])
  }

  /** `log_ramps`: the finished document leaves the list whether or not it is logged. */
  function FinishRun(s: Loop, now: real): (Loop, seq<Action>)
    requires |s.prevDataList| > 0 && RampDoc(s.prevDataList[0])
  {
    var doc := s.prevDataList[0];
    var logged :=
      if LogSkipped(doc) then []
      else (if now - s.taskStart < ShortRun then [ShortRunError] else []) + [WriteLog(doc, s.taskStart, now)];
    (s.(taskRunning := false, taskEnd := now, waitingAfterRunning := true, prevDataList := s.prevDataList[1..]),
     [TaskDone(doc)] + logged)
  }

  /** Clear the old tasks (if any), upload the pending ramp and start it. */
  function Upload(s: Loop, now: real): (Loop, seq<Action>)
    requires |s.prevDataList| > 0 && RampDoc(s.prevDataList[0])
  {
    var doc := s.prevDataList[0];
    (s.(waitTime := WaitAfterRunning(doc), hasTasks := true, taskStart := now, taskRunning := true, rampGenerated := false),
     (if s.hasTasks then [ClearTasks] else []) + [UploadAndStart(doc)])
  }

  /** The second half of a pass: poll the DAQ task, or wait, or upload. */
  function Advance(s: Loop, taskDone: bool, now: real): (Loop, seq<Action>)
    requires Inv(s)
  {
    if s.taskRunning then
      if taskDone then FinishRun(s, now) else (s, [])
    else if s.waitingAfterRunning then
      if (now - s.taskEnd) * 1000.0 > s.waitTime then (s.(waitingAfterRunning := false), []) else (s, [])
    else if s.rampGenerated then Upload(s, now)
    else (s, [])
  }

  /** One pass of `DaqThread.run`; a paused thread does nothing. */
  function Next(s: Loop, q: seq<Value>, taskDone: bool, now: real): (Loop, seq<Value>, seq<Action>)
    requires Inv(s) && AllRampDocs(q)
  {
    if !s.running then (s, q, [])
    else
      var t := TakeNew(s, q);
      var a := Advance(t.0, taskDone, now);
      (a.0, t.1, t.2 + a.1)
  }

  // ---------------------------------------------------------------------
  // What one pass guarantees.
  // ---------------------------------------------------------------------

  lemma InitialInv()
    ensures Inv(Initial) && !Initial.running
  {
  }

  lemma NextKeepsInv(s: Loop, q: seq<Value>, taskDone: bool, now: real)
    requires Inv(s) && AllRampDocs(q)
    ensures Inv(Next(s, q, taskDone, now).0) && AllRampDocs(Next(s, q, taskDone, now).1)
    ensures Next(s, q, taskDone, now).0.running == s.running
  {
    if s.running {
      var t := TakeNew(s, q);
      assert Inv(t.0);
    }
  }

  /**
   * A document is taken only by a running thread with no ramp pending, and
   * then it is the head of the queue and its ramp is made at once.
   */
  lemma TakesOnlyWhenNothingPending(s: Loop, q: seq<Value>, taskDone: bool, now: real)
    requires Inv(s) && AllRampDocs(q)
    ensures var r := Next(s, q, taskDone, now);
      (r.1 == q || (s.running && !s.rampGenerated && |q| > 0 && r.1 == q[1..] && r.2[0] == MakeRamps(q[0]))) &&
      (s.running && !s.rampGenerated && |q| > 0 ==> r.1 == q[1..])
  {
  }

  /**
   * An upload happens only when no task runs and the post-run wait is over;
   * it starts the DAQ task, clears the pending flag, uploads the oldest document
   * still listed and takes that document's wait time.
   */
  lemma UploadsOnlyWhenIdle(s: Loop, q: seq<Value>, taskDone: bool, now: real, doc: Value)
    requires Inv(s) && AllRampDocs(q)
    requires UploadAndStart(doc) in Next(s, q, taskDone, now).2
    ensures s.running && !s.taskRunning && !s.waitingAfterRunning
    ensures var s2 := Next(s, q, taskDone, now).0;
      s2.taskRunning && !s2.rampGenerated && s2.taskStart == now &&
      |s2.prevDataList| > 0 && doc == s2.prevDataList[0] && s2.waitTime == WaitAfterRunning(doc)
    ensures ClearTasks in Next(s, q, taskDone, now).2 <==> s.hasTasks
  {
  }

  /** While a task runs, a pass only polls it: nothing is uploaded and the flags stay unless it is done. */
  lemma RunningTaskOnlyPolled(s: Loop, q: seq<Value>, taskDone: bool, now: real)
    requires Inv(s) && AllRampDocs(q) && s.running && s.taskRunning
    ensures var r := Next(s, q, taskDone, now);
      (forall d :: UploadAndStart(d) !in r.2) &&
      (!taskDone ==> r.0 == TakeNew(s, q).0) &&
      (taskDone ==> !r.0.taskRunning && r.0.waitingAfterRunning && r.0.taskEnd == now)
  {
  }

  /** The wait after a run ends only once more than `wait_after_running` ms have passed. */
  lemma WaitEnforced(s: Loop, q: seq<Value>, taskDone: bool, now: real)
    requires Inv(s) && AllRampDocs(q) && s.waitingAfterRunning
    ensures var r := Next(s, q, taskDone, now);
      (forall d :: UploadAndStart(d) !in r.2) &&
      (!r.0.waitingAfterRunning <==> s.running && (now - s.taskEnd) * 1000.0 > s.waitTime)
  {
  }

  /**
   * A finished run always leaves the list; it is logged unless its
   * `log_ramp_file` is false, and a short run is reported before the log.
   */
  lemma FinishedRunLogged(s: Loop, q: seq<Value>, now: real)
    requires Inv(s) && AllRampDocs(q) && s.running && s.taskRunning
    ensures var r := Next(s, q, true, now);
      var doc := s.prevDataList[0];
      TaskDone(doc) in r.2 &&
      (WriteLog(doc, s.taskStart, now) in r.2 <==> !LogSkipped(doc)) &&
      (ShortRunError in r.2 <==> !LogSkipped(doc) && now - s.taskStart < ShortRun)
  {
    var t := TakeNew(s, q);
    assert t.0.prevDataList[0] == s.prevDataList[0];
  }

  // ---------------------------------------------------------------------
  // First in, first out over a whole run of passes.
  // ---------------------------------------------------------------------

  /** The documents of one kind of action, in order. */
  function Taken(acts: seq<Action>): seq<Value>
  {
    if |acts| == 0 then []
    else (if acts[0].MakeRamps? then [acts[0].doc] else []) + Taken(acts[1..])
  }

  function Finished(acts: seq<Action>): seq<Value>
  {
    if |acts| == 0 then []
    else (if acts[0].TaskDone? then [acts[0].doc] else []) + Finished(acts[1..])
  }

  function Uploaded(acts: seq<Action>): seq<Value>
  {
    if |acts| == 0 then []
    else (if acts[0].UploadAndStart? then [acts[0].doc] else []) + Uploaded(acts[1..])
  }

  lemma {:induction false} HistoryAppend(a: seq<Action>, b: seq<Action>)
    ensures Taken(a + b) == Taken(a) + Taken(b)
    ensures Finished(a + b) == Finished(a) + Finished(b)
    ensures Uploaded(a + b) == Uploaded(a) + Uploaded(b)
  {
    if |a| > 0 {
      assert (a + b)[0] == a[0];
      assert (a + b)[1..] == a[1..] + b;
      HistoryAppend(a[1..], b);
    } else {
      assert a + b == b;
    }
  }

  /** The logging actions of a finished run name no document taken, finished or uploaded. */
  lemma LoggingIsSilent(s: Loop, now: real)
    requires |s.prevDataList| > 0 && RampDoc(s.prevDataList[0])
    ensures var acts := FinishRun(s, now).1;
      Taken(acts) == [] && Finished(acts) == [s.prevDataList[0]] && Uploaded(acts) == []
  {
    var doc := s.prevDataList[0];
    var acts := FinishRun(s, now).1;
    var w := [WriteLog(doc, s.taskStart, now)];
    assert Taken(w) == [] && Finished(w) == [] && Uploaded(w) == [];
    var logged := acts[1..];
    if !LogSkipped(doc) && now - s.taskStart < ShortRun {
      HistoryAppend([ShortRunError], w);
    }
    assert Taken(logged) == [] && Finished(logged) == [] && Uploaded(logged) == [];
    assert acts == [TaskDone(doc)] + logged;
    HistoryAppend([TaskDone(doc)], logged);
  }

  lemma UploadActions(s: Loop, now: real)
    requires |s.prevDataList| > 0 && RampDoc(s.prevDataList[0])
    ensures var acts := Upload(s, now).1;
      Taken(acts) == [] && Finished(acts) == [] && Uploaded(acts) == [s.prevDataList[0]]
  {
    if s.hasTasks {
      HistoryAppend([ClearTasks], [UploadAndStart(s.prevDataList[0])]);
    }
  }

  /** The second half of a pass takes nothing from the queue. */
  lemma AdvanceActions(s: Loop, taskDone: bool, now: real)
    requires Inv(s)
    ensures var r := Advance(s, taskDone, now);
      Taken(r.1) == [] &&
      Finished(r.1) == (if s.taskRunning && taskDone then [s.prevDataList[0]] else []) &&
      Uploaded(r.1) == (if !s.taskRunning && !s.waitingAfterRunning && s.rampGenerated then [s.prevDataList[0]] else [])
  {
    if s.taskRunning && taskDone {
      LoggingIsSilent(s, now);
    } else if !s.taskRunning && !s.waitingAfterRunning && s.rampGenerated {
      UploadActions(s, now);
    }
  }

  /** The running document, if a task runs. */
  function Running(s: Loop): seq<Value>
  {
    if s.taskRunning && |s.prevDataList| > 0 then [s.prevDataList[0]] else []
  }

  /**
   * Every document taken so far has either finished or is still listed, in
   * order; and the documents uploaded are the finished ones followed by the
   * running one.
   */
  ghost predicate History(s: Loop, acts: seq<Action>)
  {
    Taken(acts) == Finished(acts) + s.prevDataList &&
    Uploaded(acts) == Finished(acts) + Running(s)
  }

  lemma TakeKeepsInv(s: Loop, q: seq<Value>)
    requires Inv(s) && AllRampDocs(q)
    ensures Inv(TakeNew(s, q).0) && AllRampDocs(TakeNew(s, q).1)
  {
  }

  lemma TakeKeepsHistory(s: Loop, q: seq<Value>, acts: seq<Action>)
    requires Inv(s) && History(s, acts)
    ensures History(TakeNew(s, q).0, acts + TakeNew(s, q).2)
  {
    if !s.rampGenerated && |q| > 0 {
      var s2 := TakeNew(s, q).0;
      var m := [MakeRamps(q[0])];
      HistoryAppend(acts, m);
      assert Taken(m) == [q[0]] && Finished(m) == [] && Uploaded(m) == [];
      assert s2.prevDataList == s.prevDataList + [q[0]] && Running(s2) == Running(s);
      AppendEmpty(Finished(acts));
      AppendEmpty(Uploaded(acts));
      Assoc(Finished(acts), s.prevDataList, [q[0]]);
    } else {
      AppendEmpty(acts);
    }
  }

  lemma FinishKeepsHistory(s: Loop, now: real, acts: seq<Action>)
    requires Inv(s) && s.taskRunning && History(s, acts)
    ensures History(FinishRun(s, now).0, acts + FinishRun(s, now).1)
  {
    var f := FinishRun(s, now);
    var doc := s.prevDataList[0];
    LoggingIsSilent(s, now);
    HistoryAppend(acts, f.1);
    AppendEmpty(Taken(acts));
    AppendEmpty(Uploaded(acts));
    AppendEmpty(Finished(acts) + [doc]);
    assert s.prevDataList == [doc] + f.0.prevDataList;
    Assoc(Finished(acts), [doc], f.0.prevDataList);
    assert Running(s) == [doc] && Running(f.0) == [];
  }

  lemma UploadKeepsHistory(s: Loop, now: real, acts: seq<Action>)
    requires Inv(s) && !s.taskRunning && s.rampGenerated && History(s, acts)
    ensures History(Upload(s, now).0, acts + Upload(s, now).1)
  {
    var u := Upload(s, now);
    UploadActions(s, now);
    HistoryAppend(acts, u.1);
    assert Running(u.0) == [s.prevDataList[0]];
  }

  lemma AdvanceKeepsHistory(s: Loop, taskDone: bool, now: real, acts: seq<Action>)
    requires Inv(s) && History(s, acts)
    ensures History(Advance(s, taskDone, now).0, acts + Advance(s, taskDone, now).1)
  {
    if s.taskRunning && taskDone {
      FinishKeepsHistory(s, now, acts);
    } else if !s.taskRunning && !s.waitingAfterRunning && s.rampGenerated {
      UploadKeepsHistory(s, now, acts);
    } else {
      assert acts + [] == acts;
    }
  }

  lemma NextKeepsHistory(s: Loop, q: seq<Value>, taskDone: bool, now: real, acts: seq<Action>)
    requires Inv(s) && AllRampDocs(q) && History(s, acts)
    ensures History(Next(s, q, taskDone, now).0, acts + Next(s, q, taskDone, now).2)
  {
    if s.running {
      var t := TakeNew(s, q);
      TakeKeepsInv(s, q);
      TakeKeepsHistory(s, q, acts);
      var a := Advance(t.0, taskDone, now);
      AdvanceKeepsHistory(t.0, taskDone, now, acts + t.2);
      assert Next(s, q, taskDone, now) == (a.0, t.1, t.2 + a.1);
      Assoc(acts, t.2, a.1);
    } else {
      AppendEmpty(acts);
    }
  }

  /** One pass takes from the front of the queue exactly the documents it makes ramps for. */
  lemma TakenFromFront(s: Loop, q: seq<Value>, taskDone: bool, now: real)
    requires Inv(s) && AllRampDocs(q)
    ensures q == Taken(Next(s, q, taskDone, now).2) + Next(s, q, taskDone, now).1
  {
    if s.running {
      var t := TakeNew(s, q);
      TakeKeepsInv(s, q);
      var a := Advance(t.0, taskDone, now);
      AdvanceActions(t.0, taskDone, now);
      HistoryAppend(t.2, a.1);
      var n := Next(s, q, taskDone, now);
      assert n.1 == t.1 && n.2 == t.2 + a.1;
      TakeNewFront(s, q);
    }
  }

  lemma TakeNewFront(s: Loop, q: seq<Value>)
    ensures q == Taken(TakeNew(s, q).2) + TakeNew(s, q).1
  {
    if !s.rampGenerated && |q| > 0 {
      assert Taken([MakeRamps(q[0])]) == [q[0]];
      assert q == [q[0]] + q[1..];
    }
  }

  /** Passes of the loop, one per (task done, time) input. */
  function Run(s: Loop, q: seq<Value>, inputs: seq<(bool, real)>): (Loop, seq<Value>, seq<Action>)
    requires Inv(s) && AllRampDocs(q)
    decreases |inputs|
  {
    if |inputs| == 0 then (s, q, [])
    else
      NextKeepsInv(s, q, inputs[0].0, inputs[0].1);
      var r := Next(s, q, inputs[0].0, inputs[0].1);
      var rest := Run(r.0, r.1, inputs[1..]);
      (rest.0, rest.1, r.2 + rest.2)
  }

  lemma {:induction false} RunKeepsHistory(s: Loop, q: seq<Value>, inputs: seq<(bool, real)>, acts: seq<Action>)
    requires Inv(s) && AllRampDocs(q) && History(s, acts)
    ensures History(Run(s, q, inputs).0, acts + Run(s, q, inputs).2)
    decreases |inputs|
  {
    if |inputs| == 0 {
      AppendEmpty(acts);
    } else {
      var d, t := inputs[0].0, inputs[0].1;
      NextKeepsInv(s, q, d, t);
      NextKeepsHistory(s, q, d, t, acts);
      var r := Next(s, q, d, t);
      RunKeepsHistory(r.0, r.1, inputs[1..], acts + r.2);
      var rest := Run(r.0, r.1, inputs[1..]);
      var whole := Run(s, q, inputs);
      assert whole.0 == rest.0 && whole.2 == r.2 + rest.2;
      Assoc(acts, r.2, rest.2);
    }
  }

  lemma Assoc<T>(a: seq<T>, b: seq<T>, c: seq<T>)
    ensures (a + b) + c == a + (b + c)
  {
  }

  lemma AppendEmpty<T>(a: seq<T>)
    ensures a + [] == a
  {
  }

  lemma FrontChain<T>(q: seq<T>, t1: seq<T>, r1: seq<T>, t2: seq<T>, r2: seq<T>)
    requires q == t1 + r1 && r1 == t2 + r2
    ensures q == (t1 + t2) + r2
  {
  }

  lemma {:induction false} RunTakesFromFront(s: Loop, q: seq<Value>, inputs: seq<(bool, real)>)
    requires Inv(s) && AllRampDocs(q)
    ensures q == Taken(Run(s, q, inputs).2) + Run(s, q, inputs).1
    decreases |inputs|
  {
    if |inputs| == 0 {
      assert q == [] + q;
    } else {
      var (d, t) := inputs[0];
      NextKeepsInv(s, q, d, t);
      TakenFromFront(s, q, d, t);
      var r := Next(s, q, d, t);
      RunTakesFromFront(r.0, r.1, inputs[1..]);
      var rest := Run(r.0, r.1, inputs[1..]);
      assert Run(s, q, inputs) == (rest.0, rest.1, r.2 + rest.2);
      HistoryAppend(r.2, rest.2);
      FrontChain(q, Taken(r.2), r.1, Taken(rest.2), rest.1);
    }
  }

  /**
   * From a fresh thread: the documents taken are exactly those that left
   * the front of the queue; each has finished or is still listed, in the
   * order taken; and the documents uploaded are the finished ones followed
   * by the running one.
   */
  lemma RunIsFifo(q: seq<Value>, inputs: seq<(bool, real)>)
    requires AllRampDocs(q)
    ensures var r := Run(Initial, q, inputs);
      q == Taken(r.2) + r.1 &&
      Taken(r.2) == Finished(r.2) + r.0.prevDataList &&
      Uploaded(r.2) == Finished(r.2) + Running(r.0)
  {
    RunKeepsHistory(Initial, q, inputs, []);
    RunTakesFromFront(Initial, q, inputs);
    assert [] + Run(Initial, q, inputs).2 == Run(Initial, q, inputs).2;
  }

  // ---------------------------------------------------------------------
  // The thread and the server.
  // ---------------------------------------------------------------------

  /** `DaqThread`: the flags of the loop and the actions taken so far. */
  class DaqThread {
    var running: bool
    var taskRunning: bool
    var rampGenerated: bool
    var waitingAfterRunning: bool
    var prevDataList: seq<Value>
    var waitTime: real
    var taskStart: real
    var taskEnd: real
    var hasTasks: bool
    var actions: seq<Action>

    ghost function State(): Loop
      reads this
    {
      Loop(running, taskRunning, rampGenerated, waitingAfterRunning, prevDataList, waitTime, taskStart, taskEnd, hasTasks)
    }

    ghost predicate Valid()
      reads this
    {
      Inv(State()) && History(State(), actions)
    }

    constructor ()
      ensures Valid() && State() == Initial && actions == []
    {
      running := false;
      taskRunning := false;
      rampGenerated := false;
      waitingAfterRunning := false;
      prevDataList := [];
      waitTime := 0.0;
      taskStart := 0.0;
      taskEnd := 0.0;
      hasTasks := false;
      actions := [];
    }

    /** `log_ramps`, at the moment the DAQ task is found done. */
    method LogRamps()
      requires |prevDataList| > 0 && RampDoc(prevDataList[0])
      modifies this
      ensures prevDataList == old(prevDataList[1..])
      ensures actions == old(actions) + FinishRun(old(State()), taskEnd).1
      ensures running == old(running) && taskRunning == old(taskRunning) && rampGenerated == old(rampGenerated)
      ensures waitingAfterRunning == old(waitingAfterRunning) && waitTime == old(waitTime)
      ensures taskStart == old(taskStart) && taskEnd == old(taskEnd) && hasTasks == old(hasTasks)
    {
      var doc := prevDataList[0];
      prevDataList := prevDataList[1..];
      actions := actions + [TaskDone(doc)];
      var p := Properties(doc);
      if "log_ramp_file" in p && !Truthy(p["log_ramp_file"]) {
        return;
      }
      if taskEnd - taskStart < ShortRun {
        actions := actions + [ShortRunError];
      }
      actions := actions + [WriteLog(doc, taskStart, taskEnd)];
    }

    /** `clear_tasks`: only once tasks exist. */
    method ClearTasksIfAny()
      modifies this
      ensures actions == old(actions) + (if hasTasks then [ClearTasks] else [])
      ensures State() == old(State())
    {
      if hasTasks {
        actions := actions + [ClearTasks];
      }
    }

    /** `upload_and_start_tasks`. */
    method UploadAndStartTasks(now: real)
      requires |prevDataList| > 0
      modifies this
      ensures State() == old(State()).(hasTasks := true, taskStart := now)
      ensures actions == old(actions) + [UploadAndStart(old(prevDataList)[0])]
    {
      actions := actions + [UploadAndStart(prevDataList[0])];
      hasTasks := true;
      taskStart := now;
    }

    /** The first half of a pass: take a document unless a ramp is pending. */
    method TakeNewDoc(q: seq<Value>) returns (rest: seq<Value>)
      modifies this
      ensures var t := TakeNew(old(State()), q);
        State() == t.0 && rest == t.1 && actions == old(actions) + t.2
    {
      rest := q;
      if !rampGenerated && |q| > 0 {
        prevDataList := prevDataList + [q[0]];
        rest := q[1..];
        actions := actions + [MakeRamps(q[0])];
        rampGenerated := true;
      }
    }

    /** The second half of a pass: poll the running task, or wait, or upload. */
    method AdvanceTask(taskDone: bool, now: real)
      requires Inv(State())
      modifies this
      ensures var a := Advance(old(State()), taskDone, now);
        State() == a.0 && actions == old(actions) + a.1
    {
      if taskRunning {
        if taskDone {
          taskRunning := false;
          taskEnd := now;
          waitingAfterRunning := true;
          LogRamps();
        }
      } else if waitingAfterRunning {
        if (now - taskEnd) * 1000.0 > waitTime {
          waitingAfterRunning := false;
        }
      } else if rampGenerated {
        waitTime := WaitAfterRunning(prevDataList[0]);
        ClearTasksIfAny();
        UploadAndStartTasks(now);
        taskRunning := true;
        rampGenerated := false;
      }
    }

    /** The pass of a running thread: take a document, then advance. */
    method Pass(q: seq<Value>, taskDone: bool, now: real) returns (rest: seq<Value>)
      requires running && Inv(State()) && AllRampDocs(q)
      modifies this
      ensures var r := Next(old(State()), q, taskDone, now);
        State() == r.0 && rest == r.1 && actions == old(actions) + r.2
    {
      ghost var s0 := State();
      ghost var a0 := actions;
      rest := TakeNewDoc(q);
      ghost var t := TakeNew(s0, q);
      TakeKeepsInv(s0, q);
      AdvanceTask(taskDone, now);
      assert actions == a0 + (t.2 + Advance(t.0, taskDone, now).1);
    }

    /**
     * One pass of `run`: a paused thread waits; otherwise it takes a
     * document from `q` if no ramp is pending, then polls the DAQ task, waits,
     * or uploads. Returns what is left of the queue.
     */
    method Step(q: seq<Value>, taskDone: bool, now: real) returns (rest: seq<Value>)
      requires Valid() && AllRampDocs(q)
      modifies this
      ensures Valid() && AllRampDocs(rest)
      ensures var r := Next(old(State()), q, taskDone, now);
        State() == r.0 && rest == r.1 && actions == old(actions) + r.2
    {
      ghost var s0 := State();
      ghost var a0 := actions;
      NextKeepsInv(s0, q, taskDone, now);
      NextKeepsHistory(s0, q, taskDone, now, a0);
      rest := q;
      if running {
        rest := Pass(q, taskDone, now);
      }
    }
  }

  function Ok(): Value
  {
    Dict(map["status" := Str("ok")])
  }

  /** `BECServer`: the ramp queue and the thread that drains it. */
  class BecServer {
    var queue: seq<Value>
    var currentData: Option<Value>
    var daq: DaqThread

    ghost predicate Valid()
      reads this, daq
    {
      daq.Valid() && AllRampDocs(queue)
    }

    constructor ()
      ensures Valid() && fresh(daq) && queue == [] && daq.State() == Initial
    {
      queue := [];
      currentData := None;
      daq := new DaqThread();
    }

    /** `start`: lets the thread run. */
    method Start() returns (reply: Value)
      requires Valid()
      modifies daq
      ensures Valid() && reply == Ok()
      ensures daq.State() == old(daq.State()).(running := true) && daq.actions == old(daq.actions)
    {
      daq.running := true;
      reply := Ok();
    }

    /** `pause_after_current_ramp`: the thread stops at its next pass. */
    method PauseAfterCurrentRamp() returns (reply: Value)
      requires Valid()
      modifies daq
      ensures Valid() && reply == Ok()
      ensures daq.State() == old(daq.State()).(running := false) && daq.actions == old(daq.actions)
    {
      daq.running := false;
      reply := Ok();
    }

    /** `queue_ramp`: the message goes to the back of the queue. */
    method QueueRamp(mesg: Value) returns (reply: Value)
      requires Valid() && RampDoc(mesg)
      modifies this
      ensures Valid() && reply == Ok() && daq == old(daq)
      ensures queue == old(queue) + [mesg] && currentData == old(currentData)
    {
      queue := queue + [mesg];
      reply := Ok();
    }

    /** `clear_queue`: drains the queue, remembering the last document drained. */
    method ClearQueue() returns (reply: Value)
      requires Valid()
      modifies this
      ensures Valid() && reply == Ok() && daq == old(daq)
      ensures queue == []
      ensures currentData == if |old(queue)| > 0 then Some(old(queue)[|old(queue)| - 1]) else old(currentData)
    {
      while |queue| > 0
        invariant Valid() && daq == old(daq)
        invariant |queue| <= |old(queue)| && queue == old(queue)[|old(queue)| - |queue|..]
        invariant currentData == if |queue| < |old(queue)| then Some(old(queue)[|old(queue)| - |queue| - 1]) else old(currentData)
        decreases |queue|
      {
        currentData := Some(queue[0]);
        queue := queue[1..];
      }
      reply := Ok();
    }

    /** `get_queue_comments`: a fixed placeholder list. */
    method GetQueueComments() returns (reply: Value)
      ensures reply == Dict(map["comment_list" := List([Str("bla")])])
    {
      reply := Dict(map["comment_list" := List([Str("bla")])]);
    }

    /** `abort_current_run`: acknowledges and does nothing. */
    method AbortCurrentRun() returns (reply: Value)
      ensures reply == Ok()
    {
      reply := Ok();
    }

    /** One pass of the thread over the server's queue. */
    method RunStep(taskDone: bool, now: real)
      requires Valid()
      modifies this, daq
      ensures Valid() && daq == old(daq) && currentData == old(currentData)
      ensures var r := Next(old(daq.State()), old(queue), taskDone, now);
        daq.State() == r.0 && queue == r.1 && daq.actions == old(daq.actions) + r.2
    {
      queue := daq.Step(queue, taskDone, now);
    }
  }
}

=== FILE: sorting.dfy ===
/**
 * Stable sorting by a key, as Python's `sorted(items, key=...)` does: the
 * result is ordered by key, holds the same items, and items with equal keys
 * keep the order in which they were offered.
 */
module Sorting {

  /** `le` orders keys totally (ties allowed) and transitively. */
  ghost predicate TotalPreorder<K(!new)>(le: (K, K) -> bool)
  {
    (forall a, b :: le(a, b) || le(b, a)) &&
    (forall a, b, c :: le(a, b) && le(b, c) ==> le(a, c))
  }

  ghost predicate SortedBy<T, K>(s: seq<T>, key: T -> K, le: (K, K) -> bool)
  {
    forall i, j :: 0 <= i < j < |s| ==> le(key(s[i]), key(s[j]))
  }

  /** Puts `x` after every element whose key is not greater than its own. */
  function InsertBy<T, K>(x: T, s: seq<T>, key: T -> K, le: (K, K) -> bool): seq<T>
  {
    if |s| == 0 then [x]
    else if !le(key(s[0]), key(x)) then [x] + s
    else [s[0]] + InsertBy(x, s[1..], key, le)
  }

  lemma {:induction false} InsertByMultiset<T, K>(x: T, s: seq<T>, key: T -> K, le: (K, K) -> bool)
    ensures multiset(InsertBy(x, s, key, le)) == multiset(s) + multiset{x}
  {
    if |s| > 0 && le(key(s[0]), key(x)) {
      InsertByMultiset(x, s[1..], key, le);
      assert s == [s[0]] + s[1..];
    }
  }

  /** Everything in `s`, or `x` itself, has a key of at least `lo`. */
  lemma InsertByLowerBound<T, K>(x: T, s: seq<T>, key: T -> K, le: (K, K) -> bool, lo: K)
    requires le(lo, key(x)) && forall i :: 0 <= i < |s| ==> le(lo, key(s[i]))
    ensures forall i :: 0 <= i < |InsertBy(x, s, key, le)| ==> le(lo, key(InsertBy(x, s, key, le)[i]))
  {
    var r := InsertBy(x, s, key, le);
    InsertByMultiset(x, s, key, le);
    forall i | 0 <= i < |r|
      ensures le(lo, key(r[i]))
    {
      assert r[i] in multiset(r);
      if r[i] != x {
        assert r[i] in multiset(s);
        var m :| 0 <= m < |s| && s[m] == r[i];
      }
    }
  }

  lemma {:induction false} InsertBySorted<T, K(!new)>(x: T, s: seq<T>, key: T -> K, le: (K, K) -> bool)
    requires TotalPreorder(le) && SortedBy(s, key, le)
    ensures multiset(InsertBy(x, s, key, le)) == multiset(s) + multiset{x}
    ensures SortedBy(InsertBy(x, s, key, le), key, le)
  {
    InsertByMultiset(x, s, key, le);
    if |s| == 0 {
    } else if !le(key(s[0]), key(x)) {
      assert le(key(x), key(s[0]));
      var r := [x] + s;
      forall i, j | 0 <= i < j < |r|
        ensures le(key(r[i]), key(r[j]))
      {
        if i > 0 {
          assert r[i] == s[i - 1] && r[j] == s[j - 1];
        } else if j > 1 {
          assert le(key(s[0]), key(s[j - 1]));
          assert le(key(x), key(s[0]));
        }
      }
    } else {
      var tail := s[1..];
      assert SortedBy(tail, key, le) by {
        forall i, j | 0 <= i < j < |tail|
          ensures le(key(tail[i]), key(tail[j]))
        {
          assert tail[i] == s[i + 1] && tail[j] == s[j + 1];
        }
      }
      InsertBySorted(x, tail, key, le);
      assert forall i :: 0 <= i < |tail| ==> le(key(s[0]), key(tail[i])) by {
        forall i | 0 <= i < |tail|
          ensures le(key(s[0]), key(tail[i]))
        {
          assert tail[i] == s[i + 1];
        }
      }
      InsertByLowerBound(x, tail, key, le, key(s[0]));
      var rest := InsertBy(x, tail, key, le);
      var r := [s[0]] + rest;
      forall i, j | 0 <= i < j < |r|
        ensures le(key(r[i]), key(r[j]))
      {
        if i > 0 {
          assert r[i] == rest[i - 1] && r[j] == rest[j - 1];
        } else {
          assert r[j] == rest[j - 1];
        }
      }
    }
  }
}

=== FILE: synth_hd.dfy ===
/**
 * The SynthHD microwave-generator server: a request names channel 0 or 1
 * and a setting; one that passes the range checks writes one command to
 * the serial port and replies `{'success': 1}`, any other replies
 * `{'success': 0}` and writes nothing. Requests reach the handlers through
 * the shared dispatch of the Requests module.
 */
module SynthHd {
  import opened Text
  import opened Json
  import opened Requests

  /** The members of the server class, as `inspect.getmembers` lists them. */
  const Members: seq<string> := ["__init__", "_run", "help", "mw_set_freq", "set_amp", "set_phase"]

  /**
   * `ch in ['0', '1', 0, 1]`: Python compares with `==`, so the numbers 0
   * and 1 in any numeric type, `True` and `False` included, match as well.
   */
  predicate ChannelOk(ch: Value)
  {
    PyEq(ch, Str("0")) || PyEq(ch, Str("1")) || PyEq(ch, Int(0)) || PyEq(ch, Int(1))
  }

  lemma ChannelOkIff(ch: Value)
    ensures ChannelOk(ch) <==>
      ch == Str("0") || ch == Str("1") || (IsNumber(ch) && (ToReal(ch) == 0.0 || ToReal(ch) == 1.0))
  {
  }

  predicate IntIn(v: Value, lo: int, hi: int)
  {
    v.Int? && lo <= v.i <= hi
  }

  /** `type(v) == float and lo <= v <= hi`. */
  predicate FloatIn(v: Value, lo: real, hi: real)
  {
    v.Float? && lo <= v.r <= hi
  }

  /** `'C' + str(ch) + op + text`. */
  function Command(ch: Value, op: char, text: string, show: real -> string): string
    requires ChannelOk(ch)
  {
    "C" + PyStr(ch, show) + [op] + text
  }

  /**
   * `mw_set_freq`: 100 to 13000 (MHz) as a float; writes `C`, the channel,
   * `f` and the frequency. A command is written exactly when both checks
   * pass, and the reply says so.
   */
  function MwSetFreq(mesg: Value, show: real -> string): (r: Outcome)
    ensures r.Raised? <==> Field(mesg, "freq").None? || Field(mesg, "ch").None?
    ensures r.Reply? ==>
      (r.reply == Success(true) <==> ChannelOk(mesg.d["ch"]) && FloatIn(mesg.d["freq"], 100.0, 13000.0)) &&
      (r.reply == Success(true) ==> r.sent == [Command(mesg.d["ch"], 'f', show(mesg.d["freq"].r), show)]) &&
      (r.reply != Success(true) ==> r.reply == Success(false) && r.sent == [])
  {
    var freq, ch := Field(mesg, "freq"), Field(mesg, "ch");
    if freq.None? || ch.None? then Raised(FieldError(mesg))
    else if !ChannelOk(ch.value) then Reply(Success(false), [])
    else if !FloatIn(freq.value, 100.0, 13000.0) then Reply(Success(false), [])
    else Reply(Success(true), [Command(ch.value, 'f', show(freq.value.r), show)])
  }

  /** The shape of `set_amp` and `set_phase`: an integer setting in [lo, hi]. */
  function IntCommand(op: char, field: string, lo: int, hi: int, mesg: Value, show: real -> string): (r: Outcome)
    ensures r.Raised? <==> Field(mesg, field).None? || Field(mesg, "ch").None?
    ensures r.Reply? ==>
      (r.reply == Success(true) <==> ChannelOk(mesg.d["ch"]) && IntIn(mesg.d[field], lo, hi)) &&
      (r.reply == Success(true) ==> r.sent == [Command(mesg.d["ch"], op, IntToString(mesg.d[field].i), show)]) &&
      (r.reply != Success(true) ==> r.reply == Success(false) && r.sent == [])
  {
    var v, ch := Field(mesg, field), Field(mesg, "ch");
    if v.None? || ch.None? then Raised(FieldError(mesg))
    else if !ChannelOk(ch.value) then Reply(Success(false), [])
    else if !IntIn(v.value, lo, hi) then Reply(Success(false), [])
    else Reply(Success(true), [Command(ch.value, op, IntToString(v.value.i), show)])
  }

  /** `set_amp`: 0 to 45000, command letter `a`. */
  function SetAmp(mesg: Value, show: real -> string): Outcome
  {
    IntCommand('a', "amp", 0, 45000, mesg, show)
  }

  /** `set_phase`: 0 to 359, command letter `~`. */
  function SetPhase(mesg: Value, show: real -> string): Outcome
  {
    IntCommand('~', "phase", 0, 359, mesg, show)
  }

  /**
   * The method a request name selects. `help` takes no message, so calling
   * it with one is a TypeError.
   */
  function Handle(name: string, mesg: Value, show: real -> string): Outcome
  {
    if name == "mw_set_freq" then MwSetFreq(mesg, show)
    else if name == "set_amp" then SetAmp(mesg, show)
    else if name == "set_phase" then SetPhase(mesg, show)
    else Raised("TypeError")
  }

  /** One request to the SynthHD server. */
  function Serve(request: Value, show: real -> string): Outcome
  {
    Dispatch((set n | n in Members && Public(n)), request, (n, m) => Handle(n, m, show))
  }

  /** The dispatch table: every member but `__init__` and `_run`. */
  lemma PublicMembers()
    ensures (set n | n in Members && Public(n)) == {"help", "mw_set_freq", "set_amp", "set_phase"}
  {
    assert "__init__"[0] == '_' && "_run"[0] == '_';
  }

  /** Each of the three settings the client sends reaches its handler. */
  lemma ClientSettingsDispatch(mesg: Value, show: real -> string)
    ensures Serve(ClientRequest("mw_set_freq", mesg), show) == MwSetFreq(mesg, show)
    ensures Serve(ClientRequest("set_amp", mesg), show) == SetAmp(mesg, show)
    ensures Serve(ClientRequest("set_phase", mesg), show) == SetPhase(mesg, show)
  {
    PublicMembers();
  }

  /**
   * `help` is dispatchable but raises; the name `set_freq` that the ramp
   * server's hooks use is not a method here and gets the error reply.
   */
  lemma ClientMismatches(mesg: Value, show: real -> string)
    ensures Serve(ClientRequest("help", mesg), show) == Raised("TypeError")
    ensures Serve(ClientRequest("set_freq", mesg), show) == Reply(NotValid, [])
  {
    PublicMembers();
  }

  /**
   * A channel given as `True` passes the check and is written as the text
   * `True`: the command reads `CTruef...` rather than `C1f...`.
   */
  lemma TrueChannelWrittenAsText(freq: real, show: real -> string)
    requires 100.0 <= freq <= 13000.0
    ensures MwSetFreq(Dict(map["freq" := Float(freq), "ch" := Bool(true)]), show) ==
      Reply(Success(true), ["CTruef" + show(freq)])
  {
    assert Command(Bool(true), 'f', show(freq), show) == "CTruef" + show(freq);
  }
}

=== FILE: text.dfy ===
/**
 * Python string behaviour the rest of the model relies on: the ordering
 * `sorted` uses on strings, `str.split` / `str.join` on a separator, and
 * decimal formatting and parsing of integers (`str(n)`, `'{:02d}'`, `int(s)`).
 */
module Text {

  datatype Option<T> = None | Some(value: T)

  // ---------------------------------------------------------------------
  // Ordering: Python compares strings code point by code point, and a
  // proper prefix sorts first.
  // ---------------------------------------------------------------------

  predicate Less(a: string, b: string)
    decreases |a|
  {
    |b| > 0 && (|a| == 0 || a[0] < b[0] || (a[0] == b[0] && Less(a[1..], b[1..])))
  }

  predicate LessEq(a: string, b: string)
  {
    a == b || Less(a, b)
  }

  lemma LessIrreflexive(a: string)
    ensures !Less(a, a)
    decreases |a|
  {
    if |a| > 0 {
      LessIrreflexive(a[1..]);
    }
  }

  lemma LessTransitive(a: string, b: string, c: string)
    requires Less(a, b) && Less(b, c)
    ensures Less(a, c)
    decreases |a|
  {
    if |a| > 0 && a[0] == b[0] && b[0] == c[0] {
      LessTransitive(a[1..], b[1..], c[1..]);
    }
  }

  lemma LessTotal(a: string, b: string)
    ensures a == b || Less(a, b) || Less(b, a)
    decreases |a|
  {
    if |a| > 0 && |b| > 0 && a[0] == b[0] {
      LessTotal(a[1..], b[1..]);
      if a[1..] == b[1..] {
        assert a == [a[0]] + a[1..];
        assert b == [b[0]] + b[1..];
      }
    }
  }

  lemma LessAsymmetric(a: string, b: string)
    requires Less(a, b)
    ensures !Less(b, a)
  {
    if Less(b, a) {
      LessTransitive(a, b, a);
      LessIrreflexive(a);
    }
  }

  /** `s` is in strictly increasing order (hence without duplicates). */
  predicate StrictlySorted(s: seq<string>)
  {
    forall i, j :: 0 <= i < j < |s| ==> Less(s[i], s[j])
  }

  lemma MinimumExists(s: set<string>)
    requires s != {}
    ensures exists m :: m in s && forall x :: x in s ==> LessEq(m, x)
  {
    var x :| x in s;
    if s == {x} {
      assert forall y :: y in s ==> y == x;
      assert LessEq(x, x);
    } else {
      MinimumExists(s - {x});
      var m :| m in s - {x} && forall y :: y in s - {x} ==> LessEq(m, y);
      LessTotal(m, x);
      if Less(x, m) {
        BelowMinimum(s - {x}, m, x);
        assert s == (s - {x}) + {x};
      } else {
        assert LessEq(m, x);
        assert forall y :: y in s ==> y in s - {x} || y == x;
      }
    }
  }

  /** A string below the least element of `s` is below every element of it. */
  lemma BelowMinimum(s: set<string>, m: string, x: string)
    requires forall y :: y in s ==> LessEq(m, y)
    requires Less(x, m)
    ensures forall y :: y in s + {x} ==> LessEq(x, y)
  {
    forall y | y in s
      ensures Less(x, y)
    {
      if m != y {
        LessTransitive(x, m, y);
      }
    }
  }

  /** The keys of a dictionary in the order `sorted(d)` lists them. */
  ghost function SortedKeys(s: set<string>): (r: seq<string>)
    ensures StrictlySorted(r)
    ensures |r| == |s|
    ensures forall k :: k in r <==> k in s
    decreases s
  {
    if s == {} then []
    else
      MinimumExists(s);
      var m :| m in s && forall x :: x in s ==> LessEq(m, x);
      var rest := SortedKeys(s - {m});
      assert forall k :: k in rest ==> Less(m, k);
      [m] + rest
  }

  // ---------------------------------------------------------------------
  // Splitting and joining on a separator.
  // ---------------------------------------------------------------------

  /**
   * `s.split(sep)`: scans left to right and cuts at every non-overlapping
   * occurrence of `sep`; there is always one more piece than cuts.
   */
  function Split(s: string, sep: string): (r: seq<string>)
    requires |sep| > 0
    ensures |r| > 0
    decreases |s|
  {
    if |s| < |sep| then [s]
    else if s[..|sep|] == sep then [[]] + Split(s[|sep|..], sep)
    else
      var rest := Split(s[1..], sep);
      [[s[0]] + rest[0]] + rest[1..]
  }

  /** `sep.join(parts)`. */
  function Join(parts: seq<string>, sep: string): string
  {
    if |parts| == 0 then []
    else if |parts| == 1 then parts[0]
    else parts[0] + sep + Join(parts[1..], sep)
  }

  function Last(sep: string): char
    requires |sep| > 0
  {
    sep[|sep| - 1]
  }

  /**
   * A separator whose final character occurs nowhere earlier in it (true of
   * `"-->"`, `"\n"` and `"line"`): an occurrence can then only end where
   * that character stands.
   */
  predicate Unambiguous(sep: string)
  {
    |sep| > 0 && Last(sep) !in sep[..|sep| - 1]
  }

  lemma SplitNoCut(p: string, sep: string)
    requires Unambiguous(sep) && Last(sep) !in p
    ensures Split(p, sep) == [p]
    decreases |p|
  {
    if |p| >= |sep| {
      assert p[..|sep|][|sep| - 1] == p[|sep| - 1];
      SplitNoCut(p[1..], sep);
      assert [p[0]] + p[1..] == p;
    }
  }

  /** No occurrence of `sep` can start at the front of `a + sep + b`. */
  lemma NoCutAtFront(a: string, sep: string, b: string)
    requires Unambiguous(sep) && 0 < |a| && |a| + |sep| + |b| >= |sep|
    requires |a| < |sep| || Last(sep) !in a
    ensures (a + sep + b)[..|sep|] != sep
  {
    var s := a + sep + b;
    var i := |sep| - 1;
    if i < |a| {
      assert s[i] == a[i];
      assert s[i] in a;
    } else {
      assert s[i] == sep[i - |a|];
      assert sep[..|sep| - 1][i - |a|] == s[i];
    }
    assert s[..|sep|][i] == s[i];
  }

  lemma SplitFirstCut(p: string, sep: string, rest: string)
    requires Unambiguous(sep) && Last(sep) !in p
    ensures Split(p + sep + rest, sep) == [p] + Split(rest, sep)
    decreases |p|
  {
    var s := p + sep + rest;
    if |p| == 0 {
      assert s[..|sep|] == sep;
      assert s[|sep|..] == rest;
    } else {
      NoCutAtFront(p, sep, rest);
      assert s[1..] == p[1..] + sep + rest;
      SplitFirstCut(p[1..], sep, rest);
      assert [p[0]] + p[1..] == p;
    }
  }

  /**
   * Splitting undoes joining, provided no piece contains the separator's
   * final character.
   */
  lemma {:induction false} SplitJoin(parts: seq<string>, sep: string)
    requires Unambiguous(sep) && |parts| > 0
    requires forall i :: 0 <= i < |parts| ==> Last(sep) !in parts[i]
    ensures Split(Join(parts, sep), sep) == parts
  {
    if |parts| == 1 {
      SplitNoCut(parts[0], sep);
    } else {
      SplitJoin(parts[1..], sep);
      SplitFirstCut(parts[0], sep, Join(parts[1..], sep));
      assert [parts[0]] + parts[1..] == parts;
    }
  }

  /**
   * The last piece of a split is whatever follows the final occurrence of
   * the separator, whatever precedes that occurrence.
   */
  lemma {:induction false} SplitLastPiece(a: string, sep: string, b: string)
    requires Unambiguous(sep) && Last(sep) !in b
    ensures |Split(a + sep + b, sep)| >= 2
    ensures Split(a + sep + b, sep)[|Split(a + sep + b, sep)| - 1] == b
    decreases |a|
  {
    var s := a + sep + b;
    if |a| == 0 {
      assert s[..|sep|] == sep;
      assert s[|sep|..] == b;
      SplitNoCut(b, sep);
    } else if |a| >= |sep| && s[..|sep|] == sep {
      assert s[|sep|..] == a[|sep|..] + sep + b;
      SplitLastPiece(a[|sep|..], sep, b);
    } else {
      if |a| < |sep| {
        NoCutAtFront(a, sep, b);
      }
      assert s[1..] == a[1..] + sep + b;
      SplitLastPiece(a[1..], sep, b);
    }
  }

  // ---------------------------------------------------------------------
  // Decimal numbers.
  // ---------------------------------------------------------------------

  predicate IsDigit(c: char)
  {
    '0' <= c <= '9'
  }

  function DigitChar(d: nat): (c: char)
    requires d < 10
    ensures IsDigit(c)
  {
    ('0' as int + d) as char
  }

  function DigitValue(c: char): nat
    requires IsDigit(c)
  {
    c as int - '0' as int
  }

  /** `str(n)` for a non-negative integer: no leading zeros. */
  function NatToString(n: nat): (s: string)
    ensures |s| > 0 && forall i :: 0 <= i < |s| ==> IsDigit(s[i])
    decreases n
  {
    if n < 10 then [DigitChar(n)] else NatToString(n / 10) + [DigitChar(n % 10)]
  }

  /** `str(i)` for any Python int. */
  function IntToString(i: int): string
  {
    if i < 0 then "-" + NatToString(-i) else NatToString(i)
  }

  predicate AllDigits(s: string)
  {
    forall i :: 0 <= i < |s| ==> IsDigit(s[i])
  }

  /** The value of a string of decimal digits, leading zeros allowed. */
  function DigitsValue(s: string): nat
    requires AllDigits(s)
    decreases |s|
  {
    if |s| == 0 then 0 else DigitsValue(s[..|s| - 1]) * 10 + DigitValue(s[|s| - 1])
  }

  /**
   * `int(s)` on a string of digits with an optional leading '-' only:
   * anything else is None. Python's `int` also accepts surrounding
   * whitespace and a leading '+', which the names parsed here never hold.
   */
  function ParseInt(s: string): (r: Option<int>)
    ensures r.Some? && 0 < |s| && s[0] != '-' ==> r.value >= 0
  {
    if 0 < |s| && s[0] == '-' then
      if 1 < |s| && AllDigits(s[1..]) then Some(0 - DigitsValue(s[1..])) else None
    else if 0 < |s| && AllDigits(s) then Some(DigitsValue(s))
    else None
  }

  lemma {:induction false} DigitsOfNatToString(n: nat)
    ensures DigitsValue(NatToString(n)) == n
    decreases n
  {
    var s := NatToString(n);
    if n >= 10 {
      DigitsOfNatToString(n / 10);
      assert s[..|s| - 1] == NatToString(n / 10);
    }
  }

  /** Parsing reads back what formatting wrote. */
  lemma ParseIntToString(i: int)
    ensures ParseInt(IntToString(i)) == Some(i)
  {
    if i < 0 {
      assert IntToString(i)[1..] == NatToString(-i);
      DigitsOfNatToString(-i);
    } else {
      DigitsOfNatToString(i);
    }
  }

  /** `'{:02d}'.format(n)`: at least two digits, zero-padded. */
  function Pad2(n: nat): (s: string)
    ensures AllDigits(s) && |s| >= 2
    ensures n < 100 ==> |s| == 2
  {
    if n < 10 then ['0', DigitChar(n)]
    else if n < 100 then [DigitChar(n / 10), DigitChar(n % 10)]
    else NatToString(n)
  }

  lemma Pad2Value(n: nat)
    ensures DigitsValue(Pad2(n)) == n
  {
    var s := Pad2(n);
    if n < 100 {
      assert s[..1] == [s[0]];
      assert [s[0]][..0] == [];
      assert DigitsValue([s[0]]) == DigitValue(s[0]);
      assert DigitValue(s[0]) == n / 10 && DigitValue(s[1]) == n % 10;
    } else {
      DigitsOfNatToString(n);
    }
  }

  /** `c.capitalize()` for a one-character string. */
  function Upper(c: char): char
  {
    if 'a' <= c <= 'z' then (c as int - 32) as char else c
  }
}
